=== FILE: README.md ===
# Ghoul2 and ASE codecs, modelled in Dafny

This project models the file-format core of a Blender add-on for Jedi
Academy assets:

- **Ghoul2 mesh files (`.glm`).** The fixed header with its ident and
  version check, the surface hierarchy, and the levels of detail. Each
  level lists every surface, and surfaces missing from a level are written
  as empty records. Each surface holds triangles, vertex records and a
  bone-reference table of at most 32 entries. The 32-bit vertex word packs
  the weight count, five-bit bone-reference indices and the high bits of
  ten-bit weights. Every offset and size the writer computes is checked
  against the bytes it writes.
- **Ghoul2 skeleton and animation files (`.gla`).** The header, the bone
  offset table and bone records, and frames stored as 3-byte indices into
  a pool of 14-byte compressed bone transforms. The frame block is padded
  to four bytes. A partial frame range is clamped on load. Bones are
  ordered parent before child by repeated passes. On export the skeleton
  is built from the armature's bones, and identical compressed transforms
  share one pool entry.
- **The `animation.cfg` sequence list.** One line per sequence: name,
  start frame, frame count, loop column and frame rate. The model covers
  the line parser and printer, comment and blank-line filtering, the
  stable sort by start frame, and building sequences from timeline
  markers or NLA strips.
- **The ASE text format.** The importer's tokenizer and recursive block
  parser, with the cursor modelled as an index into the text. Also the
  importer's header, material-list and object checks. On the export side:
  splitting vertices per UV, numbering vertices and materials densely in
  first-seen order, and the block tree the exporter writes.
- **Small helpers.** The fixed 64-byte name decoder `toQ3String` and the
  gap check `ensureListIsGapless`.

File handles become byte sequences or strings, and `seek`/`tell`
assertions become equalities between computed offsets and written
lengths. On the reading side, failures that the code reports as
`(False, message)` or raises as exceptions become `Result` errors. So do
the GLA writer's position assertions and the vertex encoder's weight-count
assertion. The other write-side failures are preconditions of the `Save`
functions instead: the `struct.pack` range errors (`Storable`) and the GLM
surface writer's position assertions (`OffsetsCalculated`). The exporters
establish these before writing. Python's native `struct` byte order is
taken to be little-endian. The GLM and GLA magic numbers and version
numbers are parameters of the loaders, because the constants module they
come from is not part of this model.

Modules follow the source structure:

- `Bytes`, `Bits`, `Layout`, `Reading`, `Outcome`: the shared pieces.
- `Glm*`: `JAG2GLM.py`.
- `Gla*`: `JAG2GLA.py`.
- `CfgText`, `AnimCfg`, `AnimExport`, `StableSort`: `JAG2AnimationCFG.py`.
- `AseLexer`, `AseBlocks`, `AseImport`: `JAAseImport.py`.
- `AseExport`: `JAAseExport.py`.
- `AseRoundTrip`, `AseTextRoundTrip`: relate the ASE importer to the ASE exporter, on the block tree and through text.
- `IoHelpers`: `mrw_g2_iohelpers.py`.
- `ErrorTypes`: `error_types.py`.

Where the code and its documentation disagree, the model follows the code:

- The hierarchy order places any bone whose parent is already placed,
  within the same pass, so a root can come after a non-root. The order is
  parent-before-child, not roots-first. `GlaOrder.NotRootsFirst` gives an
  example.
- The ASE tokenizer's whitespace is only space, tab and newline, so a form
  feed `'\f'` or a vertical tab `'\v'` is part of a token.
- A quoted empty string in an ASE file reads like the end of the text
  (`AseBlocks.EmptyStringEndsLevel`).
- Two timeline markers both just past the end of the range pass the guard
  and give a zero-length sequence (`AnimExport.TwoMarkersAtEnd`).
- A scene with no meshes exports even outside object mode, because the
  mode test only runs per mesh (`AseExport.NoMeshesAnyMode`).

## Model

| member | source | states |
|---|---|---|
| ErrorTypes.NoneIndices | error_types.py:14 | the positions that hold `None`, each once and in ascending order; empty exactly when every slot is filled |
| ErrorTypes.EnsureListIsGapless | error_types.py:13-17 | fails exactly when some element is `None`, naming every `None` position in ascending order; otherwise returns the values in place, same length and order |
| IoHelpers.FindNul | mrw_g2_iohelpers.py:31 | `bytes.find(b"\0")`: -1 exactly when there is no NUL, otherwise the lowest NUL position |
| IoHelpers.RestoreModels | mrw_g2_iohelpers.py:27-28 | a field starting `"\0odels/"` gets its first byte replaced by `m`; any other field is unchanged |
| IoHelpers.CutAtNul | mrw_g2_iohelpers.py:31-34 | the result is a NUL-free prefix that ends at the first NUL or at the end of the field |
| IoHelpers.Decode | mrw_g2_iohelpers.py:32-34 | `bytes.decode()` succeeds exactly on well-formed UTF-8 and then gives the text back as those bytes; otherwise it is the decoding error |
| IoHelpers.AsciiUtf8 | mrw_g2_iohelpers.py:32-34 | every ASCII byte string decodes |
| IoHelpers.ToQ3String | mrw_g2_iohelpers.py:22-34 | a field of any length but 64 bytes is refused by the unpack; a decoded name is well-formed UTF-8 of at most 64 bytes with no NUL; an ASCII field always decodes |
| IoHelpers.NonUtf8Refused | mrw_g2_iohelpers.py:32-34 | a field starting with byte 0xFF is refused with the decoding error, as written and as corrected |
| IoHelpers.MaterialRepairIsDead | mrw_g2_iohelpers.py:29-30 | the `"\0omaterial]"` repair never fires: the result is the decoding of the cut of the `models/`-repaired field alone |
| IoHelpers.MaterialRepairCounterexample | mrw_g2_iohelpers.py:29-34 | a field starting `"\0nomaterial]"` decodes to the empty name as written, and to `"[nomaterial]"` with the intended comparison |
| IoHelpers.ToQ3StringIntended | mrw_g2_iohelpers.py:29-30 | the 12-byte slice compared with the 12-byte marker `"\0nomaterial]"` (the marker of JAMaterialmanager.py:64 and the name it stands for at :72); same length, decoding and NUL-freedom guarantees as the original |
| IoHelpers.IntendedRepairsApply | mrw_g2_iohelpers.py:27-34 | with the intended comparison, a `"\0nomaterial]"` field is decoded from a cut starting `"[nomaterial]"`, a `"\0odels/"` field from one starting `"models/"`, and any other field is only cut at its first NUL before decoding |
| Bytes.U32RoundTrip | JAG2GLM.py:374-376 | `struct.unpack("I")` of `struct.pack("I", x)` is `x` for every 32-bit unsigned `x` |
| Bytes.I32RoundTrip | JAG2GLM.py:159 | `struct.unpack("i")` of `struct.pack("i", x)` is `x` for every 32-bit signed `x` |
| Bytes.U24RoundTrip | JAG2GLA.py:297-305 | three stored bytes read back with a zero high byte give the index modulo 2^24, and the index itself below 2^24 |
| Bytes.FixedString | JAG2GLA.py:74-75 | `struct.pack("64s")`: exactly 64 bytes, the name's bytes then NUL padding, cut at 64 |
| Bytes.ReadBytes | JAG2GLA.py:59 | a read of `n` bytes succeeds exactly when they lie inside the data, and returns that slice |
| Bytes.ReadI32sOfI32s | JAG2GLA.py:85-93 | a run of packed `i` values reads back as the same values |
| Bits.PackBound | JAG2GLM.py:402-419 | fields packed side by side fit in the sum of their widths |
| Bits.ExtractField | JAG2GLM.py:380-398 | shifting right by a field's offset and masking by its width recovers that field |
| GlmHeader.Save | JAG2GLM.py:172-175 | the header is written as exactly 164 bytes and starts with the format's magic |
| GlmHeader.Load | JAG2GLM.py:151-170 | a file whose first four bytes are not the magic is refused as "no GLM", naming those bytes; a success implies the magic and the expected version were read, and both names come back as 64-byte fields |
| GlmHeader.LoadSave | JAG2GLM.py:151-175 | a written header reads back, whatever follows it, with its names padded or cut to 64 bytes and the animation index dropped |
| GlmHeader.RejectsOtherVersion | JAG2GLM.py:158-161 | a header with the right magic but any other version is refused with that version |
| GlmVertex.Encode | JAG2GLM.py:402-421 | writing succeeds exactly when the weight list matches the weight count and every field fits; a mismatch is reported as such; the record is 32 bytes and starts with the normal and then the position |
| GlmVertex.Decode | JAG2GLM.py:370-398 | one to four weights and as many bone indices, each below 32; the weights sum to exactly 1, and all but the last lie in [0, 1]; the first 24 bytes are the normal and then the position |
| GlmVertex.DecodeWeights | JAG2GLM.py:384-395 | the reader's weight loop yields one weight per remaining slot; every weight but the last is in [0, 1], and the last makes the total exactly 1 |
| GlmVertex.WordLayout | JAG2GLM.py:404-419 | the packed word fits 32 bits; its bits 30-31 hold the count minus one and bits 28-29 are zero; the high weight bits sit at `20 + 2i` and the bone index at `5i` |
| GlmVertex.DecodeEncode | JAG2GLM.py:370-421 | a written vertex reads back with its geometry and its weight count; every bone index comes back modulo 32; every weight but the last comes back as its low ten bits over 1023 |
| GlmVertex.LastWeightIgnored | JAG2GLM.py:391-395 | the stored bits of the last weight are never read: two vertices that differ only in their last weight read back identically |
| GlmVertex.UnweightedDecodes | JAG2GLM.py:440-443 | a vertex of a model without a skeleton reads back with one weight of 1.0 on local bone 0 |
| GlmTriangle.Save | JAG2GLM.py:480-483 | twelve bytes holding the corners in reverse order |
| GlmTriangle.Load | JAG2GLM.py:472-478 | the stored corners reversed; if the last corner is then 0, it is rotated to the front |
| GlmTriangle.LoadSave | JAG2GLM.py:472-483 | a triangle whose last corner is not 0 comes back unchanged; otherwise it comes back as the rotation that puts the 0 first; the winding survives either way |
| GlmTriangle.SaveLoad | JAG2GLM.py:472-483 | a triangle that was read comes back unchanged from a second round trip when its last corner is not 0, and keeps its winding either way |
| GlmHierarchy.Save | JAG2GLM.py:264-273 | an entry writes the fixed 144 bytes plus four per counted child, which is its `getSize` when the count is not negative |
| GlmHierarchy.Load | JAG2GLM.py:226-237 | an entry reads back with its table slot as index, both names as 64-byte fields, unsigned flags, and one child per counted child (none for a negative count); it succeeds exactly when every byte it needs lies inside the data |
| GlmHierarchy.LoadSave | JAG2GLM.py:226-269 | a written entry reads back, with its place in the table as index and exactly the children that were counted |
| GlmHierarchy.CalculateOffsets | JAG2GLM.py:203-207 | the first entry lies right after the table of `4 * n` bytes and each further entry right after the previous one; the last ends at the table size plus the collection size |
| GlmHierarchy.LoadOffsets | JAG2GLM.py:194-197 | one offset per surface the header counts, and none for a negative count |
| GlmHierarchy.LoadOffsetsSaved | JAG2GLM.py:194-201 | a written offset table reads back when the header counts its entries |
| GlmHierarchy.LoadCollection | JAG2GLM.py:282-288 | one entry per offset, each numbered by its slot |
| GlmHierarchy.SaveCollection | JAG2GLM.py:340-348 | the entries back to back, as long as the collection's `getSize` |
| GlmHierarchy.EntryPlaced | JAG2GLM.py:203-207 | entry `i` of a written collection lies exactly where its calculated offset points, counted from the end of the header |
| GlmHierarchy.LoadSaveCollection | JAG2GLM.py:282-288 | a hierarchy written after its offset table reads back through the calculated offsets, each entry numbered by its slot |
| GlmSurface.HeaderFacts | JAG2GLM.py:763-778 | every header field of a storable surface fits 32 bits; the header stores minus the start position; triangles start at 40, vertices 12 bytes per triangle later, and bone references 40 bytes per vertex after that |
| GlmSurface.MakeEmptyFresh | JAG2GLM.py:642-646 | a surface missing from a level is made empty: no vertices, triangles or bone references, and every offset points just past the 40-byte header |
| GlmSurface.MakeEmptyIsRecalculation | JAG2GLM.py:642-646 | the zeroed counts never survive: making a surface empty is the same as recalculating its offsets from its lists |
| GlmSurface.Save | JAG2GLM.py:648-676 | writing succeeds exactly when every vertex fits the packed word |
| GlmSurface.Load | JAG2GLM.py:505-547 | the sections are found through the header's offsets; one uv per vertex, as many vertices and triangles as counted (none for a negative count), and exactly the counted bone references |
| GlmSurface.ReadVerticesAt | JAG2GLM.py:516-524 | fails only on a seek before the file's start or when counted vertices and their uvs run past its end; no vertices read fine at any offset |
| GlmSurface.ReadTrianglesAt | JAG2GLM.py:527-531 | fails only on a seek before the file's start or when counted triangles run past its end; no triangles read fine at any offset |
| GlmSurface.ReadBoneReferencesAt | JAG2GLM.py:534-537 | a negative count is a format error; a zero count reads nothing, even past the file's end; otherwise the references must lie inside the file |
| GlmSurface.EmptySectionsAnywhere | JAG2GLM.py:516-537 | a surface with no (or negatively counted) vertices and triangles and zero bone references loads with empty lists, wherever at or after the file's start its section offsets point |
| GlmSurface.EmptySurfacePastEnd | JAG2GLM.py:527-531 | a 40-byte surface whose empty triangle section points past the end of the file still loads |
| GlmSurface.LoadAt | JAG2GLM.py:544-547 | loading a surface leaves the file at the surface's end offset, seeking there if the sections did not |
| GlmSurface.LoadSave | JAG2GLM.py:505-676 | a written surface reads back, wherever it sits in the file: the same header, the decoded vertices with their uvs, the reloaded triangles and the same bone references |
| GlmSurface.SaveLength | JAG2GLM.py:763-778 | a written surface is exactly as long as its end offset says |
| GlmSurface.LoadAtSave | JAG2GLM.py:544-547 | reading back a written surface also leaves the file exactly at its end |
| GlmBoneReferences.Assign | JAG2GLM.py:453-460 | a known bone keeps its local index and a new bone gets the next one; the lookup fails exactly when a new name would be the 33rd, reporting 33 |
| GlmBoneReferences.TableGrows | JAG2GLM.py:453-458 | the name table only grows, keeps its old entries in place, and gains only names that were looked up, each of which it then holds |
| GlmBoneReferences.TableDistinct | JAG2GLM.py:453-458 | no bone gets two local indices |
| GlmBoneReferences.AssignVertexBones | JAG2GLM.py:450-460 | one vertex's lookups succeed exactly when the grown table stays within 32 names, failing with 33 otherwise; on success each bone's local index names that bone in the table |
| GlmBoneReferences.Lookups | JAG2GLM.py:629-631 | succeeds exactly when the skeleton knows every local bone, each slot then holding that bone's skeleton index; otherwise the error names a bone the skeleton lacks |
| GlmBoneReferences.FillBoneReferences | JAG2GLM.py:626-636 | without a skeleton the table is `[0]`; otherwise it fills exactly when every name is in the skeleton, slot `i` referring to the bone named `i`, and an unknown name is reported |
| GlmBoneReferences.LocalIndicesResolve | JAG2GLM.py:450-460 | every local index a vertex was given has a filled table entry holding the skeleton index of the same bone |
| GlmLod.CalculateOffsets | JAG2GLM.py:884-892 | the surfaces and level number are untouched; there is one offset per surface, the first right after the offset table and each next one right after the previous surface; the level's end offset is its `getSize` |
| GlmLod.CalculatedOffsets | JAG2GLM.py:884-899 | after laying a level out, its offsets agree with its surfaces, and laying it out again changes nothing |
| GlmLod.Assemble | JAG2GLM.py:837-866 | a level is built exactly when every surface it has an object for converts; every index gets one surface, in index order; a surface the level has keeps its object's vertices, triangles and bone references, one it lacks is made empty under its index, and a failure names the surface that did not convert |
| GlmLod.SaveSurfaces | JAG2GLM.py:819-820 | the surfaces written back to back fail exactly when some vertex cannot be encoded, and are otherwise as long as their sizes add up to |
| GlmLod.Save | JAG2GLM.py:811-822 | writing a level fails exactly when some vertex cannot be encoded, and is otherwise exactly as long as the level's end offset |
| GlmLod.LoadSurfaceAt | JAG2GLM.py:795-802 | a surface is read where its table entry points, counted from the end of the size field; one whose own index is not its place fails |
| GlmLod.Load | JAG2GLM.py:789-809 | one offset and one surface per surface of the model, each surface numbered by its place, and the level keeps its number |
| GlmLodRoundTrip.LevelEnd | JAG2GLM.py:884-899 | a laid-out level ends where the size field, the offset table and its surfaces end |
| GlmLodRoundTrip.LoadSave | JAG2GLM.py:789-822 | a written level reads back from wherever it was written: its size, its offset table and every surface as written |
| GlmLods.CalculateOffsets | JAG2GLM.py:924-928 | every level lays out its own surfaces and keeps its place; the levels' end offsets add up to the sum of their sizes |
| GlmLods.CalculateOffsetsIdempotent | JAG2GLM.py:924-928 | laying out all levels twice changes nothing |
| GlmLods.Save | JAG2GLM.py:930-932 | writing the levels fails exactly when some surface of some level cannot be encoded, and is otherwise as long as `getSize` says |
| GlmLods.Load | JAG2GLM.py:906-913 | as many levels as the header counts (none for a negative count), numbered from 0, each with the header's number of surfaces |
| GlmLods.LoadSave | JAG2GLM.py:906-932 | the levels of a model read back as written from where they were written, and reading ends right after the last |
| GlmFile.CalculateHeaderOffsets | JAG2GLM.py:1083-1096 | names, bone and level counts untouched; the surface count is the table's length; the hierarchy starts after the header and the table, the levels after the hierarchy, and the end after the levels |
| GlmFile.Prepare | JAG2GLM.py:1046-1060 | building a mesh for writing keeps its names, bone count, hierarchy and number of levels |
| GlmFile.PreparedConsistent | JAG2GLM.py:1046-1060 | a prepared mesh is consistent: header counts and offsets agree with its parts, the table points at the entries and the levels list every surface by index |
| GlmFile.Save | JAG2GLM.py:1063-1080 | writing fails exactly when some vertex cannot be encoded, and otherwise ends where the levels do |
| GlmFile.HeaderPoints | JAG2GLM.py:1083-1096 | the header of a consistent mesh points at where the hierarchy and the levels really begin, and its end offset is the file's length |
| GlmFile.Load | JAG2GLM.py:955-989 | a bad header is reported as such; on success as many table offsets and entries as the header counts, each entry numbered by its slot, and as many levels as counted, numbered in order, each with the header's surface count |
| GlmFile.LoadSave | JAG2GLM.py:955-1080 | a consistent mesh, written, reads back as written, with names padded to 64 bytes and every entry and level numbered by position; reading ends exactly at the header's end offset |
| GlaHeader.Save | JAG2GLA.py:73-75 | the header is written as exactly 100 bytes and starts with the format's magic |
| GlaHeader.Load | JAG2GLA.py:57-71 | a file whose first four bytes are not the magic is refused as "no GLA", naming those bytes; a success implies the magic and the expected version were read, with a 64-byte name and a 4-byte scale |
| GlaHeader.LoadSave | JAG2GLA.py:57-75 | a written header reads back with its name field padded or cut to 64 bytes (the field before `readString`'s decoding, which is not modelled) |
| GlaHeader.RejectsOtherVersion | JAG2GLA.py:64-66 | a header with the right magic but any other version is refused with that version |
| GlaSkeleton.Size | JAG2GLA.py:110-111 | a bone's size is a multiple of four and at least the fixed 172 bytes |
| GlaSkeleton.Save | JAG2GLA.py:122-130 | a written bone is exactly as long as its `getSize` |
| GlaSkeleton.HeadRead | JAG2GLA.py:113-117 | the fixed part of a written bone holds the name as a 64-byte field, then the flags, the parent and the two 48-byte matrices |
| GlaSkeleton.Load | JAG2GLA.py:113-120 | a bone reads back with its table slot as index, a 64-byte name, two 48-byte matrices, unsigned flags and one child per counted child (none for a negative count); it succeeds exactly when every byte it needs lies inside the data |
| GlaSkeleton.LoadSave | JAG2GLA.py:113-130 | a written bone reads back, with its place in the table as index |
| GlaSkeleton.CalculateOffsets | JAG2GLA.py:640-645 | the first bone lies right after the table of `4 * n` bytes and each further bone right after the previous one |
| GlaSkeleton.SkeletonLayout | JAG2GLA.py:640-648 | the recorded skeleton offset is where the table says the first bone is; the frames start right after the last bone, on a four-byte boundary |
| GlaSkeleton.LoadOffsets | JAG2GLA.py:85-88 | one offset per bone the header counts, and none for a negative count |
| GlaSkeleton.LoadOffsetsSaved | JAG2GLA.py:85-93 | a written bone table reads back when the header counts its entries |
| GlaSkeleton.LoadBones | JAG2GLA.py:221-227 | one bone per offset from slot `k` on, each numbered by its slot |
| GlaSkeleton.SaveBones | JAG2GLA.py:229-232 | the bones back to back, as long as their sizes add up to |
| GlaSkeleton.BonePlaced | JAG2GLA.py:640-645 | bone `j` of a written skeleton lies exactly where its calculated offset points, counted from the end of the header |
| GlaSkeleton.LoadSaveBones | JAG2GLA.py:221-232 | a skeleton written after its offset table reads back through the calculated offsets, each bone numbered by its slot |
| GlaAnimation.SaveFrame | JAG2GLA.py:302-305 | three bytes per bone index |
| GlaAnimation.Indices | JAG2GLA.py:293-299 | every 3-byte record reads with a zero high byte, as a value below 2^24 |
| GlaAnimation.FrameRoundTrip | JAG2GLA.py:293-305 | a written frame reads back as its indices modulo 2^24, so an index below 2^24 comes back unchanged |
| GlaAnimation.MaxFrom | JAG2GLA.py:294-300 | the running maximum bounds the start value and every index, and is one of them |
| GlaAnimation.HighestIndexBounds | JAG2GLA.py:357-362 | the highest index read bounds every index of every frame; it is -1 only without frames, and otherwise one of the indices or 0 |
| GlaAnimation.Clamp | JAG2GLA.py:339-351 | the requested window fails exactly when all frames are asked for from a start other than 0 |
| GlaAnimation.ClampWindow | JAG2GLA.py:339-351 | with frames in the file and a start that is not negative, the window lies within the file: all frames for -1, the last frame alone for a start past the end, and otherwise the request cut at the end |
| GlaAnimation.ClampNoFrames | JAG2GLA.py:345-348 | for a file without frames the window starts one frame before the first, at frame -1, and holds one frame |
| GlaAnimation.Load | JAG2GLA.py:331-381 | every frame read has one index per bone, each below 2^24; the pool has 14-byte entries, exactly one more than the highest index read |
| GlaAnimation.LoadIndicesInPool | JAG2GLA.py:357-375 | every index of every frame read names an entry of the pool read |
| GlaAnimation.Padding | JAG2GLA.py:388-390 | fewer than four bytes, bringing the position to a multiple of four |
| GlaAnimation.Save | JAG2GLA.py:383-392 | writing succeeds only when it starts at the frame offset; it then ends at the pool offset plus the pool, and the bytes begin with the frames |
| GlaAnimation.FramesSize | JAG2GLA.py:744-746 | the frame block size is a multiple of four and at most three bytes over three bytes per bone and frame |
| GlaAnimation.PaddingMatchesFramesSize | JAG2GLA.py:383-392 | frames written from a four-byte boundary are padded, by absolute position, to exactly the recorded frame-block size |
| GlaAnimation.FramesLoad | JAG2GLA.py:293-305 | a written frame block reads back as the frames |
| GlaAnimation.LoadSave | JAG2GLA.py:331-392 | a saved animation read back with every frame gives the same frames and the same pool |
| GlaOrder.Pass | JAG2GLA.py:401-412 | a pass keeps what was placed as a prefix; every pending bone is either placed or still waiting |
| GlaOrder.PassKeeps | JAG2GLA.py:401-412 | the bones placed and the bones still waiting are together exactly the bones placed before and the pending ones |
| GlaOrder.PassStuck | JAG2GLA.py:401-413 | a pass that places nothing leaves every pending bone waiting on a parent that is not placed |
| GlaOrder.OrderStuck | JAG2GLA.py:400-413 | a failed ordering names at least one waiting bone, none of which has a root marker or a placed bone as parent |
| GlaOrder.HierarchyOrderValid | JAG2GLA.py:400-413 | a successful `hierarchyOrder` holds every bone exactly once, each after its parent |
| GlaOrder.OrderFound | JAG2GLA.py:400-413 | if any parent-before-child order exists, the passes succeed: the assertion fails only for hierarchies with no such order |
| GlaOrder.ParentsFirstOrdered | JAG2GLA.py:400-413 | bones stored with every parent before its child are always ordered |
| GlaOrder.NotRootsFirst | JAG2GLA.py:405-412 | the order is by passes in index order, not roots first: a root stored after a child of another root comes after that child |
| GlaOrder.CycleStuck | JAG2GLA.py:413 | two bones that are each other's parent fail the ordering |
| GlaOrder.EffectiveParents | JAG2GLA.py:268-271 | each bone's parent is the fix table's entry for it when there is one, and its stored parent otherwise |
| GlaOrder.CreationOrderValid | JAG2GLA.py:256-282 | bones are created each once and after their effective parent, and creation reports hierarchy problems only when no such order exists |
| GlaBuild.Add | JAG2GLA.py:132-144 | adding a bone appends exactly one bone and adds exactly its name to the name table |
| GlaBuild.AddWf | JAG2GLA.py:132-144 | adding a bone whose parent is known and whose name is new keeps the skeleton well formed: each bone is its edit bone with its own index, a parent exactly when the edit bone has one, and as children the later bones naming it, in order; the name table maps exactly the bones' names to their indices |
| GlaBuild.Pass | JAG2GLA.py:613-634 | a pass moves bones from the waiting list to the skeleton: the skeleton gains as many bones as leave the list, and the table only gains names of waiting bones |
| GlaBuild.PassKeeps | JAG2GLA.py:613-634 | no bone is lost or duplicated by a pass |
| GlaBuild.PassStuck | JAG2GLA.py:613-636 | a pass adds nothing exactly when no waiting bone has no parent or an added parent |
| GlaBuild.BuildSound | JAG2GLA.py:612-636 | a built skeleton is well formed and holds every edit bone once; a failure leaves a non-empty set of the edit bones, each with a parent that is missing from the armature or is itself left over |
| GlaBuild.BuildInOrder | JAG2GLA.py:612-636 | when every parent comes before its child, the build succeeds in one pass and keeps the list order |
| GlaBuild.WfStorable | JAG2GLA.py:612-645 | a well-formed skeleton with 48-byte poses can be written, and its parents precede their children, so reading it back finds a hierarchy order |
| GlaPool.Lookup | JAG2GLA.py:728-737 | a record already pooled keeps its index; a new one is appended; either way the index names an entry equal to the record |
| GlaPool.CompressFrame | JAG2GLA.py:723-737 | one index per record of the frame, each naming a pool entry equal to its record; the pool grows to the distinct records seen so far, in order of first use |
| GlaPool.Compress | JAG2GLA.py:659-739 | one frame per frame of records, each index names a pool entry equal to the record it replaces, and the pool is the distinct records in order of first use |
| GlaPool.IndexUnique | JAG2GLA.py:728-737 | a record's index is the only pool position holding it |
| GlaPool.EntryUsed | JAG2GLA.py:728-737 | every pool entry is used by some frame |
| GlaPool.CompressedIndexed | JAG2GLA.py:659-739 | compressed frames of one 14-byte record per bone, with a pool 3-byte indices can address, have the shape the animation writer expects |
| GlaFile.IndexByName | JAG2GLA.py:540-541 | every bone's name is in the lookup, and every name in it maps to the index of a bone of that name |
| GlaFile.LastWins | JAG2GLA.py:540-541 | a bone that no later bone shares its name with is found by its name |
| GlaFile.Load | JAG2GLA.py:520-555 | a bad header is reported as such; on success as many offsets and bones as the header counts, each bone numbered by its slot and found by its stored 64-byte name field; no frames are read for `NONE`, and otherwise every index read names a pool entry |
| GlaFile.Save | JAG2GLA.py:753-764 | the written file begins with the header and ends at the recorded end offset when the pool is not empty |
| GlaFile.ConsistentSaves | JAG2GLA.py:753-764 | a file whose header agrees with its parts passes every position assertion of the writer |
| GlaFile.LoadSave | JAG2GLA.py:520-764 | a consistent animated file, written and read back with every frame, gives the same header and parts, name fields padded to 64 bytes (before decoding) and the lookup rebuilt |
| GlaFile.ExportHeader | JAG2GLA.py:741-749 | the frame count is the scene's inclusive frame range, the bone count the number of bones, and the pool ends 14 bytes per entry after its offset |
| GlaFile.AssembledConsistent | JAG2GLA.py:640-749 | the file the exporter assembles is laid out as the reader expects once the frames match the scene's range and the skeleton |
| GlaFile.Export | JAG2GLA.py:557-751 | export fails exactly when the skeleton build fails, with the same error; otherwise the file holds the built bones and the compressed frames, and is consistent when the frame records match the scene |
| GlaFile.ExportReadsBack | JAG2GLA.py:557-764 | an exported file that fits its struct formats, with a frame and a bone and an addressable pool, is written without failing an assertion and reads back whole |
| CfgText.WordsShape | JAG2AnimationCFG.py:50 | `line.split()` yields only non-empty fields free of whitespace |
| CfgText.WordsCons | JAG2AnimationCFG.py:50 | a field followed by whitespace splits off as the first field, the rest splits independently |
| CfgText.SpacesSkipped | JAG2AnimationCFG.py:50 | leading whitespace never produces a field |
| CfgText.CutComment | JAG2AnimationCFG.py:49 | `split("//")[0]` keeps a prefix of the line containing no `//`, and it is either the whole line or is followed by `//` |
| CfgText.NoCommentKept | JAG2AnimationCFG.py:49 | a line without `//` is kept whole |
| CfgText.CommentCut | JAG2AnimationCFG.py:49 | everything from the first `//` on is dropped |
| CfgText.ParseInt | JAG2AnimationCFG.py:53-56 | `int()` succeeds exactly on an optional sign followed by ASCII decimal digits, with single underscores allowed between digits, and gives their value |
| CfgText.DecimalValue | JAG2AnimationCFG.py:37-43 | the decimal text of a natural number is a numeral whose value is that number |
| CfgText.ParseIntToString | JAG2AnimationCFG.py:37-43 | reading back `str(i)` with `int()` gives `i` for every integer, negative ones included |
| AnimCfg.ToString | JAG2AnimationCFG.py:36-43 | a printed sequence line starts with the sequence name |
| AnimCfg.FromCfgLine | JAG2AnimationCFG.py:46-59 | a line is accepted only when its uncommented part has exactly five fields, and what it yields prints back as one line |
| AnimCfg.LoopRead | JAG2AnimationCFG.py:55 | the loop flag is set exactly when the fourth column is not -1 |
| AnimCfg.LineRoundTrip | JAG2AnimationCFG.py:36-59 | reading a printed sequence line, with any trailing whitespace, gives the sequence back |
| AnimCfg.CommentIgnored | JAG2AnimationCFG.py:48-49 | an inline `//` comment does not change what a line reads as |
| AnimCfg.ReadPrintsBack | JAG2AnimationCFG.py:36-59 | a line that reads as a sequence prints as a line that reads as the same sequence |
| AnimCfg.LinesConcat | JAG2AnimationCFG.py:102 | iterating a file by lines loses and adds no character |
| AnimCfg.LoadFromCfg | JAG2AnimationCFG.py:91-111 | a missing file and an unopenable file give their own errors; otherwise the result is sorted by start frame and is a permutation of the parsed lines |
| AnimCfg.LoadStable | JAG2AnimationCFG.py:110 | sequences with equal start frames keep their order in the file |
| AnimCfg.CollectMembers | JAG2AnimationCFG.py:102-109 | a sequence is loaded exactly when some line that is neither blank nor a `//` comment parses as it |
| AnimCfg.CollectPrinted | JAG2AnimationCFG.py:87-89 | the lines of a printed configuration read back as the same sequences in the same order |
| AnimCfg.CfgRoundTrip | JAG2AnimationCFG.py:87-111 | loading the printed text of a start-frame-sorted configuration gives it back unchanged |
| AnimExport.InWindow | JAG2AnimationCFG.py:119-122 | exactly the markers whose frame lies in the range are considered |
| AnimExport.Cuts | JAG2AnimationCFG.py:123-131 | the list of cut points always ends at the frame after the scene's end |
| AnimExport.FromMarkers | JAG2AnimationCFG.py:113-145 | the only failure is the missing-markers error, and success yields one sequence per pair of neighbouring cuts |
| AnimExport.MarkersError | JAG2AnimationCFG.py:125-127 | the export fails exactly when no marker lies in the range other than a single one just past its end |
| AnimExport.MarkersTile | JAG2AnimationCFG.py:62-69 | the sequences cover the range without gap or overlap, ending at the range end plus the offset; none loops and all use the scene rate |
| AnimExport.CutsSorted | JAG2AnimationCFG.py:123 | cut points come in frame order |
| AnimExport.MarkersNamed | JAG2AnimationCFG.py:62-69 | every sequence carries the name and (shifted) frame of a marker in the range |
| AnimExport.TwoMarkersAtEnd | JAG2AnimationCFG.py:125-131 | two markers both just past the end still pass the guard and give one zero-length sequence |
| AnimExport.LengthDifference | JAG2AnimationCFG.py:163 | strips on a track whose name starts with `Stills Layer` get no extra frame, all others get one |
| AnimExport.PickStrips | JAG2AnimationCFG.py:164-165 | exactly the strips starting inside the range are taken, each with its track's length difference |
| AnimExport.PicksMembers | JAG2AnimationCFG.py:161-165 | a strip is taken from all tracks exactly when some track holds it and it starts in the range |
| AnimExport.FromStrips | JAG2AnimationCFG.py:153-159 | no skeleton, no animation data and no tracks each give their own error, and only in that case |
| AnimExport.StripsError | JAG2AnimationCFG.py:168-169 | with tracks present, the export fails exactly when no strip of any track starts in the range |
| AnimExport.StripsSorted | JAG2AnimationCFG.py:166 | the exported sequences come in start-frame order |
| AnimExport.PicksSorted | JAG2AnimationCFG.py:166 | sorting the strips only reorders them, into start-frame order |
| AnimExport.StripsSequences | JAG2AnimationCFG.py:71-79 | the i-th sequence takes the action name, shifted start and length plus length difference of the i-th strip in start order |
| StableSort.InsertSorted | JAG2AnimationCFG.py:110 | inserting into a sorted list keeps it sorted |
| StableSort.SortBySorted | JAG2AnimationCFG.py:110 | `list.sort(key=...)` leaves the list ordered by the key |
| StableSort.SortByPermutes | JAG2AnimationCFG.py:110 | sorting neither adds nor drops an element |
| StableSort.SortByStable | JAG2AnimationCFG.py:110 | elements with equal keys keep their relative order |
| StableSort.SortBySortedInput | JAG2AnimationCFG.py:110 | an already sorted list is left as it is |
| AseLexer.SkipWhitespace | JAAseImport.py:37-44 | skipping stops at the first character that is not a space, tab or newline, or at the end of the text |
| AseLexer.ReadToken | JAAseImport.py:48-79 | a non-empty token always moves the cursor forward, and the cursor never leaves the text |
| AseLexer.LexEnd | JAAseImport.py:74-77 | only whitespace left reads as the empty token at the end of the text |
| AseLexer.LexPunct | JAAseImport.py:68-70 | a `{`, `}` or `*` after whitespace is a token of its own |
| AseLexer.LexPlain | JAAseImport.py:65-79 | an unquoted word is read up to, and not including, the next whitespace, brace, star or quote |
| AseLexer.LexQuoted | JAAseImport.py:55-61 | a quoted string is read without its quotes, whatever whitespace or punctuation it holds, and the closing quote is consumed |
| AseLexer.QuoteEndsWord | JAAseImport.py:62-64 | a quote in the middle of a word ends the token and is left for the next read |
| AseLexer.UnterminatedString | JAAseImport.py:74-77 | a string left open at the end of the text yields what was read |
| AseLexer.TokenShape | JAAseImport.py:48-79 | an unquoted token is a lone punctuation character or a run of ordinary characters followed by a delimiter or the end |
| AseLexer.TokenUnquoted | JAAseImport.py:48-79 | no token ever contains a quote character |
| AseBlocks.GetBlocks | JAAseImport.py:99-140 | a successful parse of a level ends inside the text, after where it started |
| AseBlocks.ParseRender | JAAseImport.py:99-140 | parsing the rendering of well-formed blocks gives the same blocks back, names, parameters and nesting included |
| AseBlocks.ParseStopsAtClose | JAAseImport.py:104-108 | a closing brace on the outermost level ends the parse, and nothing after it is read |
| AseBlocks.ParsedReadable | JAAseImport.py:99-140 | every block the parser returns has a name that is a word and not a lone brace or star |
| AseBlocks.WellFormedReadable | JAAseImport.py:116-122 | every well-formed block is one the parser could return |
| AseBlocks.UnclosedChildren | JAAseImport.py:133-138 | children opened with `{` and never closed are a syntax error |
| AseBlocks.EmptyStringEndsLevel | JAAseImport.py:103-105 | a quoted empty string reads like the end of the text: the level ends there, and later blocks are lost |
| AseImport.LowerUpper | JAAseImport.py:159 | a key written in capitals is recognised, since names are compared lower-cased |
| AseImport.SelectMembers | JAAseImport.py:171-172 | a block is selected exactly when it is present and its lower-cased name is the key |
| AseImport.SelectAppend | JAAseImport.py:290-305 | selecting from two lists one after the other is selecting from each and joining the results |
| AseImport.CheckHeader | JAAseImport.py:156-168 | the import continues exactly when the first block is `3dsmax_asciiexport` with first parameter `200`, and continues with the blocks after it |
| AseImport.MaterialList | JAAseImport.py:171-180 | a material list is found exactly when there is one and only one |
| AseImport.Firsts | JAAseImport.py:184 | the first parameters are available exactly when every material has one |
| AseImport.MaterialNames | JAAseImport.py:190-202 | a material without a name stops the import; otherwise the names read are the first `*MATERIAL_NAME` of each material in order, and reading stops early exactly when one name has no parameter |
| AseImport.IntOfString | JAAseImport.py:314 | `int()` reads back the decimal text of every integer |
| AseImport.IntAt | JAAseImport.py:314 | a field reads as an integer exactly when it exists and is a numeral, and a missing field is told apart from a bad one |
| AseImport.SpanRowsRead | JAAseImport.py:319-320 | coordinate rows are read exactly when every row has enough parameters; otherwise the object is missing a parameter |
| AseImport.TripleRowsRead | JAAseImport.py:336-337 | every index row is the `int()` of its three fields |
| AseImport.Contents | JAAseImport.py:313-338 | an object read keeps its position and takes its material reference from the `*MATERIAL_REF` parameter |
| AseImport.ReadObject | JAAseImport.py:289-296 | an object without exactly one `*MESH` and one `*MATERIAL_REF` stops the import; an object read keeps its position |
| AseImport.Import | JAAseImport.py:153-341 | the checks in source order, each failure ending the import with its own error: no blocks, not an ASE header, wrong version, no or several material lists, materials out of order, a material without a name, then the object errors; a success has the header, one list with ordered materials, their names in order up to the first unnamed one, and every `*GEOMOBJECT` read or skipped |
| AseImport.ImportText | JAAseImport.py:146-151 | a text fails with a syntax error exactly when the block parser rejects it; otherwise it imports as its blocks do |
| AseImport.ObjectsNumbered | JAAseImport.py:285-341 | every `*GEOMOBJECT` is either read or skipped, and the objects read carry increasing positions in range |
| AseExport.Fresh | JAAseExport.py:116-117 | the export starts with no vertices and a numbering in which every key sits at its own number |
| AseExport.ExactDistinct | JAAseExport.py:116-131 | an exact numbering never lists a key twice |
| AseExport.Number | JAAseExport.py:137-142 | a known key keeps its number and changes nothing; a new key is appended and numbered by its position |
| AseExport.NumberAsWritten | JAAseExport.py:120-131 | the lookup as written still returns the key's number, but may append the key again |
| AseExport.Corners | JAAseExport.py:134-135 | the three corners of a triangle get numbers that point back at them, and only those corners are added |
| AseExport.SplitTriangles | JAAseExport.py:134-135 | one index triple per triangle, each naming that triangle's corners, and only corners of the mesh are added |
| AseExport.ReadMesh | JAAseExport.py:100-147 | with the corrected index lookup (see Findings): one triple per triangle naming its corners; the exported vertices are exactly the mesh's corners in the order they are first met, each once |
| AseExport.SplitFirstSeen | JAAseExport.py:120-135 | numbering the triangles' corners from an exact numbering gives the reference first-seen order over the corners |
| AseExport.CornersFirstSeen | JAAseExport.py:120-135 | one triangle's corners are numbered a, b, c, each appended the first time it is met |
| AseExport.SharedCornerDuplicated | JAAseExport.py:126-130 | as written, a corner numbered 0 is exported again when met a second time |
| AseExport.SharedCornerOnce | JAAseExport.py:116-131 | with lookup by membership, two triangles sharing a corner export four vertices |
| AseExport.ReadGeometry | JAAseExport.py:76-98 | with the corrected index lookup: a mesh with triangles fails exactly when it has no material slot or no UV map, gives one surface that depicts it, and keeps earlier material numbers |
| AseExport.ReadObjects | JAAseExport.py:66-74 | with the corrected index lookup: a successful read has one surface per mesh with triangles, in scene order, each depicting its object, with material numbers only extended |
| AseExport.Export | JAAseExport.py:53-74 | with the corrected index lookup: an exported model depicts every mesh with triangles, in scene order, and its materials are exactly those meshes' first slots in the order first met, each once |
| AseExport.ReadObjectsFirstSeen | JAAseExport.py:137-144 | reading the objects numbers their first material slots in the reference first-seen order |
| AseExport.FirstSeenMembers | JAAseExport.py:137-144 | the first-seen list holds exactly the elements met, and none twice |
| AseExport.NoMeshesAnyMode | JAAseExport.py:69-79 | a scene without meshes exports an empty model in any mode |
| AseExport.MeshNeedsObjectMode | JAAseExport.py:77-79 | outside object mode any mesh stops the export |
| AseExport.SurfaceBlocks | JAAseExport.py:22-45 | one `*GEOMOBJECT` per surface, in order; each holds the surface's `*MESH` and then a `*MATERIAL_REF` naming the surface's material index |
| AseExport.MaterialBlocks | JAAseExport.py:154-159 | the k-th material is written as `*MATERIAL` numbered k, with one `*MATERIAL_NAME` child holding that material's name |
| AseRoundTrip.SelectNone | JAAseImport.py:171-172 | a key no block is named by selects nothing |
| AseRoundTrip.SelectOnly | JAAseImport.py:171-180 | among blocks named by distinct keys, a key selects exactly its own block |
| AseRoundTrip.SelectAll | JAAseImport.py:181-182 | blocks all named by one key in capitals are all selected |
| AseRoundTrip.SaveImport | JAAseExport.py:149-165 | on the block tree: importing a saved model gives every material name in order, nothing incomplete, and every surface as an object numbered by its position, none skipped |
| AseRoundTrip.ExportImport | JAAseExport.py:53-165 | with the corrected index lookup, on the block tree: a scene that exports imports back as one object per exported mesh, in order, with the material named by the mesh's first slot and one face per triangle |
| AseRoundTrip.SurfaceImported | JAAseExport.py:22-45 | the k-th imported object is the mesh the k-th surface depicts |
| AseTextRoundTrip.SaveWellFormed | JAAseExport.py:149-165 | when every material name and every printed float is a word, all the exporter writes is a well-formed tree: plain capitalised keys and word parameters |
| AseTextRoundTrip.SaveTextImport | JAAseExport.py:149-165 | with word names and floats, importing the rendered text of a saved model gives every material name in order, nothing incomplete, and every surface as its expected object |
| AseTextRoundTrip.ExportTextImport | JAAseExport.py:53-165 | with word first-slot names and floats, a scene that exports imports back from text as one object per exported mesh, in order, with its material name |
| AseTextRoundTrip.EmptyNameBreaksText | JAAseExport.py:158 | a material named by the empty string, written `""`, makes the canonical rendering fail to parse with an unclosed child list (the writer's own layout, without braces after the name, instead loses the name's parameter) |

## Left out

- Blender scene access (`bpy`): all `saveToBlender` and `loadFromBlender` scene walking, vertex-group and envelope weight evaluation, the bone-connect heuristic and pose composition. These are host-editor glue over floats. The scene facts the exporters need (objects, triangles with UVs, material slots, markers, NLA strips, the frame range and rate) are parameters.
- Matrix math and the transform quantizer `CompBone.compress`: neither is part of this model. Compressed transforms enter the model as given 14-byte records, and bone matrices as their stored bytes.
- Floating point: vertex normals and positions, UVs, bone matrices and the animation scale are carried as their stored bytes or as opaque reals. ASE float formatting (`format(x, ".8f")`) is the `Fixed` parameter of the ASE writer, and `float()` on import is left out: coordinates are kept as text. So a coordinate that is not a number, such as `*MESH_VERTEX 0 abc 1 2`, is imported by the model, while JAAseImport.py:319-320 raises `ValueError` there and the import stops.
- Weight quantisation `round(w * 1023)`: weights enter as ten-bit integers.
- File I/O, `print` warnings and timing: files are byte sequences or strings. A missing or unreadable `animation.cfg` is a value of the file parameter. The warning printed when a GLM file does not end where its header says becomes a returned flag.
- Universal newline translation when a text file is opened: the text is taken after translation.
- `JAFilesystem.FindFile`: its result is the `Missing` case of the `animation.cfg` file parameter.
- `str.lower()` and `str.upper()` beyond ASCII letters, and `int()` on non-ASCII digits: the key names the ASE and cfg readers compare are ASCII, and the numbers the writers print are ASCII digits. Single underscores between digits are modelled, as `int()` accepts them.
- `fixOrder` in the ASE importer: it returns its face unchanged, so the model reads face triples as stored.
- The warning for a `*MATERIAL` with several `*MATERIAL_NAME`s: only printed. The first name is used, as in the code.
- The ASE exporter's exact text layout (tabs, unquoted numbers): the writer is modelled as the block tree it writes. The importer round trip is proved on that tree, and `AseBlocks.ParseRender` proves the parser reads back a canonical rendering of any well-formed tree.
- AseRoundTrip.SaveImport: the round trip on the block tree holds for every model, but through text only for models whose material names are words (`AseTextRoundTrip.SaveTextImport`). The writer puts names between quotes, so an empty name, a name holding a `"`, or a name that is a lone `{`, `}` or `*` does not read back as itself (`AseTextRoundTrip.EmptyNameBreaksText`). The same holds for `AseRoundTrip.ExportImport` and the first-slot names.
- AseExport.ReadMesh: the export pipeline (`ReadMesh`, `ReadGeometry`, `ReadObjects`, `Export` and the round trips built on them) uses the corrected `is None` index lookup. As written, `if not index:` appends a vertex numbered 0 again when it is met a second time (`AseExport.SharedCornerDuplicated`, listed under Findings).
- ASE material identity: the exporter keys materials by Blender's slot object. The model keys them by a slot number and a name.
- `AseExport.ReadGeometry`: an object with triangles but no material slot raises `IndexError` in the code. The model reports it as the `NoMaterialSlot` error.
- The GLA importer's fit against a reference skeleton (`fitsArmature`) and its bone-creation path that depends on scene objects.
- GlmVertex.Decode: decoded weights are exact rationals (`n / 1023` and `1 - total`), so the weights sum to exactly 1. Python computes them in binary floating point, where the sum can be off by rounding. That rounding is not modelled, and neither is it in `GlmVertex.DecodeWeights`.
- GlaHeader.Load: the header name is kept as its stored 64-byte field. `readString` decodes it with `JAStringhelper.decode`, which is not part of this model.
- GlaSkeleton.Load: bone names are kept as their stored 64-byte fields, not decoded as `readString` does. As a result, `GlaFile.Load`'s `boneIndexByName` is keyed by those fields. Two names that differ only after their first NUL are one key in the program but two in the model.
- AnimExport.StripsSequences: NLA strip frames are integers in the model. Blender's `frame_start` and `frame_end` are floats, which the code compares as floats and truncates toward zero with `int()`. Fractional strip frames and that truncation are not modelled, and neither is the float filter and sort key of `AnimExport.FromStrips`.
- AnimExport.FromStrips: strips are taken and sorted on integer start frames; see the line above.
- GlmSurface.Save: write-side `struct.error` range failures and the writer's position assertions are preconditions (`Storable`, `OffsetsCalculated`), not `Result` errors. The exporter calls `calculateOffsets` before every save, and the stored values come from counts and offsets it computes. The same holds for the other GLM `Save` functions and their `Storable` preconditions (`GlmFile.Save`, `GlmLods.Save`, `GlmLod.Save`, `GlmHierarchy.Save`, `GlmHeader.Save`, `GlmTriangle.Save`) and for the GLA `Storable` range preconditions.
- GLM `loadFromBlender` geometry (vertex collection from evaluated meshes, normals): only the bone-reference assignment it performs is modelled.

## Findings

| source | as written | input that shows it | evidently intended | confidence | as-written member | corrected member |
|---|---|---|---|---|---|---|
| mrw_g2_iohelpers.py:29-30 | `bs[:12] == b"\0omaterial]"` compares a 12-byte slice of the 64-byte field with an 11-byte literal, so the test is never true | a field starting `"\0nomaterial]"` (the 12-byte marker of JAMaterialmanager.py:64) followed by NUL padding decodes to the empty name | compare the 12-byte slice with `b"\0nomaterial]"`: the literal lost its `n`, so the leading NUL is replaced by `[` and the name `[nomaterial]` (JAMaterialmanager.py:72) is kept | not executed | IoHelpers.MaterialRepairCounterexample | IoHelpers.IntendedRepairsApply |
| JAAseExport.py:126 | `if not index:` treats the stored export index 0 as missing | two triangles sharing their first corner with the same UV: that corner, numbered 0, is appended a second time, giving five vertices instead of four | `if index is None:`, so a vertex and UV pair already numbered 0 reuses its number | not executed | AseExport.SharedCornerDuplicated | AseExport.SharedCornerOnce |

=== FILE: anim_cfg.dfy ===
/** The animation.cfg list of named frame ranges that accompanies a GLA
    file: one sequence per line, read from the text file, or built from
    the scene's timeline markers or the skeleton's NLA strips on export. */
module AnimCfg {

  import opened Outcome
  import opened CfgText
  import StableSort

  /** One named run of animation frames. `loop` is true unless the file's
      loop column holds -1. */
  datatype Sequence = Sequence(name: string, startFrame: int, numFrames: int, loop: bool, fps: int)

  function StartFrame(s: Sequence): int { s.startFrame }

  // ------------------------------------------------------------ one line

  /** The file's loop column: 0 for a looping sequence, -1 otherwise. */
  function LoopColumn(loop: bool): int { if loop then 0 else -1 }

  /** `str()` of a sequence: name, two tabs, then tab-separated numbers. */
  function ToString(s: Sequence): (r: string)
    ensures |r| > |s.name| && r[..|s.name|] == s.name
  {
    s.name + ("\t\t" + Tabbed(Columns(s), ""))
  }

  /** The four numeric columns, as text. */
  function Columns(s: Sequence): seq<string> {
    [IntToString(s.startFrame), IntToString(s.numFrames), IntToString(LoopColumn(s.loop)), IntToString(s.fps)]
  }

  /** `ws` joined by single tabs, followed by `sp`. */
  function Tabbed(ws: seq<string>, sp: string): string
    requires |ws| > 0
  {
    if |ws| == 1 then ws[0] + sp else ws[0] + ("\t" + Tabbed(ws[1..], sp))
  }

  /** A sequence whose line reads back: its name is one field of the split
      and holds no comment marker. */
  predicate Printable(s: Sequence) {
    IsWord(s.name) && NoComment(s.name)
  }

  /** `from_cfg_line`: the part before any "//" must split into exactly five
      fields, the last four integers; anything else gives `None`, as the
      caught exception does. */
  function FromCfgLine(line: string): (r: Option<Sequence>)
    ensures r.Some? ==> Printable(r.value)
    ensures r.Some? ==> |Words(CutComment(line))| == 5
  {
    var fields := Words(CutComment(line));
    if |fields| != 5 then None
    else
      match (ParseInt(fields[1]), ParseInt(fields[2]), ParseInt(fields[3]), ParseInt(fields[4]))
      case (Some(start), Some(frames), Some(loop), Some(fps)) =>
        WordsShape(CutComment(line));
        WordsUncommented(CutComment(line));
        Some(Sequence(fields[0], start, frames, loop != -1, fps))
      case _ => None
  }

  /** Any loop value other than -1 reads as looping. */
  lemma LoopRead(line: string)
    requires FromCfgLine(line).Some?
    ensures FromCfgLine(line).value.loop <==> ParseInt(Words(CutComment(line))[3]) != Some(-1)
  {
  }

  /** The line of a printable sequence, with trailing whitespace such as its
      newline, reads back as that sequence. */
  lemma LineRoundTrip(s: Sequence, sp: string)
    requires Printable(s) && AllSpace(sp)
    ensures FromCfgLine(ToString(s) + sp) == Some(s)
  {
    var line := ToString(s) + sp;
    var cols := Columns(s);
    var tail := Tabbed(cols, sp);
    LineLayout(s, sp);
    assert CutComment(line) == line by {
      LineUncommented(s.name, cols, sp);
      NoCommentKept(line);
    }
    assert Words(line) == [s.name] + cols by {
      TabbedWords(cols, sp);
      WordsCons(s.name, "\t\t", tail);
    }
    ReadFields(line, s);
  }

  lemma LineLayout(s: Sequence, sp: string)
    ensures ToString(s) + sp == s.name + ("\t\t" + Tabbed(Columns(s), sp))
  {
    TabbedAppend(Columns(s), sp);
  }

  /** A line whose fields are a sequence's name and columns reads as it. */
  lemma ReadFields(line: string, s: Sequence)
    requires Words(CutComment(line)) == [s.name] + Columns(s)
    ensures FromCfgLine(line) == Some(s)
  {
    ParseIntToString(s.startFrame);
    ParseIntToString(s.numFrames);
    ParseIntToString(LoopColumn(s.loop));
    ParseIntToString(s.fps);
  }

  lemma {:induction false} TabbedAppend(ws: seq<string>, sp: string)
    requires |ws| > 0
    ensures Tabbed(ws, "") + sp == Tabbed(ws, sp)
    decreases |ws|
  {
    if |ws| == 1 {
      assert ws[0] + "" == ws[0];
    } else {
      TabbedAppend(ws[1..], sp);
      assert ws[0] + ("\t" + Tabbed(ws[1..], "")) + sp == ws[0] + ("\t" + (Tabbed(ws[1..], "") + sp));
    }
  }

  /** Words joined by tabs split back into those words. */
  lemma {:induction false} TabbedWords(ws: seq<string>, sp: string)
    requires |ws| > 0 && AllWords(ws) && AllSpace(sp)
    ensures Words(Tabbed(ws, sp)) == ws
    decreases |ws|
  {
    if |ws| == 1 {
      WordsLast(ws[0], sp);
    } else {
      assert AllWords(ws[1..]) by {
        forall i | 0 <= i < |ws| - 1
          ensures IsWord(ws[1..][i])
        {
          assert ws[1..][i] == ws[i + 1];
        }
      }
      assert Words(Tabbed(ws[1..], sp)) == ws[1..] by {
        TabbedWords(ws[1..], sp);
      }
      assert IsWord(ws[0]);
      WordsCons(ws[0], "\t", Tabbed(ws[1..], sp));
      assert [ws[0]] + ws[1..] == ws;
    }
  }

  /** Numbers and tabs hold no slash: only the name of a line can hold one. */
  lemma LineUncommented(name: string, ws: seq<string>, sp: string)
    requires NoComment(name) && |ws| > 0 && AllSpace(sp)
    requires forall i | 0 <= i < |ws| :: NoSlash(ws[i])
    ensures NoComment(name + ("\t\t" + Tabbed(ws, sp)))
  {
    SpaceUnslashed(sp);
    TabbedAvoids(ws, sp, '/');
    UncommentedAppend(name, "\t\t" + Tabbed(ws, sp));
  }

  lemma {:induction false} TabbedAvoids(ws: seq<string>, sp: string, c: char)
    requires |ws| > 0 && c != '\t' && Avoids(sp, c)
    requires forall i | 0 <= i < |ws| :: Avoids(ws[i], c)
    ensures Avoids(Tabbed(ws, sp), c)
    decreases |ws|
  {
    if |ws| > 1 {
      assert forall i | 0 <= i < |ws| - 1 :: ws[1..][i] == ws[i + 1];
      TabbedAvoids(ws[1..], sp, c);
    }
  }

  lemma SpaceUnslashed(sp: string)
    requires AllSpace(sp)
    ensures NoSlash(sp)
  {
  }

  /** Whatever follows a "//" on a line is ignored. */
  lemma CommentIgnored(line: string, comment: string)
    requires NoComment(line) && (line == [] || line[|line| - 1] != '/')
    ensures FromCfgLine(line + "//" + comment) == FromCfgLine(line)
  {
    CommentCut(line, comment);
    NoCommentKept(line);
  }

  /** Every sequence read from a line prints as a line that reads back. */
  lemma ReadPrintsBack(line: string)
    requires FromCfgLine(line).Some?
    ensures FromCfgLine(ToString(FromCfgLine(line).value)) == FromCfgLine(line)
  {
    var s := FromCfgLine(line).value;
    LineRoundTrip(s, []);
    assert ToString(s) + [] == ToString(s);
  }

  // ------------------------------------------------------------ the file

  /** What opening the file gives: not found next to the GLA, found but not
      readable, or its text. */
  datatype CfgFile = Missing | Unreadable | Text(text: string)

  datatype CfgError = NotFound | CannotOpen

  /** The length of the first line of `text`, its newline included. */
  function LineEnd(text: string): (n: nat)
    requires text != []
    ensures 0 < n <= |text|
  {
    if text[0] == '\n' || |text| == 1 then 1 else 1 + LineEnd(text[1..])
  }

  /** Iterating over a text file: each line keeps its newline; the last
      line may lack one, and an empty text has no lines. */
  function Lines(text: string): (r: seq<string>)
    decreases |text|
  {
    if text == [] then [] else var n := LineEnd(text); [text[..n]] + Lines(text[n..])
  }

  function Concat(lines: seq<string>): string {
    if lines == [] then [] else lines[0] + Concat(lines[1..])
  }

  /** The first line stops at the first newline, or at the end. */
  lemma {:induction false} LineEndFirst(text: string)
    requires text != []
    ensures var n := LineEnd(text); (forall i | 0 <= i < n - 1 :: text[i] != '\n') && (text[n - 1] == '\n' || n == |text|)
    decreases |text|
  {
    if text[0] != '\n' && |text| > 1 {
      LineEndFirst(text[1..]);
    }
  }

  /** The lines of a text are the text, cut after each newline. */
  lemma {:induction false} LinesConcat(text: string)
    ensures Concat(Lines(text)) == text
    decreases |text|
  {
    if text != [] {
      var n := LineEnd(text);
      LinesConcat(text[n..]);
      assert ([text[..n]] + Lines(text[n..]))[1..] == Lines(text[n..]);
      assert text[..n] + text[n..] == text;
    }
  }

  /** A line followed by a newline and more text is read as one line. */
  lemma {:induction false} LineEndAt(a: string, b: string)
    requires Avoids(a, '\n')
    ensures LineEnd(a + "\n" + b) == |a| + 1
    decreases |a|
  {
    if a != [] {
      assert (a + "\n" + b)[1..] == a[1..] + "\n" + b;
      LineEndAt(a[1..], b);
    }
  }

  lemma {:induction false} LineEndAll(a: string)
    requires a != [] && Avoids(a, '\n')
    ensures LineEnd(a) == |a|
    decreases |a|
  {
    if |a| > 1 {
      assert Avoids(a[1..], '\n');
      LineEndAll(a[1..]);
    }
  }

  lemma LinesCons(a: string, b: string)
    requires Avoids(a, '\n')
    ensures Lines(a + "\n" + b) == [a + "\n"] + Lines(b)
  {
    var t := a + "\n" + b;
    LineEndAt(a, b);
    assert t[..|a| + 1] == a + "\n";
    assert t[|a| + 1..] == b;
  }

  lemma LinesOne(a: string)
    requires a != [] && Avoids(a, '\n')
    ensures Lines(a) == [a]
  {
    LineEndAll(a);
    assert a[..|a|] == a;
    assert Lines(a[|a|..]) == [];
  }

  /** The lines the loader skips: comment lines and blank lines. */
  predicate Skipped(line: string) {
    (|line| >= 2 && line[0] == '/' && line[1] == '/') || AllSpace(line)
  }

  /** What one line contributes: nothing when skipped or unparsable. */
  function Parsed(line: string): (r: seq<Sequence>)
    ensures |r| <= 1
  {
    if Skipped(line) then []
    else match FromCfgLine(line)
      case Some(q) => [q]
      case None => []
  }

  /** The sequences of the lines in file order, before sorting. */
  function Collect(lines: seq<string>): (r: seq<Sequence>)
    ensures |r| <= |lines|
  {
    if lines == [] then [] else Parsed(lines[0]) + Collect(lines[1..])
  }

  /** `load_from_cfg`: the parsed lines, ordered by start frame. */
  function LoadFromCfg(file: CfgFile): (r: Result<seq<Sequence>, CfgError>)
    ensures file.Missing? <==> r == Err(NotFound)
    ensures file.Unreadable? <==> r == Err(CannotOpen)
    ensures r.Ok? ==> StableSort.SortedBy(r.value, StartFrame)
    ensures r.Ok? ==> multiset(r.value) == multiset(Collect(Lines(file.text)))
  {
    match file
    case Missing => Err(NotFound)
    case Unreadable => Err(CannotOpen)
    case Text(text) =>
      var found := Collect(Lines(text));
      StableSort.SortBySorted(found, StartFrame);
      StableSort.SortByPermutes(found, StartFrame);
      Ok(StableSort.SortBy(found, StartFrame))
  }

  /** Sequences with the same start frame stay in file order. */
  lemma LoadStable(text: string, start: int)
    ensures var r := LoadFromCfg(Text(text)).value;
      StableSort.WithKey(r, StartFrame, start) == StableSort.WithKey(Collect(Lines(text)), StartFrame, start)
  {
    StableSort.SortByStable(Collect(Lines(text)), StartFrame, start);
  }

  /** A sequence is collected exactly when some kept line parses as it. */
  lemma {:induction false} CollectMembers(lines: seq<string>, q: Sequence)
    ensures q in Collect(lines) <==> exists i | 0 <= i < |lines| :: !Skipped(lines[i]) && FromCfgLine(lines[i]) == Some(q)
  {
    if lines != [] {
      CollectMembers(lines[1..], q);
      if exists i | 0 <= i < |lines| :: !Skipped(lines[i]) && FromCfgLine(lines[i]) == Some(q) {
        var i :| 0 <= i < |lines| && !Skipped(lines[i]) && FromCfgLine(lines[i]) == Some(q);
        if i > 0 {
          assert lines[1..][i - 1] == lines[i];
        }
      }
      if q in Collect(lines[1..]) {
        var i :| 0 <= i < |lines| - 1 && !Skipped(lines[1..][i]) && FromCfgLine(lines[1..][i]) == Some(q);
        assert lines[i + 1] == lines[1..][i];
      }
    }
  }

  // ------------------------------------------------------- writing back

  /** `str()` of the whole configuration: the lines joined by newlines. */
  function CfgToString(cfg: seq<Sequence>): string {
    if cfg == [] then ""
    else if |cfg| == 1 then ToString(cfg[0])
    else ToString(cfg[0]) + "\n" + CfgToString(cfg[1..])
  }

  /** A printed line has no newline of its own. */
  lemma PrintedOneLine(s: Sequence)
    requires Printable(s)
    ensures Avoids(ToString(s), '\n')
  {
    forall i | 0 <= i < |Columns(s)|
      ensures Avoids(Columns(s)[i], '\n')
    {
      assert NoSpace(Columns(s)[i]);
    }
    TabbedAvoids(Columns(s), "", '\n');
    assert Avoids(s.name, '\n');
  }

  /** A printed line is neither a comment line nor blank. */
  lemma PrintedKept(s: Sequence, sp: string)
    requires Printable(s)
    ensures !Skipped(ToString(s) + sp)
  {
    var line := ToString(s) + sp;
    assert line[0] == s.name[0];
    if |s.name| == 1 {
      LineLayout(s, sp);
      assert line[1] == '\t';
    } else {
      assert line[1] == s.name[1];
    }
  }

  lemma PrintedParsed(s: Sequence, sp: string)
    requires Printable(s) && AllSpace(sp)
    ensures Parsed(ToString(s) + sp) == [s]
  {
    PrintedKept(s, sp);
    LineRoundTrip(s, sp);
  }

  /** Printed lines are collected back in order. */
  lemma {:induction false} CollectPrinted(cfg: seq<Sequence>)
    requires forall i | 0 <= i < |cfg| :: Printable(cfg[i])
    ensures Collect(Lines(CfgToString(cfg))) == cfg
  {
    if |cfg| == 1 {
      PrintedOneLine(cfg[0]);
      LinesOne(ToString(cfg[0]));
      PrintedParsed(cfg[0], []);
      assert ToString(cfg[0]) + [] == ToString(cfg[0]);
    } else if |cfg| > 1 {
      var rest := CfgToString(cfg[1..]);
      assert forall i | 0 <= i < |cfg| - 1 :: cfg[1..][i] == cfg[i + 1];
      CollectPrinted(cfg[1..]);
      CollectFirst(cfg[0], rest);
    }
  }

  lemma CollectFirst(s: Sequence, rest: string)
    requires Printable(s)
    ensures Collect(Lines(ToString(s) + "\n" + rest)) == [s] + Collect(Lines(rest))
  {
    PrintedOneLine(s);
    LinesCons(ToString(s), rest);
    PrintedParsed(s, "\n");
    assert ([ToString(s) + "\n"] + Lines(rest))[1..] == Lines(rest);
  }

  /** Writing a configuration already in start-frame order and reading it
      back gives the same configuration. */
  lemma CfgRoundTrip(cfg: seq<Sequence>)
    requires forall i | 0 <= i < |cfg| :: Printable(cfg[i])
    requires StableSort.SortedBy(cfg, StartFrame)
    ensures LoadFromCfg(Text(CfgToString(cfg))) == Ok(cfg)
  {
    CollectPrinted(cfg);
    StableSort.SortBySortedInput(cfg, StartFrame);
  }
}

=== FILE: anim_export.dfy ===
/** Building the animation.cfg sequences on export, from the scene's
    timeline markers or from the NLA strips of the skeleton object. The
    scene's frame range, frame rate and objects are parameters. */
module AnimExport {

  import opened Outcome
  import opened AnimCfg
  import StableSort

  datatype ExportError = NoMarkers | NoSkeleton | NoAnimationData | NoTracks | NoStrips

  // ------------------------------------------------------------ markers

  datatype Marker = Marker(name: string, frame: int)

  function MarkerFrame(m: Marker): int { m.frame }

  /** The name of the marker added at the end of the range when the last
      marker is not there already. */
  const LAST_EXPORT_FRAME := "LAST_EXPORT_FRAME"

  /** The markers with a frame in `lo..hi`, in scene order. */
  function InWindow(markers: seq<Marker>, lo: int, hi: int): (r: seq<Marker>)
    ensures forall m :: m in r <==> m in markers && lo <= m.frame <= hi
  {
    if markers == [] then []
    else (if lo <= markers[0].frame <= hi then [markers[0]] else []) + InWindow(markers[1..], lo, hi)
  }

  /** The sequence from marker `a` up to marker `b`. */
  function Span(a: Marker, b: Marker, fps: int, shift: int): Sequence {
    Sequence(a.name, a.frame + shift, b.frame - a.frame, false, fps)
  }

  /** One sequence from each marker to the next. */
  function Spans(cuts: seq<Marker>, fps: int, shift: int): (r: seq<Sequence>)
    requires |cuts| > 0
    ensures |r| == |cuts| - 1
  {
    if |cuts| == 1 then [] else [Span(cuts[0], cuts[1], fps, shift)] + Spans(cuts[1..], fps, shift)
  }

  lemma {:induction false} SpanAt(cuts: seq<Marker>, fps: int, shift: int, i: nat)
    requires i < |cuts| - 1
    ensures Spans(cuts, fps, shift)[i] == Span(cuts[i], cuts[i + 1], fps, shift)
  {
    if i > 0 {
      SpanAt(cuts[1..], fps, shift, i - 1);
    }
  }

  /** The markers the sequences are cut at: those in the range
      `frameStart..frameEnd + 1` in frame order, ending with one at
      `frameEnd + 1`. */
  function Cuts(markers: seq<Marker>, frameStart: int, frameEnd: int): (r: seq<Marker>)
    ensures |r| > 0 && r[|r| - 1].frame == frameEnd + 1
  {
    var ms := StableSort.SortBy(InWindow(markers, frameStart, frameEnd + 1), MarkerFrame);
    if ms != [] && ms[|ms| - 1].frame == frameEnd + 1 then ms
    else ms + [Marker(LAST_EXPORT_FRAME, frameEnd + 1)]
  }

  /** `from_blender_markers`: a sequence from each marker in the range to
      the next, with the range's end as the last boundary; an error when
      the range has no marker, or only one, at the end. */
  function FromMarkers(markers: seq<Marker>, frameStart: int, frameEnd: int, fps: int, offset: int)
    : (r: Result<seq<Sequence>, ExportError>)
    ensures r.Err? ==> r.error == NoMarkers
    ensures r.Ok? ==> |r.value| == |Cuts(markers, frameStart, frameEnd)| - 1
  {
    var ms := StableSort.SortBy(InWindow(markers, frameStart, frameEnd + 1), MarkerFrame);
    if |ms| == 0 || (|ms| == 1 && ms[0].frame == frameEnd + 1) then Err(NoMarkers)
    else Ok(Spans(Cuts(markers, frameStart, frameEnd), fps, offset - frameStart))
  }

  /** The export fails exactly when no marker lies in the range other than
      a single one just past its end. */
  lemma MarkersError(markers: seq<Marker>, frameStart: int, frameEnd: int, fps: int, offset: int)
    ensures var w := InWindow(markers, frameStart, frameEnd + 1);
      FromMarkers(markers, frameStart, frameEnd, fps, offset).Err? <==>
        |w| == 0 || (|w| == 1 && w[0].frame == frameEnd + 1)
  {
    var w := InWindow(markers, frameStart, frameEnd + 1);
    StableSort.SortByPermutes(w, MarkerFrame);
    var ms := StableSort.SortBy(w, MarkerFrame);
    if |w| == 1 {
      assert multiset(ms) == multiset{w[0]} by {
        assert w == [w[0]];
      }
      assert ms[0] in multiset(ms);
    }
  }

  /** `r` covers the frames up to `end` without gap or overlap: each
      sequence starts where the one before ends, none runs backwards, and
      the last ends at `end`; none loops and all play at `fps`. */
  predicate Tiled(r: seq<Sequence>, end: int, fps: int) {
    && |r| > 0
    && (forall i | 0 <= i < |r| - 1 :: r[i].startFrame + r[i].numFrames == r[i + 1].startFrame)
    && r[|r| - 1].startFrame + r[|r| - 1].numFrames == end
    && (forall i | 0 <= i < |r| :: r[i].numFrames >= 0 && !r[i].loop && r[i].fps == fps)
  }

  /** The sequences tile the range up to `frameEnd + 1`, shifted by
      `offset - frameStart`. */
  lemma MarkersTile(markers: seq<Marker>, frameStart: int, frameEnd: int, fps: int, offset: int)
    requires FromMarkers(markers, frameStart, frameEnd, fps, offset).Ok?
    ensures Tiled(FromMarkers(markers, frameStart, frameEnd, fps, offset).value, frameEnd + 1 + offset - frameStart, fps)
  {
    var cuts := Cuts(markers, frameStart, frameEnd);
    CutsSorted(markers, frameStart, frameEnd);
    CutsMany(markers, frameStart, frameEnd, fps, offset);
    SpansTile(cuts, fps, offset - frameStart);
    assert FromMarkers(markers, frameStart, frameEnd, fps, offset).value == Spans(cuts, fps, offset - frameStart);
  }

  lemma CutsMany(markers: seq<Marker>, frameStart: int, frameEnd: int, fps: int, offset: int)
    requires FromMarkers(markers, frameStart, frameEnd, fps, offset).Ok?
    ensures |Cuts(markers, frameStart, frameEnd)| >= 2
  {
  }

  /** Consecutive spans between sorted cuts meet end to start. */
  lemma SpansTile(cuts: seq<Marker>, fps: int, shift: int)
    requires |cuts| >= 2 && StableSort.SortedBy(cuts, MarkerFrame)
    ensures Tiled(Spans(cuts, fps, shift), cuts[|cuts| - 1].frame + shift, fps)
  {
    var r := Spans(cuts, fps, shift);
    forall i | 0 <= i < |r|
      ensures r[i] == Span(cuts[i], cuts[i + 1], fps, shift)
      ensures r[i].numFrames >= 0
    {
      SpanAt(cuts, fps, shift, i);
      assert MarkerFrame(cuts[i]) <= MarkerFrame(cuts[i + 1]);
    }
  }

  /** The cuts are in frame order. */
  lemma CutsSorted(markers: seq<Marker>, frameStart: int, frameEnd: int)
    ensures StableSort.SortedBy(Cuts(markers, frameStart, frameEnd), MarkerFrame)
  {
    var w := InWindow(markers, frameStart, frameEnd + 1);
    var ms := StableSort.SortBy(w, MarkerFrame);
    StableSort.SortBySorted(w, MarkerFrame);
    StableSort.SortByPermutes(w, MarkerFrame);
    forall i | 0 <= i < |ms|
      ensures ms[i].frame <= frameEnd + 1
    {
      assert ms[i] in multiset(w);
    }
  }

  /** Each sequence is named after, and starts at, a marker in the range. */
  lemma MarkersNamed(markers: seq<Marker>, frameStart: int, frameEnd: int, fps: int, offset: int, i: nat)
    requires FromMarkers(markers, frameStart, frameEnd, fps, offset).Ok?
    requires i < |FromMarkers(markers, frameStart, frameEnd, fps, offset).value|
    ensures var q := FromMarkers(markers, frameStart, frameEnd, fps, offset).value[i];
      Marker(q.name, q.startFrame - (offset - frameStart)) in markers
      && frameStart <= q.startFrame - (offset - frameStart) <= frameEnd + 1
  {
    var cuts := Cuts(markers, frameStart, frameEnd);
    var q := Spans(cuts, fps, offset - frameStart)[i];
    SpanAt(cuts, fps, offset - frameStart, i);
    assert Marker(q.name, q.startFrame - (offset - frameStart)) == cuts[i];
    CutFound(markers, frameStart, frameEnd, i);
  }

  /** Every cut but the last is a marker in the range. */
  lemma CutFound(markers: seq<Marker>, frameStart: int, frameEnd: int, i: nat)
    requires i < |Cuts(markers, frameStart, frameEnd)| - 1
    ensures var c := Cuts(markers, frameStart, frameEnd)[i]; c in markers && frameStart <= c.frame <= frameEnd + 1
  {
    var w := InWindow(markers, frameStart, frameEnd + 1);
    var ms := StableSort.SortBy(w, MarkerFrame);
    StableSort.SortByPermutes(w, MarkerFrame);
    assert Cuts(markers, frameStart, frameEnd)[i] == ms[i];
    assert ms[i] in multiset(w);
  }

  /** Two markers just past the end of the range are accepted and give a
      sequence of no frames that starts after the range. */
  lemma TwoMarkersAtEnd()
    ensures FromMarkers([Marker("a", 11), Marker("b", 11)], 0, 10, 30, 0) == Ok([Sequence("a", 11, 0, false, 30)])
  {
    var markers := [Marker("a", 11), Marker("b", 11)];
    assert Cuts(markers, 0, 10) == markers by {
      assert InWindow(markers, 0, 10 + 1) == markers;
      StableSort.SortBySortedInput(markers, MarkerFrame);
    }
    var r := Spans(markers, 30, 0 - 0);
    assert r == [Sequence("a", 11, 0, false, 30)];
  }

  // ------------------------------------------------------------- strips

  datatype Strip = Strip(action: string, frameStart: int, frameEnd: int)

  datatype Track = Track(name: string, strips: seq<Strip>)

  /** The skeleton object's animation data: its NLA tracks, if it has any
      animation data. */
  datatype Skeleton = Skeleton(animationData: Option<seq<Track>>)

  const STILLS_LAYER := "Stills Layer"

  /** Strips on a stills layer count their last frame as the end; others
      run one frame further. */
  function LengthDifference(track: Track): (d: int)
    ensures d == 0 <==> |track.name| >= |STILLS_LAYER| && track.name[..|STILLS_LAYER|] == STILLS_LAYER
    ensures d == 0 || d == 1
  {
    if |track.name| >= |STILLS_LAYER| && track.name[..|STILLS_LAYER|] == STILLS_LAYER then 0 else 1
  }

  /** A strip taken for export, with the length difference of its track. */
  datatype Pick = Pick(strip: Strip, difference: int)

  function PickStart(p: Pick): int { p.strip.frameStart }

  /** The strips of one track starting in `lo..hi`. */
  function PickStrips(strips: seq<Strip>, difference: int, lo: int, hi: int): (r: seq<Pick>)
    ensures forall p :: p in r <==> p.strip in strips && p.difference == difference && lo <= p.strip.frameStart <= hi
  {
    if strips == [] then []
    else
      var here := if lo <= strips[0].frameStart <= hi then [Pick(strips[0], difference)] else [];
      here + PickStrips(strips[1..], difference, lo, hi)
  }

  /** The strips of all tracks starting in `lo..hi`, track after track. */
  function Picks(tracks: seq<Track>, lo: int, hi: int): seq<Pick> {
    if tracks == [] then []
    else PickStrips(tracks[0].strips, LengthDifference(tracks[0]), lo, hi) + Picks(tracks[1..], lo, hi)
  }

  /** A strip is taken, with its track's length difference, exactly when
      it starts in the range. */
  lemma {:induction false} PicksMembers(tracks: seq<Track>, lo: int, hi: int, p: Pick)
    ensures p in Picks(tracks, lo, hi) <==> exists t | t in tracks ::
      p.strip in t.strips && p.difference == LengthDifference(t) && lo <= p.strip.frameStart <= hi
  {
    if tracks != [] {
      PicksMembers(tracks[1..], lo, hi, p);
      if exists t | t in tracks[1..] :: p.strip in t.strips && p.difference == LengthDifference(t) && lo <= p.strip.frameStart <= hi {
        var t :| t in tracks[1..] && p.strip in t.strips && p.difference == LengthDifference(t) && lo <= p.strip.frameStart <= hi;
        assert t in tracks;
      }
      if exists t | t in tracks :: p.strip in t.strips && p.difference == LengthDifference(t) && lo <= p.strip.frameStart <= hi {
        var t :| t in tracks && p.strip in t.strips && p.difference == LengthDifference(t) && lo <= p.strip.frameStart <= hi;
        if t != tracks[0] {
          assert t in tracks[1..];
        }
      }
    }
  }

  /** `from_blender_strip`: the strip's action, start and length. */
  function FromStrip(p: Pick, fps: int, shift: int): Sequence {
    Sequence(p.strip.action, p.strip.frameStart + shift, p.strip.frameEnd - p.strip.frameStart + p.difference, false, fps)
  }

  function FromPicks(picks: seq<Pick>, fps: int, shift: int): (r: seq<Sequence>)
    ensures |r| == |picks|
  {
    if picks == [] then [] else [FromStrip(picks[0], fps, shift)] + FromPicks(picks[1..], fps, shift)
  }

  lemma {:induction false} FromPickAt(picks: seq<Pick>, fps: int, shift: int, i: nat)
    requires i < |picks|
    ensures FromPicks(picks, fps, shift)[i] == FromStrip(picks[i], fps, shift)
  {
    if i > 0 {
      FromPickAt(picks[1..], fps, shift, i - 1);
    }
  }

  /** The strips taken, in start-frame order. */
  function SortedPicks(tracks: seq<Track>, frameStart: int, frameEnd: int): seq<Pick> {
    StableSort.SortBy(Picks(tracks, frameStart, frameEnd), PickStart)
  }

  /** `from_blender_nla_tracks`: a sequence per strip starting in the
      range, in start-frame order; errors when the skeleton, its animation
      data, its tracks or such strips are missing. */
  function FromStrips(skeleton: Option<Skeleton>, frameStart: int, frameEnd: int, fps: int, offset: int)
    : (r: Result<seq<Sequence>, ExportError>)
    ensures skeleton.None? <==> r == Err(NoSkeleton)
    ensures r == Err(NoAnimationData) <==> skeleton.Some? && skeleton.value.animationData.None?
    ensures r == Err(NoTracks) <==> skeleton.Some? && skeleton.value.animationData == Some([])
  {
    match skeleton
    case None => Err(NoSkeleton)
    case Some(Skeleton(None)) => Err(NoAnimationData)
    case Some(Skeleton(Some(tracks))) =>
      if |tracks| == 0 then Err(NoTracks)
      else
        var picks := SortedPicks(tracks, frameStart, frameEnd);
        if |picks| == 0 then Err(NoStrips)
        else Ok(FromPicks(picks, fps, offset - frameStart))
  }

  /** With tracks present, the export fails exactly when no strip of any
      track starts in the range. */
  lemma StripsError(tracks: seq<Track>, frameStart: int, frameEnd: int, fps: int, offset: int)
    requires |tracks| > 0
    ensures FromStrips(Some(Skeleton(Some(tracks))), frameStart, frameEnd, fps, offset) == Err(NoStrips) <==>
      forall t, s | t in tracks && s in t.strips :: !(frameStart <= s.frameStart <= frameEnd)
  {
    var found := Picks(tracks, frameStart, frameEnd);
    StableSort.SortByPermutes(found, PickStart);
    if found != [] {
      var p := found[0];
      PicksMembers(tracks, frameStart, frameEnd, p);
      var t :| t in tracks && p.strip in t.strips && frameStart <= p.strip.frameStart <= frameEnd;
    }
    if exists t, s | t in tracks && s in t.strips :: frameStart <= s.frameStart <= frameEnd {
      var t, s :| t in tracks && s in t.strips && frameStart <= s.frameStart <= frameEnd;
      PicksMembers(tracks, frameStart, frameEnd, Pick(s, LengthDifference(t)));
      assert Pick(s, LengthDifference(t)) in found;
    }
  }

  lemma StripsValue(tracks: seq<Track>, frameStart: int, frameEnd: int, fps: int, offset: int)
    requires FromStrips(Some(Skeleton(Some(tracks))), frameStart, frameEnd, fps, offset).Ok?
    ensures FromStrips(Some(Skeleton(Some(tracks))), frameStart, frameEnd, fps, offset).value
      == FromPicks(SortedPicks(tracks, frameStart, frameEnd), fps, offset - frameStart)
  {
  }

  /** The exported sequences come in start-frame order. */
  lemma StripsSorted(tracks: seq<Track>, frameStart: int, frameEnd: int, fps: int, offset: int)
    requires FromStrips(Some(Skeleton(Some(tracks))), frameStart, frameEnd, fps, offset).Ok?
    ensures StableSort.SortedBy(FromStrips(Some(Skeleton(Some(tracks))), frameStart, frameEnd, fps, offset).value, StartFrame)
  {
    StripsValue(tracks, frameStart, frameEnd, fps, offset);
    var picks := SortedPicks(tracks, frameStart, frameEnd);
    var shift := offset - frameStart;
    StableSort.SortBySorted(Picks(tracks, frameStart, frameEnd), PickStart);
    var r := FromPicks(picks, fps, shift);
    forall i, j | 0 <= i < j < |r|
      ensures StartFrame(r[i]) <= StartFrame(r[j])
    {
      FromPickAt(picks, fps, shift, i);
      FromPickAt(picks, fps, shift, j);
      assert PickStart(picks[i]) <= PickStart(picks[j]);
    }
  }

  /** The strips taken in start-frame order are the strips starting in
      the range, each once. */
  lemma PicksSorted(tracks: seq<Track>, frameStart: int, frameEnd: int)
    ensures multiset(SortedPicks(tracks, frameStart, frameEnd)) == multiset(Picks(tracks, frameStart, frameEnd))
    ensures StableSort.SortedBy(SortedPicks(tracks, frameStart, frameEnd), PickStart)
  {
    StableSort.SortByPermutes(Picks(tracks, frameStart, frameEnd), PickStart);
    StableSort.SortBySorted(Picks(tracks, frameStart, frameEnd), PickStart);
  }

  /** One sequence per strip starting in the range: the i-th is made from
      the i-th such strip in start-frame order, as long as the strip plus
      its track's length difference. */
  lemma StripsSequences(tracks: seq<Track>, frameStart: int, frameEnd: int, fps: int, offset: int, i: nat)
    requires FromStrips(Some(Skeleton(Some(tracks))), frameStart, frameEnd, fps, offset).Ok?
    ensures var r := FromStrips(Some(Skeleton(Some(tracks))), frameStart, frameEnd, fps, offset).value;
      var picks := SortedPicks(tracks, frameStart, frameEnd);
      && |r| == |picks|
      && (i < |r| ==>
           && r[i].name == picks[i].strip.action
           && r[i].startFrame == picks[i].strip.frameStart + offset - frameStart
           && r[i].numFrames == picks[i].strip.frameEnd - picks[i].strip.frameStart + picks[i].difference)
  {
    StripsValue(tracks, frameStart, frameEnd, fps, offset);
    var picks := SortedPicks(tracks, frameStart, frameEnd);
    if i < |picks| {
      FromPickAt(picks, fps, offset - frameStart, i);
    }
  }
}

=== FILE: ase_blocks.dfy ===
/** The recursive block parser of the ASE importer. A block is `*NAME`
    followed by parameter tokens and, optionally, `{ children }`; blocks on
    one level run until the end of the text or an unconsumed `}`. */
module AseBlocks {

  import opened Outcome
  import opened AseLexer

  datatype Block = Block(name: string, parameters: seq<string>, children: seq<Block>)

  datatype SyntaxError =
    | StarExpected(got: string)
    | UnexpectedEnd
    | Unexpected(got: string)
    | NotClosed

  /** Blocks read so far on one level, and the cursor after them. */
  datatype Level = Level(blocks: seq<Block>, pos: nat)

  function Size(b: Block): nat {
    1 + SizeAll(b.children)
  }

  function SizeAll(bs: seq<Block>): nat {
    if bs == [] then 0 else Size(bs[0]) + SizeAll(bs[1..])
  }

  /** A token the parser can take as a name or a parameter: the reader
      never returns a quote inside a token, the empty token ends a level,
      and a lone punctuation character steers the parser. */
  predicate Word(w: string) {
    |w| > 0 && Unquoted(w) && !(|w| == 1 && IsPunct(w[0]))
  }

  predicate AllWords(ws: seq<string>) {
    forall i | 0 <= i < |ws| :: Word(ws[i])
  }

  /** A block that rendering writes and parsing reads back: its name a
      plain word, its parameters words. */
  predicate WellFormed(b: Block) {
    Plain(b.name) && AllWords(b.parameters) && WellFormedAll(b.children)
  }

  predicate WellFormedAll(bs: seq<Block>) {
    forall i | 0 <= i < |bs| :: WellFormed(bs[i])
  }

  /** The loop over the blocks of one level, after the blocks `acc`. It
      returns at the end of the text, or in front of a `}` it leaves
      unconsumed. */
  function GetBlocks(text: string, pos: nat, acc: seq<Block>): (r: Result<Level, SyntaxError>)
    requires pos <= |text|
    ensures r.Ok? ==> pos <= r.value.pos <= |text|
    decreases |text| - pos, 0
  {
    var t := ReadToken(text, pos);
    if t.text == [] then Ok(Level(acc, t.next))
    else if t.text == "}" then Ok(Level(acc, pos))
    else if t.text != "*" then Err(StarExpected(t.text))
    else
      var name := ReadToken(text, t.next);
      if name.text == [] then Err(UnexpectedEnd)
      else if name.text in ["{", "}", "*"] then Err(Unexpected(name.text))
      else BlockBody(text, name.next, acc, Block(name.text, [], []))
  }

  /** The parameter loop of `block`, the last block of its level. The end
      of the text ends the whole level at once; `}` or `*` is left for the
      level's loop; `{` reads children, which must be closed by `}` and
      replace any read before. */
  function BlockBody(text: string, pos: nat, acc: seq<Block>, block: Block): (r: Result<Level, SyntaxError>)
    requires pos <= |text|
    ensures r.Ok? ==> pos <= r.value.pos <= |text|
    decreases |text| - pos, 1
  {
    var t := ReadToken(text, pos);
    if t.text == [] then Ok(Level(acc + [block], t.next))
    else if t.text == "}" || t.text == "*" then GetBlocks(text, pos, acc + [block])
    else if t.text == "{" then
      match GetBlocks(text, t.next, [])
      case Err(e) => Err(e)
      case Ok(inner) =>
        var close := ReadToken(text, inner.pos);
        if close.text != "}" then Err(NotClosed)
        else BlockBody(text, close.next, acc, block.(children := inner.blocks))
    else BlockBody(text, t.next, acc, block.(parameters := block.parameters + [t.text]))
  }

  /** The blocks of a whole text. Whatever follows a `}` on the outermost
      level is not read. */
  function Parse(text: string): Result<seq<Block>, SyntaxError> {
    match GetBlocks(text, 0, [])
    case Ok(level) => Ok(level.blocks)
    case Err(e) => Err(e)
  }

  // Rendering: the inverse of parsing.


  /** A parameter as written: between quotes, which the reader drops. */
  function Quote(w: string): string {
    "\"" + (w + "\"")
  }

  function Params(ps: seq<string>): string {
    if ps == [] then [] else "\t" + (Quote(ps[0]) + Params(ps[1..]))
  }

  /** The line of a block up to its children: `*`, the bare name and the
      quoted parameters, each after a tab. */
  function Head(b: Block): string {
    "\n*" + (b.name + Params(b.parameters))
  }

  /** A block on a line of its own, and its children between braces; the
      braces are written even when there are no children. */
  function Render(b: Block): string {
    Head(b) + ("\t{" + (RenderAll(b.children) + "\n}"))
  }

  function RenderAll(bs: seq<Block>): string {
    if bs == [] then [] else Render(bs[0]) + RenderAll(bs[1..])
  }

  lemma RenderAllLead(bs: seq<Block>)
    requires bs != []
    ensures var t := RenderAll(bs); |t| >= 2 && t[0] == '\n' && t[1] == '*'
  {
  }

  lemma ParamsLead(ps: seq<string>)
    requires ps != []
    ensures |Params(ps)| > 0 && Params(ps)[0] == '\t'
  {
  }

  lemma AppendFirst<T>(xs: seq<T>, ys: seq<T>)
    requires ys != []
    ensures xs + [ys[0]] + ys[1..] == xs + ys
  {
    assert [ys[0]] + ys[1..] == ys;
  }

  /** Whitespace and then a `}` at `k`, or the end of the text at `e`: where
      a level of blocks ends. */
  predicate Closes(text: string, e: nat, k: nat) {
    e == |text| || (Blanks(text, e, k) && k < |text| && text[k] == '}')
  }

  /** A level that closes at once holds no blocks and consumes nothing. */
  lemma EmptyLevel(text: string, at: nat, acc: seq<Block>, k: nat)
    requires at <= |text| && Closes(text, at, k)
    ensures GetBlocks(text, at, acc) == Ok(Level(acc, at))
  {
    if at == |text| {
      LexEnd(text, at);
    } else {
      LexPunct(text, at, k);
    }
  }

  /** A whitespace character and a punctuation character: the latter is
      read as a token. */
  lemma LexPair(text: string, at: nat, a: char, c: char, next: nat)
    requires next == at + 2 <= |text| && text[at] == a && text[at + 1] == c && IsBlank(a) && IsPunct(c)
    ensures ReadToken(text, at) == Token([c], next)
  {
    OneBlank(text, at);
    LexChar(text, at, at + 1, c, next);
  }

  /** A quoted parameter after a tab is read without its quotes. */
  lemma LexParam(text: string, q: nat, p: string, q2: nat)
    requires Word(p) && At(text, q, "\t") && At(text, q + 1, Quote(p)) && q2 == q + 3 + |p|
    ensures ReadToken(text, q) == Token(p, q2)
  {
    AtChar(text, q, "\t", 0);
    OneBlank(text, q);
    At2(text, q + 1, "\"", p + "\"");
    At2(text, q + 2, p, "\"");
    AtChar(text, q + 1, "\"", 0);
    AtChar(text, q + 2 + |p|, "\"", 0);
    LexQuoted(text, q, q + 1, p);
  }

  lemma WordLead(w: string)
    requires Word(w)
    ensures w !in ["{", "}", "*"]
  {
    if |w| == 1 {
      assert !IsPunct(w[0]);
    }
  }

  /** The parameter loop reads one rendered parameter. */
  lemma ParamRead(text: string, q: nat, acc: seq<Block>, name: string, done: seq<string>, p: string, q2: nat)
    requires Word(p) && At(text, q, "\t") && At(text, q + 1, Quote(p)) && q2 == q + 3 + |p|
    ensures BlockBody(text, q, acc, Block(name, done, [])) == BlockBody(text, q2, acc, Block(name, done + [p], []))
  {
    LexParam(text, q, p, q2);
    WordLead(p);
  }

  /** Rendered parameters `ps` stand from `q` to `r`. */
  predicate ParamsAt(text: string, q: nat, ps: seq<string>, r: nat) {
    var ok := AllWords(ps) && At(text, q, Params(ps)) && r == q + |Params(ps)|;
    ok
  }

  /** Where the first of the rendered parameters ends. */
  lemma ParamsFirst(text: string, q: nat, ps: seq<string>, r: nat) returns (q2: nat)
    requires ParamsAt(text, q, ps, r) && ps != []
    ensures Word(ps[0]) && At(text, q, "\t") && At(text, q + 1, Quote(ps[0])) && q2 == q + 3 + |ps[0]|
    ensures ParamsAt(text, q2, ps[1..], r)
  {
    var p, more := ps[0], Params(ps[1..]);
    At2(text, q, "\t", Quote(p) + more);
    At2(text, q + 1, Quote(p), more);
    q2 := q + 3 + |p|;
  }

  /** The first of the rendered parameters is read; the others follow. */
  lemma ParamsStep(text: string, q: nat, acc: seq<Block>, name: string, done: seq<string>, ps: seq<string>, r: nat)
    returns (q2: nat)
    requires ParamsAt(text, q, ps, r) && ps != []
    ensures ParamsAt(text, q2, ps[1..], r)
    ensures BlockBody(text, q, acc, Block(name, done, [])) == BlockBody(text, q2, acc, Block(name, done + [ps[0]], []))
  {
    q2 := ParamsFirst(text, q, ps, r);
    ParamRead(text, q, acc, name, done, ps[0], q2);
  }

  /** The parameter loop reads rendered parameters one by one. */
  lemma {:induction false} ParamsRead(text: string, q: nat, acc: seq<Block>, name: string, done: seq<string>, ps: seq<string>, r: nat)
    requires ParamsAt(text, q, ps, r)
    ensures BlockBody(text, q, acc, Block(name, done, [])) == BlockBody(text, r, acc, Block(name, done + ps, []))
    decreases |ps|
  {
    if ps == [] {
      assert done + ps == done;
    } else {
      var q2 := ParamsStep(text, q, acc, name, done, ps, r);
      ParamsRead(text, q2, acc, name, done + [ps[0]], ps[1..], r);
      AppendFirst(done, ps);
    }
  }

  /** `*` and the name of a rendered block open it. */
  lemma HeadOpen(text: string, at: nat, acc: seq<Block>, name: string, q: nat)
    requires Plain(name) && At(text, at, "\n*") && At(text, at + 2, name) && q == at + 2 + |name| && Stops(text, q)
    ensures GetBlocks(text, at, acc) == BlockBody(text, q, acc, Block(name, [], []))
  {
    AtPair(text, at, '\n', '*');
    LexPair(text, at, '\n', '*', at + 2);
    LexPlain(text, at + 2, at + 2, name);
    assert !IsPunct(name[0]);
  }

  /** The head of block `b` stands from `at` to `r`, before a tab. */
  predicate HeadAt(text: string, at: nat, b: Block, r: nat) {
    var ok := Plain(b.name) && AllWords(b.parameters) && At(text, at, Head(b)) && r == at + |Head(b)|
      && r < |text| && text[r] == '\t';
    ok
  }

  /** Where the parameters of a rendered head stand. */
  lemma HeadParts(text: string, at: nat, b: Block, r: nat) returns (q: nat)
    requires HeadAt(text, at, b, r)
    ensures At(text, at, "\n*") && At(text, at + 2, b.name) && q == at + 2 + |b.name| && Stops(text, q)
    ensures ParamsAt(text, q, b.parameters, r)
  {
    var ps := Params(b.parameters);
    At2(text, at, "\n*", b.name + ps);
    At2(text, at + 2, b.name, ps);
    q := at + 2 + |b.name|;
    if b.parameters != [] {
      ParamsLead(b.parameters);
      AtChar(text, q, ps, 0);
    }
    assert IsBlank(text[q]);
  }

  /** The head of a rendered block is read: its name and parameters. */
  lemma HeadRead(text: string, at: nat, acc: seq<Block>, b: Block, r: nat)
    requires HeadAt(text, at, b, r)
    ensures GetBlocks(text, at, acc) == BlockBody(text, r, acc, Block(b.name, b.parameters, []))
  {
    var q := HeadParts(text, at, b, r);
    HeadOpen(text, at, acc, b.name, q);
    ParamsRead(text, q, acc, b.name, [], b.parameters, r);
    assert [] + b.parameters == b.parameters;
  }

  /** Rendered children `cs` stand between braces from `r` to `mid`. */
  predicate KidsAt(text: string, r: nat, cs: seq<Block>, c: nat, mid: nat) {
    var ok := WellFormedAll(cs) && At(text, r + 2, RenderAll(cs)) && c == r + 2 + |RenderAll(cs)| && mid == c + 2 <= |text|
      && text[r] == '\t' && text[r + 1] == '{' && text[c] == '\n' && text[c + 1] == '}';
    ok
  }

  /** Rendered children between braces are read, and replace the block's
      children. */
  lemma {:induction false} ChildrenRead(text: string, r: nat, acc: seq<Block>, name: string, ps: seq<string>, cs: seq<Block>, c: nat, mid: nat)
    requires KidsAt(text, r, cs, c, mid)
    ensures BlockBody(text, r, acc, Block(name, ps, [])) == BlockBody(text, mid, acc, Block(name, ps, cs))
    decreases SizeAll(cs), 5
  {
    var open := r + 2;
    LexPair(text, r, '\t', '{', open);
    LexPair(text, c, '\n', '}', mid);
    OneBlank(text, c);
    assert LevelAt(text, open, cs, c, c + 1);
    ParseRendered(text, open, [], cs, c, c + 1);
    assert [] + cs == cs;
  }

  /** Block `b` is rendered from `at` to `mid`. */
  predicate BlockAt(text: string, at: nat, b: Block, mid: nat) {
    var ok := WellFormed(b) && At(text, at, Render(b)) && mid == at + |Render(b)|;
    ok
  }

  /** Where the head and the children of a rendered block stand. */
  lemma BlockParts(text: string, at: nat, b: Block, mid: nat) returns (r: nat)
    requires BlockAt(text, at, b, mid)
    ensures HeadAt(text, at, b, r)
    ensures KidsAt(text, r, b.children, mid - 2, mid)
  {
    var inner := RenderAll(b.children);
    At2(text, at, Head(b), "\t{" + (inner + "\n}"));
    r := at + |Head(b)|;
    At2(text, r, "\t{", inner + "\n}");
    At2(text, r + 2, inner, "\n}");
    AtPair(text, r, '\t', '{');
    AtPair(text, r + 2 + |inner|, '\n', '}');
  }

  /** One rendered block is read up to its end, children included. */
  lemma {:induction false} BlockRead(text: string, at: nat, acc: seq<Block>, b: Block, mid: nat)
    requires BlockAt(text, at, b, mid)
    ensures GetBlocks(text, at, acc) == BlockBody(text, mid, acc, b)
    decreases Size(b), 0
  {
    var r := BlockParts(text, at, b, mid);
    HeadRead(text, at, acc, b, r);
    ChildrenRead(text, r, acc, b.name, b.parameters, b.children, mid - 2, mid);
  }

  /** A rendered block followed by another is read, and the level's loop
      goes on with the next. */
  lemma {:induction false} NextBlock(text: string, at: nat, acc: seq<Block>, b: Block, mid: nat)
    requires BlockAt(text, at, b, mid) && mid + 2 <= |text| && text[mid] == '\n' && text[mid + 1] == '*'
    ensures GetBlocks(text, at, acc) == GetBlocks(text, mid, acc + [b])
    decreases Size(b), 1
  {
    LexPair(text, mid, '\n', '*', mid + 2);
    BlockRead(text, at, acc, b, mid);
  }

  /** The last rendered block of a level is read, and the level ends. */
  lemma {:induction false} LastBlock(text: string, at: nat, acc: seq<Block>, b: Block, e: nat, k: nat)
    requires BlockAt(text, at, b, e) && Closes(text, e, k)
    ensures GetBlocks(text, at, acc) == Ok(Level(acc + [b], e))
    decreases Size(b), 1
  {
    if e == |text| {
      LexEnd(text, e);
    } else {
      LexPunct(text, e, k);
      EmptyLevel(text, e, acc + [b], k);
    }
    BlockRead(text, at, acc, b, e);
  }

  /** Blocks `bs` are rendered from `at` to `e`, where their level closes. */
  predicate LevelAt(text: string, at: nat, bs: seq<Block>, e: nat, k: nat) {
    var ok := WellFormedAll(bs) && At(text, at, RenderAll(bs)) && e == at + |RenderAll(bs)| && Closes(text, e, k);
    ok
  }

  /** Where the first block of a rendered level ends, and what follows. */
  lemma LevelParts(text: string, at: nat, bs: seq<Block>, e: nat, k: nat) returns (mid: nat)
    requires LevelAt(text, at, bs, e, k) && bs != []
    ensures BlockAt(text, at, bs[0], mid)
    ensures bs[1..] == [] ==> mid == e
    ensures bs[1..] != [] ==> LevelAt(text, mid, bs[1..], e, k) && mid + 2 <= |text| && text[mid] == '\n' && text[mid + 1] == '*'
  {
    var tail := bs[1..];
    At2(text, at, Render(bs[0]), RenderAll(tail));
    mid := at + |Render(bs[0])|;
    if tail != [] {
      RenderAllLead(tail);
      AtChar(text, mid, RenderAll(tail), 0);
      AtChar(text, mid, RenderAll(tail), 1);
    }
  }

  /** Rendered blocks are read back as themselves, up to where their level
      closes. */
  lemma {:induction false} ParseRendered(text: string, at: nat, acc: seq<Block>, bs: seq<Block>, e: nat, k: nat)
    requires LevelAt(text, at, bs, e, k)
    ensures GetBlocks(text, at, acc) == Ok(Level(acc + bs, e))
    decreases SizeAll(bs), 4
  {
    if bs == [] {
      assert acc + bs == acc;
      EmptyLevel(text, at, acc, k);
    } else {
      ParseFirst(text, at, acc, bs, e, k);
    }
  }

  /** The first of the rendered blocks is read, then the others. */
  lemma {:induction false} ParseFirst(text: string, at: nat, acc: seq<Block>, bs: seq<Block>, e: nat, k: nat)
    requires LevelAt(text, at, bs, e, k) && bs != []
    ensures GetBlocks(text, at, acc) == Ok(Level(acc + bs, e))
    decreases SizeAll(bs), 3
  {
    var mid := LevelParts(text, at, bs, e, k);
    if bs[1..] == [] {
      LastBlock(text, at, acc, bs[0], e, k);
      assert acc + bs == acc + [bs[0]];
    } else {
      ParseNext(text, at, acc, bs, mid, e, k);
    }
  }

  /** A rendered block that another follows is read, then the others. */
  lemma {:induction false} ParseNext(text: string, at: nat, acc: seq<Block>, bs: seq<Block>, mid: nat, e: nat, k: nat)
    requires bs != [] && BlockAt(text, at, bs[0], mid) && LevelAt(text, mid, bs[1..], e, k)
    requires mid + 2 <= |text| && text[mid] == '\n' && text[mid + 1] == '*'
    ensures GetBlocks(text, at, acc) == Ok(Level(acc + bs, e))
    decreases SizeAll(bs), 2
  {
    NextBlock(text, at, acc, bs[0], mid);
    ParseRendered(text, mid, acc + [bs[0]], bs[1..], e, k);
    AppendFirst(acc, bs);
  }

  /** Parsing inverts rendering. */
  lemma ParseRender(bs: seq<Block>)
    requires WellFormedAll(bs)
    ensures Parse(RenderAll(bs)) == Ok(bs)
  {
    var text := RenderAll(bs);
    AtRest(text, 0);
    assert text[0..] == text;
    ParseRendered(text, 0, [], bs, |text|, |text|);
    assert [] + bs == bs;
  }

  /** Nothing after a closing brace on the outermost level is read. */
  lemma ParseStopsAtClose(bs: seq<Block>, rest: string)
    requires WellFormedAll(bs)
    ensures Parse(RenderAll(bs) + ("\n}" + rest)) == Ok(bs)
  {
    var r := RenderAll(bs);
    var text := r + ("\n}" + rest);
    AtRest(text, 0);
    assert text[0..] == text;
    At2(text, 0, r, "\n}" + rest);
    assert LevelAt(text, 0, bs, |r|, |r| + 1) by {
      At2(text, |r|, "\n}", rest);
      AtPair(text, |r|, '\n', '}');
      OneBlank(text, |r|);
    }
    ParseRendered(text, 0, [], bs, |r|, |r| + 1);
    assert [] + bs == bs;
  }

  /** What parsing can return: every name and parameter a word, all the
      way down. */
  predicate Readable(b: Block) {
    Word(b.name) && AllWords(b.parameters) && ReadableAll(b.children)
  }

  predicate ReadableAll(bs: seq<Block>) {
    forall i | 0 <= i < |bs| :: Readable(bs[i])
  }

  /** A token that neither ends a level nor steers the parser is a word. */
  lemma TokenWord(text: string, pos: nat)
    requires pos <= |text|
    requires var t := ReadToken(text, pos).text; t != [] && t != "{" && t != "}" && t != "*"
    ensures Word(ReadToken(text, pos).text)
  {
    TokenUnquoted(text, pos);
  }

  lemma {:induction false} GetBlocksReadable(text: string, pos: nat, acc: seq<Block>)
    requires pos <= |text| && ReadableAll(acc)
    ensures var r := GetBlocks(text, pos, acc); r.Ok? ==> ReadableAll(r.value.blocks)
    decreases |text| - pos, 0
  {
    var t := ReadToken(text, pos);
    if t.text == "*" {
      var name := ReadToken(text, t.next);
      if name.text != [] && name.text !in ["{", "}", "*"] {
        TokenWord(text, t.next);
        BlockBodyReadable(text, name.next, acc, Block(name.text, [], []));
      }
    }
  }

  lemma {:induction false} BlockBodyReadable(text: string, pos: nat, acc: seq<Block>, block: Block)
    requires pos <= |text| && ReadableAll(acc) && Readable(block)
    ensures var r := BlockBody(text, pos, acc, block); r.Ok? ==> ReadableAll(r.value.blocks)
    decreases |text| - pos, 1
  {
    var t := ReadToken(text, pos);
    if t.text == [] {
    } else if t.text == "}" || t.text == "*" {
      GetBlocksReadable(text, pos, acc + [block]);
    } else if t.text == "{" {
      GetBlocksReadable(text, t.next, []);
      match GetBlocks(text, t.next, [])
      case Err(_) =>
      case Ok(inner) =>
        var close := ReadToken(text, inner.pos);
        if close.text == "}" {
          BlockBodyReadable(text, close.next, acc, block.(children := inner.blocks));
        }
    } else {
      TokenWord(text, pos);
      BlockBodyReadable(text, t.next, acc, block.(parameters := block.parameters + [t.text]));
    }
  }

  /** Whatever parsing returns is readable. */
  lemma ParsedReadable(text: string)
    ensures Parse(text).Ok? ==> ReadableAll(Parse(text).value)
  {
    GetBlocksReadable(text, 0, []);
  }

  /** Every well-formed block is readable: rendering covers part of what
      parsing can return. */
  lemma WellFormedReadable(bs: seq<Block>)
    requires WellFormedAll(bs)
    ensures ReadableAll(bs)
    decreases bs
  {
    forall i | 0 <= i < |bs|
      ensures Readable(bs[i])
    {
      var b := bs[i];
      assert !(|b.name| == 1 && IsPunct(b.name[0]));
      WellFormedReadable(b.children);
    }
  }

  /** Children opened but never closed are an error. */
  lemma UnclosedChildren()
    ensures Parse("*A {") == Err(NotClosed)
  {
    var text := "*A {";
    assert ReadToken(text, 0) == Token("*", 1);
    assert ReadToken(text, 1) == Token("A", 2);
    assert ReadToken(text, 2) == Token("{", 4);
    assert ReadToken(text, 4) == Token([], 4);
  }

  /** A quoted empty string reads like the end of the text: the level ends
      there, and the blocks after it are not read. */
  lemma EmptyStringEndsLevel()
    ensures Parse("*A \"\" *B") == Ok([Block("A", [], [])])
  {
    var text := "*A \"\" *B";
    assert ReadToken(text, 0) == Token("*", 1);
    assert ReadToken(text, 1) == Token("A", 2);
    assert ReadToken(text, 2) == Token([], 5);
    var a := Block("A", [], []);
    assert BlockBody(text, 2, [], a) == Ok(Level([] + [a], 5));
    assert GetBlocks(text, 0, []) == BlockBody(text, 2, [], a);
    assert [] + [a] == [a];
  }
}

=== FILE: ase_export.dfy ===
/** The ASE exporter: every mesh object of the scene with triangles becomes a
    surface whose vertices are split per UV, materials are numbered in the
    order they are first met, and the model is written as the block tree
    the importer reads back. */
module AseExport {

  import opened Outcome
  import opened AseBlocks
  import opened AseImport
  import CfgText

  // --------------------------------------------------------- numbering

  /** Keys numbered in the order they are first met: `index` maps a key to
      its number, `order` lists the keys by number. */
  datatype Numbering<T> = Numbering(index: map<T, nat>, order: seq<T>)

  /** Every key's number points back at that key. */
  predicate Sound<T>(n: Numbering<T>) {
    forall x | x in n.index :: n.index[x] < |n.order| && n.order[n.index[x]] == x
  }

  /** Sound, and every listed key is numbered by its position: no key is
      listed twice. */
  predicate Exact<T>(n: Numbering<T>) {
    Sound(n) && forall i | 0 <= i < |n.order| :: n.order[i] in n.index && n.index[n.order[i]] == i
  }

  ghost predicate Distinct<T>(xs: seq<T>) {
    forall i, j | 0 <= i < j < |xs| :: xs[i] != xs[j]
  }

  function Fresh<T>(): (r: Numbering<T>)
    ensures Exact(r) && r.order == []
  {
    Numbering(map[], [])
  }

  lemma ExactDistinct<T>(n: Numbering<T>)
    requires Exact(n)
    ensures Distinct(n.order)
  {
    forall i, j | 0 <= i < j < |n.order|
      ensures n.order[i] != n.order[j]
    {
      assert n.index[n.order[i]] == i && n.index[n.order[j]] == j;
    }
  }

  /** The reference order: `xs` read left to right, each element appended
      to `acc` the first time it is met. */
  function FirstSeen<T(==)>(acc: seq<T>, xs: seq<T>): (r: seq<T>)
    ensures acc <= r
    decreases |xs|
  {
    if xs == [] then acc
    else FirstSeen(if xs[0] in acc then acc else acc + [xs[0]], xs[1..])
  }

  /** What the first-seen list holds: each element of `acc` and `xs`, and
      nothing twice when `acc` has nothing twice. */
  lemma {:induction false} FirstSeenMembers<T>(acc: seq<T>, xs: seq<T>, x: T)
    ensures x in FirstSeen(acc, xs) <==> x in acc || x in xs
    ensures Distinct(acc) ==> Distinct(FirstSeen(acc, xs))
    decreases |xs|
  {
    if xs != [] {
      var acc' := if xs[0] in acc then acc else acc + [xs[0]];
      FirstSeenMembers(acc', xs[1..], x);
      assert xs == [xs[0]] + xs[1..];
    }
  }

  lemma {:induction false} FirstSeenAppend<T>(acc: seq<T>, xs: seq<T>, ys: seq<T>)
    ensures FirstSeen(acc, xs + ys) == FirstSeen(FirstSeen(acc, xs), ys)
    decreases |xs|
  {
    if xs == [] {
      assert xs + ys == ys;
    } else {
      var acc' := if xs[0] in acc then acc else acc + [xs[0]];
      assert (xs + ys)[0] == xs[0] && (xs + ys)[1..] == xs[1..] + ys;
      assert FirstSeen(acc, xs + ys) == FirstSeen(acc', xs[1..] + ys);
      FirstSeenAppend(acc', xs[1..], ys);
    }
  }

  /** On an exact numbering, numbering `x` is one step of the reference
      order. */
  lemma NumberFirstSeen<T>(n: Numbering<T>, x: T)
    requires Exact(n)
    ensures Number(n, x).0.order == FirstSeen(n.order, [x])
  {
    assert x in n.index <==> x in n.order by {
      if x in n.order {
        var i :| 0 <= i < |n.order| && n.order[i] == x;
      }
    }
  }

  /** The number of `x`, adding it at the end when it is new. */
  function Number<T>(n: Numbering<T>, x: T): (r: (Numbering<T>, nat))
    ensures Sound(n) ==> Sound(r.0) && r.1 < |r.0.order| && r.0.order[r.1] == x
    ensures Exact(n) ==> Exact(r.0)
    ensures n.order <= r.0.order && forall i | |n.order| <= i < |r.0.order| :: r.0.order[i] == x
    ensures x in n.index <==> r.0 == n
  {
    if x in n.index then (n, n.index[x])
    else (Numbering(n.index[x := |n.order|], n.order + [x]), |n.order|)
  }

  /** `getExportIndex` as written: its `if not index` test also takes the
      number 0 for a missing entry, so the key numbered 0 is added again the
      next time it is met. */
  function NumberAsWritten<T>(n: Numbering<T>, x: T): (r: (Numbering<T>, nat))
    ensures Sound(n) ==> Sound(r.0) && r.1 < |r.0.order| && r.0.order[r.1] == x
    ensures n.order <= r.0.order && forall i | |n.order| <= i < |r.0.order| :: r.0.order[i] == x
  {
    if x in n.index && n.index[x] != 0 then (n, n.index[x])
    else (Numbering(n.index[x := |n.order|], n.order + [x]), |n.order|)
  }

  // ---------------------------------------------------------- vertices

  datatype Vec3 = Vec3(x: real, y: real, z: real)
  datatype Uv = Uv(u: real, v: real)

  /** A triangle corner: the Blender vertex, its world-space position and
      the UV of this loop. */
  datatype Corner = Corner(vertex: nat, co: Vec3, uv: Uv)

  datatype Triangle = Triangle(a: Corner, b: Corner, c: Corner)

  /** A triangle as export vertex numbers. */
  datatype Tri = Tri(a: nat, b: nat, c: nat)

  /** `tri` names the corners of `t` among the exported vertices `verts`. */
  predicate Fits(verts: seq<Corner>, tri: Tri, t: Triangle) {
    && tri.a < |verts| && verts[tri.a] == t.a
    && tri.b < |verts| && verts[tri.b] == t.b
    && tri.c < |verts| && verts[tri.c] == t.c
  }

  function CornersOf(ts: seq<Triangle>): seq<Corner> {
    if ts == [] then [] else [ts[0].a, ts[0].b, ts[0].c] + CornersOf(ts[1..])
  }

  function Index(n: Numbering<Corner>, c: Corner, asWritten: bool): (r: (Numbering<Corner>, nat))
    ensures Sound(n) ==> Sound(r.0) && r.1 < |r.0.order| && r.0.order[r.1] == c
    ensures n.order <= r.0.order && forall i | |n.order| <= i < |r.0.order| :: r.0.order[i] == c
    ensures !asWritten && Exact(n) ==> Exact(r.0)
  {
    if asWritten then NumberAsWritten(n, c) else Number(n, c)
  }

  lemma FitsLater(verts: seq<Corner>, more: seq<Corner>, tri: Tri, t: Triangle)
    requires Fits(verts, tri, t) && verts <= more
    ensures Fits(more, tri, t)
  {
    assert more[..|verts|] == verts;
  }

  /** The corners of one triangle numbered in order a, b, c. */
  function Corners(n: Numbering<Corner>, t: Triangle, asWritten: bool): (r: (Numbering<Corner>, Tri))
    ensures Sound(n) ==> Sound(r.0) && Fits(r.0.order, r.1, t)
    ensures n.order <= r.0.order
    ensures !asWritten && Exact(n) ==> Exact(r.0)
    ensures forall i | |n.order| <= i < |r.0.order| :: r.0.order[i] in [t.a, t.b, t.c]
  {
    var (n1, a) := Index(n, t.a, asWritten);
    var (n2, b) := Index(n1, t.b, asWritten);
    var (n3, c) := Index(n2, t.c, asWritten);
    CornersStep(n, n1, n2, n3, a, b, c, t);
    (n3, Tri(a, b, c))
  }

  lemma CornersStep(n: Numbering<Corner>, n1: Numbering<Corner>, n2: Numbering<Corner>, n3: Numbering<Corner>, a: nat, b: nat, c: nat, t: Triangle)
    requires n.order <= n1.order <= n2.order <= n3.order
    requires Sound(n) ==> a < |n1.order| && n1.order[a] == t.a && b < |n2.order| && n2.order[b] == t.b && c < |n3.order| && n3.order[c] == t.c
    requires forall i | |n.order| <= i < |n1.order| :: n1.order[i] == t.a
    requires forall i | |n1.order| <= i < |n2.order| :: n2.order[i] == t.b
    requires forall i | |n2.order| <= i < |n3.order| :: n3.order[i] == t.c
    ensures Sound(n) ==> Fits(n3.order, Tri(a, b, c), t)
    ensures forall i | |n.order| <= i < |n3.order| :: n3.order[i] in [t.a, t.b, t.c]
  {
    if Sound(n) {
      FitsFirst(n1.order, n2.order, n3.order, a, b, c, t);
    }
    forall i | |n.order| <= i < |n3.order|
      ensures n3.order[i] in [t.a, t.b, t.c]
    {
      assert n3.order[..|n2.order|] == n2.order && n2.order[..|n1.order|] == n1.order;
      if i < |n1.order| {
        assert n3.order[i] == n2.order[i] == n1.order[i];
      } else if i < |n2.order| {
        assert n3.order[i] == n2.order[i];
      }
    }
  }

  lemma FitsFirst(o1: seq<Corner>, o2: seq<Corner>, o3: seq<Corner>, a: nat, b: nat, c: nat, t: Triangle)
    requires o1 <= o2 <= o3
    requires a < |o1| && o1[a] == t.a && b < |o2| && o2[b] == t.b && c < |o3| && o3[c] == t.c
    ensures Fits(o3, Tri(a, b, c), t)
  {
    assert o3[..|o1|] == o1 && o3[..|o2|] == o2;
    assert o3[a] == o3[..|o1|][a];
    assert o3[b] == o3[..|o2|][b];
  }

  /** `readMesh`'s list of triangles: a vertex is exported once per UV it
      is used with. */
  function SplitTriangles(n: Numbering<Corner>, ts: seq<Triangle>, asWritten: bool): (r: (Numbering<Corner>, seq<Tri>))
    ensures Sound(n) ==> Sound(r.0) && |r.1| == |ts| && forall i | 0 <= i < |ts| :: Fits(r.0.order, r.1[i], ts[i])
    ensures n.order <= r.0.order
    ensures !asWritten && Exact(n) ==> Exact(r.0)
    ensures forall i | |n.order| <= i < |r.0.order| :: r.0.order[i] in CornersOf(ts)
    decreases |ts|
  {
    if ts == [] then (n, [])
    else
      var (n1, tri) := Corners(n, ts[0], asWritten);
      var (n2, tris) := SplitTriangles(n1, ts[1..], asWritten);
      SplitStep(n, n1, n2, tri, tris, ts);
      (n2, [tri] + tris)
  }

  lemma SplitStep(n: Numbering<Corner>, n1: Numbering<Corner>, n2: Numbering<Corner>, tri: Tri, tris: seq<Tri>, ts: seq<Triangle>)
    requires ts != [] && n.order <= n1.order <= n2.order
    requires Sound(n) ==> Fits(n1.order, tri, ts[0]) && |tris| == |ts| - 1 && forall i | 0 <= i < |tris| :: Fits(n2.order, tris[i], ts[1 + i])
    requires forall i | |n.order| <= i < |n1.order| :: n1.order[i] in [ts[0].a, ts[0].b, ts[0].c]
    requires forall i | |n1.order| <= i < |n2.order| :: n2.order[i] in CornersOf(ts[1..])
    ensures Sound(n) ==> |[tri] + tris| == |ts| && forall i | 0 <= i < |ts| :: Fits(n2.order, ([tri] + tris)[i], ts[i])
    ensures forall i | |n.order| <= i < |n2.order| :: n2.order[i] in CornersOf(ts)
  {
    var t0 := ts[0];
    assert CornersOf(ts) == [t0.a, t0.b, t0.c] + CornersOf(ts[1..]);
    if Sound(n) {
      FitsLater(n1.order, n2.order, tri, t0);
    }
    forall i | |n.order| <= i < |n1.order|
      ensures n2.order[i] in CornersOf(ts)
    {
      assert n2.order[i] == n1.order[i];
    }
  }

  /** The vertices and triangles one mesh is exported with. */
  function ReadMesh(ts: seq<Triangle>): (r: (seq<Corner>, seq<Tri>))
    ensures |r.1| == |ts| && forall i | 0 <= i < |ts| :: Fits(r.0, r.1[i], ts[i])
    ensures Distinct(r.0)
    ensures forall i | 0 <= i < |r.0| :: r.0[i] in CornersOf(ts)
    ensures r.0 == FirstSeen([], CornersOf(ts))
  {
    var (n, tris) := SplitTriangles(Fresh(), ts, false);
    ExactDistinct(n);
    SplitFirstSeen(Fresh(), ts);
    (n.order, tris)
  }

  /** Numbering one triangle's corners is the reference order over its
      three corners. */
  lemma CornersFirstSeen(n: Numbering<Corner>, t: Triangle)
    requires Exact(n)
    ensures Corners(n, t, false).0.order == FirstSeen(n.order, [t.a, t.b, t.c])
  {
    var n1 := Number(n, t.a).0;
    var n2 := Number(n1, t.b).0;
    NumberFirstSeen(n, t.a);
    NumberFirstSeen(n1, t.b);
    NumberFirstSeen(n2, t.c);
    FirstSeenAppend(n.order, [t.a], [t.b, t.c]);
    FirstSeenAppend(n1.order, [t.b], [t.c]);
  }

  /** Splitting the triangles numbers their corners in the reference
      order: each corner the first time it is met. */
  lemma {:induction false} SplitFirstSeen(n: Numbering<Corner>, ts: seq<Triangle>)
    requires Exact(n)
    ensures SplitTriangles(n, ts, false).0.order == FirstSeen(n.order, CornersOf(ts))
    decreases |ts|
  {
    if ts != [] {
      var t0 := ts[0];
      var n1 := Corners(n, t0, false).0;
      CornersFirstSeen(n, t0);
      SplitFirstSeen(n1, ts[1..]);
      assert CornersOf(ts) == [t0.a, t0.b, t0.c] + CornersOf(ts[1..]);
      FirstSeenAppend(n.order, [t0.a, t0.b, t0.c], CornersOf(ts[1..]));
    }
  }

  /** Two triangles sharing their first corner, which is numbered 0. */
  function SharedCorner(): seq<Triangle> {
    var p := Vec3(0.0, 0.0, 0.0);
    var uv := Uv(0.0, 0.0);
    [Triangle(Corner(0, p, uv), Corner(1, p, uv), Corner(2, p, uv)),
     Triangle(Corner(0, p, uv), Corner(2, p, uv), Corner(3, p, uv))]
  }

  /** As written, the shared corner is exported twice: five vertices where
      four are used. */
  lemma SharedCornerDuplicated()
    ensures var r := SplitTriangles(Fresh(), SharedCorner(), true).0.order;
            |r| == 5 && r[0] == r[3]
  {
    var ts := SharedCorner();
    var n1 := Corners(Fresh(), ts[0], true).0;
    assert n1.order == [ts[0].a, ts[0].b, ts[0].c];
    assert n1.index[ts[0].a] == 0;
    var n2 := Corners(n1, ts[1], true).0;
    assert n2.order == n1.order + [ts[1].a, ts[1].c];
    assert SplitTriangles(n1, ts[1..], true).0 == n2;
  }

  /** Numbering by membership exports the shared corner once. */
  lemma SharedCornerOnce()
    ensures |ReadMesh(SharedCorner()).0| == 4
  {
    var ts := SharedCorner();
    var n1 := Corners(Fresh(), ts[0], false).0;
    assert n1.order == [ts[0].a, ts[0].b, ts[0].c];
    var n2 := Corners(n1, ts[1], false).0;
    assert n2.order == n1.order + [ts[1].c];
    assert SplitTriangles(n1, ts[1..], false).0 == n2;
  }

  // ------------------------------------------------------------- scene

  /** A material slot, as Blender identifies it, and its material's name. */
  datatype Material = Material(slot: nat, name: string)

  /** An object of the scene as the exporter sees it: whether it is a mesh,
      the loop triangles of its evaluated mesh with the corners' UVs from the
      first UV map, its material slots, and whether it has a UV map. */
  datatype SceneObject = SceneObject(isMesh: bool, triangles: seq<Triangle>, slots: seq<Material>, hasUv: bool)

  datatype ExportError = NotObjectMode | NoMaterialSlot | NoUvMap

  /** `Surface`: the exported vertices, the triangles and the material number. */
  datatype Surface = Surface(verts: seq<Corner>, tris: seq<Tri>, materialIndex: nat)

  datatype Model = Model(materials: seq<Material>, surfaces: seq<Surface>)

  /** The objects that give a surface: meshes with triangles. */
  function Exported(objs: seq<SceneObject>): (r: seq<SceneObject>)
    ensures |r| <= |objs|
  {
    if objs == [] then []
    else (if objs[0].isMesh && objs[0].triangles != [] then [objs[0]] else []) + Exported(objs[1..])
  }

  /** The first material slot of each object that gives a surface, in
      scene order. */
  function FirstSlots(objs: seq<SceneObject>): seq<Material> {
    if objs == [] then []
    else (if objs[0].isMesh && objs[0].triangles != [] && objs[0].slots != [] then [objs[0].slots[0]] else [])
         + FirstSlots(objs[1..])
  }

  /** `s` is the export of `o`, its material numbered in `materials`. */
  ghost predicate Depicts(materials: seq<Material>, s: Surface, o: SceneObject) {
    && o.slots != []
    && |s.tris| == |o.triangles| && (forall i | 0 <= i < |s.tris| :: Fits(s.verts, s.tris[i], o.triangles[i]))
    && Distinct(s.verts)
    && s.materialIndex < |materials| && materials[s.materialIndex] == o.slots[0]
  }

  /** `readGeometry` of one mesh object. */
  function ReadGeometry(o: SceneObject, mats: Numbering<Material>): (r: Result<(Numbering<Material>, seq<Surface>), ExportError>)
    requires o.isMesh
    ensures r.Err? <==> o.triangles != [] && (o.slots == [] || !o.hasUv)
    ensures r.Ok? ==> |r.value.1| == (if o.triangles != [] then 1 else 0)
    ensures r.Ok? ==> mats.order <= r.value.0.order
    ensures r.Ok? && Exact(mats) ==> Exact(r.value.0)
    ensures r.Ok? && Sound(mats) ==> forall k | 0 <= k < |r.value.1| :: Depicts(r.value.0.order, r.value.1[k], o)
  {
    if o.triangles == [] then Ok((mats, []))
    else if o.slots == [] then Err(NoMaterialSlot)
    else if !o.hasUv then Err(NoUvMap)
    else
      var (verts, tris) := ReadMesh(o.triangles);
      var (mats2, m) := Number(mats, o.slots[0]);
      Ok((mats2, [Surface(verts, tris, m)]))
  }

  /** `readObjects`: every mesh object in scene order. The object-mode test
      sits in `readGeometry`, so it only fails when there is a mesh. */
  function ReadObjects(objs: seq<SceneObject>, objectMode: bool, mats: Numbering<Material>): (r: Result<(Numbering<Material>, seq<Surface>), ExportError>)
    ensures r.Ok? ==> mats.order <= r.value.0.order
    ensures r.Ok? && Exact(mats) ==> Exact(r.value.0)
    ensures r.Ok? && Sound(mats) ==> |r.value.1| == |Exported(objs)| && forall k | 0 <= k < |r.value.1| :: Depicts(r.value.0.order, r.value.1[k], Exported(objs)[k])
  {
    if objs == [] then Ok((mats, []))
    else if !objs[0].isMesh then ReadObjects(objs[1..], objectMode, mats)
    else if !objectMode then Err(NotObjectMode)
    else
      var (mats2, ss) :- ReadGeometry(objs[0], mats);
      var (mats3, rest) :- ReadObjects(objs[1..], objectMode, mats2);
      ReadObjectsStep(objs, mats2.order, mats3.order, ss, rest, Sound(mats));
      Ok((mats3, ss + rest))
  }

  /** Reading the objects numbers their materials in the reference order:
      each surface's first slot the first time it is met. */
  lemma {:induction false} ReadObjectsFirstSeen(objs: seq<SceneObject>, objectMode: bool, mats: Numbering<Material>)
    requires Exact(mats) && ReadObjects(objs, objectMode, mats).Ok?
    ensures ReadObjects(objs, objectMode, mats).value.0.order == FirstSeen(mats.order, FirstSlots(objs))
    decreases |objs|
  {
    if objs != [] {
      var o := objs[0];
      var rest := FirstSlots(objs[1..]);
      if !o.isMesh {
        assert FirstSlots(objs) == rest;
        ReadObjectsFirstSeen(objs[1..], objectMode, mats);
      } else {
        var mats2 := ReadGeometry(o, mats).value.0;
        ReadObjectsFirstSeen(objs[1..], objectMode, mats2);
        if o.triangles == [] {
          assert FirstSlots(objs) == rest;
        } else {
          assert FirstSlots(objs) == [o.slots[0]] + rest;
          NumberFirstSeen(mats, o.slots[0]);
          FirstSeenAppend(mats.order, [o.slots[0]], rest);
        }
      }
    }
  }

  lemma DepictsLater(o2: seq<Material>, o3: seq<Material>, s: Surface, o: SceneObject)
    requires Depicts(o2, s, o) && o2 <= o3
    ensures Depicts(o3, s, o)
  {
    assert o3[..|o2|] == o2;
    assert o3[s.materialIndex] == o3[..|o2|][s.materialIndex];
  }

  lemma ReadObjectsStep(objs: seq<SceneObject>, o2: seq<Material>, o3: seq<Material>, ss: seq<Surface>, rest: seq<Surface>, sound: bool)
    requires objs != [] && objs[0].isMesh && o2 <= o3
    requires |ss| == (if objs[0].triangles != [] then 1 else 0)
    requires sound ==> forall k | 0 <= k < |ss| :: Depicts(o2, ss[k], objs[0])
    requires sound ==> |rest| == |Exported(objs[1..])| && forall k | 0 <= k < |rest| :: Depicts(o3, rest[k], Exported(objs[1..])[k])
    ensures sound ==> |ss + rest| == |Exported(objs)| && forall k | 0 <= k < |ss + rest| :: Depicts(o3, (ss + rest)[k], Exported(objs)[k])
  {
    if sound && ss != [] {
      DepictsLater(o2, o3, ss[0], objs[0]);
    }
    if ss == [] {
      assert ss + rest == rest;
    }
  }

  /** `ModelExporter.readObjects`: the materials by number and the surfaces
      of the exported objects. */
  function Export(objs: seq<SceneObject>, objectMode: bool): (r: Result<Model, ExportError>)
    ensures r.Ok? ==> Distinct(r.value.materials)
    ensures r.Ok? ==> |r.value.surfaces| == |Exported(objs)|
    ensures r.Ok? ==> forall k | 0 <= k < |r.value.surfaces| :: Depicts(r.value.materials, r.value.surfaces[k], Exported(objs)[k])
    ensures r.Ok? ==> r.value.materials == FirstSeen([], FirstSlots(objs))
  {
    var (mats, ss) :- ReadObjects(objs, objectMode, Fresh());
    ExactDistinct(mats);
    ReadObjectsFirstSeen(objs, objectMode, Fresh());
    Ok(Model(mats.order, ss))
  }

  /** A scene without meshes exports even outside object mode. */
  lemma NoMeshesAnyMode(objs: seq<SceneObject>, objectMode: bool)
    requires forall i | 0 <= i < |objs| :: !objs[i].isMesh
    ensures Export(objs, objectMode) == Ok(Model([], []))
  {
    NoMeshes(objs, objectMode, Fresh());
  }

  lemma {:induction false} NoMeshes(objs: seq<SceneObject>, objectMode: bool, mats: Numbering<Material>)
    requires forall i | 0 <= i < |objs| :: !objs[i].isMesh
    ensures ReadObjects(objs, objectMode, mats) == Ok((mats, []))
  {
    if objs != [] {
      NoMeshes(objs[1..], objectMode, mats);
    }
  }

  /** Outside object mode any mesh stops the export. */
  lemma {:induction false} MeshNeedsObjectMode(objs: seq<SceneObject>, mats: Numbering<Material>)
    requires exists i | 0 <= i < |objs| :: objs[i].isMesh
    ensures ReadObjects(objs, false, mats) == Err(NotObjectMode)
  {
    if !objs[0].isMesh {
      var i :| 0 <= i < |objs| && objs[i].isMesh;
      assert objs[1..][i - 1] == objs[i];
      MeshNeedsObjectMode(objs[1..], mats);
    }
  }

  // ----------------------------------------------------------- writing

  /** `format(x, ".{d}f")`: a float printed with `d` decimals. Float
      formatting is not modelled; the writer takes it as a parameter. */
  type Fixed = (real, nat) -> string

  const TIMEVALUE := "timevalue"
  const NUMVERTEX := "mesh_numvertex"
  const NUMFACES := "mesh_numfaces"
  const NUMTVERTEX := "mesh_numtvertex"
  const NUMTVFACES := "mesh_numtvfaces"
  const SMOOTHING := "mesh_smoothing"
  const MTLID := "mesh_mtlid"
  const MATERIAL_COUNT := "material_count"

  /** `str(i)`. */
  function Str(i: int): string {
    CfgText.IntToString(i)
  }

  /** A block without children, named by its key in capitals. */
  function Line(key: string, ps: seq<string>): Block {
    Block(Upper(key), ps, [])
  }

  /** A block without parameters, named by its key in capitals. */
  function Group(key: string, cs: seq<Block>): Block {
    Block(Upper(key), [], cs)
  }

  /** `*MESH_VERTEX i x y z`, numbered from `i`. */
  function VertexLines(vs: seq<Corner>, i: nat, fixed: Fixed): seq<Block>
    decreases |vs|
  {
    if vs == [] then []
    else [Line(VERTEX, [Str(i), fixed(vs[0].co.x, 8), fixed(vs[0].co.y, 8), fixed(vs[0].co.z, 8)])]
         + VertexLines(vs[1..], i + 1, fixed)
  }

  /** `*MESH_FACE i A: a B: b C: c AB: 1 BC: 1 CA: 1`. */
  function FaceLine(t: Tri, i: nat): Block {
    Line(FACE, [Str(i), "A:", Str(t.a), "B:", Str(t.b), "C:", Str(t.c), "AB:", "1", "BC:", "1", "CA:", "1"])
  }

  /** Each face line with the `*MESH_SMOOTHING 0` and `*MESH_MTLID 0` the
      same text line holds; the parser reads them as blocks of their own. */
  function FaceLines(ts: seq<Tri>, i: nat): seq<Block>
    decreases |ts|
  {
    if ts == [] then []
    else [FaceLine(ts[0], i), Line(SMOOTHING, ["0"]), Line(MTLID, ["0"])] + FaceLines(ts[1..], i + 1)
  }

  /** `*MESH_TVERT i u v`. */
  function TVertLines(vs: seq<Corner>, i: nat, fixed: Fixed): seq<Block>
    decreases |vs|
  {
    if vs == [] then []
    else [Line(TVERT, [Str(i), fixed(vs[0].uv.u, 7), fixed(vs[0].uv.v, 7)])] + TVertLines(vs[1..], i + 1, fixed)
  }

  /** `*MESH_TFACE i a b c`. */
  function TFaceLines(ts: seq<Tri>, i: nat): seq<Block>
    decreases |ts|
  {
    if ts == [] then []
    else [Line(TFACE, [Str(i), Str(ts[0].a), Str(ts[0].b), Str(ts[0].c)])] + TFaceLines(ts[1..], i + 1)
  }

  /** The children of `*MESH`, in the order `Surface.saveToFile` writes them. */
  function MeshChildren(s: Surface, fixed: Fixed): seq<Block> {
    [ Line(TIMEVALUE, ["0"]),
      Line(NUMVERTEX, [Str(|s.verts|)]),
      Line(NUMFACES, [Str(|s.tris|)]),
      Group(VERTEX_LIST, VertexLines(s.verts, 0, fixed)),
      Group(FACE_LIST, FaceLines(s.tris, 0)),
      Line(NUMTVERTEX, [Str(|s.verts|)]),
      Group(TVERT_LIST, TVertLines(s.verts, 0, fixed)),
      Line(NUMTVFACES, [Str(|s.tris|)]),
      Group(TFACE_LIST, TFaceLines(s.tris, 0)) ]
  }

  /** `Surface.saveToFile`. */
  function SurfaceBlock(s: Surface, fixed: Fixed): Block {
    Group(GEOMOBJECT, [Group(MESH, MeshChildren(s, fixed)), Line(MATERIAL_REF, [Str(s.materialIndex)])])
  }

  /** One `*GEOMOBJECT` per surface, in order: its mesh first, then the
      reference to the surface's material. */
  function SurfaceBlocks(ss: seq<Surface>, fixed: Fixed): (r: seq<Block>)
    ensures |r| == |ss|
    ensures forall k | 0 <= k < |ss| ::
      r[k].name == Upper(GEOMOBJECT) && r[k].parameters == [] && |r[k].children| == 2
      && r[k].children[0].name == Upper(MESH)
      && r[k].children[0].children == MeshChildren(ss[k], fixed)
      && r[k].children[1] == Block(Upper(MATERIAL_REF), [Str(ss[k].materialIndex)], [])
    decreases |ss|
  {
    if ss == [] then [] else [SurfaceBlock(ss[0], fixed)] + SurfaceBlocks(ss[1..], fixed)
  }

  /** `*MATERIAL i { *MATERIAL_NAME "name" }`, numbered from `i`. */
  function MaterialBlocks(ms: seq<Material>, i: nat): (r: seq<Block>)
    ensures |r| == |ms|
    ensures forall k | 0 <= k < |ms| ::
      r[k] == Block(Upper(MATERIAL), [Str(i + k)], [Block(Upper(MATERIAL_NAME), [ms[k].name], [])])
    decreases |ms|
  {
    if ms == [] then []
    else [Block(Upper(MATERIAL), [Str(i)], [Line(MATERIAL_NAME, [ms[0].name])])] + MaterialBlocks(ms[1..], i + 1)
  }

  function MaterialListBlock(ms: seq<Material>): Block {
    Group(MATERIAL_LIST, [Line(MATERIAL_COUNT, [Str(|ms|)])] + MaterialBlocks(ms, 0))
  }

  /** `ModelExporter.saveToFile`: the header, the material list, then the
      surfaces. */
  function Save(m: Model, fixed: Fixed): seq<Block> {
    [Line(HEADER, [VERSION]), MaterialListBlock(m.materials)] + SurfaceBlocks(m.surfaces, fixed)
  }
}

=== FILE: ase_import.dfy ===
/** What the ASE importer makes of the parsed blocks: the header check, the
    single material list with its numbered materials and their names, and
    one object per `*GEOMOBJECT` with its vertex, face and UV lists. Block
    names are compared after lower-casing. */
module AseImport {

  import opened Outcome
  import opened AseBlocks
  import CfgText

  // ------------------------------------------------------------- names

  function LowerChar(c: char): char {
    if 'A' <= c <= 'Z' then (c as int + 32) as char else c
  }

  function UpperChar(c: char): char {
    if 'a' <= c <= 'z' then (c as int - 32) as char else c
  }

  /** `str.lower()` on the ASCII letters. */
  function Lower(s: string): (r: string)
    ensures |r| == |s|
  {
    seq(|s|, i requires 0 <= i < |s| => LowerChar(s[i]))
  }

  /** `str.upper()` on the ASCII letters: how the exporter spells a key. */
  function Upper(s: string): (r: string)
    ensures |r| == |s|
  {
    seq(|s|, i requires 0 <= i < |s| => UpperChar(s[i]))
  }

  /** A key the importer compares lower-cased names with. */
  predicate Key(k: string) {
    forall i | 0 <= i < |k| :: !('A' <= k[i] <= 'Z')
  }

  /** The upper-case spelling of a key is recognised as that key. */
  lemma LowerUpper(k: string)
    requires Key(k)
    ensures Lower(Upper(k)) == k
  {
    forall i | 0 <= i < |k|
      ensures Lower(Upper(k))[i] == k[i]
    {
      assert Upper(k)[i] == UpperChar(k[i]);
    }
  }

  const HEADER := "3dsmax_asciiexport"
  const VERSION := "200"
  const MATERIAL_LIST := "material_list"
  const MATERIAL := "material"
  const MATERIAL_NAME := "material_name"
  const GEOMOBJECT := "geomobject"
  const MESH := "mesh"
  const MATERIAL_REF := "material_ref"
  const VERTEX_LIST := "mesh_vertex_list"
  const FACE_LIST := "mesh_face_list"
  const TVERT_LIST := "mesh_tvertlist"
  const TFACE_LIST := "mesh_tfacelist"
  const VERTEX := "mesh_vertex"
  const FACE := "mesh_face"
  const TVERT := "mesh_tvert"
  const TFACE := "mesh_tface"

  /** The blocks of `bs` whose lower-cased name is `key`, in order. */
  function Select(bs: seq<Block>, key: string): (r: seq<Block>)
    ensures |r| <= |bs|
  {
    if bs == [] then [] else (if Lower(bs[0].name) == key then [bs[0]] else []) + Select(bs[1..], key)
  }

  lemma {:induction false} SelectMembers(bs: seq<Block>, key: string, b: Block)
    ensures b in Select(bs, key) <==> b in bs && Lower(b.name) == key
  {
    if bs != [] {
      SelectMembers(bs[1..], key, b);
      assert bs == [bs[0]] + bs[1..];
    }
  }

  lemma {:induction false} SelectAppend(a: seq<Block>, b: seq<Block>, key: string)
    ensures Select(a + b, key) == Select(a, key) + Select(b, key)
  {
    if a != [] {
      SelectAppend(a[1..], b, key);
      assert (a + b)[1..] == a[1..] + b;
    } else {
      assert a + b == b;
    }
  }

  // ------------------------------------------------------------ errors

  datatype ImportError =
    | Syntax(error: SyntaxError)
    | NoBlocks
    | NotAse(name: string)
    | WrongVersion
    | NoMaterialList
    | ManyMaterialLists
    | MaterialsOutOfOrder
    | NoMaterialName
    | BadObject
    | BadMesh
    | NotANumber(field: string)

  // ---------------------------------------------------- header, materials

  /** The blocks after the `*3DSMAX_ASCIIEXPORT 200` header block. */
  function CheckHeader(blocks: seq<Block>): (r: Result<seq<Block>, ImportError>)
    ensures r.Ok? <==> (|blocks| > 0 && Lower(blocks[0].name) == HEADER
                        && |blocks[0].parameters| > 0 && blocks[0].parameters[0] == VERSION)
    ensures r.Ok? ==> blocks == blocks[..1] + r.value
  {
    if blocks == [] then Err(NoBlocks)
    else if Lower(blocks[0].name) != HEADER then Err(NotAse(blocks[0].name))
    else if blocks[0].parameters == [] || blocks[0].parameters[0] != VERSION then Err(WrongVersion)
    else Ok(blocks[1..])
  }

  /** The one `*MATERIAL_LIST` among `blocks`. */
  function MaterialList(blocks: seq<Block>): (r: Result<Block, ImportError>)
    ensures r.Ok? <==> |Select(blocks, MATERIAL_LIST)| == 1
    ensures r.Ok? ==> r.value in blocks && Lower(r.value.name) == MATERIAL_LIST
    ensures r.Ok? ==> r.value == Select(blocks, MATERIAL_LIST)[0]
    ensures r.Err? ==> r.error == (if Select(blocks, MATERIAL_LIST) == [] then NoMaterialList else ManyMaterialLists)
  {
    var lists := Select(blocks, MATERIAL_LIST);
    if lists == [] then Err(NoMaterialList)
    else if |lists| > 1 then Err(ManyMaterialLists)
    else SelectMembers(blocks, MATERIAL_LIST, lists[0]); Ok(lists[0])
  }

  /** Every `*MATERIAL` carries its position as its first parameter. */
  predicate InOrder(mats: seq<Block>) {
    forall i | 0 <= i < |mats| :: |mats[i].parameters| > 0 && mats[i].parameters[0] == CfgText.IntToString(i)
  }

  /** The first parameter of each block, or `None` when one has none. */
  function Firsts(ns: seq<Block>): (r: Option<seq<string>>)
    ensures r.Some? <==> forall i | 0 <= i < |ns| :: |ns[i].parameters| > 0
    ensures r.Some? ==> |r.value| == |ns| && forall i | 0 <= i < |ns| :: r.value[i] == ns[i].parameters[0]
  {
    if ns == [] then Some([])
    else if ns[0].parameters == [] then None
    else match Firsts(ns[1..])
      case None => None
      case Some(rest) => Some([ns[0].parameters[0]] + rest)
  }

  /** A material with a `*MATERIAL_NAME`, every such child having a parameter. */
  predicate Labelled(m: Block) {
    var f := Firsts(Select(m.children, MATERIAL_NAME));
    f.Some? && f.value != []
  }

  /** The name a labelled material gets: its first `*MATERIAL_NAME`'s first parameter. */
  function NameOf(m: Block): (r: string)
    requires Labelled(m)
    ensures var ns := Select(m.children, MATERIAL_NAME); |ns| > 0 && |ns[0].parameters| > 0 && r == ns[0].parameters[0]
  {
    Firsts(Select(m.children, MATERIAL_NAME)).value[0]
  }

  /** The names read so far; `complete` is false when a `*MATERIAL_NAME`
      without a parameter stopped the loop (reported, but the import goes on). */
  datatype Names = Names(names: seq<string>, complete: bool)

  function MaterialNames(mats: seq<Block>): (r: Result<Names, ImportError>)
    ensures r.Err? ==> r.error == NoMaterialName
    ensures r.Ok? ==> |r.value.names| <= |mats| && (r.value.complete <==> |r.value.names| == |mats|)
    ensures r.Ok? ==> forall i | 0 <= i < |r.value.names| :: Labelled(mats[i]) && r.value.names[i] == NameOf(mats[i])
    ensures (r.Ok? && r.value.complete) <==> forall i | 0 <= i < |mats| :: Labelled(mats[i])
  {
    if mats == [] then Ok(Names([], true))
    else match Firsts(Select(mats[0].children, MATERIAL_NAME))
      case None => Ok(Names([], false))
      case Some(ns) =>
        if ns == [] then Err(NoMaterialName)
        else match MaterialNames(mats[1..])
          case Err(e) => Err(e)
          case Ok(rest) => Ok(Names([ns[0]] + rest.names, rest.complete))
  }

  // ----------------------------------------------------------- objects

  /** An imported `*GEOMOBJECT`: its position among the `*GEOMOBJECT`s, its
      material reference, the vertex coordinates (three per vertex, as
      text), the corner indices (three per face), the UV pairs (as text)
      and the UV index triples. */
  datatype Object = Object(
    index: nat, materialRef: int, vertices: seq<string>, faces: seq<int>,
    tvertices: seq<seq<string>>, tfaces: seq<seq<int>>)

  /** A missing parameter (Python's IndexError, which skips the object) or a
      field `int()` rejects (ValueError, which stops the import). */
  datatype Fault = Missing | NotNumber(field: string)

  function DropTrailingSpace(s: string): (r: string)
    ensures |r| <= |s|
  {
    if s != [] && CfgText.IsSpace(s[|s| - 1]) then DropTrailingSpace(s[..|s| - 1]) else s
  }

  /** `int()` of a field: surrounding whitespace is ignored. */
  function Int(s: string): Option<int> {
    CfgText.ParseInt(DropTrailingSpace(CfgText.DropSpace(s)))
  }

  lemma IntOfString(i: int)
    ensures Int(CfgText.IntToString(i)) == Some(i)
  {
    var s := CfgText.IntToString(i);
    CfgText.ParseIntToString(i);
    assert !CfgText.IsSpace(s[0]) && !CfgText.IsSpace(s[|s| - 1]);
  }

  /** The parameters `lo` up to `hi`, kept as text: a missing one is a
      fault. */
  function Span(ps: seq<string>, lo: nat, hi: nat): (r: Result<seq<string>, Fault>)
    requires lo <= hi
  {
    if |ps| < hi then Err(Missing) else Ok(ps[lo..hi])
  }

  /** `int()` of the parameter at `at`. */
  function IntAt(ps: seq<string>, at: nat): (r: Result<int, Fault>)
    ensures r.Ok? <==> at < |ps| && Int(ps[at]).Some?
    ensures r.Ok? ==> Int(ps[at]) == Some(r.value)
    ensures r == Err(Missing) <==> at >= |ps|
  {
    if at >= |ps| then Err(Missing)
    else match Int(ps[at])
      case None => Err(NotNumber(ps[at]))
      case Some(n) => Ok(n)
  }

  /** `int()` of the parameters at `a`, `b` and `c`, in that order: the
      first missing or malformed one decides the fault. */
  function IntTriple(ps: seq<string>, a: nat, b: nat, c: nat): (r: Result<seq<int>, Fault>) {
    var x :- IntAt(ps, a);
    var y :- IntAt(ps, b);
    var z :- IntAt(ps, c);
    Ok([x, y, z])
  }

  /** `Span` of every block, block by block. */
  function SpanRows(bs: seq<Block>, lo: nat, hi: nat): (r: Result<seq<seq<string>>, Fault>)
    requires lo <= hi
  {
    if bs == [] then Ok([])
    else match Span(bs[0].parameters, lo, hi)
      case Err(e) => Err(e)
      case Ok(row) =>
        match SpanRows(bs[1..], lo, hi)
          case Err(e) => Err(e)
          case Ok(rest) => Ok([row] + rest)
  }

  /** `IntTriple` of every block, block by block. */
  function TripleRows(bs: seq<Block>, a: nat, b: nat, c: nat): (r: Result<seq<seq<int>>, Fault>) {
    if bs == [] then Ok([])
    else match IntTriple(bs[0].parameters, a, b, c)
      case Err(e) => Err(e)
      case Ok(row) =>
        match TripleRows(bs[1..], a, b, c)
          case Err(e) => Err(e)
          case Ok(rest) => Ok([row] + rest)
  }

  /** Rows of text fields: every block is read, or the first too short
      one makes it a missing parameter. */
  lemma {:induction false} SpanRowsRead(bs: seq<Block>, lo: nat, hi: nat)
    requires lo <= hi
    ensures var r := SpanRows(bs, lo, hi);
      && (r.Ok? <==> forall i | 0 <= i < |bs| :: hi <= |bs[i].parameters|)
      && (r.Err? ==> r.error == Missing)
      && (r.Ok? ==> |r.value| == |bs| && forall i | 0 <= i < |bs| :: r.value[i] == bs[i].parameters[lo..hi])
  {
    if bs != [] {
      SpanRowsRead(bs[1..], lo, hi);
      var r := SpanRows(bs, lo, hi);
      if r.Ok? {
        assert forall i | 1 <= i < |bs| :: bs[i] == bs[1..][i - 1];
      } else if |bs[0].parameters| >= hi {
        var i :| 0 <= i < |bs[1..]| && hi > |bs[1..][i].parameters|;
        assert bs[1..][i] == bs[i + 1];
      }
    }
  }

  /** Rows of numbers: each row is the `int()` of the three fields. */
  lemma {:induction false} TripleRowsRead(bs: seq<Block>, a: nat, b: nat, c: nat)
    ensures var r := TripleRows(bs, a, b, c);
      r.Ok? ==> |r.value| == |bs| && forall i | 0 <= i < |bs| :: IntTriple(bs[i].parameters, a, b, c) == Ok(r.value[i])
  {
    if bs != [] {
      TripleRowsRead(bs[1..], a, b, c);
      var r := TripleRows(bs, a, b, c);
      if r.Ok? {
        assert forall i | 1 <= i < |bs| :: bs[i] == bs[1..][i - 1];
      }
    }
  }

  function Flatten<T>(xss: seq<seq<T>>): (r: seq<T>) {
    if xss == [] then [] else xss[0] + Flatten(xss[1..])
  }

  /** The lists of one object, in the order the importer reads them. */
  function Contents(index: nat, ref: Block, vl: Block, fl: Block, tvl: Block, tfl: Block): (r: Result<Object, Fault>)
    ensures r.Ok? ==> r.value.index == index && |ref.parameters| > 0 && Int(ref.parameters[0]) == Some(r.value.materialRef)
  {
    var m :- IntAt(ref.parameters, 0);
    var vs :- SpanRows(Select(vl.children, VERTEX), 1, 4);
    var fs :- TripleRows(Select(fl.children, FACE), 2, 4, 6);
    var tvs :- SpanRows(Select(tvl.children, TVERT), 1, 3);
    var tfs :- TripleRows(Select(tfl.children, TFACE), 1, 2, 3);
    Ok(Object(index, m, Flatten(vs), Flatten(fs), tvs, tfs))
  }

  /** One `*GEOMOBJECT`: `Ok(Some(o))` when imported, `Ok(None)` when a
      missing parameter made the importer skip it, `Err` when the import
      stops. */
  function ReadObject(b: Block, index: nat): (r: Result<Option<Object>, ImportError>)
    ensures r.Err? ==> r.error.BadObject? || r.error.BadMesh? || r.error.NotANumber?
    ensures r.Ok? && r.value.Some? ==> r.value.value.index == index
    ensures (|Select(b.children, MESH)| != 1 || |Select(b.children, MATERIAL_REF)| != 1) ==> r == Err(BadObject)
  {
    var meshes := Select(b.children, MESH);
    var refs := Select(b.children, MATERIAL_REF);
    if |meshes| != 1 || |refs| != 1 then Err(BadObject)
    else
      var mesh := meshes[0];
      var vl := Select(mesh.children, VERTEX_LIST);
      var fl := Select(mesh.children, FACE_LIST);
      var tvl := Select(mesh.children, TVERT_LIST);
      var tfl := Select(mesh.children, TFACE_LIST);
      if |vl| != 1 || |fl| != 1 || |tvl| != 1 || |tfl| != 1 then Err(BadMesh)
      else match Contents(index, refs[0], vl[0], fl[0], tvl[0], tfl[0])
        case Ok(o) => Ok(Some(o))
        case Err(Missing) => Ok(None)
        case Err(NotNumber(f)) => Err(NotANumber(f))
  }

  /** The objects read and the indices of the skipped ones. */
  datatype Objects = Objects(objects: seq<Object>, skipped: seq<nat>)

  /** The `*GEOMOBJECT`s of `blocks`, numbered from `index` on. */
  function ReadObjects(blocks: seq<Block>, index: nat): (r: Result<Objects, ImportError>)
    ensures r.Err? ==> r.error.BadObject? || r.error.BadMesh? || r.error.NotANumber?
  {
    if blocks == [] then Ok(Objects([], []))
    else if Lower(blocks[0].name) != GEOMOBJECT then ReadObjects(blocks[1..], index)
    else
      var o :- ReadObject(blocks[0], index);
      var rest :- ReadObjects(blocks[1..], index + 1);
      if o.Some? then Ok(Objects([o.value] + rest.objects, rest.skipped))
      else Ok(Objects(rest.objects, [index] + rest.skipped))
  }

  /** Every `*GEOMOBJECT` is read or skipped, and the objects read keep
      their positions, in increasing order. */
  lemma {:induction false} ObjectsNumbered(blocks: seq<Block>, index: nat)
    ensures var r := ReadObjects(blocks, index); r.Ok? ==>
      && |r.value.objects| + |r.value.skipped| == |Select(blocks, GEOMOBJECT)|
      && (forall i | 0 <= i < |r.value.objects| :: index <= r.value.objects[i].index < index + |Select(blocks, GEOMOBJECT)|)
      && (forall i, j | 0 <= i < j < |r.value.objects| :: r.value.objects[i].index < r.value.objects[j].index)
    decreases |blocks|
  {
    if blocks != [] {
      ObjectsNumbered(blocks[1..], if Lower(blocks[0].name) == GEOMOBJECT then index + 1 else index);
    }
  }

  // ------------------------------------------------------------ import

  /** Everything the importer hands to Blender. */
  datatype Imported = Imported(names: seq<string>, namesComplete: bool, objects: Objects)

  /** The file starts with the `*3DSMAX_ASCIIEXPORT 200` block. */
  predicate Headed(blocks: seq<Block>) {
    |blocks| > 0 && Lower(blocks[0].name) == HEADER
    && |blocks[0].parameters| > 0 && blocks[0].parameters[0] == VERSION
  }

  /** Exactly one `*MATERIAL_LIST` follows the header. */
  predicate OneList(blocks: seq<Block>) {
    Headed(blocks) && |Select(blocks[1..], MATERIAL_LIST)| == 1
  }

  /** The `*MATERIAL`s of that one list. */
  function Listed(blocks: seq<Block>): seq<Block>
    requires OneList(blocks)
  {
    Select(Select(blocks[1..], MATERIAL_LIST)[0].children, MATERIAL)
  }

  /** The checks in the order the importer makes them: the header, the
      material list, the material order, the material names and then the
      objects; the first that fails ends the import with its error. */
  function Import(blocks: seq<Block>): (r: Result<Imported, ImportError>)
    ensures r.Err? ==> !r.error.Syntax?
    ensures blocks == [] ==> r == Err(NoBlocks)
    ensures blocks != [] && Lower(blocks[0].name) != HEADER ==> r == Err(NotAse(blocks[0].name))
    ensures blocks != [] && Lower(blocks[0].name) == HEADER && !Headed(blocks) ==> r == Err(WrongVersion)
    ensures Headed(blocks) && Select(blocks[1..], MATERIAL_LIST) == [] ==> r == Err(NoMaterialList)
    ensures Headed(blocks) && |Select(blocks[1..], MATERIAL_LIST)| > 1 ==> r == Err(ManyMaterialLists)
    ensures OneList(blocks) && !InOrder(Listed(blocks)) ==> r == Err(MaterialsOutOfOrder)
    ensures OneList(blocks) && InOrder(Listed(blocks)) ==>
      (r == Err(NoMaterialName) <==> MaterialNames(Listed(blocks)).Err?)
    ensures r.Err? && (r.error.BadObject? || r.error.BadMesh? || r.error.NotANumber?) ==>
      OneList(blocks) && InOrder(Listed(blocks)) && MaterialNames(Listed(blocks)).Ok?
    ensures r.Ok? ==> OneList(blocks) && InOrder(Listed(blocks))
    ensures r.Ok? ==> var mats := Listed(blocks);
      && |r.value.names| <= |mats|
      && (r.value.namesComplete <==> forall i | 0 <= i < |mats| :: Labelled(mats[i]))
      && (forall i | 0 <= i < |r.value.names| :: Labelled(mats[i]) && r.value.names[i] == NameOf(mats[i]))
    ensures r.Ok? ==>
      |r.value.objects.objects| + |r.value.objects.skipped| == |Select(blocks[1..], GEOMOBJECT)|
  {
    match CheckHeader(blocks)
    case Err(e) => Err(e)
    case Ok(rest) =>
      assert rest == blocks[1..];
      match MaterialList(rest)
      case Err(e) => Err(e)
      case Ok(list) =>
        var mats := Select(list.children, MATERIAL);
        assert mats == Listed(blocks);
        if !InOrder(mats) then Err(MaterialsOutOfOrder)
        else
          match MaterialNames(mats)
          case Err(e) => Err(e)
          case Ok(names) =>
            ObjectsNumbered(rest, 0);
            match ReadObjects(rest, 0)
            case Err(e) => Err(e)
            case Ok(objects) => Ok(Imported(names.names, names.complete, objects))
  }

  /** The importer on the text of a file: a syntax error, and only a
      syntax error, ends it before the blocks are looked at. */
  function ImportText(text: string): (r: Result<Imported, ImportError>)
    ensures Parse(text).Err? <==> r.Err? && r.error.Syntax?
    ensures Parse(text).Err? ==> r == Err(Syntax(Parse(text).error))
    ensures Parse(text).Ok? ==> r == Import(Parse(text).value)
  {
    match Parse(text)
      case Err(e) => Err(Syntax(e))
      case Ok(blocks) => Import(blocks)
  }
}

=== FILE: ase_lexer.dfy ===
/** The character-level tokenizer of the ASE importer. The file cursor is an
    index into the text; reading a character advances it by one, and
    "seeking back" is returning the index from before the read.

    Only space, tab and newline count as whitespace: a form feed is
    an ordinary token character. */
module AseLexer {

  predicate IsBlank(c: char) {
    c == ' ' || c == '\t' || c == '\n'
  }

  /** The three characters that form tokens of their own. */
  predicate IsPunct(c: char) {
    c == '{' || c == '}' || c == '*'
  }

  /** A character that ends an unquoted token without being part of it. */
  predicate Delimits(c: char) {
    IsBlank(c) || IsPunct(c) || c == '"'
  }

  /** What a read at `pos` returns: the token and the cursor after it. */
  datatype Token = Token(text: string, next: nat)

  /** The cursor moved past whitespace: onto the first other character, or
      to the end of the text. */
  function SkipWhitespace(text: string, pos: nat): (r: nat)
    requires pos <= |text|
    ensures pos <= r <= |text|
    ensures r == |text| || !IsBlank(text[r])
    decreases |text| - pos
  {
    if pos < |text| && IsBlank(text[pos]) then SkipWhitespace(text, pos + 1) else pos
  }

  /** The character loop of the token reader, with the token read so far and
      whether a quoted string is open. Every character appended to the
      token was consumed, so the cursor moves at least as far as the token
      grows. */
  function Scan(text: string, pos: nat, token: string, quoted: bool): (r: Token)
    requires pos <= |text|
    ensures pos <= r.next <= |text|
    ensures r.next >= pos + |r.text| - |token|
    decreases |text| - pos
  {
    if pos == |text| then Token(token, pos)
    else
      var c := text[pos];
      if c == '"' then
        if quoted then Token(token, pos + 1)
        else if token == [] then Scan(text, pos + 1, token, true)
        else Token(token, pos)
      else if IsBlank(c) && !quoted then Token(token, pos)
      else if IsPunct(c) && !quoted then
        if token == [] then Token([c], pos + 1) else Token(token, pos)
      else Scan(text, pos + 1, token + [c], quoted)
  }

  /** Skips whitespace and reads one token. A non-empty token always moves
      the cursor. */
  function ReadToken(text: string, pos: nat): (r: Token)
    requires pos <= |text|
    ensures pos <= r.next <= |text|
    ensures r.text != [] ==> r.next > pos
  {
    Scan(text, SkipWhitespace(text, pos), [], false)
  }

  /** Only whitespace between `a` and `b`. */
  predicate Blanks(text: string, a: nat, b: nat) {
    a <= b <= |text| && forall i | a <= i < b :: IsBlank(text[i])
  }

  /** `w` stands in `text` at position `k`. */
  predicate At(text: string, k: nat, w: string)
    decreases |w|
  {
    k + |w| <= |text| && (|w| == 0 || (text[k] == w[0] && At(text, k + 1, w[1..])))
  }

  /** The end of the text, or a character that ends an unquoted token. */
  predicate Stops(text: string, e: nat) {
    e <= |text| && (e == |text| || Delimits(text[e]))
  }

  /** A token the reader returns as written: non-empty, and without
      whitespace, punctuation or quotes. */
  predicate Plain(w: string) {
    |w| > 0 && forall j | 0 <= j < |w| :: !Delimits(w[j])
  }

  predicate Unquoted(s: string) {
    forall j | 0 <= j < |s| :: s[j] != '"'
  }

  lemma {:induction false} At2(text: string, k: nat, u: string, v: string)
    requires At(text, k, u + v)
    ensures At(text, k, u) && At(text, k + |u|, v)
    decreases |u|
  {
    if |u| == 0 {
      assert u + v == v;
    } else {
      assert (u + v)[1..] == u[1..] + v;
      At2(text, k + 1, u[1..], v);
    }
  }

  lemma {:induction false} AtChar(text: string, k: nat, w: string, j: nat)
    requires At(text, k, w) && j < |w|
    ensures text[k + j] == w[j]
    decreases j
  {
    if j > 0 {
      AtChar(text, k + 1, w[1..], j - 1);
    }
  }

  /** Whatever follows `k` stands there. */
  lemma {:induction false} AtRest(text: string, k: nat)
    requires k <= |text|
    ensures At(text, k, text[k..])
    decreases |text| - k
  {
    if k < |text| {
      assert text[k..][1..] == text[k + 1..];
      AtRest(text, k + 1);
    }
  }

  lemma {:induction false} AtSnoc(text: string, k: nat, t: string, c: char)
    requires At(text, k, t) && k + |t| < |text| && text[k + |t|] == c
    ensures At(text, k, t + [c])
    decreases |t|
  {
    if |t| == 0 {
      assert t + [c] == [c];
      assert [c][1..] == [];
    } else {
      assert (t + [c])[1..] == t[1..] + [c];
      AtSnoc(text, k + 1, t[1..], c);
    }
  }

  lemma OneBlank(text: string, q: nat)
    requires q < |text| && IsBlank(text[q])
    ensures Blanks(text, q, q + 1)
  {
  }

  /** Skipping whitespace stops exactly at the first other character. */
  lemma {:induction false} SkipBlanks(text: string, at: nat, k: nat)
    requires Blanks(text, at, k) && (k == |text| || !IsBlank(text[k]))
    ensures SkipWhitespace(text, at) == k
    decreases k - at
  {
    if at < k {
      SkipBlanks(text, at + 1, k);
    }
  }

  /** The whitespace skipped is all whitespace. */
  lemma {:induction false} SkippedBlank(text: string, at: nat)
    requires at <= |text|
    ensures Blanks(text, at, SkipWhitespace(text, at))
    decreases |text| - at
  {
    if at < |text| && IsBlank(text[at]) {
      SkippedBlank(text, at + 1);
    }
  }

  /** Nothing but whitespace to the end: the empty token, at the end. */
  lemma LexEnd(text: string, at: nat)
    requires Blanks(text, at, |text|)
    ensures ReadToken(text, at) == Token([], |text|)
  {
    SkipBlanks(text, at, |text|);
  }

  /** A punctuation character after whitespace is a token on its own, and
      is consumed. */
  lemma LexPunct(text: string, at: nat, k: nat)
    requires Blanks(text, at, k) && k < |text| && IsPunct(text[k])
    ensures ReadToken(text, at) == Token([text[k]], k + 1)
  {
    SkipBlanks(text, at, k);
  }

  /** The same, for a known character and end position. */
  lemma LexChar(text: string, at: nat, k: nat, c: char, next: nat)
    requires Blanks(text, at, k) && k < |text| && text[k] == c && IsPunct(c) && next == k + 1
    ensures ReadToken(text, at) == Token([c], next)
  {
    LexPunct(text, at, k);
  }

  /** A two-character piece placed in the text. */
  lemma AtPair(text: string, k: nat, a: char, b: char)
    requires At(text, k, [a, b])
    ensures text[k] == a && text[k + 1] == b
  {
    AtChar(text, k, [a, b], 0);
    AtChar(text, k, [a, b], 1);
  }

  lemma {:induction false} ScanPlain(text: string, k: nat, w: string, i: nat)
    requires Plain(w) && At(text, k, w) && Stops(text, k + |w|) && i <= |w|
    requires i > 0 || text[k] != '"'
    ensures Scan(text, k + i, w[..i], false) == Token(w, k + |w|)
    decreases |w| - i
  {
    if i < |w| {
      AtChar(text, k, w, i);
      assert w[..i] + [w[i]] == w[..i + 1];
      ScanPlain(text, k, w, i + 1);
    } else {
      assert w[..i] == w;
    }
  }

  /** An unquoted word after whitespace, followed by a delimiter or the
      end, is read as itself and the delimiter is left unconsumed. */
  lemma LexPlain(text: string, at: nat, k: nat, w: string)
    requires Blanks(text, at, k) && Plain(w) && At(text, k, w) && Stops(text, k + |w|)
    ensures ReadToken(text, at) == Token(w, k + |w|)
  {
    AtChar(text, k, w, 0);
    SkipBlanks(text, at, k);
    ScanPlain(text, k, w, 0);
  }

  lemma {:induction false} ScanQuoted(text: string, k: nat, s: string, i: nat)
    requires Unquoted(s) && At(text, k, s) && k + |s| < |text| && text[k + |s|] == '"' && i <= |s|
    ensures Scan(text, k + i, s[..i], true) == Token(s, k + |s| + 1)
    decreases |s| - i
  {
    if i < |s| {
      AtChar(text, k, s, i);
      assert s[..i] + [s[i]] == s[..i + 1];
      ScanQuoted(text, k, s, i + 1);
    } else {
      assert s[..i] == s;
    }
  }

  /** A quoted string is read without its quotes, whitespace and braces
      included, and the closing quote is consumed. */
  lemma LexQuoted(text: string, at: nat, k: nat, s: string)
    requires Blanks(text, at, k) && k < |text| && text[k] == '"'
    requires Unquoted(s) && At(text, k + 1, s) && k + 1 + |s| < |text| && text[k + 1 + |s|] == '"'
    ensures ReadToken(text, at) == Token(s, k + |s| + 2)
  {
    SkipBlanks(text, at, k);
    ScanQuoted(text, k + 1, s, 0);
    assert s[..0] == [];
  }

  /** A quote in the middle of a word ends the token and is left for the
      next read. */
  lemma {:induction false} QuoteEndsWord(text: string, at: nat, k: nat, w: string)
    requires Blanks(text, at, k) && Plain(w) && At(text, k, w)
    requires k + |w| < |text| && text[k + |w|] == '"'
    ensures ReadToken(text, at) == Token(w, k + |w|)
  {
    LexPlain(text, at, k, w);
  }

  /** A string left open at the end of the text yields what was read. */
  lemma UnterminatedString(text: string, at: nat, k: nat)
    requires Blanks(text, at, k) && k < |text| && text[k] == '"'
    requires Unquoted(text[k + 1..])
    ensures ReadToken(text, at) == Token(text[k + 1..], |text|)
  {
    var s := text[k + 1..];
    AtRest(text, k + 1);
    SkipBlanks(text, at, k);
    UnterminatedScan(text, k + 1, s, 0);
    assert s[..0] == [];
  }

  lemma {:induction false} UnterminatedScan(text: string, k: nat, s: string, i: nat)
    requires k + |s| == |text| && At(text, k, s) && Unquoted(s) && i <= |s|
    ensures Scan(text, k + i, s[..i], true) == Token(s, |text|)
    decreases |s| - i
  {
    if i < |s| {
      AtChar(text, k, s, i);
      assert s[..i] + [s[i]] == s[..i + 1];
      UnterminatedScan(text, k, s, i + 1);
    } else {
      assert s[..i] == s;
    }
  }

  /** What an unquoted read returns: the token holds no delimiter, and it
      is either a single punctuation character or is followed by a
      delimiter or the end, left unconsumed. */
  lemma TokenShape(text: string, at: nat)
    requires at <= |text|
    requires var k := SkipWhitespace(text, at); k == |text| || text[k] != '"'
    ensures var k := SkipWhitespace(text, at);
            var r := ReadToken(text, at);
            && Blanks(text, at, k)
            && At(text, k, r.text)
            && (if r.text != [] && IsPunct(r.text[0]) then r.text == [r.text[0]] && r.next == k + 1
                else Plain(r.text) || r.text == [])
            && (r.text != [] && !IsPunct(r.text[0]) ==> r.next == k + |r.text| && Stops(text, r.next))
  {
    var k := SkipWhitespace(text, at);
    SkippedBlank(text, at);
    ScanShape(text, k, []);
  }

  lemma {:induction false} ScanShape(text: string, k: nat, token: string)
    requires k <= |text| && |token| <= k && At(text, k - |token|, token)
    requires forall j | 0 <= j < |token| :: !Delimits(token[j])
    requires token == [] ==> k == |text| || text[k] != '"'
    ensures var r := Scan(text, k, token, false);
            && At(text, k - |token|, r.text)
            && (if r.text != [] && IsPunct(r.text[0]) then token == [] && r.text == [r.text[0]] && r.next == k + 1
                else Plain(r.text) || r.text == [])
            && (r.text != [] && !IsPunct(r.text[0]) ==> r.next == k - |token| + |r.text| && Stops(text, r.next))
    decreases |text| - k
  {
    if k < |text| && !Delimits(text[k]) {
      var t := token + [text[k]];
      AtSnoc(text, k - |token|, token, text[k]);
      ScanShape(text, k + 1, t);
    }
  }

  /** The reader never puts a quote into a token. */
  lemma {:induction false} ScanUnquoted(text: string, pos: nat, token: string, quoted: bool)
    requires pos <= |text| && Unquoted(token)
    ensures Unquoted(Scan(text, pos, token, quoted).text)
    decreases |text| - pos
  {
    if pos < |text| {
      var c := text[pos];
      if c == '"' {
        if !quoted && token == [] {
          ScanUnquoted(text, pos + 1, token, true);
        }
      } else if !((IsBlank(c) || IsPunct(c)) && !quoted) {
        ScanUnquoted(text, pos + 1, token + [c], quoted);
      }
    }
  }

  lemma TokenUnquoted(text: string, pos: nat)
    requires pos <= |text|
    ensures Unquoted(ReadToken(text, pos).text)
  {
    ScanUnquoted(text, SkipWhitespace(text, pos), [], false);
  }
}

=== FILE: ase_round_trip.dfy ===
/** What the importer makes of what the exporter writes: the header and
    the material list pass the checks, every material keeps its name, and
    every surface comes back as an object with the exporter's vertices,
    triangles and UVs. */
module AseRoundTrip {

  import opened Outcome
  import opened AseBlocks
  import opened AseImport
  import opened AseExport
  import CfgText

  // ------------------------------------------------- selection by key

  /** `bs[i]` is named `ks[i]` in capitals. */
  predicate Spelled(bs: seq<Block>, ks: seq<string>) {
    |bs| == |ks| && forall i | 0 <= i < |bs| :: Key(ks[i]) && bs[i].name == Upper(ks[i])
  }

  lemma {:induction false} SelectNone(bs: seq<Block>, ks: seq<string>, key: string)
    requires Spelled(bs, ks) && forall i | 0 <= i < |ks| :: ks[i] != key
    ensures Select(bs, key) == []
  {
    if bs != [] {
      LowerUpper(ks[0]);
      SelectNone(bs[1..], ks[1..], key);
    }
  }

  /** Among blocks named by keys, the one whose key is `key`. */
  lemma {:induction false} SelectOnly(bs: seq<Block>, ks: seq<string>, key: string, j: nat)
    requires Spelled(bs, ks) && j < |ks| && ks[j] == key
    requires forall i | 0 <= i < |ks| && i != j :: ks[i] != key
    ensures Select(bs, key) == [bs[j]]
  {
    LowerUpper(ks[0]);
    if j == 0 {
      SelectNone(bs[1..], ks[1..], key);
    } else {
      SelectOnly(bs[1..], ks[1..], key, j - 1);
    }
  }

  /** Blocks all named `key` in capitals are all selected. */
  lemma {:induction false} SelectAll(bs: seq<Block>, key: string)
    requires Key(key) && forall i | 0 <= i < |bs| :: bs[i].name == Upper(key)
    ensures Select(bs, key) == bs
  {
    if bs != [] {
      LowerUpper(key);
      SelectAll(bs[1..], key);
    }
  }

  // ------------------------------------------------------- what comes back

  function CoRows(vs: seq<Corner>, fixed: Fixed): seq<seq<string>> {
    if vs == [] then [] else [[fixed(vs[0].co.x, 8), fixed(vs[0].co.y, 8), fixed(vs[0].co.z, 8)]] + CoRows(vs[1..], fixed)
  }

  function UvRows(vs: seq<Corner>, fixed: Fixed): seq<seq<string>> {
    if vs == [] then [] else [[fixed(vs[0].uv.u, 7), fixed(vs[0].uv.v, 7)]] + UvRows(vs[1..], fixed)
  }

  function TriRows(ts: seq<Tri>): seq<seq<int>> {
    if ts == [] then [] else [[ts[0].a, ts[0].b, ts[0].c]] + TriRows(ts[1..])
  }

  /** The object the importer reads from the `k`-th surface: the printed
      coordinates three per vertex, the corner numbers three per triangle,
      the printed UV pairs, and the corner numbers again as UV triples. */
  function Expected(s: Surface, k: nat, fixed: Fixed): Object {
    Object(k, s.materialIndex, Flatten(CoRows(s.verts, fixed)), Flatten(TriRows(s.tris)), UvRows(s.verts, fixed), TriRows(s.tris))
  }

  function ExpectedAll(ss: seq<Surface>, k: nat, fixed: Fixed): (r: seq<Object>)
    ensures |r| == |ss|
    decreases |ss|
  {
    if ss == [] then [] else [Expected(ss[0], k, fixed)] + ExpectedAll(ss[1..], k + 1, fixed)
  }

  function NamesOf(ms: seq<Material>): (r: seq<string>)
    ensures |r| == |ms|
  {
    if ms == [] then [] else [ms[0].name] + NamesOf(ms[1..])
  }

  lemma {:induction false} NamesOfAt(ms: seq<Material>, j: nat)
    requires j < |ms|
    ensures NamesOf(ms)[j] == ms[j].name
  {
    if j > 0 {
      NamesOfAt(ms[1..], j - 1);
    }
  }

  lemma {:induction false} ExpectedAllAt(ss: seq<Surface>, k: nat, fixed: Fixed, j: nat)
    requires j < |ss|
    ensures ExpectedAll(ss, k, fixed)[j] == Expected(ss[j], k + j, fixed)
    decreases j
  {
    if j > 0 {
      ExpectedAllAt(ss[1..], k + 1, fixed, j - 1);
    }
  }

  /** Three corner numbers per triangle, and one UV triple. */
  lemma {:induction false} TriRowsSize(ts: seq<Tri>)
    ensures |Flatten(TriRows(ts))| == 3 * |ts| && |TriRows(ts)| == |ts|
  {
    if ts != [] {
      TriRowsSize(ts[1..]);
    }
  }

  // ----------------------------------------------------------- lists

  lemma {:induction false} VertexRead(vs: seq<Corner>, i: nat, fixed: Fixed)
    ensures SpanRows(VertexLines(vs, i, fixed), 1, 4) == Ok(CoRows(vs, fixed))
    decreases |vs|
  {
    if vs != [] {
      VertexRead(vs[1..], i + 1, fixed);
      var ps := VertexLines(vs, i, fixed)[0].parameters;
      assert ps[1..4] == [ps[1], ps[2], ps[3]];
    }
  }

  lemma {:induction false} VertexSelect(vs: seq<Corner>, i: nat, fixed: Fixed)
    ensures forall j | 0 <= j < |VertexLines(vs, i, fixed)| :: VertexLines(vs, i, fixed)[j].name == Upper(VERTEX)
    decreases |vs|
  {
    if vs != [] {
      VertexSelect(vs[1..], i + 1, fixed);
    }
  }

  lemma {:induction false} TVertRead(vs: seq<Corner>, i: nat, fixed: Fixed)
    ensures SpanRows(TVertLines(vs, i, fixed), 1, 3) == Ok(UvRows(vs, fixed))
    decreases |vs|
  {
    if vs != [] {
      TVertRead(vs[1..], i + 1, fixed);
      var ps := TVertLines(vs, i, fixed)[0].parameters;
      assert ps[1..3] == [ps[1], ps[2]];
    }
  }

  lemma {:induction false} TVertSelect(vs: seq<Corner>, i: nat, fixed: Fixed)
    ensures forall j | 0 <= j < |TVertLines(vs, i, fixed)| :: TVertLines(vs, i, fixed)[j].name == Upper(TVERT)
    decreases |vs|
  {
    if vs != [] {
      TVertSelect(vs[1..], i + 1, fixed);
    }
  }

  /** `int()` of three printed numbers. */
  lemma IntsOfThree(ps: seq<string>, a: nat, b: nat, c: nat, t: Tri)
    requires a < |ps| && b < |ps| && c < |ps|
    requires ps[a] == Str(t.a) && ps[b] == Str(t.b) && ps[c] == Str(t.c)
    ensures IntTriple(ps, a, b, c) == Ok([t.a, t.b, t.c])
  {
    IntOfString(t.a);
    IntOfString(t.b);
    IntOfString(t.c);
  }

  lemma {:induction false} TFaceRead(ts: seq<Tri>, i: nat)
    ensures TripleRows(TFaceLines(ts, i), 1, 2, 3) == Ok(TriRows(ts))
    decreases |ts|
  {
    if ts != [] {
      TFaceRead(ts[1..], i + 1);
      IntsOfThree(TFaceLines(ts, i)[0].parameters, 1, 2, 3, ts[0]);
    }
  }

  lemma {:induction false} TFaceSelect(ts: seq<Tri>, i: nat)
    ensures forall j | 0 <= j < |TFaceLines(ts, i)| :: TFaceLines(ts, i)[j].name == Upper(TFACE)
    decreases |ts|
  {
    if ts != [] {
      TFaceSelect(ts[1..], i + 1);
    }
  }

  function FaceBlocks(ts: seq<Tri>, i: nat): seq<Block>
    decreases |ts|
  {
    if ts == [] then [] else [FaceLine(ts[0], i)] + FaceBlocks(ts[1..], i + 1)
  }

  /** Of a face line with its smoothing and material-id blocks, only the
      face is selected. */
  lemma FaceOfThree(f: Block, sm: Block, id: Block)
    requires f.name == Upper(FACE) && sm.name == Upper(SMOOTHING) && id.name == Upper(MTLID)
    ensures Select([f, sm, id], FACE) == [f]
  {
    SelectOnly([f, sm, id], [FACE, SMOOTHING, MTLID], FACE, 0);
  }

  /** The face list read for faces: the smoothing and material-id blocks
      between the faces drop out. */
  lemma {:induction false} FaceSelect(ts: seq<Tri>, i: nat)
    ensures Select(FaceLines(ts, i), FACE) == FaceBlocks(ts, i)
    decreases |ts|
  {
    if ts != [] {
      FaceSelect(ts[1..], i + 1);
      var f := FaceLine(ts[0], i);
      var three := [f, Line(SMOOTHING, ["0"]), Line(MTLID, ["0"])];
      FaceOfThree(f, three[1], three[2]);
      SelectAppend(three, FaceLines(ts[1..], i + 1), FACE);
    }
  }

  lemma FaceLineRead(t: Tri, i: nat)
    ensures IntTriple(FaceLine(t, i).parameters, 2, 4, 6) == Ok([t.a, t.b, t.c])
  {
    IntsOfThree(FaceLine(t, i).parameters, 2, 4, 6, t);
  }

  lemma {:induction false} FaceRead(ts: seq<Tri>, i: nat)
    ensures TripleRows(FaceBlocks(ts, i), 2, 4, 6) == Ok(TriRows(ts))
    decreases |ts|
  {
    if ts != [] {
      FaceRead(ts[1..], i + 1);
      FaceLineRead(ts[0], i);
    }
  }

  // ---------------------------------------------------------- surfaces

  lemma VertexListRead(vs: seq<Corner>, fixed: Fixed)
    ensures SpanRows(Select(VertexLines(vs, 0, fixed), VERTEX), 1, 4) == Ok(CoRows(vs, fixed))
  {
    VertexSelect(vs, 0, fixed);
    SelectAll(VertexLines(vs, 0, fixed), VERTEX);
    VertexRead(vs, 0, fixed);
  }

  lemma TVertListRead(vs: seq<Corner>, fixed: Fixed)
    ensures SpanRows(Select(TVertLines(vs, 0, fixed), TVERT), 1, 3) == Ok(UvRows(vs, fixed))
  {
    TVertSelect(vs, 0, fixed);
    SelectAll(TVertLines(vs, 0, fixed), TVERT);
    TVertRead(vs, 0, fixed);
  }

  lemma FaceListRead(ts: seq<Tri>)
    ensures TripleRows(Select(FaceLines(ts, 0), FACE), 2, 4, 6) == Ok(TriRows(ts))
  {
    FaceSelect(ts, 0);
    FaceRead(ts, 0);
  }

  lemma TFaceListRead(ts: seq<Tri>)
    ensures TripleRows(Select(TFaceLines(ts, 0), TFACE), 1, 2, 3) == Ok(TriRows(ts))
  {
    TFaceSelect(ts, 0);
    SelectAll(TFaceLines(ts, 0), TFACE);
    TFaceRead(ts, 0);
  }

  /** The lists of one surface read back in the importer's order. */
  lemma ContentsRead(s: Surface, k: nat, fixed: Fixed)
    ensures Contents(k, Line(MATERIAL_REF, [Str(s.materialIndex)]),
                     Group(VERTEX_LIST, VertexLines(s.verts, 0, fixed)), Group(FACE_LIST, FaceLines(s.tris, 0)),
                     Group(TVERT_LIST, TVertLines(s.verts, 0, fixed)), Group(TFACE_LIST, TFaceLines(s.tris, 0)))
            == Ok(Expected(s, k, fixed))
  {
    IntOfString(s.materialIndex);
    VertexListRead(s.verts, fixed);
    FaceListRead(s.tris);
    TVertListRead(s.verts, fixed);
    TFaceListRead(s.tris);
  }

  /** The keys of the children of `*MESH`, in the order they are written. */
  const MESH_KEYS := [TIMEVALUE, NUMVERTEX, NUMFACES, VERTEX_LIST, FACE_LIST, NUMTVERTEX, TVERT_LIST, NUMTVFACES, TFACE_LIST]

  lemma NineSpelled(b0: Block, b1: Block, b2: Block, b3: Block, b4: Block, b5: Block, b6: Block, b7: Block, b8: Block)
    requires b0.name == Upper(TIMEVALUE) && b1.name == Upper(NUMVERTEX) && b2.name == Upper(NUMFACES)
    requires b3.name == Upper(VERTEX_LIST) && b4.name == Upper(FACE_LIST) && b5.name == Upper(NUMTVERTEX)
    requires b6.name == Upper(TVERT_LIST) && b7.name == Upper(NUMTVFACES) && b8.name == Upper(TFACE_LIST)
    ensures Spelled([b0, b1, b2, b3, b4, b5, b6, b7, b8], MESH_KEYS)
  {
    MeshKeys();
  }

  lemma MeshKeys()
    ensures forall i | 0 <= i < |MESH_KEYS| :: Key(MESH_KEYS[i])
  {
    assert Key(TIMEVALUE) && Key(NUMVERTEX) && Key(NUMFACES);
    assert Key(VERTEX_LIST) && Key(FACE_LIST) && Key(NUMTVERTEX);
    assert Key(TVERT_LIST) && Key(NUMTVFACES) && Key(TFACE_LIST);
  }

  lemma MeshSpelled(s: Surface, fixed: Fixed)
    ensures Spelled(MeshChildren(s, fixed), MESH_KEYS)
  {
    var cs := MeshChildren(s, fixed);
    NineSpelled(cs[0], cs[1], cs[2], cs[3], cs[4], cs[5], cs[6], cs[7], cs[8]);
    assert cs == [cs[0], cs[1], cs[2], cs[3], cs[4], cs[5], cs[6], cs[7], cs[8]];
  }

  lemma MeshVertexList(bs: seq<Block>)
    requires Spelled(bs, MESH_KEYS)
    ensures Select(bs, VERTEX_LIST) == [bs[3]]
  {
    SelectOnly(bs, MESH_KEYS, VERTEX_LIST, 3);
  }

  lemma MeshFaceList(bs: seq<Block>)
    requires Spelled(bs, MESH_KEYS)
    ensures Select(bs, FACE_LIST) == [bs[4]]
  {
    SelectOnly(bs, MESH_KEYS, FACE_LIST, 4);
  }

  lemma MeshTVertList(bs: seq<Block>)
    requires Spelled(bs, MESH_KEYS)
    ensures Select(bs, TVERT_LIST) == [bs[6]]
  {
    SelectOnly(bs, MESH_KEYS, TVERT_LIST, 6);
  }

  lemma MeshTFaceList(bs: seq<Block>)
    requires Spelled(bs, MESH_KEYS)
    ensures Select(bs, TFACE_LIST) == [bs[8]]
  {
    SelectOnly(bs, MESH_KEYS, TFACE_LIST, 8);
  }

  lemma ObjectParts(mesh: Block, ref: Block)
    requires mesh.name == Upper(MESH) && ref.name == Upper(MATERIAL_REF)
    ensures Select([mesh, ref], MESH) == [mesh] && Select([mesh, ref], MATERIAL_REF) == [ref]
  {
    SelectOnly([mesh, ref], [MESH, MATERIAL_REF], MESH, 0);
    SelectOnly([mesh, ref], [MESH, MATERIAL_REF], MATERIAL_REF, 1);
  }

  /** A written surface is read back as the object `Expected` describes. */
  lemma SurfaceRead(s: Surface, k: nat, fixed: Fixed)
    ensures ReadObject(SurfaceBlock(s, fixed), k) == Ok(Some(Expected(s, k, fixed)))
  {
    var cs := MeshChildren(s, fixed);
    ObjectParts(Group(MESH, cs), Line(MATERIAL_REF, [Str(s.materialIndex)]));
    MeshSpelled(s, fixed);
    MeshVertexList(cs);
    MeshFaceList(cs);
    MeshTVertList(cs);
    MeshTFaceList(cs);
    ContentsRead(s, k, fixed);
  }

  /** One object read without fault in front of objects read without fault. */
  lemma ObjectsStep(bs: seq<Block>, o: Object, rest: seq<Object>, k: nat)
    requires bs != [] && Lower(bs[0].name) == GEOMOBJECT && ReadObject(bs[0], k) == Ok(Some(o))
    requires AseImport.ReadObjects(bs[1..], k + 1) == Ok(Objects(rest, []))
    ensures AseImport.ReadObjects(bs, k) == Ok(Objects([o] + rest, []))
  {
  }

  /** `bs` are `*GEOMOBJECT`s that read, without fault, as `os` numbered
      from `k`. */
  predicate AllRead(bs: seq<Block>, os: seq<Object>, k: nat)
    decreases |bs|
  {
    |bs| == |os| &&
    (bs != [] ==>
      Lower(bs[0].name) == GEOMOBJECT && ReadObject(bs[0], k) == Ok(Some(os[0])) && AllRead(bs[1..], os[1..], k + 1))
  }

  /** Objects that each read without fault are all kept, numbered from `k`. */
  lemma {:induction false} ObjectsRead(bs: seq<Block>, os: seq<Object>, k: nat)
    requires AllRead(bs, os, k)
    ensures AseImport.ReadObjects(bs, k) == Ok(Objects(os, []))
    decreases |bs|
  {
    if bs != [] {
      ObjectsRead(bs[1..], os[1..], k + 1);
      ObjectsStep(bs, os[0], os[1..], k);
      assert os == [os[0]] + os[1..];
    }
  }

  lemma AllReadCons(b: Block, o: Object, bs: seq<Block>, os: seq<Object>, k: nat)
    requires Lower(b.name) == GEOMOBJECT && ReadObject(b, k) == Ok(Some(o)) && AllRead(bs, os, k + 1)
    ensures AllRead([b] + bs, [o] + os, k)
  {
    assert ([b] + bs)[1..] == bs && ([o] + os)[1..] == os;
  }

  lemma GeomObjectName()
    ensures Lower(Upper(GEOMOBJECT)) == GEOMOBJECT
  {
    LowerUpper(GEOMOBJECT);
  }

  lemma SurfacesStep(ss: seq<Surface>, k: nat, fixed: Fixed)
    requires ss != [] && AllRead(SurfaceBlocks(ss[1..], fixed), ExpectedAll(ss[1..], k + 1, fixed), k + 1)
    ensures AllRead(SurfaceBlocks(ss, fixed), ExpectedAll(ss, k, fixed), k)
  {
    SurfaceRead(ss[0], k, fixed);
    GeomObjectName();
    AllReadCons(SurfaceBlock(ss[0], fixed), Expected(ss[0], k, fixed), SurfaceBlocks(ss[1..], fixed), ExpectedAll(ss[1..], k + 1, fixed), k);
  }

  lemma {:induction false} SurfacesAllRead(ss: seq<Surface>, k: nat, fixed: Fixed)
    ensures AllRead(SurfaceBlocks(ss, fixed), ExpectedAll(ss, k, fixed), k)
    decreases |ss|
  {
    if ss != [] {
      SurfacesAllRead(ss[1..], k + 1, fixed);
      SurfacesStep(ss, k, fixed);
    }
  }

  /** Written surfaces are read back in order, numbered from `k`, none
      skipped. */
  lemma SurfacesRead(ss: seq<Surface>, k: nat, fixed: Fixed)
    ensures AseImport.ReadObjects(SurfaceBlocks(ss, fixed), k) == Ok(Objects(ExpectedAll(ss, k, fixed), []))
  {
    SurfacesAllRead(ss, k, fixed);
    ObjectsRead(SurfaceBlocks(ss, fixed), ExpectedAll(ss, k, fixed), k);
  }

  /** Blocks all named by another key are none of them selected. */
  lemma {:induction false} SelectOther(bs: seq<Block>, k: string, key: string)
    requires Key(k) && k != key && forall j | 0 <= j < |bs| :: bs[j].name == Upper(k)
    ensures Select(bs, key) == []
  {
    if bs != [] {
      LowerUpper(k);
      SelectOther(bs[1..], k, key);
    }
  }

  lemma NoListStep(ss: seq<Surface>, fixed: Fixed)
    requires ss != [] && Select(SurfaceBlocks(ss[1..], fixed), MATERIAL_LIST) == []
    ensures Select(SurfaceBlocks(ss, fixed), MATERIAL_LIST) == []
  {
    GeomObjectName();
    var bs := SurfaceBlocks(ss, fixed);
    assert bs[0].name == Upper(GEOMOBJECT) && bs[1..] == SurfaceBlocks(ss[1..], fixed);
  }

  /** No written surface is taken for a material list. */
  lemma {:induction false} SurfacesNoList(ss: seq<Surface>, fixed: Fixed)
    ensures Select(SurfaceBlocks(ss, fixed), MATERIAL_LIST) == []
    decreases |ss|
  {
    if ss != [] {
      SurfacesNoList(ss[1..], fixed);
      NoListStep(ss, fixed);
    }
  }

  // ------------------------------------------------------------- materials

  lemma HeaderName()
    ensures Lower(Upper(HEADER)) == HEADER
  {
    LowerUpper(HEADER);
  }

  lemma MaterialName()
    ensures Lower(Upper(MATERIAL)) == MATERIAL
  {
    LowerUpper(MATERIAL);
  }

  lemma MaterialNameName()
    ensures Lower(Upper(MATERIAL_NAME)) == MATERIAL_NAME
  {
    LowerUpper(MATERIAL_NAME);
  }

  lemma MaterialListName()
    ensures Lower(Upper(MATERIAL_LIST)) == MATERIAL_LIST
  {
    LowerUpper(MATERIAL_LIST);
  }

  lemma MaterialCountName()
    ensures Lower(Upper(MATERIAL_COUNT)) == MATERIAL_COUNT
  {
    LowerUpper(MATERIAL_COUNT);
  }

  lemma {:induction false} MaterialBlocksAt(ms: seq<Material>, i: nat, j: nat)
    requires j < |ms|
    ensures MaterialBlocks(ms, i)[j] == Block(Upper(MATERIAL), [Str(i + j)], [Line(MATERIAL_NAME, [ms[j].name])])
    decreases j
  {
    if j > 0 {
      MaterialBlocksAt(ms[1..], i + 1, j - 1);
    }
  }

  /** The written materials carry their positions. */
  lemma MaterialsInOrder(ms: seq<Material>)
    ensures InOrder(MaterialBlocks(ms, 0))
  {
    var bs := MaterialBlocks(ms, 0);
    forall j | 0 <= j < |bs|
      ensures |bs[j].parameters| > 0 && bs[j].parameters[0] == CfgText.IntToString(j)
    {
      MaterialBlocksAt(ms, 0, j);
    }
  }

  lemma MaterialsSelectedStep(ms: seq<Material>, i: nat)
    requires ms != [] && Select(MaterialBlocks(ms[1..], i + 1), MATERIAL) == MaterialBlocks(ms[1..], i + 1)
    ensures Select(MaterialBlocks(ms, i), MATERIAL) == MaterialBlocks(ms, i)
  {
    MaterialName();
    var bs := MaterialBlocks(ms, i);
    assert bs[0].name == Upper(MATERIAL) && bs[1..] == MaterialBlocks(ms[1..], i + 1);
    assert bs == [bs[0]] + bs[1..];
  }

  lemma {:induction false} MaterialsSelected(ms: seq<Material>, i: nat)
    ensures Select(MaterialBlocks(ms, i), MATERIAL) == MaterialBlocks(ms, i)
    decreases |ms|
  {
    if ms != [] {
      MaterialsSelected(ms[1..], i + 1);
      MaterialsSelectedStep(ms, i);
    }
  }

  /** The `*MATERIAL`s of the written list are the written materials: the
      count line is not one of them. */
  lemma MaterialListChildren(ms: seq<Material>)
    ensures Select(MaterialListBlock(ms).children, MATERIAL) == MaterialBlocks(ms, 0)
  {
    var count := Line(MATERIAL_COUNT, [Str(|ms|)]);
    SelectAppend([count], MaterialBlocks(ms, 0), MATERIAL);
    MaterialCountName();
    MaterialsSelected(ms, 0);
  }

  lemma NamedStep(ms: seq<Material>, i: nat)
    requires ms != [] && MaterialNames(MaterialBlocks(ms[1..], i + 1)) == Ok(Names(NamesOf(ms[1..]), true))
    ensures MaterialNames(MaterialBlocks(ms, i)) == Ok(Names(NamesOf(ms), true))
  {
    MaterialNameName();
    var bs := MaterialBlocks(ms, i);
    var tag := Line(MATERIAL_NAME, [ms[0].name]);
    assert bs[0].children == [tag] && bs[1..] == MaterialBlocks(ms[1..], i + 1);
    assert Select([tag], MATERIAL_NAME) == [tag];
  }

  /** Every written material is read back with its name. */
  lemma {:induction false} MaterialsNamed(ms: seq<Material>, i: nat)
    ensures MaterialNames(MaterialBlocks(ms, i)) == Ok(Names(NamesOf(ms), true))
    decreases |ms|
  {
    if ms != [] {
      MaterialsNamed(ms[1..], i + 1);
      NamedStep(ms, i);
    }
  }

  // ------------------------------------------------------------ the file

  lemma HeaderRead(m: Model, fixed: Fixed)
    ensures CheckHeader(Save(m, fixed)) == Ok([MaterialListBlock(m.materials)] + SurfaceBlocks(m.surfaces, fixed))
  {
    HeaderName();
    var bs := Save(m, fixed);
    assert bs[1..] == [MaterialListBlock(m.materials)] + SurfaceBlocks(m.surfaces, fixed);
  }

  lemma ListFound(m: Model, fixed: Fixed)
    ensures var list := MaterialListBlock(m.materials);
      MaterialList([list] + SurfaceBlocks(m.surfaces, fixed)) == Ok(list)
  {
    var list := MaterialListBlock(m.materials);
    MaterialListName();
    SelectAppend([list], SurfaceBlocks(m.surfaces, fixed), MATERIAL_LIST);
    SurfacesNoList(m.surfaces, fixed);
  }

  /** The material list is not a `*GEOMOBJECT`: the objects are numbered
      from the first surface. */
  lemma ObjectsAfterList(m: Model, fixed: Fixed)
    ensures var bs := [MaterialListBlock(m.materials)] + SurfaceBlocks(m.surfaces, fixed);
      AseImport.ReadObjects(bs, 0) == AseImport.ReadObjects(SurfaceBlocks(m.surfaces, fixed), 0)
  {
    MaterialListName();
    var bs := [MaterialListBlock(m.materials)] + SurfaceBlocks(m.surfaces, fixed);
    assert bs[1..] == SurfaceBlocks(m.surfaces, fixed);
  }

  /** What the importer reads from what the exporter writes: every material
      name in order, nothing incomplete, and every surface as the object
      `Expected` describes, numbered by its position, none skipped. */
  lemma SaveImport(m: Model, fixed: Fixed)
    ensures Import(Save(m, fixed)) == Ok(Imported(NamesOf(m.materials), true, Objects(ExpectedAll(m.surfaces, 0, fixed), [])))
  {
    HeaderRead(m, fixed);
    ListFound(m, fixed);
    MaterialListChildren(m.materials);
    MaterialsInOrder(m.materials);
    MaterialsNamed(m.materials, 0);
    ObjectsAfterList(m, fixed);
    SurfacesRead(m.surfaces, 0, fixed);
  }

  /** The `k`-th object of `imp` is the `k`-th exported mesh `o`: it is
      numbered `k`, refers by number to the material named as `o`'s first
      slot, and has three corner numbers and one UV triple per triangle. */
  predicate ImportedAs(imp: Imported, k: nat, o: SceneObject) {
    && k < |imp.objects.objects|
    && var ob := imp.objects.objects[k];
    && ob.index == k
    && 0 <= ob.materialRef < |imp.names|
    && o.slots != [] && imp.names[ob.materialRef] == o.slots[0].name
    && |ob.faces| == 3 * |o.triangles| && |ob.tfaces| == |o.triangles|
  }

  /** A scene that exports imports back: all material names, and one object
      per exported mesh, in order, none skipped. */
  lemma ExportImport(objs: seq<SceneObject>, objectMode: bool, fixed: Fixed)
    requires Export(objs, objectMode).Ok?
    ensures var r := Import(Save(Export(objs, objectMode).value, fixed));
      && r.Ok? && r.value.namesComplete && r.value.objects.skipped == []
      && |r.value.objects.objects| == |Exported(objs)|
      && forall k | 0 <= k < |Exported(objs)| :: ImportedAs(r.value, k, Exported(objs)[k])
  {
    var m := Export(objs, objectMode).value;
    SaveImport(m, fixed);
    var imp := Import(Save(m, fixed)).value;
    forall k | 0 <= k < |Exported(objs)|
      ensures ImportedAs(imp, k, Exported(objs)[k])
    {
      assert Depicts(m.materials, m.surfaces[k], Exported(objs)[k]);
      SurfaceImported(m, fixed, imp, k, Exported(objs)[k]);
    }
  }

  /** One surface of the round trip: the `k`-th imported object is the
      mesh that surface depicts. */
  lemma SurfaceImported(m: Model, fixed: Fixed, imp: Imported, k: nat, o: SceneObject)
    requires imp == Imported(NamesOf(m.materials), true, Objects(ExpectedAll(m.surfaces, 0, fixed), []))
    requires k < |m.surfaces| && Depicts(m.materials, m.surfaces[k], o)
    ensures ImportedAs(imp, k, o)
  {
    var s := m.surfaces[k];
    ExpectedAllAt(m.surfaces, 0, fixed, k);
    NamesOfAt(m.materials, s.materialIndex);
    TriRowsSize(s.tris);
  }
}

=== FILE: ase_text_round_trip.dfy ===
/** The ASE round trip through text: the exporter's block tree, rendered,
    parses back to itself and so imports as the tree does, as long as every
    parameter the exporter writes is a word the tokenizer returns whole.
    Material names are the parameters that can break this: an empty name,
    one holding a quote, or one that is a lone `{`, `}` or `*` does not
    come back as itself. */
module AseTextRoundTrip {

  import opened Outcome
  import opened AseLexer
  import opened AseBlocks
  import opened AseImport
  import opened AseExport
  import opened AseRoundTrip
  import CfgText

  /** Every number the float formatter prints is a word. */
  ghost predicate WordsFixed(fixed: Fixed) {
    forall x: real, d: nat :: Word(fixed(x, d))
  }

  /** Every material name is a word. */
  predicate NamesAreWords(ms: seq<Material>) {
    forall i | 0 <= i < |ms| :: Word(ms[i].name)
  }

  // ------------------------------------------------------- the keys

  /** Capitals do not make a delimiter out of a plain character. */
  lemma UpperPlain(k: string)
    requires Plain(k)
    ensures Plain(Upper(k))
  {
    forall j | 0 <= j < |k|
      ensures !Delimits(Upper(k)[j])
    {
      assert Upper(k)[j] == UpperChar(k[j]);
    }
  }

  lemma KeysPlain()
    ensures Plain(HEADER) && Plain(MATERIAL_LIST) && Plain(MATERIAL) && Plain(MATERIAL_NAME)
    ensures Plain(MATERIAL_COUNT) && Plain(GEOMOBJECT) && Plain(MESH) && Plain(MATERIAL_REF)
    ensures Plain(VERTEX_LIST) && Plain(FACE_LIST) && Plain(TVERT_LIST) && Plain(TFACE_LIST)
    ensures Plain(VERTEX) && Plain(FACE) && Plain(TVERT) && Plain(TFACE)
    ensures Plain(TIMEVALUE) && Plain(NUMVERTEX) && Plain(NUMFACES) && Plain(NUMTVERTEX)
    ensures Plain(NUMTVFACES) && Plain(SMOOTHING) && Plain(MTLID)
  {
    FileKeysPlain();
    ListKeysPlain();
    LineKeysPlain();
    CountKeysPlain();
  }

  lemma FileKeysPlain()
    ensures Plain(HEADER) && Plain(MATERIAL_LIST) && Plain(MATERIAL) && Plain(MATERIAL_NAME)
    ensures Plain(MATERIAL_COUNT) && Plain(GEOMOBJECT) && Plain(MESH) && Plain(MATERIAL_REF)
  {
  }

  lemma ListKeysPlain()
    ensures Plain(VERTEX_LIST) && Plain(FACE_LIST) && Plain(TVERT_LIST) && Plain(TFACE_LIST)
  {
  }

  lemma LineKeysPlain()
    ensures Plain(VERTEX) && Plain(FACE) && Plain(TVERT) && Plain(TFACE)
  {
  }

  lemma CountKeysPlain()
    ensures Plain(TIMEVALUE) && Plain(NUMVERTEX) && Plain(NUMFACES) && Plain(NUMTVERTEX)
    ensures Plain(NUMTVFACES) && Plain(SMOOTHING) && Plain(MTLID)
  {
  }

  /** `str(i)` is a word: digits and perhaps a minus sign. */
  lemma StrWord(i: int)
    ensures Word(Str(i))
  {
    var s := Str(i);
    if i < 0 {
      assert s == "-" + CfgText.Decimal(-i);
      assert forall j | 1 <= j < |s| :: s[j] == CfgText.Decimal(-i)[j - 1];
    }
  }

  lemma LineWf(key: string, ps: seq<string>)
    requires Plain(key) && AllWords(ps)
    ensures WellFormed(Line(key, ps))
  {
    UpperPlain(key);
  }

  lemma GroupWf(key: string, cs: seq<Block>)
    requires Plain(key) && WellFormedAll(cs)
    ensures WellFormed(Group(key, cs))
  {
    UpperPlain(key);
  }

  lemma WfAppend(a: seq<Block>, b: seq<Block>)
    requires WellFormedAll(a) && WellFormedAll(b)
    ensures WellFormedAll(a + b)
  {
    forall i | 0 <= i < |a + b|
      ensures WellFormed((a + b)[i])
    {
      if i >= |a| {
        assert (a + b)[i] == b[i - |a|];
      }
    }
  }

  // ---------------------------------------------------------- a mesh

  lemma {:induction false} VertexLinesWf(vs: seq<Corner>, i: nat, fixed: Fixed)
    requires WordsFixed(fixed)
    ensures WellFormedAll(VertexLines(vs, i, fixed))
    decreases |vs|
  {
    if vs != [] {
      KeysPlain();
      StrWord(i);
      var ps := [Str(i), fixed(vs[0].co.x, 8), fixed(vs[0].co.y, 8), fixed(vs[0].co.z, 8)];
      assert AllWords(ps);
      LineWf(VERTEX, ps);
      VertexLinesWf(vs[1..], i + 1, fixed);
      WfAppend([Line(VERTEX, ps)], VertexLines(vs[1..], i + 1, fixed));
    }
  }

  lemma FaceLineWf(t: Tri, i: nat)
    ensures WellFormed(FaceLine(t, i))
  {
    KeysPlain();
    StrWord(i);
    StrWord(t.a);
    StrWord(t.b);
    StrWord(t.c);
    var ps := [Str(i), "A:", Str(t.a), "B:", Str(t.b), "C:", Str(t.c), "AB:", "1", "BC:", "1", "CA:", "1"];
    assert AllWords(ps);
    LineWf(FACE, ps);
  }

  lemma {:induction false} FaceLinesWf(ts: seq<Tri>, i: nat)
    ensures WellFormedAll(FaceLines(ts, i))
    decreases |ts|
  {
    if ts != [] {
      KeysPlain();
      FaceLineWf(ts[0], i);
      assert AllWords(["0"]);
      LineWf(SMOOTHING, ["0"]);
      LineWf(MTLID, ["0"]);
      FaceLinesWf(ts[1..], i + 1);
      WfAppend([FaceLine(ts[0], i), Line(SMOOTHING, ["0"]), Line(MTLID, ["0"])], FaceLines(ts[1..], i + 1));
    }
  }

  lemma {:induction false} TVertLinesWf(vs: seq<Corner>, i: nat, fixed: Fixed)
    requires WordsFixed(fixed)
    ensures WellFormedAll(TVertLines(vs, i, fixed))
    decreases |vs|
  {
    if vs != [] {
      KeysPlain();
      StrWord(i);
      var ps := [Str(i), fixed(vs[0].uv.u, 7), fixed(vs[0].uv.v, 7)];
      assert AllWords(ps);
      LineWf(TVERT, ps);
      TVertLinesWf(vs[1..], i + 1, fixed);
      WfAppend([Line(TVERT, ps)], TVertLines(vs[1..], i + 1, fixed));
    }
  }

  lemma {:induction false} TFaceLinesWf(ts: seq<Tri>, i: nat)
    ensures WellFormedAll(TFaceLines(ts, i))
    decreases |ts|
  {
    if ts != [] {
      KeysPlain();
      StrWord(i);
      StrWord(ts[0].a);
      StrWord(ts[0].b);
      StrWord(ts[0].c);
      var ps := [Str(i), Str(ts[0].a), Str(ts[0].b), Str(ts[0].c)];
      assert AllWords(ps);
      LineWf(TFACE, ps);
      TFaceLinesWf(ts[1..], i + 1);
      WfAppend([Line(TFACE, ps)], TFaceLines(ts[1..], i + 1));
    }
  }

  lemma CountWf(key: string, n: int)
    requires Plain(key)
    ensures WellFormed(Line(key, [Str(n)]))
  {
    StrWord(n);
    assert AllWords([Str(n)]);
    LineWf(key, [Str(n)]);
  }

  lemma SurfaceWf(s: Surface, fixed: Fixed)
    requires WordsFixed(fixed)
    ensures WellFormed(SurfaceBlock(s, fixed))
  {
    KeysPlain();
    assert AllWords(["0"]);
    LineWf(TIMEVALUE, ["0"]);
    CountWf(NUMVERTEX, |s.verts|);
    CountWf(NUMFACES, |s.tris|);
    VertexLinesWf(s.verts, 0, fixed);
    GroupWf(VERTEX_LIST, VertexLines(s.verts, 0, fixed));
    FaceLinesWf(s.tris, 0);
    GroupWf(FACE_LIST, FaceLines(s.tris, 0));
    CountWf(NUMTVERTEX, |s.verts|);
    TVertLinesWf(s.verts, 0, fixed);
    GroupWf(TVERT_LIST, TVertLines(s.verts, 0, fixed));
    CountWf(NUMTVFACES, |s.tris|);
    TFaceLinesWf(s.tris, 0);
    GroupWf(TFACE_LIST, TFaceLines(s.tris, 0));
    var cs := MeshChildren(s, fixed);
    assert WellFormedAll(cs);
    GroupWf(MESH, cs);
    CountWf(MATERIAL_REF, s.materialIndex);
    GroupWf(GEOMOBJECT, [Group(MESH, cs), Line(MATERIAL_REF, [Str(s.materialIndex)])]);
  }

  lemma {:induction false} SurfaceBlocksWf(ss: seq<Surface>, fixed: Fixed)
    requires WordsFixed(fixed)
    ensures WellFormedAll(SurfaceBlocks(ss, fixed))
    decreases |ss|
  {
    if ss != [] {
      SurfaceWf(ss[0], fixed);
      SurfaceBlocksWf(ss[1..], fixed);
      WfAppend([SurfaceBlock(ss[0], fixed)], SurfaceBlocks(ss[1..], fixed));
    }
  }

  // ----------------------------------------------------- the materials

  lemma {:induction false} MaterialBlocksWf(ms: seq<Material>, i: nat)
    requires NamesAreWords(ms)
    ensures WellFormedAll(MaterialBlocks(ms, i))
    decreases |ms|
  {
    if ms != [] {
      KeysPlain();
      StrWord(i);
      assert AllWords([ms[0].name]);
      LineWf(MATERIAL_NAME, [ms[0].name]);
      UpperPlain(MATERIAL);
      assert AllWords([Str(i)]);
      var b := Block(Upper(MATERIAL), [Str(i)], [Line(MATERIAL_NAME, [ms[0].name])]);
      assert WellFormed(b);
      MaterialBlocksWf(ms[1..], i + 1);
      WfAppend([b], MaterialBlocks(ms[1..], i + 1));
    }
  }

  /** With words for names and numbers, everything the exporter writes is
      well formed. */
  lemma SaveWellFormed(m: Model, fixed: Fixed)
    requires WordsFixed(fixed) && NamesAreWords(m.materials)
    ensures WellFormedAll(Save(m, fixed))
  {
    KeysPlain();
    assert AllWords([VERSION]);
    LineWf(HEADER, [VERSION]);
    CountWf(MATERIAL_COUNT, |m.materials|);
    MaterialBlocksWf(m.materials, 0);
    WfAppend([Line(MATERIAL_COUNT, [Str(|m.materials|)])], MaterialBlocks(m.materials, 0));
    GroupWf(MATERIAL_LIST, [Line(MATERIAL_COUNT, [Str(|m.materials|)])] + MaterialBlocks(m.materials, 0));
    SurfaceBlocksWf(m.surfaces, fixed);
    WfAppend([Line(HEADER, [VERSION]), MaterialListBlock(m.materials)], SurfaceBlocks(m.surfaces, fixed));
  }

  // ---------------------------------------------------- the round trip

  /** What the importer reads from the text of what the exporter writes:
      every material name in order, nothing incomplete, and every surface
      as the object `Expected` describes. */
  lemma SaveTextImport(m: Model, fixed: Fixed)
    requires WordsFixed(fixed) && NamesAreWords(m.materials)
    ensures ImportText(RenderAll(Save(m, fixed)))
      == Ok(Imported(NamesOf(m.materials), true, Objects(ExpectedAll(m.surfaces, 0, fixed), [])))
  {
    SaveWellFormed(m, fixed);
    ParseRender(Save(m, fixed));
    SaveImport(m, fixed);
  }

  /** The first slots of the exported objects are named by words when
      every object's first slot is. */
  lemma {:induction false} FirstSlotsWords(objs: seq<SceneObject>)
    requires forall k | 0 <= k < |objs| :: objs[k].slots != [] ==> Word(objs[k].slots[0].name)
    ensures NamesAreWords(FirstSlots(objs))
    decreases |objs|
  {
    if objs != [] {
      FirstSlotsWords(objs[1..]);
      var head := if objs[0].isMesh && objs[0].triangles != [] && objs[0].slots != [] then [objs[0].slots[0]] else [];
      assert FirstSlots(objs) == head + FirstSlots(objs[1..]);
      forall i | 0 <= i < |FirstSlots(objs)|
        ensures Word(FirstSlots(objs)[i].name)
      {
        if i >= |head| {
          assert FirstSlots(objs)[i] == FirstSlots(objs[1..])[i - |head|];
        }
      }
    }
  }

  /** First-seen order keeps only names that were words. */
  lemma FirstSeenWords(xs: seq<Material>)
    requires NamesAreWords(xs)
    ensures NamesAreWords(FirstSeen([], xs))
  {
    var r := FirstSeen([], xs);
    forall i | 0 <= i < |r|
      ensures Word(r[i].name)
    {
      FirstSeenMembers([], xs, r[i]);
      var j :| 0 <= j < |xs| && xs[j] == r[i];
    }
  }

  /** A scene whose first material slots are named by words exports to a
      text that imports back: all material names, and one object per
      exported mesh, in order, none skipped. */
  lemma ExportTextImport(objs: seq<SceneObject>, objectMode: bool, fixed: Fixed)
    requires Export(objs, objectMode).Ok?
    requires WordsFixed(fixed)
    requires forall k | 0 <= k < |objs| :: objs[k].slots != [] ==> Word(objs[k].slots[0].name)
    ensures var r := ImportText(RenderAll(Save(Export(objs, objectMode).value, fixed)));
      && r.Ok? && r.value.namesComplete && r.value.objects.skipped == []
      && |r.value.objects.objects| == |Exported(objs)|
      && forall k | 0 <= k < |Exported(objs)| :: ImportedAs(r.value, k, Exported(objs)[k])
  {
    var m := Export(objs, objectMode).value;
    ExportedNamesWords(objs, objectMode);
    SameImport(m, fixed);
    ExportImport(objs, objectMode, fixed);
  }

  lemma ExportedNamesWords(objs: seq<SceneObject>, objectMode: bool)
    requires Export(objs, objectMode).Ok?
    requires forall k | 0 <= k < |objs| :: objs[k].slots != [] ==> Word(objs[k].slots[0].name)
    ensures NamesAreWords(Export(objs, objectMode).value.materials)
  {
    FirstSlotsWords(objs);
    FirstSeenWords(FirstSlots(objs));
  }

  /** The text imports as the tree does. */
  lemma SameImport(m: Model, fixed: Fixed)
    requires WordsFixed(fixed) && NamesAreWords(m.materials)
    ensures ImportText(RenderAll(Save(m, fixed))) == Import(Save(m, fixed))
  {
    SaveTextImport(m, fixed);
    SaveImport(m, fixed);
  }

  const EMPTY_NAME_TEXT := "\n*M\t\"0\"\t{\n*N\t\"\"\t{\n}\n}"

  lemma EmptyNameRendered()
    ensures RenderAll([Block("M", ["0"], [Block("N", [""], [])])]) == EMPTY_NAME_TEXT
  {
    EmptyNameChildRendered();
    var m := Block("M", ["0"], [Block("N", [""], [])]);
    assert Params(m.parameters) == "\t\"0\"" by { assert Params(m.parameters[1..]) == []; }
    assert Head(m) == "\n*M\t\"0\"";
    assert RenderAll([m]) == Render(m) + RenderAll([]);
  }

  lemma EmptyNameChildRendered()
    ensures RenderAll([Block("N", [""], [])]) == "\n*N\t\"\"\t{\n}"
  {
    var n := Block("N", [""], []);
    assert Params(n.parameters) == "\t\"\"" by { assert Params(n.parameters[1..]) == []; }
    assert Head(n) == "\n*N\t\"\"";
    assert RenderAll([n]) == Render(n) + RenderAll([]);
  }

  lemma EmptyNameHeadTokens()
    ensures ReadToken(EMPTY_NAME_TEXT, 0) == Token("*", 2)
    ensures ReadToken(EMPTY_NAME_TEXT, 2) == Token("M", 3)
    ensures ReadToken(EMPTY_NAME_TEXT, 3) == Token("0", 7)
    ensures ReadToken(EMPTY_NAME_TEXT, 7) == Token("{", 9)
  {
    EmptyNameNameTokens();
    EmptyNameParamTokens();
  }

  lemma EmptyNameNameTokens()
    ensures ReadToken(EMPTY_NAME_TEXT, 0) == Token("*", 2)
    ensures ReadToken(EMPTY_NAME_TEXT, 2) == Token("M", 3)
  {
    var text := EMPTY_NAME_TEXT;
    assert text[0] == '\n' && text[1] == '*' && text[2] == 'M' && text[3] == '\t';
    assert SkipWhitespace(text, 0) == 1;
    assert ReadToken(text, 0) == Token("*", 2);
    assert Scan(text, 2, [], false) == Scan(text, 3, "M", false);
    assert ReadToken(text, 2) == Token("M", 3);
  }

  lemma EmptyNameParamTokens()
    ensures ReadToken(EMPTY_NAME_TEXT, 3) == Token("0", 7)
    ensures ReadToken(EMPTY_NAME_TEXT, 7) == Token("{", 9)
  {
    var text := EMPTY_NAME_TEXT;
    assert text[3] == '\t' && text[4] == '"' && text[5] == '0' && text[6] == '"';
    assert text[7] == '\t' && text[8] == '{';
    assert SkipWhitespace(text, 3) == 4;
    assert Scan(text, 4, [], false) == Scan(text, 5, [], true) == Scan(text, 6, "0", true);
    assert ReadToken(text, 3) == Token("0", 7);
    assert SkipWhitespace(text, 7) == 8;
    assert ReadToken(text, 7) == Token("{", 9);
  }

  lemma EmptyNameChildTokens()
    ensures ReadToken(EMPTY_NAME_TEXT, 9) == Token("*", 11)
    ensures ReadToken(EMPTY_NAME_TEXT, 11) == Token("N", 12)
    ensures ReadToken(EMPTY_NAME_TEXT, 12) == Token([], 15)
    ensures ReadToken(EMPTY_NAME_TEXT, 15) == Token("{", 17)
  {
    var text := EMPTY_NAME_TEXT;
    assert ReadToken(text, 9) == Token("*", 11);
    assert ReadToken(text, 11) == Token("N", 12);
    assert ReadToken(text, 12) == Token([], 15);
    assert ReadToken(text, 15) == Token("{", 17);
  }

  /** The child level ends at the empty string, after one parameterless block. */
  lemma EmptyNameChildLevel()
    ensures GetBlocks(EMPTY_NAME_TEXT, 9, []) == Ok(Level([Block("N", [], [])], 15))
  {
    EmptyNameChildTokens();
    var nRead := Block("N", [], []);
    assert BlockBody(EMPTY_NAME_TEXT, 12, [], nRead) == Ok(Level([] + [nRead], 15));
    assert [] + [nRead] == [nRead];
  }

  /** The parent then meets `{` where it needs `}`. */
  lemma EmptyNameParentFails()
    ensures BlockBody(EMPTY_NAME_TEXT, 3, [], Block("M", [], [])) == Err(NotClosed)
  {
    EmptyNameHeadTokens();
    EmptyNameChildTokens();
    EmptyNameChildLevel();
    var m := Block("M", [], []);
    assert BlockBody(EMPTY_NAME_TEXT, 7, [], m.(parameters := ["0"])) == Err(NotClosed);
    assert m.parameters + ["0"] == ["0"];
  }

  /** Why names must be words: a material named by the empty string is
      written as `""`, which reads as the end of its level, so the brace
      after it is taken for an unclosed child list. */
  lemma EmptyNameBreaksText()
    ensures Parse(RenderAll([Block("M", ["0"], [Block("N", [""], [])])])) == Err(NotClosed)
  {
    EmptyNameRendered();
    EmptyNameHeadTokens();
    EmptyNameParentFails();
  }
}

=== FILE: bits.dfy ===
/** Packing small unsigned fields side by side into one integer, the way the
    vertex word ORs shifted fields into place. Because the fields occupy
    disjoint bit ranges, the OR of the shifted fields equals their sum; the
    layout is a little-endian mixed-radix number. */
module Bits {

  import opened Bytes

  function Pow2(k: nat): (r: nat)
    ensures r >= 1
  {
    if k == 0 then 1 else 2 * Pow2(k - 1)
  }

  lemma {:induction false} Pow2Add(a: nat, b: nat)
    ensures Pow2(a + b) == Pow2(a) * Pow2(b)
    decreases a
  {
    if a > 0 {
      Pow2Add(a - 1, b);
      assert Pow2(a + b) == 2 * Pow2(a - 1 + b);
      MulAssoc(2, Pow2(a - 1), Pow2(b));
    }
  }

  /** One field: a value and the number of bits it occupies. */
  datatype Field = Field(value: nat, width: nat)

  predicate Fits(f: Field) { f.value < Pow2(f.width) }

  predicate AllFit(fs: seq<Field>) {
    forall i | 0 <= i < |fs| :: Fits(fs[i])
  }

  /** Total width of a layout. */
  function Width(fs: seq<Field>): nat {
    if |fs| == 0 then 0 else fs[0].width + Width(fs[1..])
  }

  /** Bit position of field `j`: the widths of the fields below it. */
  function Offset(fs: seq<Field>, j: nat): nat
    requires j <= |fs|
  {
    if j == 0 then 0 else fs[0].width + Offset(fs[1..], j - 1)
  }

  /** The packed word: field 0 in the lowest bits. */
  function Pack(fs: seq<Field>): nat {
    if |fs| == 0 then 0 else fs[0].value + Pow2(fs[0].width) * Pack(fs[1..])
  }

  /** The packed word fits in the total width of its fields. */
  lemma {:induction false} PackBound(fs: seq<Field>)
    requires AllFit(fs)
    ensures Pack(fs) < Pow2(Width(fs))
    decreases |fs|
  {
    if |fs| > 0 {
      var f := fs[0];
      PackBound(fs[1..]);
      Pow2Add(f.width, Width(fs[1..]));
      var p := Pow2(f.width);
      var rest := Pack(fs[1..]);
      MulLeMul(rest, Pow2(Width(fs[1..])) - 1, p);
      MulDistrib(p, Pow2(Width(fs[1..])), -1);
    }
  }

  /** Shifting right by a field's offset and masking by its width recovers
      the field: `(word >> Offset(j)) & (2^width - 1) == value`. */
  lemma {:induction false} ExtractField(fs: seq<Field>, j: nat)
    requires AllFit(fs)
    requires j < |fs|
    ensures (Pack(fs) / Pow2(Offset(fs, j))) % Pow2(fs[j].width) == fs[j].value
    decreases j
  {
    var f := fs[0];
    var rest := Pack(fs[1..]);
    var p := Pow2(f.width);
    if j == 0 {
      DivModUnique(Pack(fs), p, rest, f.value);
    } else {
      DivModUnique(Pack(fs), p, rest, f.value);
      assert Pack(fs) / p == rest;
      ExtractField(fs[1..], j - 1);
      var o := Offset(fs[1..], j - 1);
      Pow2Add(f.width, o);
      ModMul(Pack(fs), p, Pow2(o));
      assert Pack(fs) / Pow2(Offset(fs, j)) == rest / Pow2(o);
      assert fs[1..][j - 1] == fs[j];
    }
  }
}

=== FILE: bytes.dfy ===
/** Little-endian fixed-width integers as the `struct` formats "I", "i" and
    the 3-byte frame index use them, plus the fixed 64-byte string fields.
    Native byte order is taken to be little-endian. */
module Bytes {

  import opened Outcome

  type byte = x: int | 0 <= x < 256

  const TWO_8: nat := 0x100
  const TWO_16: nat := 0x1_0000
  const TWO_24: nat := 0x100_0000
  const TWO_31: nat := 0x8000_0000
  const TWO_32: nat := 0x1_0000_0000

  /** Width of the fixed string fields (`MAX_QPATH`). */
  const QPATH: nat := 64

  /** The four-byte magic and the version number a container file starts
      with. Their values live in a constants file that is not part of this
      model, so loaders take them as a parameter. */
  datatype FormatId = FormatId(ident: seq<byte>, version: int)

  predicate ValidId(id: FormatId) { |id.ident| == 4 && IsI32(id.version) }

  predicate IsU32(x: int) { 0 <= x < TWO_32 }
  predicate IsI32(x: int) { -(TWO_31 as int) <= x < TWO_31 }

  /** `struct.pack("I", x)`; the caller guarantees `x` fits. */
  function U32(x: int): (r: seq<byte>)
    requires IsU32(x)
    ensures |r| == 4
  {
    [x % 256, (x / TWO_8) % 256, (x / TWO_16) % 256, x / TWO_24]
  }

  /** `struct.unpack("I", b)`. */
  function ReadU32(b: seq<byte>): (x: int)
    requires |b| == 4
    ensures IsU32(x)
  {
    b[0] + TWO_8 * b[1] + TWO_16 * b[2] + TWO_24 * b[3]
  }

  /** Two's complement: `struct.pack("i", x)`. */
  function I32(x: int): (r: seq<byte>)
    requires IsI32(x)
    ensures |r| == 4
  {
    U32(if x < 0 then x + TWO_32 else x)
  }

  /** `struct.unpack("i", b)`. */
  function ReadI32(b: seq<byte>): (x: int)
    requires |b| == 4
    ensures IsI32(x)
  {
    var u := ReadU32(b);
    if u >= TWO_31 then u - TWO_32 else u
  }

  lemma DivModUnique(x: int, m: int, q: int, r: int)
    requires m > 0 && 0 <= r < m && x == q * m + r
    ensures x / m == q && x % m == r
  {
    var k := x / m - q;
    assert k * m == (x / m) * m - q * m;
    assert k * m == r - x % m;
    if k >= 1 {
      assert false;
    } else if k <= -1 {
      assert false;
    }
  }

  lemma MulLeMul(a: int, b: int, c: nat)
    requires a <= b
    ensures c * a <= c * b
  {
  }

  lemma MulDistrib(d: int, a: int, b: int)
    ensures d * (a + b) == d * a + d * b
  {
  }

  lemma MulAssoc(a: int, b: int, c: int)
    ensures a * (b * c) == (a * b) * c
  {
  }

  /** Splitting a remainder: `x % (d*e)` is the low digit plus `d` times
      the next one. */
  lemma ModMul(x: nat, d: nat, e: nat)
    requires d > 0 && e > 0
    ensures x / d / e == x / (d * e)
    ensures x % (d * e) == x % d + d * ((x / d) % e)
  {
    var q, r := x / d, x % d;
    var q2, r2 := q / e, q % e;
    assert x == d * q + r;
    assert q == e * q2 + r2;
    MulDistrib(d, e * q2, r2);
    MulAssoc(d, e, q2);
    assert x == (d * e) * q2 + (d * r2 + r);
    MulLeMul(r2, e - 1, d);
    MulDistrib(d, e, -1);
    assert d * r2 + r < d * e;
    assert d * e > 0;
    DivModUnique(x, d * e, q2, d * r2 + r);
  }

  lemma U32RoundTrip(x: int)
    requires IsU32(x)
    ensures ReadU32(U32(x)) == x
  {
    ModMul(x, TWO_8, TWO_8);
    ModMul(x, TWO_16, TWO_8);
    ModMul(x, TWO_24, TWO_8);
    assert x % TWO_32 == x;
    assert x / TWO_16 / TWO_8 == x / TWO_24;
    assert x / TWO_8 / TWO_8 == x / TWO_16;
    assert x / TWO_24 == x / TWO_24 % TWO_8;
  }

  lemma I32RoundTrip(x: int)
    requires IsI32(x)
    ensures ReadI32(I32(x)) == x
  {
    U32RoundTrip(if x < 0 then x + TWO_32 else x);
  }

  /** The 3-byte frame index: the first three bytes of `struct.pack("I", x)`. */
  function U24Truncated(x: int): (r: seq<byte>)
    requires IsU32(x)
    ensures |r| == 3
  {
    U32(x)[..3]
  }

  /** `struct.unpack("I", b + b"\0")` for a 3-byte `b`. */
  function ReadU24(b: seq<byte>): (x: int)
    requires |b| == 3
    ensures 0 <= x < TWO_24
  {
    ReadU32(b + [0])
  }

  /** Writing three bytes keeps the index modulo 2^24: indices at or above
      2^24 wrap around silently. */
  lemma U24RoundTrip(x: int)
    requires IsU32(x)
    ensures ReadU24(U24Truncated(x)) == x % TWO_24
    ensures x < TWO_24 ==> ReadU24(U24Truncated(x)) == x
  {
    ModMul(x, TWO_8, TWO_8);
    ModMul(x, TWO_16, TWO_8);
    assert x / TWO_8 / TWO_8 == x / TWO_16;
  }

  /** `struct.pack("64s", s)`: truncated to, or NUL-padded up to, 64 bytes. */
  function FixedString(s: seq<byte>): (r: seq<byte>)
    ensures |r| == QPATH
    ensures forall i | 0 <= i < QPATH :: r[i] == (if i < |s| then s[i] else 0)
  {
    if |s| >= QPATH then s[..QPATH] else s + seq(QPATH - |s|, _ => 0)
  }

  /** A byte run of zeros, as written by padding. */
  function Zeros(n: nat): (r: seq<byte>)
    ensures |r| == n
    ensures forall i | 0 <= i < n :: r[i] == 0
  {
    seq(n, _ => 0)
  }

  /** Reading `n` bytes at `pos`, or `None` on a short read. */
  function ReadBytes(data: seq<byte>, pos: int, n: nat): (r: Option<seq<byte>>)
    ensures r.Some? <==> 0 <= pos && pos + n <= |data|
    ensures r.Some? ==> r.value == data[pos..pos + n]
  {
    if 0 <= pos && pos + n <= |data| then Some(data[pos..pos + n]) else None
  }

  /** Splitting a known slice: the first and second part of `a + b` found at
      `pos` lie at `pos` and `pos + |a|`. */
  lemma SliceConcat(data: seq<byte>, pos: int, a: seq<byte>, b: seq<byte>)
    requires 0 <= pos && pos + |a| + |b| <= |data|
    requires data[pos..pos + |a| + |b|] == a + b
    ensures data[pos..pos + |a|] == a
    ensures data[pos + |a|..pos + |a| + |b|] == b
  {
    assert data[pos..pos + |a|] == (a + b)[..|a|];
    assert data[pos + |a|..pos + |a| + |b|] == (a + b)[|a|..];
  }
  /** Records written one after another. */
  function Concat(pieces: seq<seq<byte>>): (r: seq<byte>)
    decreases |pieces|
  {
    if |pieces| == 0 then [] else pieces[0] + Concat(pieces[1..])
  }

  lemma {:induction false} ChunksLength(pieces: seq<seq<byte>>, size: nat)
    requires forall i | 0 <= i < |pieces| :: |pieces[i]| == size
    ensures |Concat(pieces)| == |pieces| * size
    decreases |pieces|
  {
    if |pieces| > 0 {
      ChunksLength(pieces[1..], size);
      assert |pieces| * size == size + (|pieces| - 1) * size;
    }
  }

  /** A slice of a slice of the data is a slice of the data. */
  lemma SliceOfSlice(data: seq<byte>, pos: int, len: int, a: int, b: int)
    requires 0 <= pos && pos + len <= |data| && 0 <= a <= b <= len
    ensures data[pos..pos + len][a..b] == data[pos + a..pos + b]
  {
    var outer, inner := data[pos..pos + len], data[pos + a..pos + b];
    forall k | 0 <= k < b - a ensures outer[a..b][k] == inner[k] {
      assert outer[a + k] == data[pos + a + k];
    }
  }

  /** Record `i` of `n` records of `size` bytes that start at `pos`. */
  function Chunk(data: seq<byte>, pos: int, i: nat, n: nat, size: nat): (r: seq<byte>)
    requires 0 <= pos && i < n && pos + n * size <= |data|
    ensures |r| == size
  {
    MulLeMul(i + 1, n, size);
    assert size * (i + 1) == i * size + size;
    data[pos + i * size..pos + i * size + size]
  }

  /** Reading `n` consecutive records of `size` bytes from `pos`; `None` when
      the data ends first. */
  function ReadChunks(data: seq<byte>, pos: int, n: nat, size: nat): (r: Option<seq<seq<byte>>>)
    ensures r.Some? <==> 0 <= pos && pos + n * size <= |data|
    ensures r.Some? ==> |r.value| == n && forall i | 0 <= i < n :: |r.value[i]| == size
  {
    if 0 <= pos && pos + n * size <= |data| then
      Some(seq(n, i requires 0 <= i < n => Chunk(data, pos, i, n, size)))
    else None
  }

  /** Record `i` of equal-size records written one after another starts at
      `i * size`. */
  lemma {:induction false} ConcatChunk(pieces: seq<seq<byte>>, size: nat, i: nat)
    requires forall k | 0 <= k < |pieces| :: |pieces[k]| == size
    requires i < |pieces|
    ensures i * size + size <= |Concat(pieces)|
    ensures Concat(pieces)[i * size..i * size + size] == pieces[i]
    decreases i
  {
    var tail := pieces[1..];
    ChunksLength(pieces, size);
    ChunksLength(tail, size);
    MulLeMul(i + 1, |pieces|, size);
    assert size * (i + 1) == i * size + size;
    assert Concat(pieces) == pieces[0] + Concat(tail);
    if i > 0 {
      ConcatChunk(tail, size, i - 1);
      assert i * size == size + (i - 1) * size;
      assert Concat(pieces)[i * size..i * size + size]
          == Concat(tail)[(i - 1) * size..(i - 1) * size + size];
    }
  }

  /** Record `i` of equal-size records written one after another reads
      back as itself. */
  lemma ChunkOfConcat(data: seq<byte>, pos: int, pieces: seq<seq<byte>>, size: nat, i: nat)
    requires forall k | 0 <= k < |pieces| :: |pieces[k]| == size
    requires |Concat(pieces)| == |pieces| * size && i < |pieces|
    requires 0 <= pos && pos + |pieces| * size <= |data|
    requires data[pos..pos + |pieces| * size] == Concat(pieces)
    ensures Chunk(data, pos, i, |pieces|, size) == pieces[i]
  {
    ConcatChunk(pieces, size, i);
    SliceOfSlice(data, pos, |pieces| * size, i * size, i * size + size);
  }

  /** Records of equal size written one after another read back as the
      same records. */
  lemma ReadChunksConcat(data: seq<byte>, pos: int, pieces: seq<seq<byte>>, size: nat)
    requires forall i | 0 <= i < |pieces| :: |pieces[i]| == size
    requires 0 <= pos && pos + |Concat(pieces)| <= |data|
    requires data[pos..pos + |Concat(pieces)|] == Concat(pieces)
    ensures |Concat(pieces)| == |pieces| * size
    ensures ReadChunks(data, pos, |pieces|, size) == Some(pieces)
  {
    var n := |pieces|;
    ChunksLength(pieces, size);
    var r := ReadChunks(data, pos, n, size).value;
    forall i | 0 <= i < n ensures r[i] == pieces[i] {
      ChunkOfConcat(data, pos, pieces, size, i);
    }
    assert r == pieces;
  }

  /** Each value as its `struct.pack("i", …)` record. */
  function I32Records(xs: seq<int>): (r: seq<seq<byte>>)
    requires forall i | 0 <= i < |xs| :: IsI32(xs[i])
    ensures |r| == |xs| && forall i | 0 <= i < |xs| :: r[i] == I32(xs[i]) && |r[i]| == 4
  {
    seq(|xs|, i requires 0 <= i < |xs| => I32(xs[i]))
  }

  /** A run of i32 values, as consecutive `struct.pack("i", …)` calls or one
      `struct.pack("{n}i", …)`. */
  function I32s(xs: seq<int>): (r: seq<byte>)
    requires forall i | 0 <= i < |xs| :: IsI32(xs[i])
    ensures |r| == 4 * |xs|
  {
    ChunksLength(I32Records(xs), 4);
    Concat(I32Records(xs))
  }

  /** Reads `n` consecutive i32 values starting at `pos`, or `None` when the
      data ends first (the `struct.error` of a short read). */
  function ReadI32s(data: seq<byte>, pos: int, n: nat): (r: Option<seq<int>>)
    ensures r.Some? <==> 0 <= pos && pos + 4 * n <= |data|
    ensures r.Some? ==> |r.value| == n
  {
    match ReadChunks(data, pos, n, 4)
    case None => None
    case Some(recs) => Some(seq(n, i requires 0 <= i < n => ReadI32(recs[i])))
  }

  /** A run of i32 values reads back as the same values. */
  lemma ReadI32sOfI32s(data: seq<byte>, pos: int, xs: seq<int>)
    requires forall i | 0 <= i < |xs| :: IsI32(xs[i])
    requires 0 <= pos && pos + 4 * |xs| <= |data|
    requires data[pos..pos + 4 * |xs|] == I32s(xs)
    ensures ReadI32s(data, pos, |xs|) == Some(xs)
  {
    var recs := I32Records(xs);
    ReadChunksConcat(data, pos, recs, 4);
    var r := seq(|xs|, i requires 0 <= i < |xs| => ReadI32(recs[i]));
    forall i | 0 <= i < |xs| ensures r[i] == xs[i] {
      I32RoundTrip(xs[i]);
    }
    assert r == xs;
  }
}

=== FILE: cfg_text.dfy ===
/** The pieces of Python's string handling the animation.cfg reader relies
    on: `str.split()` on whitespace, `str.split("//")[0]`, `int()` on a
    field and `str()` of an integer. */
module CfgText {

  import opened Outcome

  /** The characters `str.split()` and `str.strip()` treat as whitespace. */
  predicate IsSpace(c: char) {
    c == ' ' || '\t' <= c <= '\r' || '\U{1C}' <= c <= '\U{1F}' || c == '\U{85}' || c == '\U{A0}'
    || c == '\U{1680}' || '\U{2000}' <= c <= '\U{200A}' || c == '\U{2028}' || c == '\U{2029}'
    || c == '\U{202F}' || c == '\U{205F}' || c == '\U{3000}'
  }

  predicate NoSpace(s: string) {
    forall i | 0 <= i < |s| :: !IsSpace(s[i])
  }

  predicate AllSpace(s: string) {
    forall i | 0 <= i < |s| :: IsSpace(s[i])
  }

  // ------------------------------------------------------------ split()

  /** `s` without its leading whitespace. */
  function DropSpace(s: string): (r: string)
    ensures |r| <= |s|
  {
    if s == [] || !IsSpace(s[0]) then s else DropSpace(s[1..])
  }

  /** The longest prefix of `s` without whitespace. */
  function TakeWord(s: string): (r: string)
    ensures |r| <= |s|
  {
    if s == [] || IsSpace(s[0]) then [] else [s[0]] + TakeWord(s[1..])
  }

  /** What dropping leaves: a suffix not starting with whitespace. */
  lemma {:induction false} DropSpaceSuffix(s: string)
    ensures var r := DropSpace(s); r == s[|s| - |r|..] && (r == [] || !IsSpace(r[0]))
    decreases |s|
  {
    if s != [] && IsSpace(s[0]) {
      DropSpaceSuffix(s[1..]);
    }
  }

  /** What taking gives: a prefix without whitespace. */
  lemma {:induction false} TakeWordPrefix(s: string)
    ensures var r := TakeWord(s); r == s[..|r|] && NoSpace(r)
    decreases |s|
  {
    if s != [] && !IsSpace(s[0]) {
      TakeWordPrefix(s[1..]);
    }
  }

  /** `str.split()`: the maximal runs of non-whitespace, in order. */
  function Words(s: string): (r: seq<string>)
    decreases |s|
  {
    var t := DropSpace(s);
    if t == [] then []
    else
      var w := TakeWord(t);
      [w] + Words(t[|w|..])
  }

  predicate IsWord(w: string) {
    |w| > 0 && NoSpace(w)
  }

  predicate AllWords(ws: seq<string>) {
    forall i | 0 <= i < |ws| :: IsWord(ws[i])
  }

  /** Every word is non-empty and free of whitespace. */
  lemma {:induction false} WordsShape(s: string)
    ensures AllWords(Words(s))
    decreases |s|
  {
    var t := DropSpace(s);
    if t != [] {
      var w := TakeWord(t);
      DropSpaceSuffix(s);
      FirstWord(t);
      WordsShape(t[|w|..]);
      ConsWords(w, Words(t[|w|..]));
    }
  }

  lemma FirstWord(t: string)
    requires t != [] && !IsSpace(t[0])
    ensures IsWord(TakeWord(t))
  {
    TakeWordPrefix(t);
  }

  lemma ConsWords(w: string, ws: seq<string>)
    requires IsWord(w) && AllWords(ws)
    ensures AllWords([w] + ws)
  {
    forall i | 0 < i <= |ws|
      ensures IsWord(([w] + ws)[i])
    {
      assert ([w] + ws)[i] == ws[i - 1];
    }
  }

  /** Whitespace alone splits into nothing. */
  lemma WordsOfSpace(sp: string)
    requires AllSpace(sp)
    ensures Words(sp) == []
  {
    SpaceDropped(sp, []);
    assert sp + [] == sp;
  }

  lemma {:induction false} SpaceDropped(sp: string, rest: string)
    requires AllSpace(sp) && (rest == [] || !IsSpace(rest[0]))
    ensures DropSpace(sp + rest) == rest
    decreases |sp|
  {
    if sp != [] {
      assert (sp + rest)[1..] == sp[1..] + rest;
      SpaceDropped(sp[1..], rest);
    } else {
      assert sp + rest == rest;
    }
  }

  lemma {:induction false} WordTaken(w: string, rest: string)
    requires NoSpace(w) && (rest == [] || IsSpace(rest[0]))
    ensures TakeWord(w + rest) == w
    decreases |w|
  {
    if w != [] {
      assert (w + rest)[1..] == w[1..] + rest;
      WordTaken(w[1..], rest);
    } else {
      assert w + rest == rest;
    }
  }

  /** A word, whitespace, and the rest: the word, then the rest's words. */
  lemma WordsCons(w: string, sp: string, rest: string)
    requires |w| > 0 && NoSpace(w) && |sp| > 0 && AllSpace(sp)
    ensures Words(w + (sp + rest)) == [w] + Words(rest)
  {
    var tail := sp + rest;
    var s := w + tail;
    SpaceDropped([], s);
    WordTaken(w, tail);
    assert s[|w|..] == tail;
    SpacesSkipped(sp, rest);
  }

  /** Leading whitespace does not change the words. */
  lemma SpacesSkipped(sp: string, rest: string)
    requires AllSpace(sp)
    ensures Words(sp + rest) == Words(rest)
  {
    DropSpaceSkip(sp, rest);
  }

  lemma {:induction false} DropSpaceSkip(sp: string, rest: string)
    requires AllSpace(sp)
    ensures DropSpace(sp + rest) == DropSpace(rest)
    decreases |sp|
  {
    if sp != [] {
      assert (sp + rest)[1..] == sp[1..] + rest;
      DropSpaceSkip(sp[1..], rest);
    } else {
      assert sp + rest == rest;
    }
  }

  /** A word followed by whitespace only is one word. */
  lemma WordsLast(w: string, sp: string)
    requires |w| > 0 && NoSpace(w) && AllSpace(sp)
    ensures Words(w + sp) == [w]
  {
    var s := w + sp;
    SpaceDropped([], s);
    WordTaken(w, sp);
    assert s[|w|..] == sp;
    WordsOfSpace(sp);
  }

  // ---------------------------------------------------------- comments

  /** No "//" anywhere: no two adjacent slashes. */
  predicate NoComment(s: string) {
    forall i, j | 0 <= i && j == i + 1 < |s| :: !(s[i] == '/' && s[j] == '/')
  }

  /** `c` does not occur in `s`. */
  predicate Avoids(s: string, c: char) {
    forall i | 0 <= i < |s| :: s[i] != c
  }

  predicate NoSlash(s: string) {
    Avoids(s, '/')
  }

  /** A "//" cannot start in text without one when what follows has no slash. */
  lemma UncommentedAppend(a: string, b: string)
    requires NoComment(a) && NoSlash(b)
    ensures NoComment(a + b)
  {
    forall i | 0 <= i < |a + b| - 1
      ensures !((a + b)[i] == '/' && (a + b)[i + 1] == '/')
    {
      if i + 1 >= |a| {
        assert (a + b)[i + 1] == b[i + 1 - |a|];
      }
    }
  }

  predicate AllUncommented(ws: seq<string>) {
    forall i | 0 <= i < |ws| :: NoComment(ws[i])
  }

  /** The words of text without "//" have none either. */
  lemma {:induction false} WordsUncommented(s: string)
    requires NoComment(s)
    ensures AllUncommented(Words(s))
    decreases |s|
  {
    var t := DropSpace(s);
    if t != [] {
      var w := TakeWord(t);
      var rest := t[|w|..];
      DropSpaceSuffix(s);
      TakeWordPrefix(t);
      UncommentedSuffix(s, |s| - |t|);
      UncommentedPrefix(t, |w|);
      UncommentedSuffix(t, |w|);
      WordsUncommented(rest);
      UncommentedCons(w, Words(rest));
    }
  }

  lemma UncommentedSuffix(s: string, a: nat)
    requires NoComment(s) && a <= |s|
    ensures NoComment(s[a..])
  {
    forall i, j | 0 <= i && j == i + 1 < |s| - a
      ensures !(s[a..][i] == '/' && s[a..][j] == '/')
    {
      assert s[a..][i] == s[a + i] && s[a..][j] == s[a + j];
    }
  }

  lemma UncommentedPrefix(s: string, b: nat)
    requires NoComment(s) && b <= |s|
    ensures NoComment(s[..b])
  {
    forall i, j | 0 <= i && j == i + 1 < b
      ensures !(s[..b][i] == '/' && s[..b][j] == '/')
    {
      assert s[..b][i] == s[i] && s[..b][j] == s[j];
    }
  }

  lemma UncommentedCons(w: string, ws: seq<string>)
    requires NoComment(w) && AllUncommented(ws)
    ensures AllUncommented([w] + ws)
  {
    forall i | 0 < i <= |ws|
      ensures NoComment(([w] + ws)[i])
    {
      assert ([w] + ws)[i] == ws[i - 1];
    }
  }

  /** `s.split("//")[0]`: everything before the first "//". */
  function CutComment(s: string): (r: string)
    ensures r <= s && NoComment(r)
    ensures r == s || (|r| + 2 <= |s| && s[|r|] == '/' && s[|r| + 1] == '/')
  {
    if |s| < 2 then s
    else if s[0] == '/' && s[1] == '/' then []
    else [s[0]] + CutComment(s[1..])
  }

  /** Text without "//" is kept whole. */
  lemma NoCommentKept(s: string)
    requires NoComment(s)
    ensures CutComment(s) == s
  {
  }

  /** Whatever follows the first "//" is ignored. */
  lemma {:induction false} CommentCut(a: string, b: string)
    requires NoComment(a) && (a == [] || a[|a| - 1] != '/')
    ensures CutComment(a + "//" + b) == a
    decreases |a|
  {
    if a != [] {
      assert (a + "//" + b)[1..] == a[1..] + "//" + b;
      if |a| >= 2 {
        assert NoComment(a[1..]);
      }
      CommentCut(a[1..], b);
    }
  }

  // ----------------------------------------------------------- integers

  predicate IsDigit(c: char) { '0' <= c <= '9' }

  function DigitChar(d: nat): (c: char)
    requires d < 10
    ensures IsDigit(c) && c as int - '0' as int == d
  {
    ('0' as int + d) as char
  }

  /** `str(n)` of a natural number: no leading zeros. */
  function Decimal(n: nat): (r: string)
    ensures |r| > 0 && forall i | 0 <= i < |r| :: IsDigit(r[i])
  {
    if n < 10 then [DigitChar(n)] else Decimal(n / 10) + [DigitChar(n % 10)]
  }

  /** `str(i)`. */
  function IntToString(i: int): (r: string)
    ensures |r| > 0 && NoSpace(r) && NoSlash(r)
  {
    if i < 0 then "-" + Decimal(-i) else Decimal(i)
  }

  /** What `int()` accepts after an optional sign: digits, with single
      underscores between them. */
  predicate Numeral(s: string) {
    && |s| > 0 && IsDigit(s[0]) && IsDigit(s[|s| - 1])
    && (forall i | 0 <= i < |s| :: IsDigit(s[i]) || s[i] == '_')
    && (forall i | 0 <= i < |s| - 1 :: !(s[i] == '_' && s[i + 1] == '_'))
  }

  /** The value of the digits of `s`, underscores skipped. */
  function NumeralValue(s: string): nat {
    if s == [] then 0
    else if IsDigit(s[|s| - 1]) then NumeralValue(s[..|s| - 1]) * 10 + (s[|s| - 1] as int - '0' as int)
    else NumeralValue(s[..|s| - 1])
  }

  /** `int(s)` on a field without whitespace; `None` where Python raises. */
  function ParseInt(s: string): (r: Option<int>)
    ensures r.Some? ==> |s| > 0
    ensures r.Some? <==> Numeral(if |s| > 0 && (s[0] == '-' || s[0] == '+') then s[1..] else s)
  {
    var signed := |s| > 0 && (s[0] == '-' || s[0] == '+');
    var body := if signed then s[1..] else s;
    if !Numeral(body) then None
    else if signed && s[0] == '-' then Some(0 - NumeralValue(body))
    else Some(NumeralValue(body))
  }

  lemma {:induction false} DecimalValue(n: nat)
    ensures Numeral(Decimal(n)) && NumeralValue(Decimal(n)) == n
  {
    if n >= 10 {
      DecimalValue(n / 10);
      var d := Decimal(n / 10);
      assert (d + [DigitChar(n % 10)])[..|d|] == d;
    }
  }

  /** `int(str(i)) == i`. */
  lemma ParseIntToString(i: int)
    ensures ParseInt(IntToString(i)) == Some(i)
  {
    if i < 0 {
      ParseNegative(i);
    } else {
      ParseUnsigned(i);
    }
  }

  lemma ParseNegative(i: int)
    requires i < 0
    ensures ParseInt(IntToString(i)) == Some(i)
  {
    var d := Decimal(-i);
    DecimalValue(-i);
    assert IntToString(i) == "-" + d;
    assert ("-" + d)[1..] == d;
  }

  lemma ParseUnsigned(n: nat)
    ensures ParseInt(IntToString(n)) == Some(n)
  {
    DecimalValue(n);
  }
}

=== FILE: error_types.dfy ===
/** The gap check every index-addressed collection goes through before it is
    used: a list of optional entries is accepted only when no slot is empty. */
module ErrorTypes {

  import opened Outcome

  /** The failure of `ensureListIsGapless`: the message names these positions. */
  datatype GapError = UnexpectedNone(indices: seq<nat>)

  predicate StrictlyAscending(xs: seq<nat>) {
    forall i, j | 0 <= i < j < |xs| :: xs[i] < xs[j]
  }

  /** The positions at or after `from` that hold `None`, in ascending order. */
  function NoneIndices<T>(l: seq<Option<T>>, from: nat): (r: seq<nat>)
    requires from <= |l|
    ensures forall k :: k in r <==> from <= k < |l| && l[k].None?
    ensures StrictlyAscending(r)
    ensures forall i | 0 <= i < |r| :: from <= r[i]
    ensures (forall k | from <= k < |l| :: l[k].Some?) <==> r == []
    decreases |l| - from
  {
    if from == |l| then []
    else if l[from].None? then [from] + NoneIndices(l, from + 1)
    else NoneIndices(l, from + 1)
  }

  /** Every slot filled: the values themselves. */
  function Values<T>(l: seq<Option<T>>): (r: seq<T>)
    requires forall i | 0 <= i < |l| :: l[i].Some?
    ensures |r| == |l|
    ensures forall i | 0 <= i < |l| :: l[i] == Some(r[i])
  {
    seq(|l|, i requires 0 <= i < |l| => l[i].value)
  }

  /** `ensureListIsGapless`: the same list without the `Option` wrapper, or
      the positions of every `None`. */
  function EnsureListIsGapless<T>(l: seq<Option<T>>): (r: Result<seq<T>, GapError>)
    ensures r.Err? <==> exists i :: 0 <= i < |l| && l[i].None?
    ensures r.Ok? ==> |r.value| == |l| && forall i | 0 <= i < |l| :: l[i] == Some(r.value[i])
    ensures r.Err? ==> StrictlyAscending(r.error.indices)
    ensures r.Err? ==> forall k :: k in r.error.indices <==> 0 <= k < |l| && l[k].None?
  {
    var missing := NoneIndices(l, 0);
    if |missing| > 0 then
      assert missing[0] in missing;
      Err(UnexpectedNone(missing))
    else
      Ok(Values(l))
  }
}

=== FILE: gla_animation.dfy ===
/** The animation part of a Ghoul2 skeleton and animation file: per frame,
    one 3-byte bone-pool index per bone, the frame block padded to four
    bytes, then the pool of 14-byte compressed bone transforms. The
    transforms are kept as their stored bytes; their quantisation is not
    part of this model. */
module GlaAnimation {

  import opened Outcome
  import opened Bytes
  import opened Layout
  import Reading
  import GlaHeader

  type LoadError = Reading.LoadError

  /** Only the low three bytes of an index are stored. */
  const INDEX_SIZE: nat := 3
  /** One compressed bone transform. */
  const COMP_BONE_SIZE: nat := 14

  /** `frames[f][b]` is the pool index of bone `b` in frame `f`. */
  datatype Animation = Animation(frames: seq<seq<int>>, pool: seq<seq<byte>>)

  // ------------------------------------------------------------ one frame

  function IndexRecords(frame: seq<int>): (r: seq<seq<byte>>)
    requires forall i | 0 <= i < |frame| :: IsU32(frame[i])
    ensures |r| == |frame|
    ensures forall i | 0 <= i < |frame| :: r[i] == U24Truncated(frame[i]) && |r[i]| == INDEX_SIZE
  {
    seq(|frame|, i requires 0 <= i < |frame| => U24Truncated(frame[i]))
  }

  /** `MdxaFrame.saveToFile`: the first three bytes of each packed index. */
  function SaveFrame(frame: seq<int>): (r: seq<byte>)
    requires forall i | 0 <= i < |frame| :: IsU32(frame[i])
    ensures |r| == INDEX_SIZE * |frame|
  {
    ChunksLength(IndexRecords(frame), INDEX_SIZE);
    Concat(IndexRecords(frame))
  }

  /** The indices of 3-byte records, each read with a zero high byte. */
  function Indices(records: seq<seq<byte>>): (r: seq<int>)
    requires forall i | 0 <= i < |records| :: |records[i]| == INDEX_SIZE
    ensures |r| == |records|
    ensures forall i | 0 <= i < |records| :: r[i] == ReadU24(records[i]) && 0 <= r[i] < TWO_24
  {
    seq(|records|, i requires 0 <= i < |records| => ReadU24(records[i]))
  }

  /** A frame's bytes as indices. */
  function FrameOf(block: seq<byte>, numBones: nat): (r: seq<int>)
    requires |block| == INDEX_SIZE * numBones
    ensures |r| == numBones && forall i | 0 <= i < numBones :: 0 <= r[i] < TWO_24
  {
    Indices(ReadChunks(block, 0, numBones, INDEX_SIZE).value)
  }

  /** A saved frame reads back as its indices modulo 2^24; an index below
      2^24 comes back unchanged. */
  lemma FrameRoundTrip(frame: seq<int>)
    requires forall i | 0 <= i < |frame| :: IsU32(frame[i])
    ensures |FrameOf(SaveFrame(frame), |frame|)| == |frame|
    ensures forall i | 0 <= i < |frame| :: FrameOf(SaveFrame(frame), |frame|)[i] == frame[i] % TWO_24
    ensures (forall i | 0 <= i < |frame| :: frame[i] < TWO_24) ==> FrameOf(SaveFrame(frame), |frame|) == frame
  {
    var recs := IndexRecords(frame);
    ReadChunksConcat(SaveFrame(frame), 0, recs, INDEX_SIZE);
    var got := FrameOf(SaveFrame(frame), |frame|);
    assert got == Indices(recs);
    forall i | 0 <= i < |frame| ensures got[i] == frame[i] % TWO_24 {
      U24RoundTrip(frame[i]);
    }
    if forall i | 0 <= i < |frame| :: frame[i] < TWO_24 {
      assert got == frame;
    }
  }

  // ---------------------------------------------------------- the maximum

  /** `max(m, …)` over `xs`, left to right. */
  function MaxFrom(m: int, xs: seq<int>): (r: int)
    ensures m <= r && forall i | 0 <= i < |xs| :: xs[i] <= r
    ensures r == m || exists i | 0 <= i < |xs| :: r == xs[i]
    decreases |xs|
  {
    if |xs| == 0 then m
    else
      var r := MaxFrom(if xs[0] > m then xs[0] else m, xs[1..]);
      assert forall i | 0 <= i < |xs| - 1 :: xs[1..][i] == xs[i + 1];
      r
  }

  /** Each frame's maximum, which `MdxaFrame.loadFromFile` returns starting
      from 0. */
  function FrameMaxima(frames: seq<seq<int>>): (r: seq<int>)
    ensures |r| == |frames| && forall f | 0 <= f < |frames| :: r[f] == MaxFrom(0, frames[f])
  {
    seq(|frames|, f requires 0 <= f < |frames| => MaxFrom(0, frames[f]))
  }

  /** The highest index read, starting from -1: -1 without frames, at least
      0 with any frame (even one of no bones). */
  function HighestIndex(frames: seq<seq<int>>): int {
    MaxFrom(-1, FrameMaxima(frames))
  }

  /** The highest index bounds every index, is one of them unless it is -1
      or 0, and is -1 only without frames. */
  lemma HighestIndexBounds(frames: seq<seq<int>>)
    ensures forall f, b | 0 <= f < |frames| && 0 <= b < |frames[f]| :: frames[f][b] <= HighestIndex(frames)
    ensures HighestIndex(frames) >= (if |frames| == 0 then -1 else 0)
    ensures var m := HighestIndex(frames);
      m == -1 || m == 0 || exists f, b | 0 <= f < |frames| && 0 <= b < |frames[f]| :: frames[f][b] == m
  {
    var ms := FrameMaxima(frames);
    var m := HighestIndex(frames);
    if |frames| > 0 {
      assert ms[0] >= 0;
    }
    if m != -1 && m != 0 {
      var f :| 0 <= f < |ms| && m == ms[f];
      var b :| 0 <= b < |frames[f]| && m == frames[f][b];
    }
  }

  // ------------------------------------------------------------- reading

  /** `n` records of `size` bytes from `pos`. Reading nothing never fails,
      wherever the position is. */
  function ReadRecords(data: seq<byte>, pos: nat, n: nat, size: nat): (r: Option<seq<seq<byte>>>)
    ensures r.Some? ==> |r.value| == n && forall i | 0 <= i < n :: |r.value[i]| == size
  {
    if n == 0 || size == 0 then Some(seq(n, _ => [])) else ReadChunks(data, pos, n, size)
  }

  /** Frame blocks as frames. */
  function FramesOf(blocks: seq<seq<byte>>, numBones: nat): (r: seq<seq<int>>)
    requires forall f | 0 <= f < |blocks| :: |blocks[f]| == INDEX_SIZE * numBones
    ensures |r| == |blocks| && forall f | 0 <= f < |blocks| :: r[f] == FrameOf(blocks[f], numBones)
  {
    seq(|blocks|, f requires 0 <= f < |blocks| => FrameOf(blocks[f], numBones))
  }

  /** `n` frames of `numBones` indices from `pos`. */
  function LoadFrames(data: seq<byte>, pos: nat, n: nat, numBones: nat): (r: Option<seq<seq<int>>>)
    ensures r.Some? ==> |r.value| == n
    ensures r.Some? ==> forall f | 0 <= f < n :: |r.value[f]| == numBones
    ensures r.Some? ==> forall f, b | 0 <= f < n && 0 <= b < numBones :: 0 <= r.value[f][b] < TWO_24
  {
    match ReadRecords(data, pos, n, INDEX_SIZE * numBones)
    case None => None
    case Some(blocks) => Some(FramesOf(blocks, numBones))
  }

  /** The requested window, as `loadFromFile` fixes it up: -1 frames means
      all of them from frame 0 (from any other frame it fails the
      assertion); a start at or past the end becomes the last frame alone;
      a window running past the end is cut there. */
  function Clamp(available: int, startFrame: int, numFrames: int): (r: Result<(int, int), LoadError>)
    ensures r.Err? <==> numFrames == -1 && startFrame != 0
  {
    if numFrames == -1 && startFrame != 0 then Err(Reading.BadRange)
    else
      var count := if numFrames == -1 then available else numFrames;
      var (start, count) := if startFrame >= available then (available - 1, 1) else (startFrame, count);
      if start + count > available then Ok((start, available - start)) else Ok((start, count))
  }

  /** For a file with frames and a start that is not negative, the window
      lies within the file; it is all frames for -1, the last frame for a
      start past the end, and otherwise the request cut at the end. */
  lemma ClampWindow(available: int, startFrame: int, numFrames: int)
    requires available >= 1 && startFrame >= 0 && (numFrames == -1 ==> startFrame == 0)
    ensures Clamp(available, startFrame, numFrames).Ok?
    ensures var (start, count) := Clamp(available, startFrame, numFrames).value;
      && 0 <= start < available && start + count <= available
      && (numFrames == -1 ==> start == 0 && count == available)
      && (startFrame >= available ==> start == available - 1 && count == 1)
      && (startFrame < available && numFrames != -1 ==>
            start == startFrame && count == (if numFrames < available - startFrame then numFrames else available - startFrame))
  {
  }

  /** A file without frames: the window starts at frame -1, one frame
      before the first, so reading seeks back before the frame block. */
  lemma ClampNoFrames(startFrame: int, numFrames: int)
    requires startFrame >= 0 && (numFrames == -1 ==> startFrame == 0)
    ensures Clamp(0, startFrame, numFrames) == Ok((-1, 1))
  {
  }

  /** `MdxaAnimation.loadFromFile`: seek to the frames, fix the window, skip
      the frames before it (a relative seek), read the frames of the window,
      then read as many pool entries as one past the highest index read,
      from the pool's offset. */
  function Load(data: seq<byte>, h: GlaHeader.Header, startFrame: int, numFrames: int): (r: Result<Animation, LoadError>)
    ensures r.Ok? ==> forall f | 0 <= f < |r.value.frames| :: |r.value.frames[f]| == Reading.RangeCount(h.numBones)
    ensures r.Ok? ==> forall k | 0 <= k < |r.value.pool| :: |r.value.pool[k]| == COMP_BONE_SIZE
    ensures r.Ok? ==> forall f, b | 0 <= f < |r.value.frames| && 0 <= b < |r.value.frames[f]| :: 0 <= r.value.frames[f][b] < TWO_24
    ensures r.Ok? ==> |r.value.pool| == HighestIndex(r.value.frames) + 1
  {
    var framesAt :- Reading.Seek(h.ofsFrames);
    var window :- Clamp(h.numFrames, startFrame, numFrames);
    LoadWindow(data, h, framesAt, window.0, window.1)
  }

  /** The frames of the window from frame `start`, then the pool. */
  function LoadWindow(data: seq<byte>, h: GlaHeader.Header, framesAt: nat, start: int, count: int): (r: Result<Animation, LoadError>)
    ensures r.Ok? ==> forall f | 0 <= f < |r.value.frames| :: |r.value.frames[f]| == Reading.RangeCount(h.numBones)
    ensures r.Ok? ==> forall k | 0 <= k < |r.value.pool| :: |r.value.pool[k]| == COMP_BONE_SIZE
    ensures r.Ok? ==> forall f, b | 0 <= f < |r.value.frames| && 0 <= b < |r.value.frames[f]| :: 0 <= r.value.frames[f][b] < TWO_24
    ensures r.Ok? ==> |r.value.pool| == HighestIndex(r.value.frames) + 1
  {
    var from :- Reading.Seek(framesAt + start * INDEX_SIZE * h.numBones);
    var frames :- Reading.Need(LoadFrames(data, from, Reading.RangeCount(count), Reading.RangeCount(h.numBones)), Reading.Truncated);
    LoadPool(data, h, frames)
  }

  /** The pool for frames read: one entry past their highest index. */
  function LoadPool(data: seq<byte>, h: GlaHeader.Header, frames: seq<seq<int>>): (r: Result<Animation, LoadError>)
    ensures r.Ok? ==> r.value.frames == frames
    ensures r.Ok? ==> forall k | 0 <= k < |r.value.pool| :: |r.value.pool[k]| == COMP_BONE_SIZE
    ensures r.Ok? ==> |r.value.pool| == HighestIndex(frames) + 1
  {
    var poolAt :- Reading.Seek(h.ofsCompBonePool);
    var pool :- Reading.Need(ReadRecords(data, poolAt, HighestIndex(frames) + 1, COMP_BONE_SIZE), Reading.Truncated);
    Ok(Animation(frames, pool))
  }

  /** Every index of every frame is an entry of the pool, and the pool is
      no longer than that needs: its last entry is an index used (or entry
      0), and it is empty only without frames. */
  predicate PoolCovers(a: Animation) {
    && (forall f, b | 0 <= f < |a.frames| && 0 <= b < |a.frames[f]| :: 0 <= a.frames[f][b] < |a.pool|)
    && (|a.pool| > 1 ==> exists f, b | 0 <= f < |a.frames| && 0 <= b < |a.frames[f]| :: a.frames[f][b] == |a.pool| - 1)
    && (|a.pool| == 0 <==> |a.frames| == 0)
  }

  /** A pool one longer than the highest index covers the frames. */
  lemma SizedPoolCovers(a: Animation)
    requires |a.pool| == HighestIndex(a.frames) + 1
    requires forall f, b | 0 <= f < |a.frames| && 0 <= b < |a.frames[f]| :: 0 <= a.frames[f][b]
    ensures PoolCovers(a)
  {
    HighestIndexBounds(a.frames);
  }

  /** The pool read covers the frames read. */
  lemma LoadIndicesInPool(data: seq<byte>, h: GlaHeader.Header, startFrame: int, numFrames: int)
    ensures Load(data, h, startFrame, numFrames).Ok? ==> PoolCovers(Load(data, h, startFrame, numFrames).value)
  {
    var r := Load(data, h, startFrame, numFrames);
    if r.Ok? {
      SizedPoolCovers(r.value);
    }
  }

  // ------------------------------------------------------------- writing

  /** Indices fit the packed integer. */
  predicate Storable(a: Animation) {
    forall f, b | 0 <= f < |a.frames| && 0 <= b < |a.frames[f]| :: IsU32(a.frames[f][b])
  }

  function FrameRecords(a: Animation): (r: seq<seq<byte>>)
    requires Storable(a)
    ensures |r| == |a.frames| && forall f | 0 <= f < |a.frames| :: r[f] == SaveFrame(a.frames[f])
  {
    seq(|a.frames|, f requires 0 <= f < |a.frames| => SaveFrame(a.frames[f]))
  }

  /** The frame block: the frames one after another. */
  function SaveFrames(a: Animation): seq<byte>
    requires Storable(a)
  {
    Concat(FrameRecords(a))
  }

  /** The bytes that bring an absolute position to a multiple of four. */
  function Padding(at: int): (r: nat)
    ensures r < 4 && (at + r) % 4 == 0
  {
    if at % 4 != 0 then 4 - at % 4 else 0
  }

  datatype SaveError =
    | FramesMisplaced(at: int)   // the frames are not written at the header's offset
    | PoolMisplaced(at: int)     // the pool is not written at the header's offset

  /** What a write leaves behind: the bytes and the file position after
      it. A seek past the end that nothing follows leaves no bytes. */
  datatype Written = Written(bytes: seq<byte>, tell: int)

  /** `MdxaAnimation.saveToFile` at position `at`: the frames, then a
      forward seek to the next multiple of four (the gap reads as zeros once
      the pool is written after it), then the pool. Both assertions on the
      position become errors. */
  function Save(a: Animation, h: GlaHeader.Header, at: int): (r: Result<Written, SaveError>)
    requires Storable(a)
    ensures r.Ok? ==> at == h.ofsFrames && r.value.tell == h.ofsCompBonePool + |Concat(a.pool)|
    ensures r.Ok? ==> SaveFrames(a) <= r.value.bytes
  {
    if at != h.ofsFrames then Err(FramesMisplaced(at))
    else
      var frameBytes := SaveFrames(a);
      var end := at + |frameBytes|;
      var poolAt := end + Padding(end);
      if poolAt != h.ofsCompBonePool then Err(PoolMisplaced(poolAt))
      else
        var poolBytes := Concat(a.pool);
        Ok(Written(frameBytes + (if |poolBytes| == 0 then [] else Zeros(Padding(end)) + poolBytes), poolAt + |poolBytes|))
  }

  /** The frame block's size in the header: three bytes per bone and frame,
      rounded up to a multiple of four. */
  function FramesSize(numFrames: int, numBones: int): (r: int)
    ensures r % 4 == 0 && 3 * numFrames * numBones <= r < 3 * numFrames * numBones + 4
  {
    var size := 3 * numFrames * numBones;
    if size % 4 != 0 then size + (4 - size % 4) else size
  }

  /** Frames of equal length: the frame block is three bytes per index. */
  lemma SaveFramesLength(a: Animation, numBones: nat)
    requires Storable(a) && forall f | 0 <= f < |a.frames| :: |a.frames[f]| == numBones
    ensures |SaveFrames(a)| == 3 * |a.frames| * numBones
  {
    ChunksLength(FrameRecords(a), INDEX_SIZE * numBones);
    assert |a.frames| * (INDEX_SIZE * numBones) == 3 * |a.frames| * numBones;
  }

  /** Frames written from a four-byte boundary are padded, by absolute
      position, to exactly the recorded frame-block size. */
  lemma PaddingMatchesFramesSize(a: Animation, numBones: nat, at: int)
    requires Storable(a) && forall f | 0 <= f < |a.frames| :: |a.frames[f]| == numBones
    requires at % 4 == 0
    ensures at + |SaveFrames(a)| + Padding(at + |SaveFrames(a)|) == at + FramesSize(|a.frames|, numBones)
  {
    SaveFramesLength(a, numBones);
    PaddingAligned(at, |SaveFrames(a)|);
  }

  /** From a four-byte boundary, the padding depends on the size alone. */
  lemma PaddingAligned(at: int, size: int)
    requires at % 4 == 0
    ensures Padding(at + size) == (if size % 4 != 0 then 4 - size % 4 else 0)
  {
    assert (at + size) % 4 == size % 4;
  }

  // ---------------------------------------------------------- round trip

  /** Every frame has `numBones` indices into the pool, and the last pool
      entry is used: the shape the exporter produces. */
  predicate Indexed(a: Animation, numBones: nat) {
    && (forall f | 0 <= f < |a.frames| :: |a.frames[f]| == numBones)
    && (forall f, b | 0 <= f < |a.frames| && 0 <= b < |a.frames[f]| :: 0 <= a.frames[f][b] < |a.pool|)
    && (forall k | 0 <= k < |a.pool| :: |a.pool[k]| == COMP_BONE_SIZE)
    && |a.pool| <= TWO_24
    && (|a.pool| > 0 ==> exists f, b | 0 <= f < |a.frames| && 0 <= b < |a.frames[f]| :: a.frames[f][b] == |a.pool| - 1)
  }

  /** The highest index of such frames is the last pool entry. */
  lemma HighestIsLast(a: Animation, numBones: nat)
    requires Indexed(a, numBones) && |a.frames| > 0 && numBones > 0
    ensures HighestIndex(a.frames) == |a.pool| - 1
  {
    HighestIndexBounds(a.frames);
    assert 0 <= a.frames[0][0] < |a.pool|;
    var m := HighestIndex(a.frames);
    if m != -1 && m != 0 {
      var f, b :| 0 <= f < |a.frames| && 0 <= b < |a.frames[f]| && a.frames[f][b] == m;
    }
  }

  /** A saved frame block reads back as the frames. */
  lemma FramesLoad(a: Animation, numBones: nat, data: seq<byte>, at: nat)
    requires Indexed(a, numBones) && Storable(a) && |a.frames| > 0 && numBones > 0
    requires Placed(data, at, SaveFrames(a))
    ensures LoadFrames(data, at, |a.frames|, numBones) == Some(a.frames)
  {
    var recs := FrameRecords(a);
    var size := INDEX_SIZE * numBones;
    ChunksPlaced(data, at, recs, size);
    assert ReadRecords(data, at, |a.frames|, size) == Some(recs);
    var r := FramesOf(recs, numBones);
    forall f | 0 <= f < |a.frames| ensures r[f] == a.frames[f] {
      var frame := a.frames[f];
      assert forall b | 0 <= b < |frame| :: frame[b] < TWO_24;
      FrameRoundTrip(frame);
    }
    assert r == a.frames;
    assert LoadFrames(data, at, |a.frames|, numBones) == Some(r);
  }

  /** What `Save` wrote: the frames at `at`, the pool at the header's pool
      offset. */
  lemma SavedParts(a: Animation, h: GlaHeader.Header, at: nat, data: seq<byte>)
    requires Storable(a) && Save(a, h, at).Ok? && Placed(data, at, Save(a, h, at).value.bytes)
    ensures Placed(data, at, SaveFrames(a))
    ensures h.ofsCompBonePool >= 0
    ensures |Concat(a.pool)| > 0 ==> Placed(data, h.ofsCompBonePool, Concat(a.pool))
  {
    var frameBytes := SaveFrames(a);
    var end := at + |frameBytes|;
    var pad := Padding(end);
    var poolBytes := Concat(a.pool);
    var tail := if |poolBytes| == 0 then [] else Zeros(pad) + poolBytes;
    PlacedAppend(data, at, frameBytes, tail, end);
    if |poolBytes| > 0 {
      PlacedAppend(data, end, Zeros(pad), poolBytes, end + pad);
    }
  }

  /** The frames of the whole file and the pool, read where the header
      says, are `frames` and `pool`. */
  predicate ReadsBack(data: seq<byte>, h: GlaHeader.Header, frames: seq<seq<int>>, pool: seq<seq<byte>>) {
    && h.ofsFrames >= 0 && h.numFrames >= 1 && h.numBones >= 0 && h.ofsCompBonePool >= 0
    && LoadFrames(data, h.ofsFrames, h.numFrames, h.numBones) == Some(frames)
    && ReadRecords(data, h.ofsCompBonePool, HighestIndex(frames) + 1, COMP_BONE_SIZE) == Some(pool)
  }

  /** Loading every frame, given what each read finds. */
  lemma LoadAll(data: seq<byte>, h: GlaHeader.Header, frames: seq<seq<int>>, pool: seq<seq<byte>>)
    requires ReadsBack(data, h, frames, pool)
    ensures Load(data, h, 0, -1) == Ok(Animation(frames, pool))
  {
    var at: nat := h.ofsFrames;
    assert LoadPool(data, h, frames) == Ok(Animation(frames, pool));
    assert at + 0 * INDEX_SIZE * h.numBones == at;
    assert LoadWindow(data, h, at, 0, h.numFrames) == Ok(Animation(frames, pool));
    assert Clamp(h.numFrames, 0, -1) == Ok((0, h.numFrames));
  }

  /** `data` holds, at the header's frame offset, what `Save` writes for
      frames of `numBones` indices each into a pool they use up to its last
      entry. */
  predicate SavedAt(a: Animation, h: GlaHeader.Header, numBones: nat, data: seq<byte>) {
    && Indexed(a, numBones) && Storable(a) && |a.frames| > 0 && numBones > 0
    && h.numFrames == |a.frames| && h.numBones == numBones && h.ofsFrames >= 0
    && Save(a, h, h.ofsFrames).Ok? && Placed(data, h.ofsFrames, Save(a, h, h.ofsFrames).value.bytes)
  }

  /** A saved animation reads back whole: loading every frame gives the
      same frames and the same pool. */
  lemma LoadSave(a: Animation, h: GlaHeader.Header, numBones: nat, data: seq<byte>)
    requires SavedAt(a, h, numBones, data)
    ensures Load(data, h, 0, -1) == Ok(a)
  {
    SavedReads(a, h, numBones, data);
    LoadAll(data, h, a.frames, a.pool);
  }

  /** Each read of a saved animation finds what was written. */
  lemma SavedReads(a: Animation, h: GlaHeader.Header, numBones: nat, data: seq<byte>)
    requires SavedAt(a, h, numBones, data)
    ensures ReadsBack(data, h, a.frames, a.pool)
  {
    SavedParts(a, h, h.ofsFrames, data);
    FramesLoad(a, numBones, data, h.ofsFrames);
    SavedPool(a, h, numBones, data);
  }

  lemma SavedPool(a: Animation, h: GlaHeader.Header, numBones: nat, data: seq<byte>)
    requires SavedAt(a, h, numBones, data)
    ensures h.ofsCompBonePool >= 0
    ensures ReadRecords(data, h.ofsCompBonePool, HighestIndex(a.frames) + 1, COMP_BONE_SIZE) == Some(a.pool)
  {
    SavedParts(a, h, h.ofsFrames, data);
    HighestIsLast(a, numBones);
    ChunksLength(a.pool, COMP_BONE_SIZE);
    ChunksPlaced(data, h.ofsCompBonePool, a.pool, COMP_BONE_SIZE);
  }
}

=== FILE: gla_build.dfy ===
/** Building the skeleton of an exported animation file from the armature's
    edit bones. Repeated passes over the bones not yet added add every bone
    that has no parent or whose parent was already added (earlier passes or
    earlier in the same pass); a bone's index is the number of bones added
    before it, its name is entered in the name table before its parent is
    looked up, and its parent gains it as a child. A pass that adds nothing
    is a hierarchy error. */
module GlaBuild {

  import opened Outcome
  import opened Bytes
  import GlaSkeleton
  import GlaOrder

  type Bone = GlaSkeleton.Bone

  /** An armature bone in edit mode: its name, its parent's name if it has
      one, and its base pose and the inverse, as the 48 stored bytes each
      that the matrix conversion (not part of this model) yields. Names are
      the encoded bone names; the editor keeps them unique. */
  datatype EditBone = EditBone(name: seq<byte>, parent: Option<seq<byte>>, basePose: seq<byte>, basePoseInv: seq<byte>)

  /** The skeleton so far: the bones, the name table, and the edit bones in
      the order they were added (`made[i]` became `bones[i]`). */
  datatype Skeleton = Skeleton(bones: seq<Bone>, byName: map<seq<byte>, int>, made: seq<EditBone>)

  datatype BuildError =
    /** "Hierarchy error, failed to find bone parent": a pass added nothing;
        `left` are the bones still waiting. */
    | HierarchyError(left: seq<EditBone>)

  function Empty(): Skeleton {
    Skeleton([], map[], [])
  }

  /** The new bone for `e` at `index` under `parent`: flags 0, no children
      yet. */
  function NewBone(e: EditBone, parent: int, index: int): Bone {
    GlaSkeleton.Bone(e.name, 0, parent, e.basePose, e.basePoseInv, 0, [], index)
  }

  /** A bone can be added once it has no parent or its parent's name is in
      the table. */
  predicate Known(s: Skeleton, e: EditBone) {
    e.parent.None? || e.parent.value in s.byName
  }

  /** Every name in the table names a bone. */
  predicate TableInRange(s: Skeleton) {
    forall n | n in s.byName :: 0 <= s.byName[n] < |s.bones|
  }

  function Names(es: seq<EditBone>): (r: seq<seq<byte>>)
    ensures |r| == |es| && forall k | 0 <= k < |es| :: r[k] == es[k].name
  {
    seq(|es|, k requires 0 <= k < |es| => es[k].name)
  }

  lemma NamesAppend(a: seq<EditBone>, b: seq<EditBone>)
    ensures Names(a + b) == Names(a) + Names(b)
  {
  }

  /** The bones waiting to be added have pairwise different names, none of
      them in the table yet. */
  predicate FreshFor(s: Skeleton, pending: seq<EditBone>) {
    && (forall k | 0 <= k < |pending| :: pending[k].name !in s.byName)
    && forall j, k | 0 <= j < k < |pending| :: pending[j].name != pending[k].name
  }

  /** `MdxaBone.loadFromBlender` for a new bone that gets the next index:
      its name enters the table, then its parent (if any) is looked up in
      the table and gains it as a child. */
  function Add(s: Skeleton, e: EditBone): (r: Skeleton)
    requires TableInRange(s) && Known(s, e) && e.name !in s.byName
    ensures TableInRange(r) && |r.bones| == |s.bones| + 1
    ensures r.byName.Keys == s.byName.Keys + {e.name}
  {
    var index := |s.bones|;
    var byName := s.byName[e.name := index];
    if e.parent.None? then
      Skeleton(s.bones + [NewBone(e, -1, index)], byName, s.made + [e])
    else
      assert e.parent.value != e.name;
      var p := byName[e.parent.value];
      var up := s.bones[p].(numChildren := s.bones[p].numChildren + 1, children := s.bones[p].children + [index]);
      Skeleton(s.bones[p := up] + [NewBone(e, p, index)], byName, s.made + [e])
  }

  /** One pass over the waiting bones, in their order: the grown skeleton
      and the bones that still wait. */
  function Pass(s: Skeleton, pending: seq<EditBone>): (r: (Skeleton, seq<EditBone>))
    requires TableInRange(s) && FreshFor(s, pending)
    ensures TableInRange(r.0) && FreshFor(r.0, r.1)
    ensures |s.bones| <= |r.0.bones| && |r.0.bones| - |s.bones| + |r.1| == |pending|
    ensures forall n | n in r.0.byName :: n in s.byName || n in Names(pending)
    ensures forall k | 0 <= k < |r.1| :: r.1[k].name in Names(pending)
    decreases |pending|
  {
    if |pending| == 0 then (s, [])
    else
      var e := pending[0];
      assert Names(pending) == [e.name] + Names(pending[1..]);
      if Known(s, e) then
        Pass(Add(s, e), pending[1..])
      else
        var r := Pass(s, pending[1..]);
        assert e.name !in Names(pending[1..]);
        (r.0, [e] + r.1)
  }

  /** `while len(bonesToAdd) > 0`: passes until every bone is added; a pass
      that adds nothing is an error. */
  function Passes(s: Skeleton, pending: seq<EditBone>): (r: Result<Skeleton, BuildError>)
    requires TableInRange(s) && FreshFor(s, pending)
    decreases |pending|
  {
    if |pending| == 0 then Ok(s)
    else
      var (next, left) := Pass(s, pending);
      if |next.bones| == |s.bones| then Err(HierarchyError(left))
      else Passes(next, left)
  }

  predicate UniqueNames(edit: seq<EditBone>) {
    forall j, k | 0 <= j < k < |edit| :: edit[j].name != edit[k].name
  }

  /** The skeleton built from the armature's edit bones. */
  function Build(edit: seq<EditBone>): (r: Result<Skeleton, BuildError>)
    requires UniqueNames(edit)
  {
    Passes(Empty(), edit)
  }

  // ------------------------------------------------------------ invariants

  function Parents(bones: seq<Bone>): (r: seq<int>)
    ensures |r| == |bones| && forall i | 0 <= i < |bones| :: r[i] == bones[i].parent
  {
    seq(|bones|, i requires 0 <= i < |bones| => bones[i].parent)
  }

  /** The indices of the bones whose parent is `i`, ascending. */
  function ChildIndices(ps: seq<int>, i: int): (r: seq<int>)
    decreases |ps|
  {
    if |ps| == 0 then []
    else ChildIndices(ps[..|ps| - 1], i) + (if ps[|ps| - 1] == i then [|ps| - 1] else [])
  }

  /** Bone `i` is what the builder makes of `made[i]`: same name and
      poses, flags 0, its own index, a parent exactly when the edit bone has
      one (an earlier bone of that name), and as children the later bones
      that name it as parent, in index order. */
  predicate BoneOk(s: Skeleton, i: int)
    requires 0 <= i < |s.bones| == |s.made|
  {
    var b, e := s.bones[i], s.made[i];
    && b.name == e.name && b.flags == 0 && b.index == i
    && b.basePose == e.basePose && b.basePoseInv == e.basePoseInv
    && (e.parent.None? <==> b.parent == -1)
    && (e.parent.Some? ==> 0 <= b.parent < i && s.bones[b.parent].name == e.parent.value)
    && b.numChildren == |b.children| && b.children == ChildIndices(Parents(s.bones), i)
  }

  /** Every bone is built right and the name table maps exactly the bones'
      names to their indices. */
  predicate Wf(s: Skeleton) {
    && |s.made| == |s.bones|
    && (forall i | 0 <= i < |s.bones| :: BoneOk(s, i))
    && (forall i | 0 <= i < |s.bones| :: s.bones[i].name in s.byName && s.byName[s.bones[i].name] == i)
    && (forall n | n in s.byName :: n in Names(s.made))
  }

  lemma WfTable(s: Skeleton)
    requires Wf(s)
    ensures TableInRange(s)
  {
    forall n | n in s.byName ensures 0 <= s.byName[n] < |s.bones| {
      var j :| 0 <= j < |s.made| && Names(s.made)[j] == n;
      assert s.bones[j].name == n by {
        assert BoneOk(s, j);
      }
    }
  }

  lemma EmptyWf()
    ensures Wf(Empty())
  {
  }

  /** No bone names `i` as parent: `i` has no children. */
  lemma {:induction false} NoChildren(ps: seq<int>, i: int)
    requires forall k | 0 <= k < |ps| :: ps[k] != i
    ensures ChildIndices(ps, i) == []
    decreases |ps|
  {
    if |ps| > 0 {
      NoChildren(ps[..|ps| - 1], i);
    }
  }

  /** The index `Add` gives the parent of `e`, -1 for a root. */
  function ParentIndex(s: Skeleton, e: EditBone): int
    requires Known(s, e)
  {
    if e.parent.None? then -1 else s.byName[e.parent.value]
  }

  lemma {:induction false} ChildrenAppend(ps: seq<int>, p: int, i: int)
    ensures ChildIndices(ps + [p], i) == ChildIndices(ps, i) + (if p == i then [|ps|] else [])
  {
    assert (ps + [p])[..|ps|] == ps;
  }

  /** What `Add` changes: one bone appended, and the parent's child list. */
  lemma AddShape(s: Skeleton, e: EditBone)
    requires Wf(s) && Known(s, e) && e.name !in s.byName
    ensures TableInRange(s)
    ensures var r, p, index := Add(s, e), ParentIndex(s, e), |s.bones|;
      && -1 <= p < index && (p == -1 <==> e.parent.None?)
      && (p >= 0 ==> s.bones[p].name == e.parent.value)
      && Parents(r.bones) == Parents(s.bones) + [p]
      && r.made == s.made + [e] && r.byName == s.byName[e.name := index]
      && r.bones[index] == NewBone(e, p, index)
      && forall i | 0 <= i < index :: r.bones[i] == (if i == p then s.bones[i].(numChildren := s.bones[i].numChildren + 1, children := s.bones[i].children + [index]) else s.bones[i])
  {
    WfTable(s);
    var r, p, index := Add(s, e), ParentIndex(s, e), |s.bones|;
    if e.parent.Some? {
      var j :| 0 <= j < |s.made| && Names(s.made)[j] == e.parent.value;
      assert BoneOk(s, j);
    }
    assert Parents(r.bones) == Parents(s.bones) + [p];
  }

  lemma AddOld(s: Skeleton, e: EditBone, i: int)
    requires Wf(s) && Known(s, e) && e.name !in s.byName && 0 <= i < |s.bones|
    ensures TableInRange(s) && |Add(s, e).made| == |Add(s, e).bones|
    ensures BoneOk(Add(s, e), i)
  {
    AddShape(s, e);
    var r, p := Add(s, e), ParentIndex(s, e);
    assert BoneOk(s, i);
    ChildrenAppend(Parents(s.bones), p, i);
  }

  lemma AddNew(s: Skeleton, e: EditBone)
    requires Wf(s) && Known(s, e) && e.name !in s.byName
    ensures TableInRange(s) && |Add(s, e).made| == |Add(s, e).bones|
    ensures BoneOk(Add(s, e), |s.bones|)
  {
    AddShape(s, e);
    var r, p, index := Add(s, e), ParentIndex(s, e), |s.bones|;
    forall k | 0 <= k < |s.bones| ensures Parents(s.bones)[k] != index {
      assert BoneOk(s, k);
    }
    NoChildren(Parents(s.bones), index);
    ChildrenAppend(Parents(s.bones), p, index);
  }

  /** Adding a bone keeps the skeleton well formed. */
  lemma AddWf(s: Skeleton, e: EditBone)
    requires Wf(s) && Known(s, e) && e.name !in s.byName
    ensures TableInRange(s)
    ensures Wf(Add(s, e))
  {
    AddShape(s, e);
    var r, index := Add(s, e), |s.bones|;
    forall i | 0 <= i < |r.bones| ensures BoneOk(r, i) {
      if i < index {
        AddOld(s, e, i);
      } else {
        AddNew(s, e);
      }
    }
    forall i | 0 <= i < |r.bones| ensures r.bones[i].name in r.byName && r.byName[r.bones[i].name] == i {
      if i < index {
        assert BoneOk(s, i);
      }
    }
    assert Names(r.made) == Names(s.made) + [e.name];
  }

  // ------------------------------------------------------------ the passes

  lemma {:induction false} PassWf(s: Skeleton, pending: seq<EditBone>)
    requires Wf(s) && FreshFor(s, pending)
    ensures TableInRange(s)
    ensures Wf(Pass(s, pending).0)
    decreases |pending|
  {
    WfTable(s);
    if |pending| > 0 {
      var e, rest := pending[0], pending[1..];
      if Known(s, e) {
        AddWf(s, e);
        PassWf(Add(s, e), rest);
      } else {
        PassWf(s, rest);
      }
    }
  }

  /** A pass moves bones from the waiting list to the skeleton: none is
      lost or duplicated. */
  lemma {:induction false} PassKeeps(s: Skeleton, pending: seq<EditBone>)
    requires TableInRange(s) && FreshFor(s, pending)
    ensures multiset(Pass(s, pending).0.made) + multiset(Pass(s, pending).1) == multiset(s.made) + multiset(pending)
    decreases |pending|
  {
    if |pending| > 0 {
      var e, rest := pending[0], pending[1..];
      assert pending == [e] + rest;
      if Known(s, e) {
        var a := Add(s, e);
        PassKeeps(a, rest);
        calc {
          multiset(Pass(s, pending).0.made) + multiset(Pass(s, pending).1);
          multiset(Pass(a, rest).0.made) + multiset(Pass(a, rest).1);
          multiset(a.made) + multiset(rest);
          { assert a.made == s.made + [e]; }
          multiset(s.made) + multiset([e]) + multiset(rest);
          multiset(s.made) + multiset(pending);
        }
      } else {
        PassKeeps(s, rest);
        var r := Pass(s, rest);
        calc {
          multiset(Pass(s, pending).0.made) + multiset(Pass(s, pending).1);
          multiset(r.0.made) + multiset([e] + r.1);
          { assert multiset([e] + r.1) == multiset([e]) + multiset(r.1); }
          multiset(r.0.made) + multiset(r.1) + multiset([e]);
          multiset(s.made) + multiset(rest) + multiset([e]);
          multiset(s.made) + multiset(pending);
        }
      }
    }
  }

  /** The bones still waiting after a pass were waiting before it. */
  lemma {:induction false} PassLeft(s: Skeleton, pending: seq<EditBone>)
    requires TableInRange(s) && FreshFor(s, pending)
    ensures multiset(Pass(s, pending).1) <= multiset(pending)
    decreases |pending|
  {
    if |pending| > 0 {
      var e, rest := pending[0], pending[1..];
      assert pending == [e] + rest;
      if Known(s, e) {
        PassLeft(Add(s, e), rest);
      } else {
        PassLeft(s, rest);
        var r := Pass(s, rest);
        assert multiset([e] + r.1) == multiset([e]) + multiset(r.1);
      }
    }
  }

  /** A pass adds nothing exactly when no waiting bone can be added. */
  lemma {:induction false} PassStuck(s: Skeleton, pending: seq<EditBone>)
    requires TableInRange(s) && FreshFor(s, pending)
    ensures |Pass(s, pending).0.bones| == |s.bones| <==> forall k | 0 <= k < |pending| :: !Known(s, pending[k])
    decreases |pending|
  {
    if |pending| > 0 {
      var e, rest := pending[0], pending[1..];
      if !Known(s, e) {
        PassStuck(s, rest);
        assert forall k | 0 <= k < |rest| :: rest[k] == pending[k + 1];
        assert (forall k | 0 <= k < |pending| :: !Known(s, pending[k])) <==> (forall k | 0 <= k < |rest| :: !Known(s, rest[k]));
      }
    }
  }

  /** A pass that adds nothing leaves the skeleton and the waiting list as
      they were. */
  lemma {:induction false} PassIdle(s: Skeleton, pending: seq<EditBone>)
    requires TableInRange(s) && FreshFor(s, pending)
    ensures |Pass(s, pending).0.bones| == |s.bones| ==> Pass(s, pending) == (s, pending)
    decreases |pending|
  {
    if |pending| > 0 {
      var e, rest := pending[0], pending[1..];
      if Known(s, e) {
        var a := Add(s, e);
        assert Pass(s, pending) == Pass(a, rest);
        assert |Pass(a, rest).0.bones| > |s.bones|;
      } else {
        var r := Pass(s, rest);
        assert Pass(s, pending) == (r.0, [e] + r.1);
        PassIdle(s, rest);
        assert pending == [e] + rest;
      }
    }
  }

  /** A name of an element of one pair of lists is a name in the other pair
      when they hold the same bones. */
  lemma NameMoves(n: seq<byte>, a: seq<EditBone>, b: seq<EditBone>, c: seq<EditBone>, d: seq<EditBone>)
    requires multiset(a) + multiset(b) == multiset(c) + multiset(d)
    requires n in Names(a) || n in Names(b)
    ensures n in Names(c) || n in Names(d)
  {
    var x :| (x in a || x in b) && x.name == n;
    assert x in multiset(a) + multiset(b);
    assert x in multiset(c) || x in multiset(d);
    if x in c {
      var j :| 0 <= j < |c| && c[j] == x;
      assert Names(c)[j] == n;
    } else {
      var j :| 0 <= j < |d| && d[j] == x;
      assert Names(d)[j] == n;
    }
  }

  /** When every bone is added, the skeleton is well formed and holds each
      waiting bone once. */
  lemma {:induction false} PassesOk(s: Skeleton, pending: seq<EditBone>)
    requires Wf(s) && FreshFor(s, pending)
    ensures TableInRange(s)
    ensures Passes(s, pending).Ok? ==> Wf(Passes(s, pending).value)
    ensures Passes(s, pending).Ok? ==> multiset(Passes(s, pending).value.made) == multiset(s.made) + multiset(pending)
    decreases |pending|
  {
    WfTable(s);
    if |pending| > 0 {
      var (next, left) := Pass(s, pending);
      if |next.bones| != |s.bones| {
        PassWf(s, pending);
        PassKeeps(s, pending);
        PassesOk(next, left);
      }
    }
  }

  /** When the passes get stuck, the bones left over are some of the
      waiting ones, every one has a parent, and that parent is not among the
      bones added or waiting unless it is itself left over (it is missing, or
      the left-over bones form a cycle). */
  lemma {:induction false} PassesErr(s: Skeleton, pending: seq<EditBone>)
    requires Wf(s) && FreshFor(s, pending)
    ensures TableInRange(s)
    ensures Passes(s, pending).Err? ==> Stuck(s.made + pending, Passes(s, pending).error.left)
    ensures Passes(s, pending).Err? ==> multiset(Passes(s, pending).error.left) <= multiset(pending)
    decreases |pending|
  {
    WfTable(s);
    if |pending| > 0 {
      var (next, left) := Pass(s, pending);
      PassKeeps(s, pending);
      PassLeft(s, pending);
      if |next.bones| == |s.bones| {
        PassStuck(s, pending);
        PassIdle(s, pending);
        StuckNow(s, pending);
      } else {
        PassWf(s, pending);
        PassesErr(next, left);
        var r := Passes(next, left);
        if r.Err? {
          forall k | 0 <= k < |r.error.left| ensures r.error.left[k].parent.value in Names(s.made + pending) ==> r.error.left[k].parent.value in Names(r.error.left) {
            var n := r.error.left[k].parent.value;
            if n in Names(s.made + pending) {
              NamesAppend(s.made, pending);
              NamesAppend(next.made, left);
              NameMoves(n, s.made, pending, next.made, left);
            }
          }
        }
      }
    }
  }

  /** No waiting bone can be added: they are all stuck. */
  lemma StuckNow(s: Skeleton, pending: seq<EditBone>)
    requires Wf(s) && |pending| > 0 && forall k | 0 <= k < |pending| :: !Known(s, pending[k])
    ensures Stuck(s.made + pending, pending)
  {
    forall k | 0 <= k < |pending| ensures pending[k].parent.Some? && (pending[k].parent.value in Names(s.made + pending) ==> pending[k].parent.value in Names(pending)) {
      var n := pending[k].parent.value;
      if n in Names(s.made) {
        var j :| 0 <= j < |s.made| && Names(s.made)[j] == n;
        assert BoneOk(s, j);
      }
      NamesAppend(s.made, pending);
    }
  }

  /** The bones that could not be added: at least one, each with a parent
      that is not in `all` unless it is also left over. */
  predicate Stuck(all: seq<EditBone>, left: seq<EditBone>) {
    |left| > 0 &&
    forall k | 0 <= k < |left| ::
      left[k].parent.Some? && (left[k].parent.value in Names(all) ==> left[k].parent.value in Names(left))
  }

  /** A built skeleton is well formed and holds every edit bone once. */
  lemma BuildSound(edit: seq<EditBone>)
    requires UniqueNames(edit)
    ensures Build(edit).Ok? ==> Wf(Build(edit).value) && multiset(Build(edit).value.made) == multiset(edit)
    ensures Build(edit).Err? ==> Stuck(edit, Build(edit).error.left) && multiset(Build(edit).error.left) <= multiset(edit)
  {
    EmptyWf();
    PassesOk(Empty(), edit);
    PassesErr(Empty(), edit);
    assert Empty().made + edit == edit;
  }

  /** Every bone whose parent is listed before it is added in the first
      pass, in list order. */
  lemma {:induction false} PassAll(s: Skeleton, pending: seq<EditBone>)
    requires TableInRange(s) && FreshFor(s, pending)
    requires forall k | 0 <= k < |pending| :: pending[k].parent.None? || pending[k].parent.value in s.byName || pending[k].parent.value in Names(pending[..k])
    ensures Pass(s, pending).1 == [] && Pass(s, pending).0.made == s.made + pending
    decreases |pending|
  {
    if |pending| > 0 {
      var e, rest := pending[0], pending[1..];
      assert Names(pending[..0]) == [];
      var a := Add(s, e);
      PassAllRest(s, pending);
      PassAll(a, rest);
      assert s.made + pending == (s.made + [e]) + rest;
    }
  }

  lemma PassAllRest(s: Skeleton, pending: seq<EditBone>)
    requires TableInRange(s) && FreshFor(s, pending) && |pending| > 0
    requires forall k | 0 <= k < |pending| :: pending[k].parent.None? || pending[k].parent.value in s.byName || pending[k].parent.value in Names(pending[..k])
    ensures Known(s, pending[0]) && TableInRange(Add(s, pending[0]))
    ensures var a, rest := Add(s, pending[0]), pending[1..];
      forall k | 0 <= k < |rest| :: rest[k].parent.None? || rest[k].parent.value in a.byName || rest[k].parent.value in Names(rest[..k])
  {
    var e, rest := pending[0], pending[1..];
    assert Names(pending[..0]) == [];
    var a := Add(s, e);
    forall k | 0 <= k < |rest| ensures rest[k].parent.None? || rest[k].parent.value in a.byName || rest[k].parent.value in Names(rest[..k]) {
      assert pending[k + 1] == rest[k];
      assert pending[..k + 1] == [e] + rest[..k];
      NamesAppend([e], rest[..k]);
    }
  }

  /** Every bone's parent comes earlier in the list. */
  predicate EarlierParents(edit: seq<EditBone>) {
    forall k | 0 <= k < |edit| :: edit[k].parent.None? || edit[k].parent.value in Names(edit[..k])
  }

  /** When every parent comes first, the build succeeds and keeps the list
      order. */
  lemma BuildInOrder(edit: seq<EditBone>)
    requires UniqueNames(edit) && EarlierParents(edit)
    ensures Build(edit).Ok? && Build(edit).value.made == edit
  {
    PassAll(Empty(), edit);
    var r := Pass(Empty(), edit);
    if |edit| > 0 {
      assert |r.0.bones| == |edit|;
      assert Passes(r.0, []) == Ok(r.0);
    }
  }

  lemma {:induction false} ChildIndicesBounds(ps: seq<int>, i: int)
    ensures |ChildIndices(ps, i)| <= |ps|
    ensures forall k | 0 <= k < |ChildIndices(ps, i)| :: 0 <= ChildIndices(ps, i)[k] < |ps|
    decreases |ps|
  {
    if |ps| > 0 {
      ChildIndicesBounds(ps[..|ps| - 1], i);
    }
  }

  /** A well-formed skeleton of fewer than 2^31 bones with 48-byte poses
      can be written, and its parents precede their children, so loading it
      back finds a creation order. */
  lemma WfStorable(s: Skeleton)
    requires Wf(s) && |s.bones| < TWO_31
    requires forall i | 0 <= i < |s.made| :: |s.made[i].basePose| == |s.made[i].basePoseInv| == GlaSkeleton.MATRIX_SIZE
    ensures GlaSkeleton.AllStorable(s.bones)
    ensures GlaOrder.HierarchyOrder(Parents(s.bones)).Ok?
  {
    forall i | 0 <= i < |s.bones| ensures GlaSkeleton.Storable(s.bones[i]) && (Parents(s.bones)[i] == -1 || 0 <= Parents(s.bones)[i] < i) {
      assert BoneOk(s, i);
      ChildIndicesBounds(Parents(s.bones), i);
    }
    GlaOrder.ParentsFirstOrdered(Parents(s.bones));
  }
}

=== FILE: gla_file.dfy ===
/** A whole Ghoul2 skeleton and animation file: the header, the bone offset
    table, the bones, the frames and the compressed bone pool, written in
    that order; and how the exporter lays one out from a built skeleton
    and the compressed frames. */
module GlaFile {

  import opened Outcome
  import Reading
  import opened Bytes
  import opened Layout
  import GlaHeader
  import GlaSkeleton
  import GlaAnimation
  import GlaBuild
  import GlaPool

  type Header = GlaHeader.Header
  type Bone = GlaSkeleton.Bone
  type Animation = GlaAnimation.Animation

  /** How much of the animation to read: `NONE`, `ALL` or `RANGE`. */
  datatype AnimationLoadMode = NoFrames | AllFrames | FrameRange

  /** A skeleton file as the reader and the writer hold it. */
  datatype Gla = Gla(
    header: Header,
    offsets: seq<int>,
    bones: seq<Bone>,
    boneIndexByName: map<seq<byte>, int>,
    animation: Animation)

  datatype GlaError =
    | BadHeader(headerError: GlaHeader.HeaderError)
    | Malformed(loadError: Reading.LoadError)

  function LiftHeader<T>(r: Result<T, GlaHeader.HeaderError>): (s: Result<T, GlaError>)
    ensures s.Ok? <==> r.Ok?
    ensures r.Ok? ==> s.value == r.value
    ensures r.Err? ==> s.error == BadHeader(r.error)
  {
    match r
    case Ok(v) => Ok(v)
    case Err(e) => Err(BadHeader(e))
  }

  function Lift<T>(r: Result<T, Reading.LoadError>): (s: Result<T, GlaError>)
    ensures s.Ok? <==> r.Ok?
    ensures r.Ok? ==> s.value == r.value
    ensures r.Err? ==> s.error == Malformed(r.error)
  {
    match r
    case Ok(v) => Ok(v)
    case Err(e) => Err(Malformed(e))
  }

  // ------------------------------------------------------------- reading

  /** The name lookup the reader builds: one entry per bone, a later bone
      of the same name replacing an earlier one. */
  function IndexByName(bones: seq<Bone>): (r: map<seq<byte>, int>)
    ensures forall i | 0 <= i < |bones| :: bones[i].name in r
    ensures forall n | n in r :: exists i | 0 <= i < |bones| :: bones[i].name == n && r[n] == bones[i].index
  {
    if bones == [] then map[]
    else
      var last := bones[|bones| - 1];
      IndexByName(bones[..|bones| - 1])[last.name := last.index]
  }

  /** A bone no later bone shares its name with is found by its name. */
  lemma {:induction false} LastWins(bones: seq<Bone>, i: nat)
    requires i < |bones|
    requires forall j | i < j < |bones| :: bones[j].name != bones[i].name
    ensures IndexByName(bones)[bones[i].name] == bones[i].index
  {
    if i < |bones| - 1 {
      var front := bones[..|bones| - 1];
      assert front[i] == bones[i];
      forall j | i < j < |front| ensures front[j].name != front[i].name {
        assert front[j] == bones[j];
      }
      LastWins(front, i);
    }
  }

  /** Every bone's name is looked up, and every name looks up a bone of
      that name. */
  predicate Finds(bones: seq<Bone>, byName: map<seq<byte>, int>) {
    && (forall j | 0 <= j < |bones| :: bones[j].name in byName)
    && (forall n | n in byName :: 0 <= byName[n] < |bones| && bones[byName[n]].name == n)
  }

  lemma IndexFinds(bones: seq<Bone>)
    requires forall j | 0 <= j < |bones| :: bones[j].index == j
    ensures Finds(bones, IndexByName(bones))
  {
  }

  /** The animation part of `GLA.loadFromFile`, by mode. */
  function LoadAnimation(data: seq<byte>, h: Header, mode: AnimationLoadMode, startFrame: int, numFrames: int)
    : Result<Animation, Reading.LoadError>
  {
    match mode
    case NoFrames => Ok(GlaAnimation.Animation([], []))
    case AllFrames => GlaAnimation.Load(data, h, 0, -1)
    case FrameRange => GlaAnimation.Load(data, h, startFrame, numFrames)
  }

  /** `GLA.loadFromFile`: the header, the offset table right after it, the
      bones it points at, the name lookup, then the animation as the mode
      asks. */
  function Load(id: FormatId, data: seq<byte>, mode: AnimationLoadMode, startFrame: int, numFrames: int)
    : (r: Result<Gla, GlaError>)
    ensures GlaHeader.Load(id, data).Err? ==> r == Err(BadHeader(GlaHeader.Load(id, data).error))
    ensures r.Ok? ==> GlaHeader.Load(id, data) == Ok(r.value.header)
    ensures r.Ok? ==> |r.value.offsets| == |r.value.bones| == Reading.RangeCount(r.value.header.numBones)
    ensures r.Ok? ==> forall j | 0 <= j < |r.value.bones| :: r.value.bones[j].index == j
    ensures r.Ok? ==> Finds(r.value.bones, r.value.boneIndexByName)
    ensures r.Ok? && mode.NoFrames? ==> r.value.animation == GlaAnimation.Animation([], [])
    ensures r.Ok? && !mode.NoFrames? ==> GlaAnimation.PoolCovers(r.value.animation)
  {
    var h :- LiftHeader(GlaHeader.Load(id, data));
    var offsets :- Lift(GlaSkeleton.LoadOffsets(data, h.numBones));
    var bones :- Lift(GlaSkeleton.LoadBones(data, offsets, 0));
    var animation :- Lift(LoadAnimation(data, h, mode, startFrame, numFrames));
    LoadCovers(data, h, mode, startFrame, numFrames);
    IndexFinds(bones);
    Ok(Gla(h, offsets, bones, IndexByName(bones), animation))
  }

  lemma LoadCovers(data: seq<byte>, h: Header, mode: AnimationLoadMode, startFrame: int, numFrames: int)
    ensures LoadAnimation(data, h, mode, startFrame, numFrames).Ok? && !mode.NoFrames? ==>
      GlaAnimation.PoolCovers(LoadAnimation(data, h, mode, startFrame, numFrames).value)
  {
    if mode.AllFrames? {
      GlaAnimation.LoadIndicesInPool(data, h, 0, -1);
    } else if mode.FrameRange? {
      GlaAnimation.LoadIndicesInPool(data, h, startFrame, numFrames);
    }
  }

  // ------------------------------------------------------------- writing

  /** Where the bones start: after the header and the table. */
  function SkeletonAt(g: Gla): int {
    GlaHeader.HEADER_SIZE + 4 * |g.offsets|
  }

  /** What the writer demands: every field fits its struct format. */
  predicate Storable(id: FormatId, g: Gla) {
    ValidId(id) && GlaHeader.Storable(g.header)
    && (forall i | 0 <= i < |g.offsets| :: IsI32(g.offsets[i]))
    && GlaSkeleton.AllStorable(g.bones)
    && GlaAnimation.Storable(g.animation)
  }

  datatype SaveError =
    | SkeletonMisplaced(at: int)                        // the bones are not written at the header's offset
    | AnimationMisplaced(error: GlaAnimation.SaveError) // the frames or the pool are not where the header says
    | EndMisplaced(at: int)                             // the file does not end at the header's end offset

  /** `GLA.saveToFile`: header, offset table, bones, animation. Each
      assertion on the file position becomes an error. */
  function Save(id: FormatId, g: Gla): (r: Result<seq<byte>, SaveError>)
    requires Storable(id, g)
    ensures r.Ok? ==> |r.value| <= g.header.ofsEnd
    ensures r.Ok? && |Concat(g.animation.pool)| > 0 ==> |r.value| == g.header.ofsEnd
    ensures r.Ok? ==> GlaHeader.Save(id, g.header) <= r.value
  {
    var head := GlaHeader.Save(id, g.header);
    var table := GlaSkeleton.SaveOffsets(g.offsets);
    var at := |head| + |table|;
    if at != g.header.ofsSkel then Err(SkeletonMisplaced(at))
    else
      var bones := GlaSkeleton.SaveBones(g.bones);
      match GlaAnimation.Save(g.animation, g.header, at + |bones|)
      case Err(e) => Err(AnimationMisplaced(e))
      case Ok(w) =>
        if w.tell != g.header.ofsEnd then Err(EndMisplaced(w.tell))
        else
          SavedLength(g.animation, g.header, at + |bones|);
          Ok(head + table + bones + w.bytes)
  }

  /** The animation's bytes end at its recorded end unless the pool is
      empty (a padding seek with nothing after it writes nothing). */
  lemma SavedLength(a: Animation, h: Header, at: int)
    requires GlaAnimation.Storable(a) && GlaAnimation.Save(a, h, at).Ok?
    ensures at + |GlaAnimation.Save(a, h, at).value.bytes| <= GlaAnimation.Save(a, h, at).value.tell
    ensures |Concat(a.pool)| > 0 ==> at + |GlaAnimation.Save(a, h, at).value.bytes| == GlaAnimation.Save(a, h, at).value.tell
  {
  }

  // ------------------------------------------------------------- layout

  /** Where the header says the frames and the pool are: the frame block
      right after the last bone, rounded up to four bytes; the pool's 14-byte
      entries after it. */
  predicate Consistent(g: Gla) {
    && g.header.numBones == |g.offsets| == |g.bones|
    && GlaSkeleton.AllStorable(g.bones)
    && g.offsets == GlaSkeleton.CalculateOffsets(g.bones)
    && g.header.ofsSkel == GlaSkeleton.OfsSkel(g.bones)
    && g.header.ofsFrames == GlaSkeleton.OfsFrames(g.bones)
    && g.header.numFrames == |g.animation.frames|
    && (forall f | 0 <= f < |g.animation.frames| :: |g.animation.frames[f]| == |g.bones|)
    && g.header.ofsCompBonePool == g.header.ofsFrames + GlaAnimation.FramesSize(g.header.numFrames, g.header.numBones)
    && g.header.ofsEnd == g.header.ofsCompBonePool + GlaAnimation.COMP_BONE_SIZE * |g.animation.pool|
    && (forall k | 0 <= k < |g.animation.pool| :: |g.animation.pool[k]| == GlaAnimation.COMP_BONE_SIZE)
  }

  /** A consistent file passes every position assertion of the writer. */
  lemma ConsistentSaves(id: FormatId, g: Gla)
    requires Storable(id, g) && Consistent(g)
    ensures Save(id, g).Ok?
  {
    var at := |GlaHeader.Save(id, g.header)| + |GlaSkeleton.SaveOffsets(g.offsets)|;
    var bonesAt := at + |GlaSkeleton.SaveBones(g.bones)|;
    BonesEnd(g, at, bonesAt);
    AnimationSaves(g.animation, g.header, |g.bones|);
  }

  lemma BonesEnd(g: Gla, at: int, bonesAt: int)
    requires Consistent(g)
    requires at == GlaHeader.HEADER_SIZE + 4 * |g.offsets| && bonesAt == at + |GlaSkeleton.SaveBones(g.bones)|
    ensures at == g.header.ofsSkel && bonesAt == g.header.ofsFrames && bonesAt % 4 == 0
  {
    GlaSkeleton.SkeletonLayout(g.bones);
  }

  /** Frames of `numBones` indices written at the frame offset end, padded,
      at the pool offset, and the pool ends at the pool offset plus 14 bytes
      per entry. */
  lemma AnimationSaves(a: Animation, h: Header, numBones: nat)
    requires GlaAnimation.Storable(a) && h.ofsFrames % 4 == 0
    requires forall f | 0 <= f < |a.frames| :: |a.frames[f]| == numBones
    requires h.ofsCompBonePool == h.ofsFrames + GlaAnimation.FramesSize(|a.frames|, numBones)
    requires forall k | 0 <= k < |a.pool| :: |a.pool[k]| == GlaAnimation.COMP_BONE_SIZE
    ensures GlaAnimation.Save(a, h, h.ofsFrames).Ok?
    ensures GlaAnimation.Save(a, h, h.ofsFrames).value.tell == h.ofsCompBonePool + GlaAnimation.COMP_BONE_SIZE * |a.pool|
  {
    GlaAnimation.PaddingMatchesFramesSize(a, numBones, h.ofsFrames);
    ChunksLength(a.pool, GlaAnimation.COMP_BONE_SIZE);
  }

  /** The parts of a written file each lie where the reader looks. */
  lemma PartsPlaced(id: FormatId, g: Gla, data: seq<byte>)
    requires Storable(id, g) && Consistent(g) && Save(id, g).Ok? && Save(id, g).value <= data
    ensures GlaHeader.Save(id, g.header) <= data
    ensures Placed(data, GlaHeader.HEADER_SIZE, GlaSkeleton.SaveOffsets(g.offsets))
    ensures Placed(data, GlaSkeleton.OfsSkel(g.bones), GlaSkeleton.SaveBones(g.bones))
    ensures GlaAnimation.Save(g.animation, g.header, g.header.ofsFrames).Ok?
    ensures Placed(data, g.header.ofsFrames, GlaAnimation.Save(g.animation, g.header, g.header.ofsFrames).value.bytes)
  {
    var h, o, b := GlaHeader.Save(id, g.header), GlaSkeleton.SaveOffsets(g.offsets), GlaSkeleton.SaveBones(g.bones);
    var w := GlaAnimation.Save(g.animation, g.header, g.header.ofsFrames).value;
    PartsOfPrefix(data, h, o, b, w.bytes, GlaHeader.HEADER_SIZE, GlaSkeleton.OfsSkel(g.bones), g.header.ofsFrames);
  }

  /** What a written file reads back as, every frame loaded: names padded
      to 64 bytes, bones indexed by position, the lookup rebuilt. */
  function Expected(g: Gla): Gla {
    var bones := GlaSkeleton.ExpectedAll(g.bones);
    Gla(GlaHeader.Expected(g.header), g.offsets, bones, IndexByName(bones), g.animation)
  }

  /** The exporter's shape for the animation: at least one frame and one
      bone, every pool entry used and addressable by a 3-byte index. */
  predicate Animated(g: Gla) {
    |g.animation.frames| > 0 && |g.bones| > 0 && GlaAnimation.Indexed(g.animation, |g.bones|)
  }

  /** A consistent, animated file, written, reads back whole. */
  lemma LoadSave(id: FormatId, g: Gla, data: seq<byte>)
    requires Storable(id, g) && Consistent(g) && Animated(g)
    requires Save(id, g).Ok? && Save(id, g).value <= data
    ensures Load(id, data, AllFrames, 0, 0) == Ok(Expected(g))
  {
    PartsPlaced(id, g, data);
    GlaHeader.LoadSave(id, g.header, data);
    GlaSkeleton.LoadOffsetsSaved(g.offsets, data);
    GlaSkeleton.LoadSaveBones(g.bones, data);
    var h := GlaHeader.Expected(g.header);
    AnimationReads(g, h, data);
    LoadParts(id, data, h, g.offsets, GlaSkeleton.ExpectedAll(g.bones), g.animation);
  }

  lemma AnimationReads(g: Gla, h: Header, data: seq<byte>)
    requires GlaAnimation.Storable(g.animation) && Consistent(g) && Animated(g)
    requires h == GlaHeader.Expected(g.header)
    requires GlaAnimation.Save(g.animation, g.header, g.header.ofsFrames).Ok?
    requires Placed(data, g.header.ofsFrames, GlaAnimation.Save(g.animation, g.header, g.header.ofsFrames).value.bytes)
    ensures GlaAnimation.Load(data, h, 0, -1) == Ok(g.animation)
  {
    assert GlaAnimation.Save(g.animation, h, h.ofsFrames) == GlaAnimation.Save(g.animation, g.header, g.header.ofsFrames);
    assert GlaAnimation.SavedAt(g.animation, h, |g.bones|, data);
    GlaAnimation.LoadSave(g.animation, h, |g.bones|, data);
  }

  /** Reading succeeds with the parts it finds in turn. */
  lemma LoadParts(id: FormatId, data: seq<byte>, h: Header, offsets: seq<int>, bones: seq<Bone>, a: Animation)
    requires GlaHeader.Load(id, data) == Ok(h)
    requires GlaSkeleton.LoadOffsets(data, h.numBones) == Ok(offsets)
    requires GlaSkeleton.LoadBones(data, offsets, 0) == Ok(bones)
    requires GlaAnimation.Load(data, h, 0, -1) == Ok(a)
    ensures Load(id, data, AllFrames, 0, 0) == Ok(Gla(h, offsets, bones, IndexByName(bones), a))
  {
  }

  // ------------------------------------------------------------- export

  /** The header the exporter computes: the frame count from the scene's
      inclusive frame range, the bones' layout, the frame block rounded up
      to four bytes, and the pool's 14-byte entries. */
  function ExportHeader(name: seq<byte>, scale: seq<byte>, bones: seq<Bone>,
                        frameStart: int, frameEnd: int, poolSize: nat): (h: Header)
    requires GlaSkeleton.AllStorable(bones)
    ensures h.name == name && h.scale == scale && h.numBones == |bones|
    ensures h.numFrames == frameEnd - frameStart + 1
    ensures h.ofsEnd - h.ofsCompBonePool == GlaAnimation.COMP_BONE_SIZE * poolSize
  {
    var numFrames := frameEnd - frameStart + 1;
    var ofsFrames := GlaSkeleton.OfsFrames(bones);
    var ofsPool := ofsFrames + GlaAnimation.FramesSize(numFrames, |bones|);
    GlaHeader.Header(name, scale, numFrames, ofsFrames, |bones|, ofsPool, GlaSkeleton.OfsSkel(bones),
                     ofsPool + GlaAnimation.COMP_BONE_SIZE * poolSize)
  }

  /** The file the exporter holds after building the skeleton and
      compressing the frames. */
  function Assemble(name: seq<byte>, scale: seq<byte>, s: GlaBuild.Skeleton,
                    frameStart: int, frameEnd: int, frames: seq<seq<int>>, pool: seq<seq<byte>>): (g: Gla)
    requires GlaSkeleton.AllStorable(s.bones)
    ensures g.bones == s.bones && g.boneIndexByName == s.byName
    ensures g.animation == GlaAnimation.Animation(frames, pool)
  {
    Gla(ExportHeader(name, scale, s.bones, frameStart, frameEnd, |pool|),
        GlaSkeleton.CalculateOffsets(s.bones), s.bones, s.byName, GlaAnimation.Animation(frames, pool))
  }

  /** The exported file is laid out as the reader expects once the frame
      records match the scene's frame range and the skeleton. */
  lemma AssembledConsistent(name: seq<byte>, scale: seq<byte>, s: GlaBuild.Skeleton, frameStart: int, frameEnd: int,
                            records: seq<seq<seq<byte>>>, frames: seq<seq<int>>, pool: seq<seq<byte>>)
    requires GlaSkeleton.AllStorable(s.bones) && GlaPool.Compressed(records, frames, pool)
    requires Framed(records, frameStart, frameEnd, |s.bones|)
    ensures Consistent(Assemble(name, scale, s, frameStart, frameEnd, frames, pool))
  {
    GlaPool.PoolSized(records, frames, pool, GlaAnimation.COMP_BONE_SIZE);
  }

  /** One record per frame of the scene's range, one 14-byte record per
      bone in each. */
  predicate Framed(records: seq<seq<seq<byte>>>, frameStart: int, frameEnd: int, numBones: nat) {
    && |records| == frameEnd - frameStart + 1
    && (forall f | 0 <= f < |records| :: |records[f]| == numBones)
    && (forall f, b | 0 <= f < |records| && 0 <= b < |records[f]| :: |records[f][b]| == GlaAnimation.COMP_BONE_SIZE)
  }

  /** Base poses are 3x4 float matrices, and the bone count fits an int. */
  predicate Posable(edit: seq<GlaBuild.EditBone>) {
    |edit| < TWO_31
    && forall i | 0 <= i < |edit| :: |edit[i].basePose| == |edit[i].basePoseInv| == GlaSkeleton.MATRIX_SIZE
  }

  /** `GLA.loadFromBlender` without a reference skeleton: build the
      skeleton from the edit bones, compress every frame's records (one per
      bone, in bone-index order), then compute the header. */
  method Export(name: seq<byte>, scale: seq<byte>, edit: seq<GlaBuild.EditBone>, frameStart: int, frameEnd: int,
                records: seq<seq<seq<byte>>>) returns (r: Result<Gla, GlaBuild.BuildError>)
    requires GlaBuild.UniqueNames(edit) && Posable(edit)
    ensures r.Err? <==> GlaBuild.Build(edit).Err?
    ensures r.Err? ==> r.error == GlaBuild.Build(edit).error
    ensures r.Ok? ==> r.value.bones == GlaBuild.Build(edit).value.bones && r.value.header.name == name
    ensures r.Ok? ==> GlaPool.Compressed(records, r.value.animation.frames, r.value.animation.pool)
    ensures r.Ok? && Framed(records, frameStart, frameEnd, |r.value.bones|) ==> Consistent(r.value)
  {
    var built := GlaBuild.Build(edit);
    if built.Err? {
      return Err(built.error);
    }
    var s := built.value;
    BuiltStorable(edit);
    var frames, pool := GlaPool.Compress(records);
    r := Ok(Assemble(name, scale, s, frameStart, frameEnd, frames, pool));
    if Framed(records, frameStart, frameEnd, |s.bones|) {
      AssembledConsistent(name, scale, s, frameStart, frameEnd, records, frames, pool);
    }
  }

  /** A skeleton built from posable edit bones can be written. */
  lemma BuiltStorable(edit: seq<GlaBuild.EditBone>)
    requires GlaBuild.UniqueNames(edit) && Posable(edit) && GlaBuild.Build(edit).Ok?
    ensures GlaSkeleton.AllStorable(GlaBuild.Build(edit).value.bones)
  {
    var s := GlaBuild.Build(edit).value;
    GlaBuild.BuildSound(edit);
    assert |s.made| == |edit| by {
      assert |multiset(s.made)| == |multiset(edit)|;
    }
    forall i | 0 <= i < |s.made|
      ensures |s.made[i].basePose| == |s.made[i].basePoseInv| == GlaSkeleton.MATRIX_SIZE
    {
      assert s.made[i] in multiset(edit);
    }
    GlaBuild.WfStorable(s);
  }

  /** An exported file that fits its struct formats, with at least one
      frame and one bone and a pool the 3-byte indices can address, is
      written without failing an assertion and reads back whole. */
  lemma ExportReadsBack(id: FormatId, g: Gla, records: seq<seq<seq<byte>>>, frameStart: int, frameEnd: int)
    requires Storable(id, g) && Consistent(g)
    requires GlaPool.Compressed(records, g.animation.frames, g.animation.pool)
    requires Framed(records, frameStart, frameEnd, |g.bones|)
    requires |records| > 0 && |g.bones| > 0 && |g.animation.pool| <= TWO_24
    ensures Save(id, g).Ok?
    ensures Load(id, Save(id, g).value, AllFrames, 0, 0) == Ok(Expected(g))
  {
    ConsistentSaves(id, g);
    GlaPool.CompressedIndexed(records, g.animation.frames, g.animation.pool, |g.bones|);
    LoadSave(id, g, Save(id, g).value);
  }
}

=== FILE: gla_header.dfy ===
/** The fixed 100-byte header at the start of a Ghoul2 skeleton and
    animation file: magic, version, the file's own name, the scale, and the
    counts and offsets of the bone table, the frames and the bone pool. */
module GlaHeader {

  import opened Outcome
  import opened Bytes

  /** The size the bone-offset table's base offset records: two ints, a
      64-byte name and seven four-byte fields. */
  const HEADER_SIZE: nat := 2 * 4 + QPATH + 4 * 7

  /** `scale` is a 32-bit float, carried as its four stored bytes. The name
      is kept as the 64 stored bytes: the text decoding is not part of this
      model. */
  datatype Header = Header(
    name: seq<byte>,
    scale: seq<byte>,
    numFrames: int,
    ofsFrames: int,
    numBones: int,
    ofsCompBonePool: int,
    ofsSkel: int,
    ofsEnd: int)

  datatype HeaderError =
    | NotGla(ident: seq<byte>)    // "Is no GLA file, incorrect file identifier!"
    | WrongVersion(version: int)  // "Wrong gla file version!"
    | ShortHeader                 // the file ends inside the header

  /** The six ints after the scale. */
  function Fields(h: Header): seq<int> {
    [h.numFrames, h.ofsFrames, h.numBones, h.ofsCompBonePool, h.ofsSkel, h.ofsEnd]
  }

  predicate Storable(h: Header) {
    |h.scale| == 4 && forall i | 0 <= i < 6 :: IsI32(Fields(h)[i])
  }

  /** `saveToFile`: struct format "4si64sf6i". */
  function Save(id: FormatId, h: Header): (r: seq<byte>)
    requires ValidId(id) && Storable(h)
    ensures |r| == HEADER_SIZE
    ensures r[..4] == id.ident
  {
    id.ident + I32(id.version) + FixedString(h.name) + h.scale + I32s(Fields(h))
  }

  /** `loadFromFile` at the start of the file: the magic is checked before
      the version, and the version before anything else is read. */
  function Load(id: FormatId, data: seq<byte>): (r: Result<Header, HeaderError>)
    ensures |data| >= 4 && data[..4] != id.ident ==> r == Err(NotGla(data[..4]))
    ensures r.Ok? ==> |data| >= HEADER_SIZE && data[..4] == id.ident && ReadI32(data[4..8]) == id.version
    ensures r.Err? && r.error.WrongVersion? ==>
      |data| >= 8 && data[..4] == id.ident && r.error.version == ReadI32(data[4..8]) != id.version
    ensures r.Ok? ==> |r.value.name| == QPATH && |r.value.scale| == 4
  {
    if |data| < 4 then Err(ShortHeader)
    else if data[..4] != id.ident then Err(NotGla(data[..4]))
    else if |data| < 8 then Err(ShortHeader)
    else
      var version := ReadI32(data[4..8]);
      if version != id.version then Err(WrongVersion(version))
      else if |data| < HEADER_SIZE then Err(ShortHeader)
      else
        match ReadI32s(data, 76, 6)
        case None => Err(ShortHeader)
        case Some(f) => Ok(Header(data[8..72], data[72..76], f[0], f[1], f[2], f[3], f[4], f[5]))
  }

  /** What a header reads back as: the name padded or cut to 64 bytes. */
  function Expected(h: Header): Header {
    h.(name := FixedString(h.name))
  }

  /** A written header reads back. */
  lemma LoadSave(id: FormatId, h: Header, data: seq<byte>)
    requires ValidId(id) && Storable(h)
    requires Save(id, h) <= data
    ensures Load(id, data) == Ok(Expected(h))
  {
    var saved := Save(id, h);
    assert data[..HEADER_SIZE] == saved;
    assert data[..4] == id.ident;
    assert data[4..8] == saved[4..8] == I32(id.version);
    I32RoundTrip(id.version);
    assert data[8..72] == saved[8..72] == FixedString(h.name);
    assert data[72..76] == saved[72..76] == h.scale;
    assert data[76..76 + 4 * 6] == saved[76..] == I32s(Fields(h));
    ReadI32sOfI32s(data, 76, Fields(h));
  }

  /** A header written with another version number is rejected as such. */
  lemma RejectsOtherVersion(id: FormatId, h: Header, other: int, data: seq<byte>)
    requires ValidId(id) && Storable(h) && IsI32(other) && other != id.version
    requires Save(FormatId(id.ident, other), h) <= data
    ensures Load(id, data) == Err(WrongVersion(other))
  {
    var saved := Save(FormatId(id.ident, other), h);
    assert data[..HEADER_SIZE] == saved;
    assert data[..4] == id.ident;
    assert data[4..8] == saved[4..8] == I32(other);
    I32RoundTrip(other);
  }
}

=== FILE: gla_order.dfy ===
/** Parent-before-child ordering of bones by repeated passes. The importer
    uses it to decide the order in which bones get their positions (and,
    with a table of parent changes, the order in which it creates them):
    each pass walks the bones not yet placed, in index order, and places
    every bone whose parent is a root marker or already placed, including
    bones placed earlier in the same pass; a pass that places nothing is a
    hierarchy error. */
module GlaOrder {

  import opened Outcome

  datatype OrderError =
    /** "gla has hierarchy problems!": a pass placed nothing. `placed` is
        what was placed before it, `left` the bones it could not place. */
    | Stuck(placed: seq<int>, left: seq<int>)

  /** A bone whose parent is `parent` may be placed once `placed` holds its
      parent; -1 marks a root. */
  predicate Ready(parent: int, placed: seq<int>) {
    parent == -1 || parent in placed
  }

  predicate InRange(xs: seq<int>, n: int) {
    forall k | 0 <= k < |xs| :: 0 <= xs[k] < n
  }

  /** The bone indices in index order. */
  function Range(n: nat): (r: seq<int>)
    ensures |r| == n && forall i | 0 <= i < n :: r[i] == i
  {
    seq(n, i => i)
  }

  /** One pass over `pending`: returns the extended order and the bones
      that still wait for their parents, in their old order. */
  function Pass(parents: seq<int>, pending: seq<int>, placed: seq<int>): (r: (seq<int>, seq<int>))
    requires InRange(pending, |parents|) && InRange(placed, |parents|)
    ensures |placed| <= |r.0| && r.0[..|placed|] == placed
    ensures |r.0| - |placed| + |r.1| == |pending|
    ensures InRange(r.0, |parents|) && InRange(r.1, |parents|)
    decreases |pending|
  {
    if |pending| == 0 then (placed, [])
    else
      var b := pending[0];
      if Ready(parents[b], placed) then
        var r := Pass(parents, pending[1..], placed + [b]);
        assert r.0[..|placed|] == (placed + [b])[..|placed|];
        r
      else
        var r := Pass(parents, pending[1..], placed);
        (r.0, [b] + r.1)
  }

  /** The placed and the waiting bones together are exactly the ones
      placed before and the pending ones. */
  lemma {:induction false} PassKeeps(parents: seq<int>, pending: seq<int>, placed: seq<int>)
    requires InRange(pending, |parents|) && InRange(placed, |parents|)
    ensures multiset(Pass(parents, pending, placed).0) + multiset(Pass(parents, pending, placed).1)
      == multiset(placed) + multiset(pending)
    decreases |pending|
  {
    if |pending| > 0 {
      var b := pending[0];
      assert pending == [b] + pending[1..];
      assert multiset(pending) == multiset([b]) + multiset(pending[1..]);
      if Ready(parents[b], placed) {
        var r := Pass(parents, pending[1..], placed + [b]);
        PassKeeps(parents, pending[1..], placed + [b]);
        assert Pass(parents, pending, placed) == r;
        assert multiset(r.0) + multiset(r.1) == multiset(placed + [b]) + multiset(pending[1..]);
        assert multiset(placed + [b]) == multiset(placed) + multiset([b]);
      } else {
        var rest := Pass(parents, pending[1..], placed);
        PassKeeps(parents, pending[1..], placed);
        calc {
          multiset(Pass(parents, pending, placed).0) + multiset(Pass(parents, pending, placed).1);
          multiset(rest.0) + multiset([b] + rest.1);
          { assert multiset([b] + rest.1) == multiset([b]) + multiset(rest.1); }
          multiset(rest.0) + multiset(rest.1) + multiset([b]);
          multiset(placed) + multiset(pending[1..]) + multiset([b]);
          multiset(placed) + multiset(pending);
        }
      }
    }
  }

  /** Every bone of `o` from position `from` on comes after its parent. */
  predicate ReadyFrom(parents: seq<int>, o: seq<int>, from: nat) {
    InRange(o, |parents|) && forall k | from <= k < |o| :: Ready(parents[o[k]], o[..k])
  }

  /** Everything a pass places is ready when it is placed. */
  lemma {:induction false} PassReady(parents: seq<int>, pending: seq<int>, placed: seq<int>)
    requires InRange(pending, |parents|) && InRange(placed, |parents|)
    ensures ReadyFrom(parents, Pass(parents, pending, placed).0, |placed|)
    decreases |pending|
  {
    if |pending| > 0 {
      var b := pending[0];
      if Ready(parents[b], placed) {
        var placed' := placed + [b];
        PassReady(parents, pending[1..], placed');
        var o := Pass(parents, pending[1..], placed').0;
        assert Pass(parents, pending, placed).0 == o;
        assert o[..|placed'|] == placed';
        assert o[..|placed|] == placed;
        assert o[|placed|] == b;
        ReadyStep(parents, o, |placed|);
      } else {
        PassReady(parents, pending[1..], placed);
      }
    }
  }

  lemma ReadyStep(parents: seq<int>, o: seq<int>, from: nat)
    requires from < |o| && ReadyFrom(parents, o, from + 1)
    requires Ready(parents[o[from]], o[..from])
    ensures ReadyFrom(parents, o, from)
  {
  }

  /** A pass that places nothing found every pending bone waiting for a
      parent that is not placed. */
  lemma {:induction false} PassStuck(parents: seq<int>, pending: seq<int>, placed: seq<int>)
    requires InRange(pending, |parents|) && InRange(placed, |parents|)
    requires |Pass(parents, pending, placed).0| == |placed|
    ensures Pass(parents, pending, placed).1 == pending
    ensures forall k | 0 <= k < |pending| :: !Ready(parents[pending[k]], placed)
    decreases |pending|
  {
    if |pending| > 0 {
      PassStuck(parents, pending[1..], placed);
      assert pending == [pending[0]] + pending[1..];
    }
  }

  /** Passes until nothing is pending (`while len(uncreatedBones) > 0`);
      a pass that places nothing stops with an error. */
  function Order(parents: seq<int>, pending: seq<int>, placed: seq<int>): (r: Result<seq<int>, OrderError>)
    requires InRange(pending, |parents|) && InRange(placed, |parents|)
    decreases |pending|
  {
    if |pending| == 0 then Ok(placed)
    else
      var (next, left) := Pass(parents, pending, placed);
      if |next| == |placed| then Err(Stuck(placed, left))
      else Order(parents, left, next)
  }

  /** A successful ordering extends what was placed. */
  lemma {:induction false} OrderExtends(parents: seq<int>, pending: seq<int>, placed: seq<int>)
    requires InRange(pending, |parents|) && InRange(placed, |parents|)
    requires Order(parents, pending, placed).Ok?
    ensures var o := Order(parents, pending, placed).value;
      |placed| <= |o| && o[..|placed|] == placed && InRange(o, |parents|)
    decreases |pending|
  {
    if |pending| > 0 {
      var (next, left) := Pass(parents, pending, placed);
      OrderExtends(parents, left, next);
      var o := Order(parents, left, next).value;
      assert o[..|next|] == next;
      assert o[..|placed|] == next[..|placed|];
    }
  }

  /** ... by a rearrangement of the pending bones ... */
  lemma {:induction false} OrderKeeps(parents: seq<int>, pending: seq<int>, placed: seq<int>)
    requires InRange(pending, |parents|) && InRange(placed, |parents|)
    requires Order(parents, pending, placed).Ok?
    ensures multiset(Order(parents, pending, placed).value) == multiset(placed) + multiset(pending)
    decreases |pending|
  {
    if |pending| > 0 {
      var (next, left) := Pass(parents, pending, placed);
      PassKeeps(parents, pending, placed);
      OrderKeeps(parents, left, next);
    }
  }

  /** ... each placed after its parent. */
  lemma {:induction false} OrderReady(parents: seq<int>, pending: seq<int>, placed: seq<int>)
    requires InRange(pending, |parents|) && InRange(placed, |parents|)
    requires Order(parents, pending, placed).Ok?
    ensures ReadyFrom(parents, Order(parents, pending, placed).value, |placed|)
    decreases |pending|
  {
    OrderExtends(parents, pending, placed);
    if |pending| > 0 {
      var (next, left) := Pass(parents, pending, placed);
      PassReady(parents, pending, placed);
      OrderReady(parents, left, next);
      OrderExtends(parents, left, next);
      var o := Order(parents, left, next).value;
      assert Order(parents, pending, placed).value == o;
      assert o[..|next|] == next;
      ReadyPrefix(parents, o, next, |placed|);
    }
  }

  /** Readiness within a prefix carries over to the whole order. */
  lemma ReadyPrefix(parents: seq<int>, o: seq<int>, prefix: seq<int>, from: nat)
    requires |prefix| <= |o| && o[..|prefix|] == prefix
    requires ReadyFrom(parents, prefix, from) && ReadyFrom(parents, o, |prefix|)
    ensures ReadyFrom(parents, o, from)
  {
    forall k | from <= k < |prefix| ensures Ready(parents[o[k]], o[..k]) {
      assert o[k] == prefix[k] && o[..k] == prefix[..k];
    }
  }

  /** A failed ordering names a non-empty set of bones none of which has a
      root marker or a placed bone as parent; placed and waiting bones
      together are all the bones. */
  lemma {:induction false} OrderStuck(parents: seq<int>, pending: seq<int>, placed: seq<int>)
    requires InRange(pending, |parents|) && InRange(placed, |parents|)
    requires Order(parents, pending, placed).Err?
    ensures var e := Order(parents, pending, placed).error;
      && |e.left| > 0 && InRange(e.left, |parents|)
      && multiset(e.placed) + multiset(e.left) == multiset(placed) + multiset(pending)
      && forall k | 0 <= k < |e.left| :: !Ready(parents[e.left[k]], e.placed)
    decreases |pending|
  {
    var (next, left) := Pass(parents, pending, placed);
    PassKeeps(parents, pending, placed);
    if |next| == |placed| {
      PassStuck(parents, pending, placed);
    } else {
      OrderStuck(parents, left, next);
    }
  }

  // ------------------------------------------------------- the whole order

  /** `hierarchyOrder`: every bone, parents from the bones themselves. A
      pass that places nothing fails the source's assertion. Walking all
      bones and skipping those already ordered visits exactly the pending
      bones in index order. */
  function HierarchyOrder(parents: seq<int>): (r: Result<seq<int>, OrderError>)
  {
    Order(parents, Range(|parents|), [])
  }

  /** An order of all bones with every bone after its parent. */
  predicate Valid(parents: seq<int>, o: seq<int>) {
    && multiset(o) == multiset(Range(|parents|))
    && forall k | 0 <= k < |o| :: 0 <= o[k] < |parents| && Ready(parents[o[k]], o[..k])
  }

  /** What the passes produce is a valid order. */
  lemma HierarchyOrderValid(parents: seq<int>)
    requires HierarchyOrder(parents).Ok?
    ensures Valid(parents, HierarchyOrder(parents).value)
  {
    OrderKeeps(parents, Range(|parents|), []);
    OrderReady(parents, Range(|parents|), []);
  }

  /** If any valid order exists, the passes do not fail: a hierarchy
      problem means there is no parent-before-child order at all. */
  lemma OrderFound(parents: seq<int>, v: seq<int>)
    requires Valid(parents, v)
    ensures HierarchyOrder(parents).Ok?
  {
    if HierarchyOrder(parents).Err? {
      OrderStuck(parents, Range(|parents|), []);
      var e := HierarchyOrder(parents).error;
      SomeReady(parents, v, e.placed, e.left);
      assert false;
    }
  }

  /** Against a valid order, some bone of any split into placed and
      waiting bones is ready: the first waiting one the order meets. */
  lemma SomeReady(parents: seq<int>, v: seq<int>, placed: seq<int>, left: seq<int>)
    requires Valid(parents, v) && |left| > 0
    requires multiset(placed) + multiset(left) == multiset(Range(|parents|))
    ensures exists k :: 0 <= k < |left| && 0 <= left[k] < |parents| && Ready(parents[left[k]], placed)
  {
    var all := multiset(Range(|parents|));
    assert left[0] in all;
    assert left[0] in v && left[0] in left;
    var k := FirstIn(v, left);
    var p := parents[v[k]];
    if p != -1 {
      assert p in v[..k];
      var j :| 0 <= j < k && v[j] == p;
      assert v[j] in all;
      assert p !in left;
      assert p in placed;
    }
    var i :| 0 <= i < |left| && left[i] == v[k];
  }

  /** The first position of `v` holding an element of `s`. */
  lemma FirstIn(v: seq<int>, s: seq<int>) returns (k: nat)
    requires exists x :: x in v && x in s
    ensures k < |v| && v[k] in s && forall j | 0 <= j < k :: v[j] !in s
  {
    k := 0;
    while v[k] !in s
      invariant k < |v| && forall j | 0 <= j < k :: v[j] !in s
      decreases |v| - k
    {
      k := k + 1;
    }
  }

  /** Bones stored with every parent before its child are always ordered. */
  lemma ParentsFirstOrdered(parents: seq<int>)
    requires forall i | 0 <= i < |parents| :: parents[i] == -1 || 0 <= parents[i] < i
    ensures HierarchyOrder(parents).Ok?
  {
    var v := Range(|parents|);
    forall k | 0 <= k < |v| ensures Ready(parents[v[k]], v[..k]) {
      if parents[k] != -1 {
        assert v[..k][parents[k]] == parents[k];
      }
    }
    OrderFound(parents, v);
  }

  /** The order is not "roots first": a root stored after a child comes
      after that child. */
  lemma NotRootsFirst()
    ensures HierarchyOrder([-1, 0, -1]) == Ok([0, 1, 2])
  {
    var parents := [-1, 0, -1];
    assert Range(3) == [0, 1, 2];
    assert [0, 1, 2][1..] == [1, 2] && [1, 2][1..] == [2] && [2][1..] == [];
    assert [] + [0] == [0] && [0] + [1] == [0, 1] && [0, 1] + [2] == [0, 1, 2];
    assert Pass(parents, [], [0, 1, 2]) == ([0, 1, 2], []);
    assert Pass(parents, [2], [0, 1]) == ([0, 1, 2], []);
    assert Pass(parents, [1, 2], [0]) == ([0, 1, 2], []);
    assert Pass(parents, [0, 1, 2], []) == ([0, 1, 2], []);
    assert Order(parents, [], [0, 1, 2]) == Ok([0, 1, 2]);
    assert Order(parents, [0, 1, 2], []) == Ok([0, 1, 2]);
  }

  /** Two bones that are each other's parent are a hierarchy problem. */
  lemma CycleStuck()
    ensures HierarchyOrder([1, 0]).Err?
  {
    assert Range(2) == [0, 1];
    assert [0, 1][1..] == [1] && [1][1..] == [];
    assert Pass([1, 0], [], []) == ([], []);
    assert [1] + [] == [1] && [0] + [1] == [0, 1];
    assert Pass([1, 0], [1], []) == ([], [1]);
    assert Pass([1, 0], [0, 1], []) == ([], [0, 1]);
    assert Order([1, 0], [0, 1], []) == Err(Stuck([], [0, 1]));
  }

  // ------------------------------------------------- creating Blender bones

  /** The parent a bone is created under: the skeleton fix table overrides
      the stored parent for the bones it lists. */
  function EffectiveParents(parents: seq<int>, changes: map<int, int>): (r: seq<int>)
    ensures |r| == |parents|
    ensures forall i | 0 <= i < |parents| :: r[i] == if i in changes then changes[i] else parents[i]
  {
    seq(|parents|, i requires 0 <= i < |parents| => if i in changes then changes[i] else parents[i])
  }

  /** `MdxaSkel.saveToBlender`: the creation order, by the same passes,
      under the effective parents. */
  function CreationOrder(parents: seq<int>, changes: map<int, int>): (r: Result<seq<int>, OrderError>)
  {
    HierarchyOrder(EffectiveParents(parents, changes))
  }

  /** Every bone is created once, after its effective parent, and creation
      fails only when no such order exists. */
  lemma CreationOrderValid(parents: seq<int>, changes: map<int, int>, v: seq<int>)
    ensures CreationOrder(parents, changes).Ok? ==>
      Valid(EffectiveParents(parents, changes), CreationOrder(parents, changes).value)
    ensures Valid(EffectiveParents(parents, changes), v) ==> CreationOrder(parents, changes).Ok?
  {
    var eff := EffectiveParents(parents, changes);
    if CreationOrder(parents, changes).Ok? {
      HierarchyOrderValid(eff);
    }
    if Valid(eff, v) {
      OrderFound(eff, v);
    }
  }
}

=== FILE: gla_pool.dfy ===
/** Compression of an exported animation into a pool of distinct
    compressed bone transforms and per-frame pool indices.

    The 14-byte compressed transforms are taken as given: each frame is the
    sequence of compressed records of its bones, in bone-index order. A
    record seen before reuses its pool index; a new one is appended to the
    pool. */
module GlaPool {

  import opened Bytes
  import GlaAnimation

  /** All records of all frames, frame after frame. */
  function Flatten(records: seq<seq<seq<byte>>>): (r: seq<seq<byte>>)
    ensures records == [] ==> r == []
  {
    if records == [] then [] else Flatten(records[..|records| - 1]) + records[|records| - 1]
  }

  /** The distinct elements of `xs`, each where it first occurs. */
  function Firsts(xs: seq<seq<byte>>): (r: seq<seq<byte>>)
    ensures |r| <= |xs|
  {
    if xs == [] then []
    else
      var p := Firsts(xs[..|xs| - 1]);
      if xs[|xs| - 1] in p then p else p + [xs[|xs| - 1]]
  }

  predicate Distinct(xs: seq<seq<byte>>) {
    forall i, j | 0 <= i < j < |xs| :: xs[i] != xs[j]
  }

  /** `known` maps every pool entry to its position, and nothing else. */
  predicate Catalogue(pool: seq<seq<byte>>, known: map<seq<byte>, int>) {
    && (forall x | x in known :: 0 <= known[x] < |pool| && pool[known[x]] == x)
    && (forall i | 0 <= i < |pool| :: pool[i] in known)
  }

  /** What compression promises: the shape of the input, every index names
      an entry equal to the record it replaces, and the pool is the distinct
      records in order of first use. */
  predicate Compressed(records: seq<seq<seq<byte>>>, frames: seq<seq<int>>, pool: seq<seq<byte>>) {
    && |frames| == |records|
    && (forall f | 0 <= f < |records| :: |frames[f]| == |records[f]|)
    && (forall f, b | 0 <= f < |records| && 0 <= b < |records[f]| ::
          0 <= frames[f][b] < |pool| && pool[frames[f][b]] == records[f][b])
    && pool == Firsts(Flatten(records))
  }

  lemma FirstsStep(ys: seq<seq<byte>>, x: seq<byte>)
    ensures Firsts(ys + [x]) == if x in Firsts(ys) then Firsts(ys) else Firsts(ys) + [x]
  {
    assert (ys + [x])[..|ys|] == ys;
  }

  lemma SliceSnoc(row: seq<seq<byte>>, b: nat)
    requires b < |row|
    ensures row[..b + 1] == row[..b] + [row[b]]
  {
  }

  lemma FirstsExtend(seen: seq<seq<byte>>, row: seq<seq<byte>>, b: nat)
    requires b < |row|
    ensures Firsts(seen + row[..b + 1]) ==
      if row[b] in Firsts(seen + row[..b]) then Firsts(seen + row[..b]) else Firsts(seen + row[..b]) + [row[b]]
  {
    SliceSnoc(row, b);
    assert seen + row[..b + 1] == (seen + row[..b]) + [row[b]];
    FirstsStep(seen + row[..b], row[b]);
  }

  lemma FlattenStep(records: seq<seq<seq<byte>>>, f: nat)
    requires f < |records|
    ensures Flatten(records[..f + 1]) == Flatten(records[..f]) + records[f]
  {
    assert records[..f + 1][..f] == records[..f];
  }

  /** Each of `frame` indexes `pool` at an entry equal to that of `row`. */
  predicate Points(frame: seq<int>, pool: seq<seq<byte>>, row: seq<seq<byte>>) {
    |frame| == |row| && forall j | 0 <= j < |row| :: 0 <= frame[j] < |pool| && pool[frame[j]] == row[j]
  }

  lemma PointsExtend(frame: seq<int>, pool: seq<seq<byte>>, row: seq<seq<byte>>, newPool: seq<seq<byte>>, index: int)
    requires Points(frame, pool, row) && pool <= newPool && 0 <= index < |newPool|
    ensures Points(frame + [index], newPool, row + [newPool[index]])
  {
    forall j | 0 <= j < |row|
      ensures newPool[frame[j]] == pool[frame[j]]
    {
    }
  }

  /** The pool index of one record, appending it when it is new. */
  method Lookup(x: seq<byte>, pool: seq<seq<byte>>, known: map<seq<byte>, int>)
    returns (index: int, newPool: seq<seq<byte>>, newKnown: map<seq<byte>, int>)
    requires Catalogue(pool, known)
    ensures Catalogue(newPool, newKnown)
    ensures newPool == if x in pool then pool else pool + [x]
    ensures 0 <= index < |newPool| && newPool[index] == x
  {
    if x in known {
      index, newPool, newKnown := known[x], pool, known;
    } else {
      assert x !in pool;
      index := |pool|;
      newPool, newKnown := pool + [x], known[x := index];
    }
  }

  /** One frame: look each record up, appending the ones not yet pooled. */
  method CompressFrame(row: seq<seq<byte>>, pool: seq<seq<byte>>, known: map<seq<byte>, int>, seen: seq<seq<byte>>)
    returns (frame: seq<int>, newPool: seq<seq<byte>>, newKnown: map<seq<byte>, int>)
    requires Catalogue(pool, known) && pool == Firsts(seen)
    ensures Catalogue(newPool, newKnown) && newPool == Firsts(seen + row)
    ensures pool <= newPool
    ensures |frame| == |row|
    ensures forall b | 0 <= b < |row| :: 0 <= frame[b] < |newPool| && newPool[frame[b]] == row[b]
  {
    frame, newPool, newKnown := [], pool, known;
    assert seen + row[..0] == seen;
    for b := 0 to |row|
      invariant Catalogue(newPool, newKnown) && newPool == Firsts(seen + row[..b])
      invariant pool <= newPool
      invariant Points(frame, newPool, row[..b])
    {
      FirstsExtend(seen, row, b);
      var old_pool := newPool;
      var index;
      index, newPool, newKnown := Lookup(row[b], newPool, newKnown);
      PointsExtend(frame, old_pool, row[..b], newPool, index);
      SliceSnoc(row, b);
      frame := frame + [index];
    }
    assert row[..|row|] == row;
  }

  /** The compression loop of the export: frames in order, each record
      replaced by its pool index. */
  method Compress(records: seq<seq<seq<byte>>>) returns (frames: seq<seq<int>>, pool: seq<seq<byte>>)
    ensures Compressed(records, frames, pool)
  {
    var known: map<seq<byte>, int> := map[];
    frames, pool := [], [];
    for f := 0 to |records|
      invariant Catalogue(pool, known) && Compressed(records[..f], frames, pool)
    {
      var frame, newPool, newKnown := CompressFrame(records[f], pool, known, Flatten(records[..f]));
      CompressStep(records, f, frames, pool, frame, newPool);
      frames, pool, known := frames + [frame], newPool, newKnown;
    }
    assert records[..|records|] == records;
  }

  /** Appending one more compressed frame keeps the compression of the
      frames so far. */
  lemma CompressStep(records: seq<seq<seq<byte>>>, f: nat, frames: seq<seq<int>>, pool: seq<seq<byte>>, frame: seq<int>, newPool: seq<seq<byte>>)
    requires f < |records| && Compressed(records[..f], frames, pool)
    requires pool <= newPool && newPool == Firsts(Flatten(records[..f]) + records[f])
    requires |frame| == |records[f]|
    requires forall b | 0 <= b < |records[f]| :: 0 <= frame[b] < |newPool| && newPool[frame[b]] == records[f][b]
    ensures Compressed(records[..f + 1], frames + [frame], newPool)
  {
    FlattenStep(records, f);
    var front, next := records[..f], records[..f + 1];
    forall g, b | 0 <= g < |next| && 0 <= b < |next[g]|
      ensures 0 <= (frames + [frame])[g][b] < |newPool| && newPool[(frames + [frame])[g][b]] == next[g][b]
    {
      if g < f {
        assert next[g] == front[g];
        assert newPool[frames[g][b]] == pool[frames[g][b]];
      }
    }
  }

  lemma {:induction false} FirstsDistinct(xs: seq<seq<byte>>)
    ensures Distinct(Firsts(xs))
  {
    if xs != [] {
      FirstsDistinct(xs[..|xs| - 1]);
    }
  }

  lemma {:induction false} FirstsMembers(xs: seq<seq<byte>>)
    ensures forall x :: x in Firsts(xs) <==> x in xs
  {
    if xs != [] {
      var ys := xs[..|xs| - 1];
      FirstsMembers(ys);
      assert xs == ys + [xs[|xs| - 1]];
    }
  }

  lemma {:induction false} FlattenMembers(records: seq<seq<seq<byte>>>, x: seq<byte>)
    ensures x in Flatten(records) <==> exists f, b | 0 <= f < |records| && 0 <= b < |records[f]| :: records[f][b] == x
  {
    if records != [] {
      var n := |records| - 1;
      FlattenMembers(records[..n], x);
      var front := Flatten(records[..n]);
      if x in records[n] {
        var b :| 0 <= b < |records[n]| && records[n][b] == x;
        assert records[n][b] == x;
      }
      if x in front {
        var f, b :| 0 <= f < n && 0 <= b < |records[..n][f]| && records[..n][f][b] == x;
        assert records[f][b] == x;
      }
      if exists f, b | 0 <= f < |records| && 0 <= b < |records[f]| :: records[f][b] == x {
        var f, b :| 0 <= f < |records| && 0 <= b < |records[f]| && records[f][b] == x;
        if f < n {
          assert records[..n][f][b] == x;
        } else {
          assert x in records[n];
        }
      }
    }
  }

  /** The index of a record is the only position holding it: looking the
      indices up gives back exactly the frames compressed. */
  lemma IndexUnique(records: seq<seq<seq<byte>>>, frames: seq<seq<int>>, pool: seq<seq<byte>>, f: nat, b: nat, k: nat)
    requires Compressed(records, frames, pool)
    requires f < |records| && b < |records[f]| && k < |pool|
    ensures pool[k] == records[f][b] <==> k == frames[f][b]
  {
    FirstsDistinct(Flatten(records));
  }

  /** Every pool entry is used by some frame. */
  lemma EntryUsed(records: seq<seq<seq<byte>>>, frames: seq<seq<int>>, pool: seq<seq<byte>>, k: nat)
    requires Compressed(records, frames, pool) && k < |pool|
    ensures exists f, b | 0 <= f < |frames| && 0 <= b < |frames[f]| :: frames[f][b] == k
  {
    FirstsMembers(Flatten(records));
    FlattenMembers(records, pool[k]);
    var f, b :| 0 <= f < |records| && 0 <= b < |records[f]| && records[f][b] == pool[k];
    IndexUnique(records, frames, pool, f, b, k);
  }

  /** Records of one size give pool entries of that size. */
  lemma PoolSized(records: seq<seq<seq<byte>>>, frames: seq<seq<int>>, pool: seq<seq<byte>>, size: nat)
    requires Compressed(records, frames, pool)
    requires forall f, b | 0 <= f < |records| && 0 <= b < |records[f]| :: |records[f][b]| == size
    ensures forall k | 0 <= k < |pool| :: |pool[k]| == size
  {
    forall k | 0 <= k < |pool|
      ensures |pool[k]| == size
    {
      EntryUsed(records, frames, pool, k);
    }
  }

  /** The compressed animation of one record per bone per frame, 14 bytes
      each, with a pool the 3-byte indices can address, is what the
      animation's writer expects. */
  lemma CompressedIndexed(records: seq<seq<seq<byte>>>, frames: seq<seq<int>>, pool: seq<seq<byte>>, numBones: nat)
    requires Compressed(records, frames, pool)
    requires forall f | 0 <= f < |records| :: |records[f]| == numBones
    requires forall f, b | 0 <= f < |records| && 0 <= b < |records[f]| :: |records[f][b]| == GlaAnimation.COMP_BONE_SIZE
    requires |pool| <= TWO_24
    ensures GlaAnimation.Indexed(GlaAnimation.Animation(frames, pool), numBones)
  {
    PoolSized(records, frames, pool, GlaAnimation.COMP_BONE_SIZE);
    if |pool| > 0 {
      EntryUsed(records, frames, pool, |pool| - 1);
    }
  }
}

=== FILE: gla_skeleton.dfy ===
/** The skeleton of a Ghoul2 animation file: one record per bone (name,
    flags, parent, base pose and its inverse, children), found through a
    table of offsets counted from the end of the header. */
module GlaSkeleton {

  import opened Outcome
  import opened Bytes
  import opened Layout
  import Reading
  import GlaHeader

  type LoadError = Reading.LoadError

  /** A 3x4 matrix of 32-bit floats, carried as its 48 stored bytes. */
  const MATRIX_SIZE: nat := 12 * 4

  /** One bone. `index` is the bone's place in the table; it is set when
      the bone is read or built, and never written. */
  datatype Bone = Bone(
    name: seq<byte>,
    flags: int,
    parent: int,
    basePose: seq<byte>,
    basePoseInv: seq<byte>,
    numChildren: int,
    children: seq<int>,
    index: int)

  /** The name, flags, parent and both matrices. */
  const HEAD_SIZE: nat := QPATH + 4 + 4 + 2 * MATRIX_SIZE

  /** `getSize`: struct format "64sIi12f12fi" followed by one int per
      child; a negative child count is not a valid format. */
  function Size(b: Bone): (r: int)
    requires b.numChildren >= 0
    ensures r >= HEAD_SIZE + 4 && r % 4 == 0
  {
    HEAD_SIZE + 4 + 4 * b.numChildren
  }

  /** What the writer demands: every field fits its struct format and the
      child list is as long as its count (the writer asserts this). */
  predicate Storable(b: Bone) {
    IsU32(b.flags) && IsI32(b.parent) && |b.basePose| == |b.basePoseInv| == MATRIX_SIZE
    && IsI32(b.numChildren) && |b.children| == b.numChildren
    && forall i | 0 <= i < |b.children| :: IsI32(b.children[i])
  }

  function Head(b: Bone): (r: seq<byte>)
    requires IsU32(b.flags) && IsI32(b.parent) && |b.basePose| == |b.basePoseInv| == MATRIX_SIZE
    ensures |r| == HEAD_SIZE
  {
    FixedString(b.name) + U32(b.flags) + I32(b.parent) + b.basePose + b.basePoseInv
  }

  /** `saveToFile`: the head, the child count, the children. */
  function Save(b: Bone): (r: seq<byte>)
    requires Storable(b)
    ensures |r| == Size(b)
  {
    Head(b) + I32s([b.numChildren]) + I32s(b.children)
  }

  /** `loadFromFile` at `pos`, for table entry `i`: a negative child count
      reads no children but is kept. */
  function Load(data: seq<byte>, pos: nat, i: int): (r: Result<Bone, LoadError>)
    ensures r.Ok? ==> r.value.index == i && |r.value.name| == QPATH
    ensures r.Ok? ==> |r.value.basePose| == |r.value.basePoseInv| == MATRIX_SIZE
    ensures r.Ok? ==> IsU32(r.value.flags) && |r.value.children| == Reading.RangeCount(r.value.numChildren)
    ensures r.Ok? <==> (pos + HEAD_SIZE + 4 <= |data|
      && pos + HEAD_SIZE + 4 + 4 * Reading.RangeCount(ReadI32(data[pos + HEAD_SIZE..pos + HEAD_SIZE + 4])) <= |data|)
  {
    var head :- Reading.Need(ReadBytes(data, pos, HEAD_SIZE), Reading.Truncated);
    var count :- Reading.Need(ReadI32s(data, pos + HEAD_SIZE, 1), Reading.Truncated);
    var children :- Reading.Need(ReadI32s(data, pos + HEAD_SIZE + 4, Reading.RangeCount(count[0])), Reading.Truncated);
    Ok(Bone(head[..64], ReadU32(head[64..68]), ReadI32(head[68..72]), head[72..120], head[120..168],
            count[0], children, i))
  }

  /** What a bone reads back as from table slot `i`. */
  function Expected(b: Bone, i: int): Bone {
    b.(name := FixedString(b.name), index := i)
  }

  lemma HeadRead(b: Bone, pos: nat, data: seq<byte>)
    requires IsU32(b.flags) && IsI32(b.parent) && |b.basePose| == |b.basePoseInv| == MATRIX_SIZE
    requires Placed(data, pos, Head(b))
    ensures ReadBytes(data, pos, HEAD_SIZE) == Some(Head(b))
    ensures Head(b)[..64] == FixedString(b.name)
    ensures ReadU32(Head(b)[64..68]) == b.flags && ReadI32(Head(b)[68..72]) == b.parent
    ensures Head(b)[72..120] == b.basePose && Head(b)[120..168] == b.basePoseInv
  {
    PlacedSlice(data, pos, Head(b));
    assert Head(b)[64..68] == U32(b.flags);
    assert Head(b)[68..72] == I32(b.parent);
    U32RoundTrip(b.flags);
    I32RoundTrip(b.parent);
  }

  /** A written bone reads back, with its place in the table as index. */
  lemma LoadSave(b: Bone, pos: nat, i: int, data: seq<byte>)
    requires Storable(b) && Placed(data, pos, Save(b))
    ensures Load(data, pos, i) == Ok(Expected(b, i))
  {
    assert Save(b) == (Head(b) + I32s([b.numChildren])) + I32s(b.children);
    PlacedAppend(data, pos, Head(b) + I32s([b.numChildren]), I32s(b.children), pos + HEAD_SIZE + 4);
    PlacedAppend(data, pos, Head(b), I32s([b.numChildren]), pos + HEAD_SIZE);
    HeadRead(b, pos, data);
    I32sPlaced(data, pos + HEAD_SIZE, [b.numChildren]);
    I32sPlaced(data, pos + HEAD_SIZE + 4, b.children);
  }

  // ------------------------------------------------------------- the table

  predicate AllStorable(bones: seq<Bone>) {
    forall i | 0 <= i < |bones| :: Storable(bones[i])
  }

  function Sizes(bones: seq<Bone>): (r: seq<int>)
    requires AllStorable(bones)
    ensures |r| == |bones| && forall i | 0 <= i < |bones| :: r[i] == Size(bones[i])
  {
    seq(|bones|, i requires 0 <= i < |bones| => Size(bones[i]))
  }

  /** The bone offsets as the skeleton builder computes them: the first
      bone right after the table of `4 * n` bytes, each further one right
      after the previous. */
  function CalculateOffsets(bones: seq<Bone>): (r: seq<int>)
    requires AllStorable(bones)
    ensures |r| == |bones|
    ensures |bones| > 0 ==> r[0] == 4 * |bones|
    ensures forall i | 0 <= i < |bones| - 1 :: r[i + 1] == r[i] + Size(bones[i])
  {
    OffsetsChain(4 * |bones|, Sizes(bones));
    Offsets(4 * |bones|, Sizes(bones))
  }

  /** Where the first bone starts, as recorded in the header. */
  function OfsSkel(bones: seq<Bone>): int {
    GlaHeader.HEADER_SIZE + 4 * |bones|
  }

  /** Where the frames start: right after the last bone. */
  function OfsFrames(bones: seq<Bone>): int
    requires AllStorable(bones)
  {
    OfsSkel(bones) + Total(Sizes(bones))
  }

  /** The recorded skeleton offset is where the table says the first bone
      is, and the frames start on a four-byte boundary, right after the
      last bone. */
  lemma SkeletonLayout(bones: seq<Bone>)
    requires AllStorable(bones)
    ensures |bones| > 0 ==> OfsSkel(bones) == GlaHeader.HEADER_SIZE + CalculateOffsets(bones)[0]
    ensures |bones| > 0 ==> OfsFrames(bones) == GlaHeader.HEADER_SIZE + CalculateOffsets(bones)[|bones| - 1] + Size(bones[|bones| - 1])
    ensures OfsFrames(bones) % 4 == 0
  {
    OffsetsChain(4 * |bones|, Sizes(bones));
    TotalMultipleOfFour(Sizes(bones));
  }

  /** Sums of multiples of four are multiples of four. */
  lemma {:induction false} TotalMultipleOfFour(xs: seq<int>)
    requires forall i | 0 <= i < |xs| :: xs[i] % 4 == 0
    ensures Total(xs) % 4 == 0
    decreases |xs|
  {
    if |xs| > 0 {
      TotalMultipleOfFour(xs[..|xs| - 1]);
      TotalSnoc(xs[..|xs| - 1], xs[|xs| - 1]);
      assert xs[..|xs| - 1] + [xs[|xs| - 1]] == xs;
    }
  }

  /** The bone table as written: one int per bone. */
  function SaveOffsets(offsets: seq<int>): (r: seq<byte>)
    requires forall i | 0 <= i < |offsets| :: IsI32(offsets[i])
    ensures |r| == 4 * |offsets|
  {
    I32s(offsets)
  }

  /** `MdxaBoneOffsets.loadFromFile`: one int per bone the header counts
      (none for a negative count), right after the header. */
  function LoadOffsets(data: seq<byte>, numBones: int): (r: Result<seq<int>, LoadError>)
    ensures r.Ok? ==> |r.value| == Reading.RangeCount(numBones)
  {
    Reading.Need(ReadI32s(data, GlaHeader.HEADER_SIZE, Reading.RangeCount(numBones)), Reading.Truncated)
  }

  lemma LoadOffsetsSaved(offsets: seq<int>, data: seq<byte>)
    requires forall i | 0 <= i < |offsets| :: IsI32(offsets[i])
    requires Placed(data, GlaHeader.HEADER_SIZE, SaveOffsets(offsets))
    ensures LoadOffsets(data, |offsets|) == Ok(offsets)
  {
    I32sPlaced(data, GlaHeader.HEADER_SIZE, offsets);
  }

  /** `MdxaSkel.loadFromFile` from table slot `k` on: each bone is read
      where its offset, counted from the end of the header, points. */
  function LoadBones(data: seq<byte>, offsets: seq<int>, k: nat): (r: Result<seq<Bone>, LoadError>)
    requires k <= |offsets|
    ensures r.Ok? ==> |r.value| == |offsets| - k
    ensures r.Ok? ==> forall j | 0 <= j < |r.value| :: r.value[j].index == k + j
    decreases |offsets| - k
  {
    if k == |offsets| then Ok([])
    else
      var at :- Reading.Seek(GlaHeader.HEADER_SIZE + offsets[k]);
      var b :- Load(data, at, k);
      var rest :- LoadBones(data, offsets, k + 1);
      Ok([b] + rest)
  }

  function Records(bones: seq<Bone>): (r: seq<seq<byte>>)
    requires AllStorable(bones)
    ensures |r| == |bones| && forall i | 0 <= i < |bones| :: r[i] == Save(bones[i])
    ensures Lengths(r) == Sizes(bones)
  {
    var r := seq(|bones|, i requires 0 <= i < |bones| => Save(bones[i]));
    assert Lengths(r) == Sizes(bones);
    r
  }

  /** `MdxaSkel.saveToFile`: the bones back to back. */
  function SaveBones(bones: seq<Bone>): (r: seq<byte>)
    requires AllStorable(bones)
    ensures |r| == Total(Sizes(bones))
  {
    ConcatLength(Records(bones));
    Concat(Records(bones))
  }

  function ExpectedAll(bones: seq<Bone>): (r: seq<Bone>)
    ensures |r| == |bones| && forall i | 0 <= i < |bones| :: r[i] == Expected(bones[i], i)
  {
    seq(|bones|, i requires 0 <= i < |bones| => Expected(bones[i], i))
  }

  /** The bone at `offset` past the header reads as `b` from slot `j`. */
  predicate LeadsAt(data: seq<byte>, offset: int, j: int, b: Bone) {
    GlaHeader.HEADER_SIZE + offset >= 0 && Load(data, GlaHeader.HEADER_SIZE + offset, j) == Ok(b)
  }

  predicate Leads(data: seq<byte>, offsets: seq<int>, expected: seq<Bone>) {
    |expected| == |offsets| && forall j {:trigger LeadsAt(data, offsets[j], j, expected[j])} | 0 <= j < |offsets| :: LeadsAt(data, offsets[j], j, expected[j])
  }

  lemma {:induction false} LoadBonesLed(data: seq<byte>, offsets: seq<int>, expected: seq<Bone>, k: nat)
    requires Leads(data, offsets, expected) && k <= |offsets|
    ensures LoadBones(data, offsets, k) == Ok(expected[k..])
    decreases |offsets| - k
  {
    if k < |offsets| {
      LoadBonesLed(data, offsets, expected, k + 1);
      LoadBonesStep(data, offsets, expected, k);
    } else {
      LoadBonesEnd(data, offsets, expected, k);
    }
  }

  lemma LoadBonesEnd(data: seq<byte>, offsets: seq<int>, expected: seq<Bone>, k: nat)
    requires |expected| == |offsets| == k
    ensures LoadBones(data, offsets, k) == Ok(expected[k..])
  {
    assert expected[k..] == [];
  }

  lemma LoadBonesStep(data: seq<byte>, offsets: seq<int>, expected: seq<Bone>, k: nat)
    requires Leads(data, offsets, expected) && k < |offsets|
    requires LoadBones(data, offsets, k + 1) == Ok(expected[k + 1..])
    ensures LoadBones(data, offsets, k) == Ok(expected[k..])
  {
    assert LeadsAt(data, offsets[k], k, expected[k]);
    assert expected[k..] == [expected[k]] + expected[k + 1..];
  }

  lemma BoneLoads(bones: seq<Bone>, data: seq<byte>, j: nat)
    requires AllStorable(bones) && j < |bones|
    requires Placed(data, OfsSkel(bones), SaveBones(bones))
    ensures LeadsAt(data, CalculateOffsets(bones)[j], j, ExpectedAll(bones)[j])
  {
    BonePlaced(bones, data, j);
    LoadSave(bones[j], GlaHeader.HEADER_SIZE + CalculateOffsets(bones)[j], j, data);
  }

  lemma BonePlaced(bones: seq<Bone>, data: seq<byte>, j: nat)
    requires AllStorable(bones) && j < |bones|
    requires Placed(data, OfsSkel(bones), SaveBones(bones))
    ensures GlaHeader.HEADER_SIZE + CalculateOffsets(bones)[j] >= 0
    ensures Placed(data, GlaHeader.HEADER_SIZE + CalculateOffsets(bones)[j], Save(bones[j]))
  {
    var recs := Records(bones);
    PlacedPiece(data, OfsSkel(bones), recs, j);
  }

  /** The skeleton written after its offset table reads back through it. */
  lemma LoadSaveBones(bones: seq<Bone>, data: seq<byte>)
    requires AllStorable(bones)
    requires Placed(data, OfsSkel(bones), SaveBones(bones))
    ensures LoadBones(data, CalculateOffsets(bones), 0) == Ok(ExpectedAll(bones))
  {
    var offsets, expected := CalculateOffsets(bones), ExpectedAll(bones);
    forall j | 0 <= j < |bones| ensures LeadsAt(data, offsets[j], j, expected[j]) {
      BoneLoads(bones, data, j);
    }
    LoadBonesLed(data, offsets, expected, 0);
  }
}

=== FILE: glm_bone_references.dfy ===
/** The per-surface bone-reference table of a Ghoul2 mesh. While a surface's
    vertices are collected, every bone that weights a vertex gets a small
    surface-local index (the five bits the vertex word holds); afterwards the
    table maps each local index to the bone's index in the skeleton. */
module GlmBoneReferences {

  import opened Outcome
  import ErrorTypes

  /** At most this many distinct bones per surface: the vertex word stores
      five bits per bone index. */
  const MAX_BONES: nat := 32

  /** The bone names seen so far in a surface, in first-seen order; a
      name's local index is its position (a dict that only ever grows by
      `len(d)`). */
  type Names = seq<string>

  /** The grown table and the local index of each bone of one vertex. */
  type Assigned = (Names, seq<nat>)

  datatype BoneError =
    | TooManyBones(count: nat)           // "More than 32 bones!"
    | UnknownBone(name: string)          // the skeleton lookup raises
    | MissingIndices(indices: seq<nat>)  // local indices nothing filled

  predicate Distinct(names: Names) {
    forall i, j | 0 <= i < j < |names| :: names[i] != names[j]
  }

  function IndexOf(names: Names, name: string): (r: nat)
    requires name in names
    ensures r < |names| && names[r] == name
    ensures forall j | 0 <= j < r :: names[j] != name
  {
    if names[0] == name then 0 else 1 + IndexOf(names[1..], name)
  }

  /** The name table once `name` is looked up, with no limit applied. */
  function Extend(names: Names, name: string): Names {
    if name in names then names else names + [name]
  }

  /** The table after looking up all of `bones` in order, with no limit
      applied: the reference the bounded loop is measured against. */
  function Table(names: Names, bones: seq<string>): (r: Names)
    decreases |bones|
  {
    if |bones| == 0 then names else Extend(Table(names, bones[..|bones| - 1]), bones[|bones| - 1])
  }

  /** Looking up one weighting bone: a known name keeps its index, a new
      name gets the next one, and the 33rd distinct name fails. */
  function Assign(names: Names, name: string): (r: Result<(Names, nat), BoneError>)
    ensures r.Err? <==> name !in names && |names| + 1 > MAX_BONES
    ensures r.Err? ==> r.error == TooManyBones(|names| + 1)
    ensures r.Ok? ==> r.value.0 == Extend(names, name)
    ensures r.Ok? ==> r.value.1 < |r.value.0| && r.value.0[r.value.1] == name
    ensures r.Ok? && name in names ==> r.value.1 == IndexOf(names, name)
    ensures r.Ok? && name !in names ==> r.value.1 == |names|
  {
    if name in names then Ok((names, IndexOf(names, name)))
    else if |names| + 1 > MAX_BONES then Err(TooManyBones(|names| + 1))
    else Ok((names + [name], |names|))
  }

  // ------------------------------------------------------------- the table

  /** The table only grows, and only by names that were looked up. */
  lemma {:induction false} TableGrows(names: Names, bones: seq<string>)
    ensures |names| <= |Table(names, bones)| <= |names| + |bones|
    ensures Table(names, bones)[..|names|] == names
    ensures forall n | n in Table(names, bones) :: n in names || n in bones
    ensures forall b | b in bones :: b in Table(names, bones)
    decreases |bones|
  {
    if |bones| > 0 {
      var init := bones[..|bones| - 1];
      TableGrows(names, init);
      var t := Table(names, init);
      assert Table(names, bones) == Extend(t, bones[|bones| - 1]);
      assert forall b | b in bones :: b in init || b == bones[|bones| - 1];
      if bones[|bones| - 1] !in t {
        assert (t + [bones[|bones| - 1]])[..|names|] == t[..|names|];
      }
    }
  }

  /** Distinct names stay distinct. */
  lemma {:induction false} TableDistinct(names: Names, bones: seq<string>)
    requires Distinct(names)
    ensures Distinct(Table(names, bones))
    decreases |bones|
  {
    if |bones| > 0 {
      TableDistinct(names, bones[..|bones| - 1]);
    }
  }

  /** A longer prefix of the lookups leaves a table that extends the
      shorter one's. */
  lemma {:induction false} TablePrefix(names: Names, bones: seq<string>, k: nat)
    requires k <= |bones|
    ensures |Table(names, bones[..k])| <= |Table(names, bones)|
    ensures Table(names, bones)[..|Table(names, bones[..k])|] == Table(names, bones[..k])
    decreases |bones| - k
  {
    if k < |bones| {
      TablePrefix(names, bones, k + 1);
      var short, long := Table(names, bones[..k]), Table(names, bones[..k + 1]);
      assert bones[..k + 1][..k] == bones[..k];
      assert long == Extend(short, bones[k]);
      assert long[..|short|] == short;
      var all := Table(names, bones);
      assert all[..|long|][..|short|] == all[..|short|];
    } else {
      assert bones[..k] == bones;
    }
  }

  // ------------------------------------------------------------- one vertex

  /** The lookups of one vertex's weighting bones, in order: the grown
      table and each bone's local index, or the first overflow. */
  method AssignVertexBones(names: Names, bones: seq<string>)
    returns (r: Result<Assigned, BoneError>)
    requires |names| <= MAX_BONES
    ensures r.Ok? <==> |Table(names, bones)| <= MAX_BONES
    ensures r.Err? ==> r.error == TooManyBones(MAX_BONES + 1)
    ensures r.Ok? ==> r.value.0 == Table(names, bones)
    ensures r.Ok? ==> |r.value.1| == |bones|
    ensures r.Ok? ==> forall i | 0 <= i < |bones| ::
      r.value.1[i] < |r.value.0| && r.value.0[r.value.1[i]] == bones[i]
  {
    var cur := names;
    var indices: seq<nat> := [];
    for k := 0 to |bones|
      invariant cur == Table(names, bones[..k]) && |cur| <= MAX_BONES
      invariant |indices| == k
      invariant forall i | 0 <= i < k :: indices[i] < |cur| && cur[indices[i]] == bones[i]
    {
      assert bones[..k + 1][..k] == bones[..k];
      var step := Assign(cur, bones[k]);
      if step.Err? {
        TablePrefix(names, bones, k + 1);
        return Err(step.error);
      }
      cur, indices := step.value.0, indices + [step.value.1];
    }
    assert bones[..|bones|] == bones;
    return Ok((cur, indices));
  }

  // ------------------------------------------------------------- the surface

  /** The filled table: local index `i` refers to the skeleton bone named
      `names[i]`. */
  predicate Refers(refs: seq<int>, names: Names, skeleton: map<string, int>) {
    |refs| == |names| && forall i | 0 <= i < |names| :: names[i] in skeleton && refs[i] == skeleton[names[i]]
  }

  /** The skeleton index of each local index in turn, or the first name
      the skeleton lacks. */
  function Lookups(names: Names, skeleton: map<string, int>): (r: Result<seq<Option<int>>, BoneError>)
    ensures r.Ok? <==> forall i | 0 <= i < |names| :: names[i] in skeleton
    ensures r.Ok? ==> |r.value| == |names|
    ensures r.Ok? ==> forall i | 0 <= i < |names| :: r.value[i] == Some(skeleton[names[i]])
    ensures r.Err? ==> r.error.UnknownBone? && r.error.name in names && r.error.name !in skeleton
    decreases |names|
  {
    if |names| == 0 then Ok([])
    else if names[0] !in skeleton then Err(UnknownBone(names[0]))
    else
      var rest :- Lookups(names[1..], skeleton);
      Ok([Some(skeleton[names[0]])] + rest)
  }

  /** Filling the bone-reference table once all vertices are in. Without
      a skeleton the table is `[0]`; otherwise every local index is looked
      up, an unknown name failing, and any slot left unfilled is reported. */
  function FillBoneReferences(names: Names, skeleton: Option<map<string, int>>)
    : (r: Result<seq<int>, BoneError>)
    ensures skeleton.None? ==> r == Ok([0])
    ensures skeleton.Some? ==>
      (r.Ok? <==> forall i | 0 <= i < |names| :: names[i] in skeleton.value)
    ensures skeleton.Some? && r.Ok? ==> Refers(r.value, names, skeleton.value)
    ensures r.Err? ==> r.error.UnknownBone? && skeleton.Some?
    ensures r.Err? && skeleton.Some? ==> r.error.name in names && r.error.name !in skeleton.value
  {
    match skeleton
    case None => Ok([0])
    case Some(m) =>
      var slots :- Lookups(names, m);
      var missing := ErrorTypes.NoneIndices(slots, 0);
      if |missing| > 0 then Err(MissingIndices(missing))
      else Ok(ErrorTypes.Values(slots))
  }

  /** Every local index a vertex was given has a filled table entry
      naming the same bone. */
  lemma LocalIndicesResolve(names: Names, bones: seq<string>, indices: seq<nat>,
                            refs: seq<int>, skeleton: map<string, int>)
    requires |indices| == |bones|
    requires forall i | 0 <= i < |bones| :: indices[i] < |names| && names[indices[i]] == bones[i]
    requires Refers(refs, names, skeleton)
    ensures forall i | 0 <= i < |bones| :: indices[i] < |refs| && refs[indices[i]] == skeleton[bones[i]]
  {
  }
}

=== FILE: glm_file.dfy ===
/** A whole Ghoul2 mesh file: the header, the table of hierarchy offsets, the
    hierarchy entries and the levels of detail, written in that order, with
    the header's offsets and counts computed from the rest. */
module GlmFile {

  import opened Outcome
  import Reading
  import opened Bytes
  import opened Layout
  import GlmVertex
  import GlmLod
  import GlmHeader
  import GlmHierarchy
  import GlmLods

  type Header = GlmHeader.Header
  type SurfaceData = GlmHierarchy.SurfaceData

  /** A mesh as the writer holds it. */
  datatype Glm = Glm(
    header: Header,
    offsets: seq<int>,
    surfaces: seq<SurfaceData>,
    lods: seq<GlmLods.Lod>)

  /** A mesh as the reader produces it; `tidy` says whether reading the last
      level ended exactly at the header's end offset (the reader only warns
      when it does not). */
  datatype LoadedGlm = LoadedGlm(
    header: Header,
    offsets: seq<int>,
    surfaces: seq<SurfaceData>,
    lods: seq<GlmLod.Loaded>,
    tidy: bool)

  datatype GlmError =
    | BadHeader(headerError: GlmHeader.HeaderError)
    | Malformed(loadError: Reading.LoadError)

  /** A header error as a mesh error. This and `Lift` parallel the GLA
      reader's own lifting, as the two file classes do in the source. */
  function LiftHeader<T>(r: Result<T, GlmHeader.HeaderError>): (s: Result<T, GlmError>)
    ensures s.Ok? <==> r.Ok?
    ensures r.Ok? ==> s.value == r.value
    ensures r.Err? ==> s.error == BadHeader(r.error)
  {
    match r
    case Ok(v) => Ok(v)
    case Err(e) => Err(BadHeader(e))
  }

  /** A read error as a mesh error. */
  function Lift<T>(r: Result<T, Reading.LoadError>): (s: Result<T, GlmError>)
    ensures s.Ok? <==> r.Ok?
    ensures r.Ok? ==> s.value == r.value
    ensures r.Err? ==> s.error == Malformed(r.error)
  {
    match r
    case Ok(v) => Ok(v)
    case Err(e) => Err(Malformed(e))
  }

  // ------------------------------------------------------------- layout

  /** Where the hierarchy entries start: after the header and the table. */
  function HierarchyAt(g: Glm): int {
    GlmHeader.HEADER_SIZE + 4 * |g.offsets|
  }

  /** Where the levels start: after the hierarchy entries. */
  function LodsAt(g: Glm): int {
    HierarchyAt(g) + GlmHierarchy.CollectionSize(g.surfaces)
  }

  /** `_calculateHeaderOffsets`: the surface count from the table, then each
      structure's offset from the sizes of those before it. */
  function CalculateHeaderOffsets(g: Glm): (r: Header)
    ensures r.name == g.header.name && r.animName == g.header.animName
    ensures r.numBones == g.header.numBones && r.numLods == g.header.numLods
    ensures r.numSurfaces == |g.offsets|
    ensures r.ofsSurfHierarchy == HierarchyAt(g) && r.ofsLods == LodsAt(g)
    ensures r.ofsEnd - r.ofsLods == GlmLods.Size(g.lods)
  {
    var hierarchy := GlmHeader.HEADER_SIZE + 4 * |g.offsets|;
    var lods := hierarchy + GlmHierarchy.CollectionSize(g.surfaces);
    g.header.(numSurfaces := |g.offsets|, ofsSurfHierarchy := hierarchy,
              ofsLods := lods, ofsEnd := lods + GlmLods.Size(g.lods))
  }

  /** The tail of building a mesh for writing: the hierarchy's offset table,
      every level's layout and then the header's offsets. The level count
      is the number of levels. */
  function Prepare(name: seq<byte>, animName: seq<byte>, numBones: int,
                   surfaces: seq<SurfaceData>, lods: seq<GlmLods.Lod>): (g: Glm)
    ensures g.surfaces == surfaces && |g.lods| == |lods|
    ensures g.header.name == name && g.header.animName == animName && g.header.numBones == numBones
  {
    var blank := GlmHeader.Header(name, animName, numBones, |lods|, 0, 0, 0, 0);
    var g := Glm(blank, GlmHierarchy.CalculateOffsets(surfaces), surfaces, GlmLods.CalculateOffsets(lods));
    g.(header := CalculateHeaderOffsets(g))
  }

  /** What the reader relies on: the counts and offsets in the header agree
      with the structures, the table points at the entries, and the levels
      are numbered in order and list every surface by index. */
  predicate Consistent(g: Glm) {
    g.header.numSurfaces == |g.offsets| == |g.surfaces|
    && g.offsets == GlmHierarchy.CalculateOffsets(g.surfaces)
    && g.header.numLods == |g.lods|
    && g.header.ofsLods == LodsAt(g)
    && g.header.ofsEnd == LodsAt(g) + GlmLods.Size(g.lods)
    && GlmLods.Numbered(g.lods, 0, |g.surfaces|)
  }

  /** A prepared mesh is consistent when its levels were numbered in order
      and each listed every surface by index. */
  lemma PreparedConsistent(name: seq<byte>, animName: seq<byte>, numBones: int,
                           surfaces: seq<SurfaceData>, lods: seq<GlmLods.Lod>)
    requires GlmLods.Numbered(lods, 0, |surfaces|)
    ensures Consistent(Prepare(name, animName, numBones, surfaces, lods))
  {
    var g := Prepare(name, animName, numBones, surfaces, lods);
    forall i | 0 <= i < |lods| ensures g.lods[i].level == i && GlmLods.Shaped(g.lods[i], |surfaces|) {
      assert g.lods[i].surfaces == lods[i].surfaces;
    }
  }

  // ------------------------------------------------------------- writing

  /** What the writer demands: every field fits its struct format and the
      levels can be stored where they land. */
  predicate Storable(id: FormatId, g: Glm) {
    ValidId(id) && GlmHeader.Storable(g.header)
    && (forall i | 0 <= i < |g.offsets| :: IsI32(g.offsets[i]))
    && GlmHierarchy.AllStorable(g.surfaces)
    && GlmLods.StorableFrom(g.lods, LodsAt(g))
  }

  /** `saveToFile`: header, offset table, hierarchy entries, levels. Only a
      vertex that cannot be encoded makes it fail. */
  function Save(id: FormatId, g: Glm): (r: Result<seq<byte>, GlmVertex.VertexError>)
    requires Storable(id, g)
    ensures r.Ok? <==> GlmLods.Encodable(g.lods)
    ensures r.Ok? ==> |r.value| == LodsAt(g) + GlmLods.Size(g.lods)
  {
    var lods :- GlmLods.Save(g.lods, LodsAt(g));
    Ok(GlmHeader.Save(id, g.header) + GlmHierarchy.SaveOffsets(g.offsets)
       + GlmHierarchy.SaveCollection(g.surfaces) + lods)
  }

  /** The header written for a consistent mesh points at where each part of
      the file really begins, and its end offset is the file's length. */
  lemma HeaderPoints(id: FormatId, g: Glm)
    requires Storable(id, g) && Consistent(g) && Save(id, g).Ok?
    ensures |g.surfaces| > 0 ==> GlmHeader.HEADER_SIZE + g.offsets[0] == HierarchyAt(g)
    ensures g.header.ofsEnd == |Save(id, g).value|
    ensures 0 <= g.header.ofsLods <= |Save(id, g).value|
    ensures Save(id, g).value[g.header.ofsLods..] == GlmLods.Save(g.lods, LodsAt(g)).value
  {
    var front := GlmHeader.Save(id, g.header) + GlmHierarchy.SaveOffsets(g.offsets)
      + GlmHierarchy.SaveCollection(g.surfaces);
    assert |front| == g.header.ofsLods;
  }

  // ------------------------------------------------------------- reading

  /** `loadFromFile`: the header, the offset table right after it, the
      entries it points at, and the levels from the header's level offset. */
  function Load(id: FormatId, data: seq<byte>): (r: Result<LoadedGlm, GlmError>)
    ensures GlmHeader.Load(id, data).Err? ==> r == Err(BadHeader(GlmHeader.Load(id, data).error))
    ensures r.Ok? ==> GlmHeader.Load(id, data) == Ok(r.value.header)
    ensures r.Ok? ==> |r.value.offsets| == |r.value.surfaces| == Reading.RangeCount(r.value.header.numSurfaces)
    ensures r.Ok? ==> forall j | 0 <= j < |r.value.surfaces| :: r.value.surfaces[j].index == j
    ensures r.Ok? ==> |r.value.lods| == Reading.RangeCount(r.value.header.numLods)
    ensures r.Ok? ==> forall i | 0 <= i < |r.value.lods| ::
      r.value.lods[i].level == i && |r.value.lods[i].surfaces| == r.value.header.numSurfaces
  {
    var h :- LiftHeader(GlmHeader.Load(id, data));
    var offsets :- Lift(GlmHierarchy.LoadOffsets(data, h.numSurfaces));
    var surfaces :- Lift(GlmHierarchy.LoadCollection(data, offsets));
    var at :- Lift(Reading.Seek(h.ofsLods));
    var lods :- Lift(GlmLods.Load(data, at, h.numLods, h.numSurfaces));
    Ok(LoadedGlm(h, offsets, surfaces, lods.0, lods.1 == h.ofsEnd))
  }

  /** What a written mesh reads back as. */
  function Expected(g: Glm): LoadedGlm
    requires GlmHierarchy.AllStorable(g.surfaces) && GlmLods.AllWritable(g.lods)
  {
    LoadedGlm(GlmHeader.Expected(g.header), g.offsets, GlmHierarchy.ExpectedAll(g.surfaces),
              GlmLods.Expected(g.lods), true)
  }

  /** The four parts of a written file each lie where the reader looks. */
  lemma PartsPlaced(id: FormatId, g: Glm, data: seq<byte>)
    requires Storable(id, g) && Save(id, g).Ok? && Save(id, g).value <= data
    ensures GlmHeader.Save(id, g.header) <= data
    ensures Placed(data, GlmHeader.HEADER_SIZE, GlmHierarchy.SaveOffsets(g.offsets))
    ensures Placed(data, HierarchyAt(g), GlmHierarchy.SaveCollection(g.surfaces))
    ensures Placed(data, LodsAt(g), GlmLods.Save(g.lods, LodsAt(g)).value)
  {
    var h, o, c := GlmHeader.Save(id, g.header), GlmHierarchy.SaveOffsets(g.offsets),
      GlmHierarchy.SaveCollection(g.surfaces);
    var l := GlmLods.Save(g.lods, LodsAt(g)).value;
    PartsOfPrefix(data, h, o, c, l, GlmHeader.HEADER_SIZE, HierarchyAt(g), LodsAt(g));
  }

  /** The header, the table and the entries read back when each lies where
      the reader looks. */
  lemma FrontLoads(id: FormatId, h: Header, offsets: seq<int>, ds: seq<SurfaceData>, at: int, data: seq<byte>)
    requires ValidId(id) && GlmHeader.Storable(h) && GlmHeader.Save(id, h) <= data
    requires h.numSurfaces == |offsets| == |ds| && offsets == GlmHierarchy.CalculateOffsets(ds)
    requires forall i | 0 <= i < |offsets| :: IsI32(offsets[i])
    requires Placed(data, GlmHeader.HEADER_SIZE, GlmHierarchy.SaveOffsets(offsets))
    requires GlmHierarchy.AllStorable(ds)
    requires at == GlmHeader.HEADER_SIZE + 4 * |ds| && Placed(data, at, GlmHierarchy.SaveCollection(ds))
    ensures GlmHeader.Load(id, data) == Ok(GlmHeader.Expected(h))
    ensures GlmHierarchy.LoadOffsets(data, GlmHeader.Expected(h).numSurfaces) == Ok(offsets)
    ensures GlmHierarchy.LoadCollection(data, offsets) == Ok(GlmHierarchy.ExpectedAll(ds))
  {
    GlmHeader.LoadSave(id, h, data);
    GlmHierarchy.LoadOffsetsSaved(offsets, data);
    GlmHierarchy.LoadSaveCollection(ds, data);
  }

  /** The levels read back from where they were written, ending where
      their sizes say. */
  lemma LodsLoad(lods: seq<GlmLods.Lod>, at: nat, end: int, numSurfaces: nat, data: seq<byte>)
    requires GlmLods.StorableFrom(lods, at) && GlmLods.Save(lods, at).Ok?
    requires Placed(data, at, GlmLods.Save(lods, at).value)
    requires GlmLods.Numbered(lods, 0, numSurfaces)
    requires end == at + GlmLods.Size(lods)
    ensures GlmLods.AllWritable(lods)
    ensures GlmLods.Load(data, at, |lods|, numSurfaces) == Ok((GlmLods.Expected(lods), end))
  {
    GlmLods.LoadSave(lods, at, numSurfaces, data);
    var r := GlmLods.Load(data, at, |lods|, numSurfaces);
    assert r.value.1 == end;
  }

  /** A consistent mesh, written, reads back as written: names padded to
      64 bytes, every entry and level indexed by position, and reading ends
      at the header's end offset. */
  lemma LoadSave(id: FormatId, g: Glm, data: seq<byte>)
    requires Storable(id, g) && Consistent(g) && Save(id, g).Ok? && Save(id, g).value <= data
    ensures GlmLods.AllWritable(g.lods)
    ensures Load(id, data) == Ok(Expected(g))
  {
    PartsPlaced(id, g, data);
    FrontLoads(id, g.header, g.offsets, g.surfaces, HierarchyAt(g), data);
    LodsLoad(g.lods, LodsAt(g), g.header.ofsEnd, |g.surfaces|, data);
    LoadParts(id, data, GlmHeader.Expected(g.header), g.offsets, GlmHierarchy.ExpectedAll(g.surfaces),
              LodsAt(g), |g.lods|, |g.surfaces|, GlmLods.Expected(g.lods), g.header.ofsEnd);
  }

  /** Reading succeeds with the parts it finds in turn. */
  lemma LoadParts(id: FormatId, data: seq<byte>, h: Header, offsets: seq<int>, surfaces: seq<SurfaceData>,
                  at: nat, numLods: int, numSurfaces: int, lods: seq<GlmLod.Loaded>, end: nat)
    requires GlmHeader.Load(id, data) == Ok(h)
    requires GlmHierarchy.LoadOffsets(data, h.numSurfaces) == Ok(offsets)
    requires GlmHierarchy.LoadCollection(data, offsets) == Ok(surfaces)
    requires h.ofsLods == at && h.numLods == numLods && h.numSurfaces == numSurfaces
    requires GlmLods.Load(data, at, numLods, numSurfaces) == Ok((lods, end))
    ensures Load(id, data) == Ok(LoadedGlm(h, offsets, surfaces, lods, end == h.ofsEnd))
  {
  }
}

=== FILE: glm_header.dfy ===
/** The fixed 164-byte header at the start of a Ghoul2 mesh file: magic,
    version, the model and skeleton names, and the counts and offsets of
    the structures that follow. */
module GlmHeader {

  import opened Outcome
  import opened Bytes

  /** `getSize`: two ints, two 64-byte strings, seven ints. */
  const HEADER_SIZE: nat := 2 * 4 + 2 * QPATH + 7 * 4

  datatype Header = Header(
    name: seq<byte>,
    animName: seq<byte>,
    numBones: int,
    numLods: int,
    ofsLods: int,
    numSurfaces: int,
    ofsSurfHierarchy: int,
    ofsEnd: int)

  datatype HeaderError =
    | NotGlm(ident: seq<byte>)   // "Is no GLM file!"
    | WrongVersion(version: int) // "Wrong glm file version!"
    | ShortHeader                // the file ends inside the header

  /** The seven ints after the names; the first is the in-game animation
      index, always written as 0 and skipped when read. */
  function Fields(h: Header): seq<int> {
    [0, h.numBones, h.numLods, h.ofsLods, h.numSurfaces, h.ofsSurfHierarchy, h.ofsEnd]
  }

  predicate Storable(h: Header) {
    forall i | 0 <= i < 7 :: IsI32(Fields(h)[i])
  }

  /** `saveToFile`: struct format "4si64s64s7i". */
  function Save(id: FormatId, h: Header): (r: seq<byte>)
    requires ValidId(id) && Storable(h)
    ensures |r| == HEADER_SIZE
    ensures r[..4] == id.ident
  {
    id.ident + I32(id.version) + FixedString(h.name) + FixedString(h.animName) + I32s(Fields(h))
  }

  /** `loadFromFile` at the start of the file: the magic is checked before
      the version, and the version before anything else is read. */
  function Load(id: FormatId, data: seq<byte>): (r: Result<Header, HeaderError>)
    ensures |data| >= 4 && data[..4] != id.ident ==> r == Err(NotGlm(data[..4]))
    ensures r.Ok? ==> |data| >= HEADER_SIZE && data[..4] == id.ident && ReadI32(data[4..8]) == id.version
    ensures r.Err? && r.error.WrongVersion? ==>
      |data| >= 8 && data[..4] == id.ident && r.error.version == ReadI32(data[4..8]) != id.version
    ensures r.Ok? ==> |r.value.name| == |r.value.animName| == QPATH
  {
    if |data| < 4 then Err(ShortHeader)
    else if data[..4] != id.ident then Err(NotGlm(data[..4]))
    else if |data| < 8 then Err(ShortHeader)
    else
      var version := ReadI32(data[4..8]);
      if version != id.version then Err(WrongVersion(version))
      else if |data| < HEADER_SIZE then Err(ShortHeader)
      else
        match ReadI32s(data, 136, 7)
        case None => Err(ShortHeader)
        case Some(f) => Ok(Header(data[8..72], data[72..136], f[1], f[2], f[3], f[4], f[5], f[6]))
  }

  /** What a header reads back as: the names padded or cut to 64 bytes. */
  function Expected(h: Header): Header {
    h.(name := FixedString(h.name), animName := FixedString(h.animName))
  }

  /** A written header reads back, whatever follows it. */
  lemma LoadSave(id: FormatId, h: Header, data: seq<byte>)
    requires ValidId(id) && Storable(h)
    requires Save(id, h) <= data
    ensures Load(id, data) == Ok(Expected(h))
  {
    var saved := Save(id, h);
    assert data[..HEADER_SIZE] == saved;
    assert data[..4] == id.ident;
    assert data[4..8] == saved[4..8] == I32(id.version);
    I32RoundTrip(id.version);
    assert data[8..72] == saved[8..72] == FixedString(h.name);
    assert data[72..136] == saved[72..136] == FixedString(h.animName);
    assert data[136..136 + 4 * 7] == saved[136..] == I32s(Fields(h));
    ReadI32sOfI32s(data, 136, Fields(h));
  }

  /** A file of the right magic but another version is refused. */
  lemma RejectsOtherVersion(id: FormatId, h: Header, other: int, data: seq<byte>)
    requires ValidId(id) && Storable(h) && IsI32(other) && other != id.version
    requires Save(FormatId(id.ident, other), h) <= data
    ensures Load(id, data) == Err(WrongVersion(other))
  {
    var saved := Save(FormatId(id.ident, other), h);
    assert data[..4] == saved[..4];
    assert data[4..8] == saved[4..8] == I32(other);
    I32RoundTrip(other);
  }
}

=== FILE: glm_hierarchy.dfy ===
/** The surface hierarchy of a Ghoul2 mesh: one entry per surface holding
    its name, flags, shader, parent and children, found through a table of
    offsets counted from the end of the file header. */
module GlmHierarchy {

  import opened Outcome
  import Reading
  import opened Bytes
  import opened Layout
  import GlmHeader

  type LoadError = Reading.LoadError

  /** One hierarchy entry. `index` is the entry's place in the table; it is
      set when the entry is read or built, and never written. */
  datatype SurfaceData = SurfaceData(
    name: seq<byte>,
    flags: int,
    shader: seq<byte>,
    parentIndex: int,
    numChildren: int,
    children: seq<int>,
    index: int)

  /** The fixed part of an entry: two 64-byte strings and four ints (the
      flags, the in-game shader index, the parent and the child count). */
  const FIXED_SIZE: nat := 2 * QPATH + 4 * 4

  /** `getSize`. */
  function Size(d: SurfaceData): int {
    FIXED_SIZE + 4 * d.numChildren
  }

  /** The children the writer emits: the first `numChildren` of them. */
  function Written(d: SurfaceData): seq<int>
    requires d.numChildren <= |d.children|
  {
    d.children[..Reading.RangeCount(d.numChildren)]
  }

  /** What the writer demands: flags fit an unsigned and the rest a signed
      32-bit int, and the list holds at least as many children as counted
      (indexing past its end raises). */
  predicate Storable(d: SurfaceData) {
    IsU32(d.flags) && IsI32(d.parentIndex) && IsI32(d.numChildren) && d.numChildren <= |d.children|
    && forall i | 0 <= i < Reading.RangeCount(d.numChildren) :: IsI32(d.children[i])
  }

  /** `saveToFile`: struct format "64sI64s3i" (the shader index written as
      0), then one int per counted child. */
  function Save(d: SurfaceData): (r: seq<byte>)
    requires Storable(d)
    ensures |r| == FIXED_SIZE + 4 * Reading.RangeCount(d.numChildren)
    ensures d.numChildren >= 0 ==> |r| == Size(d)
  {
    Names(d) + I32s([0, d.parentIndex, d.numChildren]) + I32s(Written(d))
  }

  /** `loadFromFile` at `pos`, for table entry `i`: a negative child count
      reads no children but is kept. */
  function Load(data: seq<byte>, pos: nat, i: int): (r: Result<SurfaceData, LoadError>)
    ensures r.Ok? ==> r.value.index == i && |r.value.name| == |r.value.shader| == QPATH
    ensures r.Ok? ==> IsU32(r.value.flags) && |r.value.children| == Reading.RangeCount(r.value.numChildren)
    ensures r.Ok? <==> (pos + FIXED_SIZE <= |data|
      && pos + FIXED_SIZE + 4 * Reading.RangeCount(ReadI32(data[pos + 140..pos + 144])) <= |data|)
  {
    var strings :- Reading.Need(ReadBytes(data, pos, 132), Reading.Truncated);
    var ints :- Reading.Need(ReadI32s(data, pos + 132, 3), Reading.Truncated);
    ChunkCount(data, pos + 132, 3, 2);
    var children :- Reading.Need(ReadI32s(data, pos + FIXED_SIZE, Reading.RangeCount(ints[2])), Reading.Truncated);
    Ok(SurfaceData(strings[..64], ReadU32(strings[64..68]), strings[68..132], ints[1], ints[2], children, i))
  }

  /** The last int of a run of three read at `p` is the record at `p + 8`. */
  lemma ChunkCount(data: seq<byte>, p: int, n: nat, k: nat)
    requires k < n && ReadI32s(data, p, n).Some?
    ensures ReadI32s(data, p, n).value[k] == ReadI32(data[p + 4 * k..p + 4 * k + 4])
  {
  }

  /** What an entry reads back as from table slot `i`. */
  function Expected(d: SurfaceData, i: int): SurfaceData
    requires d.numChildren <= |d.children|
  {
    d.(name := FixedString(d.name), shader := FixedString(d.shader), children := Written(d), index := i)
  }

  /** The two strings and the flags: the first 132 bytes of an entry. */
  function Names(d: SurfaceData): (r: seq<byte>)
    requires IsU32(d.flags)
    ensures |r| == 132
  {
    FixedString(d.name) + U32(d.flags) + FixedString(d.shader)
  }

  /** A written entry reads back, with its place in the table as index. */
  lemma LoadSave(d: SurfaceData, pos: nat, i: int, data: seq<byte>)
    requires Storable(d) && Placed(data, pos, Save(d))
    ensures Load(data, pos, i) == Ok(Expected(d, i))
  {
    var fixed := [0, d.parentIndex, d.numChildren];
    assert Save(d) == (Names(d) + I32s(fixed)) + I32s(Written(d));
    PlacedAppend(data, pos, Names(d) + I32s(fixed), I32s(Written(d)), pos + FIXED_SIZE);
    PlacedAppend(data, pos, Names(d), I32s(fixed), pos + 132);
    NamesRead(d, pos, data);
    I32sPlaced(data, pos + 132, fixed);
    I32sPlaced(data, pos + FIXED_SIZE, Written(d));
  }

  lemma NamesRead(d: SurfaceData, pos: nat, data: seq<byte>)
    requires IsU32(d.flags) && Placed(data, pos, Names(d))
    ensures ReadBytes(data, pos, 132) == Some(Names(d))
    ensures Names(d)[..64] == FixedString(d.name) && Names(d)[68..132] == FixedString(d.shader)
    ensures ReadU32(Names(d)[64..68]) == d.flags
  {
    PlacedSlice(data, pos, Names(d));
    assert Names(d)[64..68] == U32(d.flags);
    U32RoundTrip(d.flags);
  }

  // ------------------------------------------------------------- the table

  function Sizes(ds: seq<SurfaceData>): (r: seq<int>)
    ensures |r| == |ds| && forall i | 0 <= i < |ds| :: r[i] == Size(ds[i])
  {
    seq(|ds|, i requires 0 <= i < |ds| => Size(ds[i]))
  }

  /** `MdxmSurfaceDataOffsets.calculateOffsets`: the first entry right after
      the table of `4 * n` bytes, each further one right after the previous. */
  function CalculateOffsets(ds: seq<SurfaceData>): (r: seq<int>)
    ensures |r| == |ds|
    ensures |ds| > 0 ==> r[0] == 4 * |ds|
    ensures forall i | 0 <= i < |ds| - 1 :: r[i + 1] == r[i] + Size(ds[i])
    ensures |ds| > 0 ==> r[|ds| - 1] + Size(ds[|ds| - 1]) == 4 * |ds| + Total(Sizes(ds))
  {
    OffsetsChain(4 * |ds|, Sizes(ds));
    Offsets(4 * |ds|, Sizes(ds))
  }

  /** `MdxmSurfaceDataCollection.getSize`. */
  function CollectionSize(ds: seq<SurfaceData>): int {
    Total(Sizes(ds))
  }

  /** `MdxmSurfaceDataOffsets.loadFromFile`: one int per surface the header
      counts (none for a negative count), right after the header. */
  function LoadOffsets(data: seq<byte>, numSurfaces: int): (r: Result<seq<int>, LoadError>)
    ensures r.Ok? ==> |r.value| == Reading.RangeCount(numSurfaces)
  {
    Reading.Need(ReadI32s(data, GlmHeader.HEADER_SIZE, Reading.RangeCount(numSurfaces)), Reading.Truncated)
  }

  /** `MdxmSurfaceDataOffsets.saveToFile`: one int per entry, as the bone
      offset table of the GLA skeleton is written. */
  function SaveOffsets(offsets: seq<int>): (r: seq<byte>)
    requires forall i | 0 <= i < |offsets| :: IsI32(offsets[i])
    ensures |r| == 4 * |offsets|
  {
    I32s(offsets)
  }

  /** A written offset table reads back when the header counts its entries. */
  lemma LoadOffsetsSaved(offsets: seq<int>, data: seq<byte>)
    requires forall i | 0 <= i < |offsets| :: IsI32(offsets[i])
    requires Placed(data, GlmHeader.HEADER_SIZE, SaveOffsets(offsets))
    ensures LoadOffsets(data, |offsets|) == Ok(offsets)
  {
    I32sPlaced(data, GlmHeader.HEADER_SIZE, offsets);
  }

  /** `MdxmSurfaceDataCollection.loadFromFile` from table slot `k` on: each
      entry is read where its offset, counted from the end of the header,
      points. */
  function LoadEntries(data: seq<byte>, offsets: seq<int>, k: nat): (r: Result<seq<SurfaceData>, LoadError>)
    requires k <= |offsets|
    ensures r.Ok? ==> |r.value| == |offsets| - k
    ensures r.Ok? ==> forall j | 0 <= j < |r.value| :: r.value[j].index == k + j
    decreases |offsets| - k
  {
    if k == |offsets| then Ok([])
    else
      var at :- Reading.Seek(GlmHeader.HEADER_SIZE + offsets[k]);
      var d :- Load(data, at, k);
      var rest :- LoadEntries(data, offsets, k + 1);
      Ok([d] + rest)
  }

  function LoadCollection(data: seq<byte>, offsets: seq<int>): (r: Result<seq<SurfaceData>, LoadError>)
    ensures r.Ok? ==> |r.value| == |offsets| && forall j | 0 <= j < |offsets| :: r.value[j].index == j
  {
    LoadEntries(data, offsets, 0)
  }

  predicate AllStorable(ds: seq<SurfaceData>) {
    forall i | 0 <= i < |ds| :: Storable(ds[i]) && ds[i].numChildren >= 0
  }

  /** The written entries, one record each; the GLA skeleton's bones are
      turned into records the same way. */
  function Records(ds: seq<SurfaceData>): (r: seq<seq<byte>>)
    requires AllStorable(ds)
    ensures |r| == |ds| && forall i | 0 <= i < |ds| :: r[i] == Save(ds[i])
    ensures Lengths(r) == Sizes(ds)
  {
    var r := seq(|ds|, i requires 0 <= i < |ds| => Save(ds[i]));
    assert Lengths(r) == Sizes(ds);
    r
  }

  /** `MdxmSurfaceDataCollection.saveToFile`: the entries back to back. */
  function SaveCollection(ds: seq<SurfaceData>): (r: seq<byte>)
    requires AllStorable(ds)
    ensures |r| == CollectionSize(ds)
  {
    ConcatLength(Records(ds));
    Concat(Records(ds))
  }

  /** What written entries read back as, each indexed by its slot. */
  function ExpectedAll(ds: seq<SurfaceData>): (r: seq<SurfaceData>)
    requires AllStorable(ds)
    ensures |r| == |ds| && forall i | 0 <= i < |ds| :: r[i] == Expected(ds[i], i)
  {
    seq(|ds|, i requires 0 <= i < |ds| => Expected(ds[i], i))
  }

  /** Entry `i` of the written collection lies where its calculated offset
      points. */
  lemma EntryPlaced(ds: seq<SurfaceData>, data: seq<byte>, i: nat)
    requires AllStorable(ds) && i < |ds|
    requires Placed(data, GlmHeader.HEADER_SIZE + 4 * |ds|, SaveCollection(ds))
    ensures GlmHeader.HEADER_SIZE + CalculateOffsets(ds)[i] >= 0
    ensures Placed(data, GlmHeader.HEADER_SIZE + CalculateOffsets(ds)[i], Save(ds[i]))
  {
    var recs := Records(ds);
    PlacedPiece(data, GlmHeader.HEADER_SIZE + 4 * |ds|, recs, i);
  }

  /** Every slot's offset leads to an entry that reads as `expected`. */
  predicate Leads(data: seq<byte>, offsets: seq<int>, expected: seq<SurfaceData>) {
    |expected| == |offsets| && forall j {:trigger LeadsAt(data, offsets[j], j, expected[j])} | 0 <= j < |offsets| :: LeadsAt(data, offsets[j], j, expected[j])
  }

  /** The entry at `offset` past the header reads as `d` from slot `j`. */
  predicate LeadsAt(data: seq<byte>, offset: int, j: int, d: SurfaceData) {
    GlmHeader.HEADER_SIZE + offset >= 0 && Load(data, GlmHeader.HEADER_SIZE + offset, j) == Ok(d)
  }

  /** Slots that each lead to their entry read back from slot `k` on. */
  lemma {:induction false} LoadEntriesLed(data: seq<byte>, offsets: seq<int>, expected: seq<SurfaceData>, k: nat)
    requires Leads(data, offsets, expected) && k <= |offsets|
    ensures LoadEntries(data, offsets, k) == Ok(expected[k..])
    decreases |offsets| - k
  {
    if k < |offsets| {
      LoadEntriesLed(data, offsets, expected, k + 1);
      LoadEntriesStep(data, offsets, expected, k);
    } else {
      LoadEntriesEnd(data, offsets, expected, k);
    }
  }

  lemma LoadEntriesEnd(data: seq<byte>, offsets: seq<int>, expected: seq<SurfaceData>, k: nat)
    requires |expected| == |offsets| == k
    ensures LoadEntries(data, offsets, k) == Ok(expected[k..])
  {
    assert expected[k..] == [];
  }

  lemma LoadEntriesStep(data: seq<byte>, offsets: seq<int>, expected: seq<SurfaceData>, k: nat)
    requires Leads(data, offsets, expected) && k < |offsets|
    requires LoadEntries(data, offsets, k + 1) == Ok(expected[k + 1..])
    ensures LoadEntries(data, offsets, k) == Ok(expected[k..])
  {
    assert LeadsAt(data, offsets[k], k, expected[k]);
    assert expected[k..] == [expected[k]] + expected[k + 1..];
  }

  /** The calculated offsets of written entries lead to them. */
  lemma SavedLeads(ds: seq<SurfaceData>, data: seq<byte>)
    requires AllStorable(ds)
    requires Placed(data, GlmHeader.HEADER_SIZE + 4 * |ds|, SaveCollection(ds))
    ensures Leads(data, CalculateOffsets(ds), ExpectedAll(ds))
  {
    var offsets, expected := CalculateOffsets(ds), ExpectedAll(ds);
    forall j | 0 <= j < |ds| ensures LeadsAt(data, offsets[j], j, expected[j]) {
      EntryLoads(ds, data, j);
    }
  }

  lemma EntryLoads(ds: seq<SurfaceData>, data: seq<byte>, j: nat)
    requires AllStorable(ds) && j < |ds|
    requires Placed(data, GlmHeader.HEADER_SIZE + 4 * |ds|, SaveCollection(ds))
    ensures LeadsAt(data, CalculateOffsets(ds)[j], j, ExpectedAll(ds)[j])
  {
    EntryPlaced(ds, data, j);
    LoadSave(ds[j], GlmHeader.HEADER_SIZE + CalculateOffsets(ds)[j], j, data);
  }

  /** The hierarchy written after its offset table reads back through it. */
  lemma LoadSaveCollection(ds: seq<SurfaceData>, data: seq<byte>)
    requires AllStorable(ds)
    requires Placed(data, GlmHeader.HEADER_SIZE + 4 * |ds|, SaveCollection(ds))
    ensures LoadCollection(data, CalculateOffsets(ds)) == Ok(ExpectedAll(ds))
  {
    SavedLeads(ds, data);
    LoadEntriesLed(data, CalculateOffsets(ds), ExpectedAll(ds), 0);
  }
}

=== FILE: glm_lod.dfy ===
/** One level of detail of a Ghoul2 mesh: its size, a table of surface
    offsets counted from the end of the size field, then one surface for
    every surface of the model, in index order. */
module GlmLod {

  import opened Outcome
  import Reading
  import opened Bytes
  import opened Layout
  import ErrorTypes
  import GlmVertex
  import GlmSurface

  type Surface = GlmSurface.Surface

  datatype Lod = Lod(surfaceOffsets: seq<int>, level: int, surfaces: seq<Surface>, ofsEnd: int)

  /** The size of each surface, which its end offset is. */
  function Sizes(ss: seq<Surface>): (r: seq<int>)
    ensures |r| == |ss| && forall i | 0 <= i < |ss| :: r[i] == ss[i].counts.ofsEnd
  {
    seq(|ss|, i requires 0 <= i < |ss| => ss[i].counts.ofsEnd)
  }

  /** `getSize`: the size field, the offset table and all surfaces. */
  function Size(lod: Lod): int {
    4 + 4 * |lod.surfaces| + Total(Sizes(lod.surfaces))
  }

  /** `calculateOffsets`: the first surface right after the offset table,
      each further one right after the previous, and the level's end
      offset counted from its very start. */
  function CalculateOffsets(lod: Lod): (r: Lod)
    ensures r.surfaces == lod.surfaces && r.level == lod.level
    ensures |r.surfaceOffsets| == |lod.surfaces|
    ensures r.ofsEnd == Size(lod)
    ensures |lod.surfaces| > 0 ==> r.surfaceOffsets[0] == 4 * |lod.surfaces|
    ensures forall i | 0 <= i < |lod.surfaces| - 1 ::
      r.surfaceOffsets[i + 1] == r.surfaceOffsets[i] + lod.surfaces[i].counts.ofsEnd
    ensures |lod.surfaces| > 0 ==>
      r.ofsEnd == 4 + r.surfaceOffsets[|lod.surfaces| - 1] + lod.surfaces[|lod.surfaces| - 1].counts.ofsEnd
  {
    var n := |lod.surfaces|;
    var sizes := Sizes(lod.surfaces);
    OffsetsChain(4 * n, sizes);
    lod.(surfaceOffsets := Offsets(4 * n, sizes), ofsEnd := 4 * n + Total(sizes) + 4)
  }

  predicate OffsetsCalculated(lod: Lod) {
    lod.surfaceOffsets == Offsets(4 * |lod.surfaces|, Sizes(lod.surfaces)) && lod.ofsEnd == Size(lod)
  }

  lemma CalculatedOffsets(lod: Lod)
    ensures OffsetsCalculated(CalculateOffsets(lod))
    ensures CalculateOffsets(CalculateOffsets(lod)) == CalculateOffsets(lod)
  {
  }

  // ------------------------------------------------------------- assembly

  datatype AssemblyError =
    | SurfaceFailed(name: string)         // the object of that name did not convert
    | MissingIndices(indices: seq<nat>)   // "surface index map has missing indices"

  /** The surface for index `k` of this level: the converted object of that
      name, or an empty surface when the level has no such object. The
      object is `None` when its conversion fails. */
  function Place(names: seq<string>, available: map<string, Option<Surface>>, k: nat): Option<Surface>
    requires k < |names|
  {
    if names[k] in available then
      match available[names[k]]
      case None => None
      case Some(s) => Some(GlmSurface.CalculateOffsets(s.(index := k)))
    else Some(GlmSurface.MakeEmpty(GlmSurface.Fresh(k)))
  }

  /** Building a level from the model's surface names (a surface's index is
      its position among them) and the objects of the level by name: every
      index gets exactly one surface, in index order. */
  method Assemble(level: int, names: seq<string>, available: map<string, Option<Surface>>)
    returns (r: Result<Lod, AssemblyError>)
    ensures r.Ok? <==> forall k | 0 <= k < |names| :: names[k] in available ==> available[names[k]].Some?
    ensures r.Err? ==> r.error.SurfaceFailed?
    ensures r.Err? ==> r.error.name in available && available[r.error.name] == None
    ensures r.Ok? ==> r.value.level == level && |r.value.surfaces| == |names|
    ensures r.Ok? ==> forall k | 0 <= k < |names| ::
      r.value.surfaces[k].index == k && GlmSurface.OffsetsCalculated(r.value.surfaces[k])
    ensures r.Ok? ==> forall k | 0 <= k < |names| :: names[k] !in available ==>
      r.value.surfaces[k] == GlmSurface.MakeEmpty(GlmSurface.Fresh(k))
    ensures r.Ok? ==> forall k | 0 <= k < |names| :: names[k] in available ==>
      var s := available[names[k]].value;
      r.value.surfaces[k].vertices == s.vertices && r.value.surfaces[k].triangles == s.triangles
      && r.value.surfaces[k].boneReferences == s.boneReferences
  {
    var slots: seq<Option<Surface>> := seq(|names|, _ => None);
    for k := 0 to |names|
      invariant |slots| == |names|
      invariant forall j | 0 <= j < k :: slots[j].Some? && slots[j] == Place(names, available, j)
      invariant forall j | 0 <= j < k :: names[j] in available ==> available[names[j]].Some?
    {
      var surface := Place(names, available, k);
      if surface.None? {
        return Err(SurfaceFailed(names[k]));
      }
      slots := slots[k := surface];
    }
    var missing := ErrorTypes.NoneIndices(slots, 0);
    if |missing| > 0 {
      return Err(MissingIndices(missing));
    }
    return Ok(Lod([], level, ErrorTypes.Values(slots), -1));
  }

  // ------------------------------------------------------------- writing

  /** What the writer demands: offsets computed, every surface storable on
      its own, the end offset a signed 32-bit value and every surface
      starting where its header can store minus its position. */
  predicate Storable(lod: Lod, startPos: int) {
    OffsetsCalculated(lod)
    && (forall i | 0 <= i < |lod.surfaces| :: GlmSurface.StorableContent(lod.surfaces[i]))
    && 0 <= startPos && IsI32(lod.ofsEnd)
    && (forall i | 0 <= i < |lod.surfaces| :: startPos + 4 + lod.surfaceOffsets[i] <= TWO_31)
  }

  /** Surface sizes are never negative. */
  lemma SizesNonNegative(ss: seq<Surface>)
    requires forall i | 0 <= i < |ss| :: GlmSurface.StorableContent(ss[i])
    ensures forall i | 0 <= i < |ss| :: Sizes(ss)[i] >= 40
    ensures Total(Sizes(ss)) >= 0
  {
    TotalNonNegative(Sizes(ss));
  }

  /** Every surface of `ss`, written one after the other from `pos`,
      starts where its header can store minus its position. */
  predicate StartsFit(ss: seq<Surface>, pos: int) {
    0 <= pos && forall i | 0 <= i < |ss| :: pos + Total(Sizes(ss)[..i]) <= TWO_31
  }

  /** Where the surfaces after the first start, seen from the second. */
  lemma StartsShift(ss: seq<Surface>, pos: int, next: int)
    requires |ss| > 0 && next == pos + ss[0].counts.ofsEnd
    ensures forall j | 0 <= j < |ss| - 1 ::
      pos + Total(Sizes(ss)[..j + 1]) == next + Total(Sizes(ss[1..])[..j])
    ensures pos + Total(Sizes(ss)[..0]) == pos
    ensures Total(Sizes(ss)) == ss[0].counts.ofsEnd + Total(Sizes(ss[1..]))
  {
    var sizes := Sizes(ss);
    assert sizes[1..] == Sizes(ss[1..]);
    forall j | 0 <= j < |ss| - 1 ensures pos + Total(sizes[..j + 1]) == next + Total(Sizes(ss[1..])[..j]) {
      TotalPrefixShift(sizes, j);
    }
    assert sizes[..0] == [];
  }

  /** The first surface fits, and so do the rest from where it ends. */
  lemma StartsFitStep(ss: seq<Surface>, pos: int, next: int)
    requires |ss| > 0 && next == pos + ss[0].counts.ofsEnd && GlmSurface.StorableContent(ss[0])
    requires StartsFit(ss, pos)
    ensures GlmSurface.Storable(ss[0], pos)
    ensures StartsFit(ss[1..], next)
    ensures Total(Sizes(ss)) == ss[0].counts.ofsEnd + Total(Sizes(ss[1..]))
  {
    StartsShift(ss, pos, next);
  }

  /** Each surface written right after the previous one, the first at `pos`. */
  function SaveSurfaces(ss: seq<Surface>, pos: int): (r: Result<seq<byte>, GlmVertex.VertexError>)
    requires forall i | 0 <= i < |ss| :: GlmSurface.StorableContent(ss[i])
    requires StartsFit(ss, pos)
    ensures r.Ok? <==> forall i | 0 <= i < |ss| :: GlmSurface.Encodable(ss[i])
    ensures r.Ok? ==> |r.value| == Total(Sizes(ss))
    decreases |ss|
  {
    if |ss| == 0 then Ok([])
    else
      var s := ss[0];
      StartsFitStep(ss, pos, pos + s.counts.ofsEnd);
      match GlmSurface.Save(s, pos)
      case Err(e) => Err(e)
      case Ok(bytes) =>
        GlmSurface.SaveLength(s, pos);
        var rest :- SaveSurfaces(ss[1..], pos + |bytes|);
        Ok(bytes + rest)
  }

  /** `saveToFile`: the end offset, the offset table, the surfaces. */
  function Save(lod: Lod, startPos: int): (r: Result<seq<byte>, GlmVertex.VertexError>)
    requires Storable(lod, startPos)
    ensures r.Ok? <==> forall i | 0 <= i < |lod.surfaces| :: GlmSurface.Encodable(lod.surfaces[i])
    ensures r.Ok? ==> |r.value| == lod.ofsEnd
  {
    SaveReady(lod, startPos);
    var surfaces :- SaveSurfaces(lod.surfaces, startPos + 4 + 4 * |lod.surfaces|);
    Ok(I32s([lod.ofsEnd]) + I32s(lod.surfaceOffsets) + surfaces)
  }

  /** A storable level's table fits its fields and its surfaces start where
      they can be written. */
  lemma SaveReady(lod: Lod, startPos: int)
    requires Storable(lod, startPos)
    ensures IsI32(lod.ofsEnd) && forall i | 0 <= i < 1 :: IsI32([lod.ofsEnd][i])
    ensures forall i | 0 <= i < |lod.surfaceOffsets| :: IsI32(lod.surfaceOffsets[i])
    ensures StartsFit(lod.surfaces, startPos + 4 + 4 * |lod.surfaces|)
  {
    var sizes := Sizes(lod.surfaces);
    SizesNonNegative(lod.surfaces);
    forall i | 0 <= i < |lod.surfaces|
      ensures 4 * |lod.surfaces| <= lod.surfaceOffsets[i] <= lod.ofsEnd
    {
      assert forall k | 0 <= k < i :: sizes[..i][k] == sizes[k];
      assert forall k | 0 <= k < |lod.surfaces| - i :: sizes[i..][k] == sizes[i + k];
      TotalNonNegative(sizes[..i]);
      TotalSplit(sizes, i);
      TotalNonNegative(sizes[i..]);
    }
  }

  // ------------------------------------------------------------- reading

  type LoadError = Reading.LoadError

  /** A level as read back. */
  datatype Loaded = Loaded(ofsEnd: int, surfaceOffsets: seq<int>, level: int, surfaces: seq<GlmSurface.Loaded>)

  /** How a surface is read from a position of the file: the surface and
      the position after it. */
  type SurfaceReader = nat -> Result<(GlmSurface.Loaded, nat), LoadError>

  function Reader(data: seq<byte>): SurfaceReader {
    at => GlmSurface.LoadAt(data, at)
  }

  /** The surface table entry `offset` points at, counted from the end of
      the size field at `base` (the reader seeks there when it is not
      already there), and the position after it. A surface whose own index
      is not its place `k` fails. */
  function LoadSurfaceAt(read: SurfaceReader, base: int, offset: int, k: nat)
    : (r: Result<(GlmSurface.Loaded, nat), LoadError>)
    ensures r.Ok? ==> r.value.0.index == k
    ensures r.Ok? ==> base + offset >= 0 && read(base + offset) == Ok(r.value)
  {
    var at :- Reading.Seek(base + offset);
    var loaded :- read(at);
    if loaded.0.index != k then Err(Reading.IndexMismatch) else Ok(loaded)
  }

  /** The surfaces of a level from table entry `first` on, each read where
      its entry points; the file is then at the end of the last one, or
      still at `pos` when there are none. */
  function LoadSurfaces(read: SurfaceReader, base: int, offsets: seq<int>, first: nat, pos: nat)
    : (r: Result<(seq<GlmSurface.Loaded>, nat), LoadError>)
    ensures r.Ok? ==> |r.value.0| == |offsets|
    ensures r.Ok? ==> forall j | 0 <= j < |offsets| :: r.value.0[j].index == first + j
    ensures r.Ok? && |offsets| == 0 ==> r.value.1 == pos
    decreases |offsets|
  {
    if |offsets| == 0 then Ok(([], pos))
    else
      var one :- LoadSurfaceAt(read, base, offsets[0], first);
      var rest :- LoadSurfaces(read, base, offsets[1..], first + 1, one.1);
      Ok(([one.0] + rest.0, rest.1))
  }

  /** `loadFromFile`: the size, one offset per surface of the model (a
      negative count is a format error), the surfaces, and the file must
      then be exactly at the level's end. */
  function Load(data: seq<byte>, startPos: nat, level: int, numSurfaces: int): (r: Result<Loaded, LoadError>)
    ensures r.Ok? ==> |r.value.surfaces| == |r.value.surfaceOffsets| == numSurfaces
    ensures r.Ok? ==> r.value.level == level
    ensures r.Ok? ==> forall j | 0 <= j < numSurfaces :: r.value.surfaces[j].index == j
  {
    var size :- Reading.Need(ReadI32s(data, startPos, 1), Reading.Truncated);
    if numSurfaces < 0 then Err(Reading.BadCount)
    else
      var offsets :- Reading.Need(ReadI32s(data, startPos + 4, numSurfaces), Reading.Truncated);
      var loaded :- LoadSurfaces(Reader(data), startPos + 4, offsets, 0, startPos + 4 + 4 * numSurfaces);
      if loaded.1 != startPos + size[0] then Err(Reading.EndMismatch)
      else Ok(Loaded(size[0], offsets, level, loaded.0))
  }

  // ------------------------------------------------------------- round trip

  /** Every surface of the list can be written and read back. */
  predicate Writable(ss: seq<Surface>)
    decreases |ss|
  {
    |ss| == 0 || (GlmSurface.StorableContent(ss[0]) && GlmSurface.Encodable(ss[0]) && Writable(ss[1..]))
  }

  /** What a surface list reads back as. */
  function ExpectedSurfaces(ss: seq<Surface>): (r: seq<GlmSurface.Loaded>)
    requires Writable(ss)
    ensures |r| == |ss|
    ensures forall j | 0 <= j < |ss| :: r[j].index == ss[j].index
    decreases |ss|
  {
    if |ss| == 0 then [] else [GlmSurface.Expected(ss[0])] + ExpectedSurfaces(ss[1..])
  }

  /** What a written level reads back as. */
  function Expected(lod: Lod): Loaded
    requires Writable(lod.surfaces)
  {
    Loaded(lod.ofsEnd, lod.surfaceOffsets, lod.level, ExpectedSurfaces(lod.surfaces))
  }

  /** The surface lies at `pos` as written there. */
  predicate SurfaceLaid(data: seq<byte>, s: Surface, pos: int) {
    GlmSurface.Storable(s, pos) && GlmSurface.Save(s, pos).Ok? && Placed(data, pos, GlmSurface.Save(s, pos).value)
  }

  /** The reader yields the surfaces `xs` one after the other from `pos`,
      each followed by the position its size puts after it. */
  predicate Serves(read: SurfaceReader, xs: seq<GlmSurface.Loaded>, sizes: seq<int>, pos: int)
    requires |xs| == |sizes|
    decreases |xs|
  {
    |xs| == 0 ||
    (pos >= 0 && pos + sizes[0] >= 0 && read(pos) == Ok((xs[0], pos + sizes[0]))
     && Serves(read, xs[1..], sizes[1..], pos + sizes[0]))
  }
}

=== FILE: glm_lod_round_trip.dfy ===
/** Reading back a written level of detail. */
module GlmLodRoundTrip {

  import opened Outcome
  import opened Bytes
  import opened Layout
  import GlmSurface
  import opened GlmLod

  /** The written surfaces: the first, then the rest from where it ends. */
  lemma SaveSurfacesCons(ss: seq<Surface>, pos: int, next: int)
    requires |ss| > 0 && (forall i | 0 <= i < |ss| :: GlmSurface.StorableContent(ss[i])) && StartsFit(ss, pos) && next == pos + ss[0].counts.ofsEnd
    requires SaveSurfaces(ss, pos).Ok?
    ensures GlmSurface.Storable(ss[0], pos) && GlmSurface.Save(ss[0], pos).Ok?
    ensures |GlmSurface.Save(ss[0], pos).value| == ss[0].counts.ofsEnd
    ensures StartsFit(ss[1..], next) && SaveSurfaces(ss[1..], next).Ok?
    ensures SaveSurfaces(ss, pos).value == GlmSurface.Save(ss[0], pos).value + SaveSurfaces(ss[1..], next).value
  {
    StartsFitStep(ss, pos, next);
    GlmSurface.SaveLength(ss[0], pos);
  }

  /** The first written surface lies at the start, the rest after it. */
  lemma FirstLaid(data: seq<byte>, ss: seq<Surface>, pos: int, next: int)
    requires |ss| > 0 && next == pos + ss[0].counts.ofsEnd
    requires (forall i | 0 <= i < |ss| :: GlmSurface.StorableContent(ss[i])) && StartsFit(ss, pos) && SaveSurfaces(ss, pos).Ok?
    requires Placed(data, pos, SaveSurfaces(ss, pos).value)
    ensures GlmSurface.Encodable(ss[0]) && SurfaceLaid(data, ss[0], pos)
    ensures (forall i | 0 <= i < |ss| - 1 :: GlmSurface.StorableContent(ss[1..][i]))
    ensures StartsFit(ss[1..], next) && SaveSurfaces(ss[1..], next).Ok?
    ensures Placed(data, next, SaveSurfaces(ss[1..], next).value)
  {
    SaveSurfacesCons(ss, pos, next);
    PlacedAppend(data, pos, GlmSurface.Save(ss[0], pos).value, SaveSurfaces(ss[1..], next).value, next);
  }

  /** Surfaces that are each storable and encodable form a writable list. */
  lemma {:induction false} WritableFrom(ss: seq<Surface>)
    requires forall i | 0 <= i < |ss| :: GlmSurface.StorableContent(ss[i]) && GlmSurface.Encodable(ss[i])
    ensures Writable(ss)
    decreases |ss|
  {
    if |ss| > 0 {
      assert forall i | 0 <= i < |ss| - 1 :: ss[1..][i] == ss[i + 1];
      WritableFrom(ss[1..]);
    }
  }

  /** Written surfaces lie one after the other. */
  lemma {:induction false} SurfacesLaid(data: seq<byte>, ss: seq<Surface>, pos: int)
    requires (forall i | 0 <= i < |ss| :: GlmSurface.StorableContent(ss[i])) && StartsFit(ss, pos) && SaveSurfaces(ss, pos).Ok?
    requires Placed(data, pos, SaveSurfaces(ss, pos).value)
    ensures Along(LaidAt(data), ss, pos)
    decreases |ss|
  {
    if |ss| > 0 {
      var next := pos + ss[0].counts.ofsEnd;
      FirstLaid(data, ss, pos, next);
      SurfacesLaid(data, ss[1..], next);
    }
  }

  /** A property of a surface placed at a file position. */
  type Spot = (Surface, int) -> bool

  /** Every surface of `ss`, one after the other from `pos`, has `p` where
      it lies. */
  predicate Along(p: Spot, ss: seq<Surface>, pos: int)
    decreases |ss|
  {
    |ss| == 0 || (p(ss[0], pos) && Along(p, ss[1..], pos + ss[0].counts.ofsEnd))
  }

  /** What holds of every placed surface holds along a list. */
  lemma {:induction false} AlongImplies(p: Spot, q: Spot, ss: seq<Surface>, pos: int)
    requires Along(p, ss, pos)
    requires forall s, at | p(s, at) :: q(s, at)
    ensures Along(q, ss, pos)
    decreases |ss|
  {
    if |ss| > 0 {
      AlongImplies(p, q, ss[1..], pos + ss[0].counts.ofsEnd);
    }
  }

  /** The surface reads back from `pos` as it was written, and the file
      is left right after it. */
  predicate SurfaceReads(data: seq<byte>, s: Surface, pos: int)
    requires GlmSurface.StorableContent(s) && GlmSurface.Encodable(s)
  {
    pos >= 0 && pos + s.counts.ofsEnd >= 0
    && GlmSurface.LoadAt(data, pos) == Ok((GlmSurface.Expected(s), pos + s.counts.ofsEnd))
  }

  /** A writable surface written at its position. */
  function LaidAt(data: seq<byte>): Spot {
    (s, at) => GlmSurface.Encodable(s) && SurfaceLaid(data, s, at)
  }

  /** A writable surface that reads back from its position. */
  function ReadsAt(data: seq<byte>): Spot {
    (s, at) => GlmSurface.StorableContent(s) && GlmSurface.Encodable(s) && SurfaceReads(data, s, at)
  }

  /** A written surface, placed where it was written, reads back. */
  lemma SurfaceLoads(data: seq<byte>, s: Surface, at: int)
    requires GlmSurface.Encodable(s) && SurfaceLaid(data, s, at)
    ensures GlmSurface.StorableContent(s) && SurfaceReads(data, s, at)
  {
    GlmSurface.SaveLength(s, at);
    GlmSurface.LoadAtSave(s, at, data);
  }

  lemma SurfacesLoad(data: seq<byte>)
    ensures forall s, at | LaidAt(data)(s, at) :: ReadsAt(data)(s, at)
  {
    forall s, at | LaidAt(data)(s, at) ensures ReadsAt(data)(s, at) {
      SurfaceLoads(data, s, at);
    }
  }

  /** Laid surfaces read back. */
  lemma LaidReads(data: seq<byte>, ss: seq<Surface>, pos: int)
    requires Along(LaidAt(data), ss, pos)
    ensures Along(ReadsAt(data), ss, pos)
  {
    SurfacesLoad(data);
    AlongImplies(LaidAt(data), ReadsAt(data), ss, pos);
  }

  /** Serving a list is serving its head, then its tail. */
  lemma ServesCons(read: SurfaceReader, xs: seq<GlmSurface.Loaded>, sizes: seq<int>, pos: int,
                   x: GlmSurface.Loaded, size: int, next: int)
    requires |xs| == |sizes| > 0 && xs[0] == x && sizes[0] == size && next == pos + size
    requires pos >= 0 && next >= 0 && read(pos) == Ok((x, next))
    requires Serves(read, xs[1..], sizes[1..], next)
    ensures Serves(read, xs, sizes, pos)
  {
  }

  /** `read` yields every surface with `q` where it lies, followed by the
      position after it. */
  ghost predicate Yields(q: Spot, read: SurfaceReader) {
    forall s, at | q(s, at) ::
      GlmSurface.StorableContent(s) && GlmSurface.Encodable(s) && at >= 0 && at + s.counts.ofsEnd >= 0
      && read(at) == Ok((GlmSurface.Expected(s), at + s.counts.ofsEnd))
  }

  /** A list with `q` along it is served by a reader that yields `q`. */
  lemma {:induction false} AlongServes(q: Spot, read: SurfaceReader, ss: seq<Surface>, pos: int)
    requires Writable(ss) && Along(q, ss, pos) && Yields(q, read)
    ensures Serves(read, ExpectedSurfaces(ss), Sizes(ss), pos)
    decreases |ss|
  {
    if |ss| > 0 {
      var next := pos + ss[0].counts.ofsEnd;
      var sizes := Sizes(ss);
      assert sizes[1..] == Sizes(ss[1..]);
      AlongServes(q, read, ss[1..], next);
      ServesCons(read, ExpectedSurfaces(ss), sizes, pos, GlmSurface.Expected(ss[0]), ss[0].counts.ofsEnd, next);
    }
  }

  /** The file's reader yields every surface that reads back. */
  lemma ReaderYields(data: seq<byte>)
    ensures Yields(ReadsAt(data), Reader(data))
  {
  }

  /** One step of the surface loop, from its parts. */
  lemma LoadSurfacesStep(read: SurfaceReader, base: int, offsets: seq<int>, first: nat, pos: nat,
                         x: GlmSurface.Loaded, e: nat, xs: seq<GlmSurface.Loaded>, end: nat)
    requires |offsets| > 0
    requires LoadSurfaceAt(read, base, offsets[0], first) == Ok((x, e))
    requires LoadSurfaces(read, base, offsets[1..], first + 1, e) == Ok((xs, end))
    ensures LoadSurfaces(read, base, offsets, first, pos) == Ok(([x] + xs, end))
  {
  }

  /** The surface loop reads served surfaces through offsets that point
      at them, each one in its place, and ends after the last. */
  lemma {:induction false} LoadSurfacesServed(read: SurfaceReader, base: int, offsets: seq<int>,
                                              xs: seq<GlmSurface.Loaded>, sizes: seq<int>, first: nat, pos: nat)
    requires |offsets| == |xs| == |sizes| && Serves(read, xs, sizes, pos)
    requires forall j | 0 <= j < |xs| :: base + offsets[j] == Offsets(pos, sizes)[j]
    requires forall j | 0 <= j < |xs| :: xs[j].index == first + j
    ensures pos + Total(sizes) >= 0
    ensures LoadSurfaces(read, base, offsets, first, pos) == Ok((xs, pos + Total(sizes)))
    decreases |xs|
  {
    if |xs| > 0 {
      var next := pos + sizes[0];
      assert LoadSurfaceAt(read, base, offsets[0], first) == Ok((xs[0], next));
      assert Offsets(pos, sizes)[1..] == Offsets(next, sizes[1..]);
      LoadSurfacesServed(read, base, offsets[1..], xs[1..], sizes[1..], first + 1, next);
      LoadSurfacesStep(read, base, offsets, first, pos, xs[0], next, xs[1..], next + Total(sizes[1..]));
      assert [xs[0]] + xs[1..] == xs;
    }
  }

  /** The three parts of a written level, placed, read back. */
  lemma LevelPlaced(data: seq<byte>, p: nat, size: int, offsets: seq<int>, surfaces: seq<byte>, q1: int, q2: int)
    requires q1 == p + 4 && q2 == q1 + 4 * |offsets|
    requires IsI32(size) && forall i | 0 <= i < |offsets| :: IsI32(offsets[i])
    requires Placed(data, p, I32s([size]) + I32s(offsets) + surfaces)
    ensures ReadI32s(data, p, 1) == Some([size])
    ensures ReadI32s(data, q1, |offsets|) == Some(offsets)
    ensures Placed(data, q2, surfaces)
  {
    var head, table := I32s([size]), I32s(offsets);
    PlacedAppend(data, p, head + table, surfaces, q2);
    PlacedAppend(data, p, head, table, q1);
    I32sPlaced(data, p, [size]);
    I32sPlaced(data, q1, offsets);
  }

  /** Written surfaces, placed where they were written, are served by the
      file's reader. */
  lemma SurfacesServe(data: seq<byte>, ss: seq<Surface>, pos: nat)
    requires (forall i | 0 <= i < |ss| :: GlmSurface.StorableContent(ss[i]))
    requires StartsFit(ss, pos) && SaveSurfaces(ss, pos).Ok?
    requires Placed(data, pos, SaveSurfaces(ss, pos).value)
    ensures Writable(ss) && Serves(Reader(data), ExpectedSurfaces(ss), Sizes(ss), pos)
  {
    SurfacesLaid(data, ss, pos);
    WritableFrom(ss);
    LaidReads(data, ss, pos);
    ReaderYields(data);
    AlongServes(ReadsAt(data), Reader(data), ss, pos);
  }

  /** The offset table, seen from the start of the level rather than from
      the end of the size field. */
  lemma OffsetsRebased(sizes: seq<int>, n: nat, q1: int, q2: int)
    requires q2 == q1 + 4 * n
    ensures forall j | 0 <= j < |sizes| :: q1 + Offsets(4 * n, sizes)[j] == Offsets(q2, sizes)[j]
  {
  }

  /** The file holds, from `p`, a level's size field, its offset table,
      and the surfaces `xs` of sizes `sizes` served from `q2` on, where the
      table points at them. */
  predicate Holds(data: seq<byte>, p: nat, size: int, offsets: seq<int>,
                  xs: seq<GlmSurface.Loaded>, sizes: seq<int>, q2: nat)
  {
    q2 == p + 4 + 4 * |offsets|
    && ReadI32s(data, p, 1) == Some([size])
    && ReadI32s(data, p + 4, |offsets|) == Some(offsets)
    && |offsets| == |xs| == |sizes| && Serves(Reader(data), xs, sizes, q2)
    && (forall j | 0 <= j < |xs| :: p + 4 + offsets[j] == Offsets(q2, sizes)[j])
    && (forall j | 0 <= j < |xs| :: xs[j].index == j)
    && q2 + Total(sizes) == p + size
  }

  /** A level is read from what the file holds. */
  lemma LevelRead(data: seq<byte>, p: nat, level: int, size: int, offsets: seq<int>,
                  xs: seq<GlmSurface.Loaded>, sizes: seq<int>, q2: nat)
    requires Holds(data, p, size, offsets, xs, sizes, q2)
    ensures Load(data, p, level, |xs|) == Ok(Loaded(size, offsets, level, xs))
  {
    LoadSurfacesServed(Reader(data), p + 4, offsets, xs, sizes, 0, q2);
  }

  /** A level with computed offsets ends after its table and surfaces. */
  lemma LevelEnd(lod: Lod, startPos: int)
    requires OffsetsCalculated(lod)
    ensures startPos + 4 + 4 * |lod.surfaceOffsets| + Total(Sizes(lod.surfaces)) == startPos + lod.ofsEnd
  {
  }

  /** A written level is its size field, its offset table and its
      surfaces, in that order. */
  lemma SaveParts(lod: Lod, startPos: nat, q2: int)
    requires Storable(lod, startPos) && Save(lod, startPos).Ok?
    requires q2 == startPos + 4 + 4 * |lod.surfaces|
    ensures IsI32(lod.ofsEnd) && forall i | 0 <= i < 1 :: IsI32([lod.ofsEnd][i])
    ensures forall i | 0 <= i < |lod.surfaceOffsets| :: IsI32(lod.surfaceOffsets[i])
    ensures StartsFit(lod.surfaces, q2) && SaveSurfaces(lod.surfaces, q2).Ok?
    ensures Save(lod, startPos) == Ok(I32s([lod.ofsEnd]) + I32s(lod.surfaceOffsets) + SaveSurfaces(lod.surfaces, q2).value)
  {
    SaveReady(lod, startPos);
  }

  /** What a written level leaves in the file: its size field and its
      offset table, which points at the surfaces written after it. */
  lemma LevelWritten(lod: Lod, startPos: nat, data: seq<byte>, q2: nat)
    requires Storable(lod, startPos) && Save(lod, startPos).Ok?
    requires Placed(data, startPos, Save(lod, startPos).value)
    requires q2 == startPos + 4 + 4 * |lod.surfaces|
    ensures |lod.surfaceOffsets| == |lod.surfaces|
    ensures ReadI32s(data, startPos, 1) == Some([lod.ofsEnd])
    ensures ReadI32s(data, startPos + 4, |lod.surfaceOffsets|) == Some(lod.surfaceOffsets)
    ensures (forall i | 0 <= i < |lod.surfaces| :: GlmSurface.StorableContent(lod.surfaces[i]))
    ensures StartsFit(lod.surfaces, q2) && SaveSurfaces(lod.surfaces, q2).Ok?
    ensures Placed(data, q2, SaveSurfaces(lod.surfaces, q2).value)
  {
    SaveReady(lod, startPos);
    SaveParts(lod, startPos, q2);
    var surfaces := SaveSurfaces(lod.surfaces, q2).value;
    LevelPlaced(data, startPos, lod.ofsEnd, lod.surfaceOffsets, surfaces, startPos + 4, q2);
  }

  /** ... so the file holds the level, its surfaces as they read back. */
  lemma LevelHeld(lod: Lod, startPos: nat, data: seq<byte>, q2: nat)
    requires q2 == startPos + 4 + 4 * |lod.surfaces| && |lod.surfaceOffsets| == |lod.surfaces|
    requires ReadI32s(data, startPos, 1) == Some([lod.ofsEnd])
    requires ReadI32s(data, startPos + 4, |lod.surfaceOffsets|) == Some(lod.surfaceOffsets)
    requires Writable(lod.surfaces) && Serves(Reader(data), ExpectedSurfaces(lod.surfaces), Sizes(lod.surfaces), q2)
    requires OffsetsCalculated(lod)
    requires forall j | 0 <= j < |lod.surfaces| :: lod.surfaces[j].index == j
    ensures Holds(data, startPos, lod.ofsEnd, lod.surfaceOffsets, ExpectedSurfaces(lod.surfaces), Sizes(lod.surfaces), q2)
  {
    OffsetsRebased(Sizes(lod.surfaces), |lod.surfaces|, startPos + 4, q2);
    LevelEnd(lod, startPos);
  }

  /** Reading back a written level yields what was written, the surfaces
      as they read back. */
  lemma LoadSave(lod: Lod, startPos: nat, data: seq<byte>)
    requires Storable(lod, startPos) && Save(lod, startPos).Ok?
    requires Placed(data, startPos, Save(lod, startPos).value)
    requires forall j | 0 <= j < |lod.surfaces| :: lod.surfaces[j].index == j
    ensures Writable(lod.surfaces)
    ensures Load(data, startPos, lod.level, |lod.surfaces|) == Ok(Expected(lod))
  {
    var q2 := startPos + 4 + 4 * |lod.surfaces|;
    LevelWritten(lod, startPos, data, q2);
    SurfacesServe(data, lod.surfaces, q2);
    LevelHeld(lod, startPos, data, q2);
    LevelRead(data, startPos, lod.level, lod.ofsEnd, lod.surfaceOffsets,
      ExpectedSurfaces(lod.surfaces), Sizes(lod.surfaces), q2);
  }
}

=== FILE: glm_lods.dfy ===
/** The levels of detail of a Ghoul2 mesh: written back to back, each level
    numbered by its position, each as long as its end offset says. */
module GlmLods {

  import opened Outcome
  import Reading
  import opened Bytes
  import opened Layout
  import GlmVertex
  import GlmSurface
  import GlmLod
  import GlmLodRoundTrip

  type Lod = GlmLod.Lod

  /** The end offset of each level, which is its size. */
  function Ends(lods: seq<Lod>): (r: seq<int>)
    ensures |r| == |lods| && forall i | 0 <= i < |lods| :: r[i] == lods[i].ofsEnd
  {
    seq(|lods|, i requires 0 <= i < |lods| => lods[i].ofsEnd)
  }

  /** `getSize`: the end offsets of all levels added up. */
  function Size(lods: seq<Lod>): int {
    Total(Ends(lods))
  }

  /** The size each level computes for itself from its surfaces. */
  function LevelSizes(lods: seq<Lod>): (r: seq<int>)
    ensures |r| == |lods| && forall i | 0 <= i < |lods| :: r[i] == GlmLod.Size(lods[i])
  {
    seq(|lods|, i requires 0 <= i < |lods| => GlmLod.Size(lods[i]))
  }

  /** `calculateOffsets`: every level lays out its own surfaces. The running
      file offset the loop also keeps is handed to each level but never used
      by it, so it does not appear here. */
  function CalculateOffsets(lods: seq<Lod>): (r: seq<Lod>)
    ensures |r| == |lods|
    ensures forall i | 0 <= i < |lods| ::
      r[i].surfaces == lods[i].surfaces && r[i].level == lods[i].level && GlmLod.OffsetsCalculated(r[i])
    ensures Size(r) == Total(LevelSizes(lods))
  {
    var r := seq(|lods|, i requires 0 <= i < |lods| => GlmLod.CalculateOffsets(lods[i]));
    forall i | 0 <= i < |lods| ensures GlmLod.OffsetsCalculated(r[i]) {
      GlmLod.CalculatedOffsets(lods[i]);
    }
    assert Ends(r) == LevelSizes(lods);
    r
  }

  /** Laying the levels out twice changes nothing. */
  lemma CalculateOffsetsIdempotent(lods: seq<Lod>)
    ensures CalculateOffsets(CalculateOffsets(lods)) == CalculateOffsets(lods)
  {
    var once := CalculateOffsets(lods);
    forall i | 0 <= i < |lods| ensures CalculateOffsets(once)[i] == once[i] {
      GlmLod.CalculatedOffsets(lods[i]);
    }
  }

  // ------------------------------------------------------------- writing

  /** A fact about a level at a position of the file. */
  type LevelSpot = (Lod, int) -> bool

  /** The fact holds of every level at the position the ones before it
      end. */
  predicate Along(p: LevelSpot, lods: seq<Lod>, pos: int)
    decreases |lods|
  {
    |lods| == 0 || (p(lods[0], pos) && Along(p, lods[1..], pos + lods[0].ofsEnd))
  }

  /** A fact that, for levels meeting `c`, implies another, does so all
      along. */
  lemma {:induction false} AlongImplies(p: LevelSpot, q: LevelSpot, c: Lod -> bool, lods: seq<Lod>, pos: int)
    requires Along(p, lods, pos) && forall i | 0 <= i < |lods| :: c(lods[i])
    requires forall s, at | p(s, at) && c(s) :: q(s, at)
    ensures Along(q, lods, pos)
    decreases |lods|
  {
    if |lods| > 0 {
      AlongImplies(p, q, c, lods[1..], pos + lods[0].ofsEnd);
    }
  }

  /** How a level is written at a position of the file. */
  type LevelWriter = (Lod, int) --> Result<seq<byte>, GlmVertex.VertexError>

  /** The writer accepts a level wherever `ok` holds of it. */
  ghost predicate Admits(ok: LevelSpot, write: LevelWriter) {
    forall lod, at | ok(lod, at) :: write.requires(lod, at)
  }

  /** Each level written right after the previous one; the first failure
      stops the writing. */
  function SaveWith(write: LevelWriter, ok: LevelSpot, lods: seq<Lod>, pos: int)
    : Result<seq<byte>, GlmVertex.VertexError>
    requires Along(ok, lods, pos) && Admits(ok, write)
    decreases |lods|
  {
    if |lods| == 0 then Ok([])
    else
      var first :- write(lods[0], pos);
      var rest :- SaveWith(write, ok, lods[1..], pos + lods[0].ofsEnd);
      Ok(first + rest)
  }

  /** The level writer of the format, and where it may be called. */
  function Writer(): LevelWriter {
    (lod: Lod, at: int) requires GlmLod.Storable(lod, at) => GlmLod.Save(lod, at)
  }

  function StorableAt(): LevelSpot {
    (lod: Lod, at: int) => GlmLod.Storable(lod, at)
  }

  /** Every level is storable where the levels before it end. */
  predicate StorableFrom(lods: seq<Lod>, pos: int) {
    Along(StorableAt(), lods, pos)
  }

  /** Every surface of the level can be encoded. */
  predicate LevelEncodable(lod: Lod) {
    forall j | 0 <= j < |lod.surfaces| :: GlmSurface.Encodable(lod.surfaces[j])
  }

  /** Every surface of every level can be encoded. */
  predicate Encodable(lods: seq<Lod>)
    decreases |lods|
  {
    |lods| == 0 || (LevelEncodable(lods[0]) && Encodable(lods[1..]))
  }

  /** The same, surface by surface. */
  lemma {:induction false} EncodableEach(lods: seq<Lod>)
    ensures Encodable(lods) <==>
      forall i, j | 0 <= i < |lods| && 0 <= j < |lods[i].surfaces| :: GlmSurface.Encodable(lods[i].surfaces[j])
    decreases |lods|
  {
    if |lods| > 0 {
      EncodableEach(lods[1..]);
      assert forall i | 1 <= i < |lods| :: lods[i] == lods[1..][i - 1];
    }
  }

  /** A writer that fails exactly on a level with a surface it cannot
      encode, and otherwise writes as many bytes as the level's end offset. */
  ghost predicate Honest(ok: LevelSpot, write: LevelWriter) {
    Admits(ok, write) && forall lod, at | ok(lod, at) ::
      (write(lod, at).Ok? <==> LevelEncodable(lod))
      && (write(lod, at).Ok? ==> |write(lod, at).value| == lod.ofsEnd)
  }

  lemma WriterHonest()
    ensures Honest(StorableAt(), Writer())
  {
  }

  /** An honest writer's levels together fail exactly when one of them
      does, and otherwise are as long as their end offsets add up to. */
  lemma {:induction false} SaveWithLength(write: LevelWriter, ok: LevelSpot, lods: seq<Lod>, pos: int)
    requires Along(ok, lods, pos) && Honest(ok, write)
    ensures SaveWith(write, ok, lods, pos).Ok? <==> Encodable(lods)
    ensures SaveWith(write, ok, lods, pos).Ok? ==> |SaveWith(write, ok, lods, pos).value| == Size(lods)
    decreases |lods|
  {
    if |lods| > 0 {
      SaveWithLength(write, ok, lods[1..], pos + lods[0].ofsEnd);
      SizeCons(lods);
    } else {
      assert Ends(lods) == [];
    }
  }

  /** `saveToFile`: each level written right after the previous one. */
  function Save(lods: seq<Lod>, pos: int): (r: Result<seq<byte>, GlmVertex.VertexError>)
    requires StorableFrom(lods, pos)
    ensures r.Ok? <==> Encodable(lods)
    ensures r.Ok? ==> |r.value| == Size(lods)
  {
    WriterHonest();
    SaveWithLength(Writer(), StorableAt(), lods, pos);
    SaveWith(Writer(), StorableAt(), lods, pos)
  }

  lemma SizeCons(lods: seq<Lod>)
    requires |lods| > 0
    ensures Size(lods) == lods[0].ofsEnd + Size(lods[1..])
  {
    assert Ends(lods) == [lods[0].ofsEnd] + Ends(lods[1..]);
  }

  // ------------------------------------------------------------- reading

  /** How a level is read from a position of the file, given its number. */
  type LevelReader = (nat, int) -> Result<GlmLod.Loaded, Reading.LoadError>

  function Reader(data: seq<byte>, numSurfaces: int): LevelReader {
    (at: nat, level: int) => GlmLod.Load(data, at, level, numSurfaces)
  }

  /** `count` levels from `pos` on, numbered from `level`; each next level
      starts where the previous one's end offset puts it (the reader seeks
      there if it is not already there). */
  function LoadFrom(read: LevelReader, pos: nat, level: int, count: nat)
    : (r: Result<(seq<GlmLod.Loaded>, nat), Reading.LoadError>)
    ensures r.Ok? ==> |r.value.0| == count
    ensures r.Ok? && count == 0 ==> r.value.1 == pos
    decreases count
  {
    if count == 0 then Ok(([], pos))
    else
      var lod :- read(pos, level);
      var next :- Reading.Seek(pos + lod.ofsEnd);
      var rest :- LoadFrom(read, next, level + 1, count - 1);
      Ok(([lod] + rest.0, rest.1))
  }

  /** `loadFromFile`: as many levels as the header counts (none for a
      negative count), numbered from 0, each with the header's number of
      surfaces. */
  function Load(data: seq<byte>, pos: nat, numLods: int, numSurfaces: int)
    : (r: Result<(seq<GlmLod.Loaded>, nat), Reading.LoadError>)
    ensures r.Ok? ==> |r.value.0| == Reading.RangeCount(numLods)
    ensures r.Ok? ==> forall i | 0 <= i < |r.value.0| ::
      r.value.0[i].level == i && |r.value.0[i].surfaces| == numSurfaces
    ensures numLods <= 0 ==> r == Ok(([], pos))
  {
    var r := LoadFrom(Reader(data, numSurfaces), pos, 0, Reading.RangeCount(numLods));
    if r.Ok? then
      ReaderNumbers(data, numSurfaces);
      LoadedLevels(Reader(data, numSurfaces), numSurfaces, pos, 0, Reading.RangeCount(numLods));
      r
    else r
  }

  /** Whatever the reader yields carries the number it was asked for and
      the given number of surfaces. */
  ghost predicate Numbers(read: LevelReader, numSurfaces: int) {
    forall at: nat, level: int | read(at, level).Ok? ::
      read(at, level).value.level == level && |read(at, level).value.surfaces| == numSurfaces
  }

  lemma ReaderNumbers(data: seq<byte>, numSurfaces: int)
    ensures Numbers(Reader(data, numSurfaces), numSurfaces)
  {
  }

  /** Each level read is numbered in turn and has the header's number of
      surfaces. */
  lemma {:induction false} LoadedLevels(read: LevelReader, numSurfaces: int, pos: nat, level: int, count: nat)
    requires Numbers(read, numSurfaces) && LoadFrom(read, pos, level, count).Ok?
    ensures var xs := LoadFrom(read, pos, level, count).value.0;
      forall i | 0 <= i < count :: xs[i].level == level + i && |xs[i].surfaces| == numSurfaces
    decreases count
  {
    if count > 0 {
      var lod := read(pos, level).value;
      LoadedLevels(read, numSurfaces, pos + lod.ofsEnd, level + 1, count - 1);
    }
  }

  // ------------------------------------------------------------- round trip

  /** A level as the model builds it: every surface of the model at its
      index. */
  predicate Shaped(lod: Lod, numSurfaces: int) {
    |lod.surfaces| == numSurfaces && forall j | 0 <= j < numSurfaces :: lod.surfaces[j].index == j
  }

  /** The levels numbered by position from `level`, all shaped alike. */
  predicate Numbered(lods: seq<Lod>, level: int, numSurfaces: int) {
    forall i | 0 <= i < |lods| :: lods[i].level == level + i && Shaped(lods[i], numSurfaces)
  }

  predicate AllWritable(lods: seq<Lod>) {
    forall i | 0 <= i < |lods| :: GlmLod.Writable(lods[i].surfaces)
  }

  /** What written levels read back as. */
  function Expected(lods: seq<Lod>): (r: seq<GlmLod.Loaded>)
    requires AllWritable(lods)
    ensures |r| == |lods|
    ensures forall i | 0 <= i < |lods| :: r[i].ofsEnd == lods[i].ofsEnd
  {
    seq(|lods|, i requires 0 <= i < |lods| => GlmLod.Expected(lods[i]))
  }

  /** The level lies at the position as the writer writes it there. */
  ghost function LaidBy(write: LevelWriter, ok: LevelSpot, data: seq<byte>): LevelSpot {
    (lod: Lod, at: int) => ok(lod, at) && write.requires(lod, at) && write(lod, at).Ok?
      && Placed(data, at, write(lod, at).value)
  }

  /** The level reads back from the position as written. */
  function ReadsAt(data: seq<byte>, numSurfaces: int): LevelSpot {
    (lod: Lod, at: int) => at >= 0 && at + lod.ofsEnd >= 0 && GlmLod.Writable(lod.surfaces)
      && GlmLod.Load(data, at, lod.level, numSurfaces) == Ok(GlmLod.Expected(lod))
  }

  /** Levels written together lie one after the other. */
  lemma {:induction false} SavedLaid(write: LevelWriter, ok: LevelSpot, lods: seq<Lod>, pos: int, data: seq<byte>)
    requires Along(ok, lods, pos) && Honest(ok, write) && SaveWith(write, ok, lods, pos).Ok?
    requires Placed(data, pos, SaveWith(write, ok, lods, pos).value)
    ensures Along(LaidBy(write, ok, data), lods, pos)
    decreases |lods|
  {
    if |lods| > 0 {
      var next := pos + lods[0].ofsEnd;
      var first, rest := write(lods[0], pos).value, SaveWith(write, ok, lods[1..], next).value;
      PlacedAppend(data, pos, first, rest, next);
      SavedLaid(write, ok, lods[1..], next, data);
    }
  }

  /** A shaped level laid at a position reads back from there. */
  lemma LevelLoads(data: seq<byte>, numSurfaces: int, lod: Lod, at: int)
    requires Shaped(lod, numSurfaces) && LaidBy(Writer(), StorableAt(), data)(lod, at)
    ensures ReadsAt(data, numSurfaces)(lod, at)
  {
    GlmLodRoundTrip.LoadSave(lod, at, data);
  }

  lemma LevelsLoad(data: seq<byte>, numSurfaces: int)
    ensures forall s, at | LaidBy(Writer(), StorableAt(), data)(s, at) && Shaped(s, numSurfaces) :: ReadsAt(data, numSurfaces)(s, at)
  {
    forall s, at | LaidBy(Writer(), StorableAt(), data)(s, at) && Shaped(s, numSurfaces) ensures ReadsAt(data, numSurfaces)(s, at) {
      LevelLoads(data, numSurfaces, s, at);
    }
  }

  /** The reader yields the levels `xs` one after the other from `pos`,
      numbered from `level`. */
  ghost predicate Serves(read: LevelReader, xs: seq<GlmLod.Loaded>, pos: int, level: int)
    decreases |xs|
  {
    |xs| == 0 ||
    (pos >= 0 && pos + xs[0].ofsEnd >= 0 && read(pos, level) == Ok(xs[0])
     && Serves(read, xs[1..], pos + xs[0].ofsEnd, level + 1))
  }

  /** Wherever `q` holds of a level, the reader yields it as written. */
  ghost predicate Yields(q: LevelSpot, read: LevelReader) {
    forall s, at | q(s, at) :: at >= 0 && at + s.ofsEnd >= 0 && GlmLod.Writable(s.surfaces)
      && read(at, s.level) == Ok(GlmLod.Expected(s))
  }

  lemma ReaderYields(data: seq<byte>, numSurfaces: int)
    ensures Yields(ReadsAt(data, numSurfaces), Reader(data, numSurfaces))
  {
  }

  /** Levels the reader yields wherever they lie are served in turn. */
  lemma {:induction false} AlongServes(q: LevelSpot, read: LevelReader, lods: seq<Lod>, pos: int, level: int)
    requires Along(q, lods, pos) && Yields(q, read)
    requires forall i | 0 <= i < |lods| :: lods[i].level == level + i
    ensures AllWritable(lods)
    ensures Serves(read, Expected(lods), pos, level)
    decreases |lods|
  {
    if |lods| > 0 {
      AlongServes(q, read, lods[1..], pos + lods[0].ofsEnd, level + 1);
      assert Expected(lods)[1..] == Expected(lods[1..]);
    }
  }

  /** The sum of the end offsets of levels read. */
  function LoadedSize(xs: seq<GlmLod.Loaded>): int
    decreases |xs|
  {
    if |xs| == 0 then 0 else xs[0].ofsEnd + LoadedSize(xs[1..])
  }

  /** Served levels are loaded, and the reader ends after the last. */
  lemma {:induction false} ServedLoad(read: LevelReader, xs: seq<GlmLod.Loaded>, pos: nat, level: int)
    requires Serves(read, xs, pos, level)
    ensures LoadFrom(read, pos, level, |xs|) == Ok((xs, pos + LoadedSize(xs)))
    decreases |xs|
  {
    if |xs| > 0 {
      ServedLoad(read, xs[1..], pos + xs[0].ofsEnd, level + 1);
      assert [xs[0]] + xs[1..] == xs;
    }
  }

  /** The levels read back add up to the size written. */
  lemma {:induction false} ExpectedSize(lods: seq<Lod>)
    requires AllWritable(lods)
    ensures LoadedSize(Expected(lods)) == Size(lods)
    decreases |lods|
  {
    if |lods| > 0 {
      SizeCons(lods);
      ExpectedSize(lods[1..]);
      assert Expected(lods)[1..] == Expected(lods[1..]);
    } else {
      assert Ends(lods) == [];
    }
  }

  /** Laid levels are served back as written. */
  lemma LaidServed(lods: seq<Lod>, pos: int, numSurfaces: nat, data: seq<byte>)
    requires Along(LaidBy(Writer(), StorableAt(), data), lods, pos) && Numbered(lods, 0, numSurfaces)
    ensures AllWritable(lods)
    ensures Serves(Reader(data, numSurfaces), Expected(lods), pos, 0)
  {
    LevelsLoad(data, numSurfaces);
    AlongImplies(LaidBy(Writer(), StorableAt(), data), ReadsAt(data, numSurfaces), s => Shaped(s, numSurfaces), lods, pos);
    ReaderYields(data, numSurfaces);
    AlongServes(ReadsAt(data, numSurfaces), Reader(data, numSurfaces), lods, pos, 0);
  }

  /** Laid levels load back as written. */
  lemma LaidLoads(lods: seq<Lod>, pos: nat, numSurfaces: nat, data: seq<byte>)
    requires Along(LaidBy(Writer(), StorableAt(), data), lods, pos) && Numbered(lods, 0, numSurfaces)
    ensures AllWritable(lods)
    ensures Load(data, pos, |lods|, numSurfaces) == Ok((Expected(lods), pos + Size(lods)))
  {
    LaidServed(lods, pos, numSurfaces, data);
    ServesLoad(lods, pos, numSurfaces, data);
  }

  /** Served levels load back, and the reader ends after the last. */
  lemma ServesLoad(lods: seq<Lod>, pos: nat, numSurfaces: nat, data: seq<byte>)
    requires AllWritable(lods) && Serves(Reader(data, numSurfaces), Expected(lods), pos, 0)
    ensures Load(data, pos, |lods|, numSurfaces) == Ok((Expected(lods), pos + Size(lods)))
  {
    ServedLoadFrom(lods, pos, numSurfaces, data);
    LoadIsFrom(data, pos, |lods|, numSurfaces);
  }

  lemma ServedLoadFrom(lods: seq<Lod>, pos: nat, numSurfaces: nat, data: seq<byte>)
    requires AllWritable(lods) && Serves(Reader(data, numSurfaces), Expected(lods), pos, 0)
    ensures LoadFrom(Reader(data, numSurfaces), pos, 0, |lods|) == Ok((Expected(lods), pos + Size(lods)))
  {
    ServedLoad(Reader(data, numSurfaces), Expected(lods), pos, 0);
    ExpectedSize(lods);
  }

  lemma LoadIsFrom(data: seq<byte>, pos: nat, count: nat, numSurfaces: int)
    ensures Load(data, pos, count, numSurfaces) == LoadFrom(Reader(data, numSurfaces), pos, 0, count)
  {
  }

  /** The levels of a model read back from where they were written, and
      the reader ends right after the last. */
  lemma LoadSave(lods: seq<Lod>, pos: nat, numSurfaces: nat, data: seq<byte>)
    requires StorableFrom(lods, pos) && Save(lods, pos).Ok?
    requires Placed(data, pos, Save(lods, pos).value)
    requires Numbered(lods, 0, numSurfaces)
    ensures AllWritable(lods)
    ensures Load(data, pos, |lods|, numSurfaces) == Ok((Expected(lods), pos + Size(lods)))
  {
    WriterHonest();
    SavedLaid(Writer(), StorableAt(), lods, pos, data);
    LaidLoads(lods, pos, numSurfaces, data);
  }
}

=== FILE: glm_surface.dfy ===
/** One surface of one level of detail in a Ghoul2 mesh: a 40-byte header
    of counts and offsets relative to the surface start, then triangles,
    vertex records, texture coordinates and the bone-reference table. */
module GlmSurface {

  import opened Outcome
  import opened Bytes
  import opened Layout
  import opened Reading
  import GlmVertex
  import GlmTriangle


  /** A vertex with its texture coordinates (two stored floats). */
  datatype SurfaceVertex = SurfaceVertex(vertex: GlmVertex.Vertex, uv: seq<byte>)

  /** The counts and offsets of the surface header. */
  datatype Counts = Counts(
    numVerts: int, ofsVerts: int,
    numTriangles: int, ofsTriangles: int,
    numBoneReferences: int, ofsBoneReferences: int,
    ofsEnd: int)

  datatype Surface = Surface(
    index: int,
    vertices: seq<SurfaceVertex>,
    triangles: seq<GlmTriangle.Triangle>,
    boneReferences: seq<int>,
    counts: Counts)

  /** A surface as constructed, before anything is filled in. */
  function Fresh(index: int): Surface {
    Surface(index, [], [], [], Counts(-1, -1, -1, -1, -1, -1, -1))
  }

  /** The counts and offsets the surface's lists call for: header, then
      triangles (12 bytes each), vertices (40 bytes each with their uv),
      bone references (4 bytes each). */
  function SectionCounts(s: Surface): (c: Counts)
    ensures c.numVerts == |s.vertices| && c.numTriangles == |s.triangles|
    ensures c.numBoneReferences == |s.boneReferences|
  {
    var ofsTriangles := 40;
    var ofsVerts := ofsTriangles + 12 * |s.triangles|;
    var ofsBoneReferences := ofsVerts + 40 * |s.vertices|;
    Counts(|s.vertices|, ofsVerts, |s.triangles|, ofsTriangles,
           |s.boneReferences|, ofsBoneReferences, ofsBoneReferences + 4 * |s.boneReferences|)
  }

  function CalculateOffsets(s: Surface): (r: Surface)
    ensures r.index == s.index && r.vertices == s.vertices && r.triangles == s.triangles
    ensures r.boneReferences == s.boneReferences
    ensures r.counts == SectionCounts(s)
  {
    s.(counts := SectionCounts(s))
  }

  predicate OffsetsCalculated(s: Surface) { s.counts == SectionCounts(s) }

  /** Zeroes the three counts, then recomputes counts and offsets, which
      takes the counts from the lists again. */
  function MakeEmpty(s: Surface): (r: Surface)
    ensures OffsetsCalculated(r)
  {
    CalculateOffsets(s.(counts := s.counts.(numVerts := 0, numTriangles := 0, numBoneReferences := 0)))
  }

  /** A surface missing from a level is a fresh surface made empty: no
      vertices, triangles or bone references, and all four offsets point
      just past the header. */
  lemma MakeEmptyFresh(index: int)
    ensures var r := MakeEmpty(Fresh(index));
      r.index == index && r.vertices == [] && r.triangles == [] && r.boneReferences == []
      && r.counts == Counts(0, 40, 0, 40, 0, 40, 40)
  {
  }

  /** The zeroed counts never survive: on a surface that already has lists,
      making it empty changes nothing the offsets would not. */
  lemma MakeEmptyIsRecalculation(s: Surface)
    ensures MakeEmpty(s) == CalculateOffsets(s)
  {
  }

  // ------------------------------------------------------------- writing

  /** Every vertex carries its six floats and two uv floats as bytes. */
  predicate StorableVertices(vs: seq<SurfaceVertex>) {
    forall i | 0 <= i < |vs| ::
      |vs[i].vertex.normal| == 12 && |vs[i].vertex.co| == 12 && |vs[i].uv| == 8
  }

  /** What the writer demands of the surface itself: the offsets were
      computed and every value fits its 32-bit field. */
  predicate StorableContent(s: Surface) {
    OffsetsCalculated(s)
    && IsI32(s.index) && IsI32(s.counts.ofsEnd)
    && (forall i | 0 <= i < |s.triangles| :: GlmTriangle.Storable(s.triangles[i]))
    && StorableVertices(s.vertices)
    && (forall i | 0 <= i < |s.boneReferences| :: IsI32(s.boneReferences[i]))
  }

  /** Every vertex fits the packed word. */
  predicate Encodable(s: Surface) {
    forall i | 0 <= i < |s.vertices| :: GlmVertex.Packable(s.vertices[i].vertex)
  }

  /** ... and of where it is written: the header stores minus the start. */
  predicate Storable(s: Surface, startPos: int) {
    StorableContent(s) && IsI32(-startPos)
  }

  /** The header fields in file order; the leading 0 is the ident. */
  function HeaderFields(s: Surface, startPos: int): seq<int> {
    var c := s.counts;
    [0, s.index, -startPos, c.numVerts, c.ofsVerts, c.numTriangles, c.ofsTriangles,
     c.numBoneReferences, c.ofsBoneReferences, c.ofsEnd]
  }

  function TriangleRecords(ts: seq<GlmTriangle.Triangle>): (r: seq<seq<byte>>)
    requires forall i | 0 <= i < |ts| :: GlmTriangle.Storable(ts[i])
    ensures |r| == |ts| && forall i | 0 <= i < |ts| :: |r[i]| == 12
  {
    seq(|ts|, i requires 0 <= i < |ts| => GlmTriangle.Save(ts[i]))
  }

  /** The vertex records, or the first vertex's error. */
  function VertexRecords(vs: seq<SurfaceVertex>): (r: Result<seq<seq<byte>>, GlmVertex.VertexError>)
    requires StorableVertices(vs)
    ensures r.Ok? <==> forall i | 0 <= i < |vs| :: GlmVertex.Packable(vs[i].vertex)
    ensures r.Ok? ==> |r.value| == |vs|
    ensures r.Ok? ==> forall i | 0 <= i < |vs| :: r.value[i] == GlmVertex.Encode(vs[i].vertex).value
    decreases |vs|
  {
    if |vs| == 0 then Ok([])
    else
      var first :- GlmVertex.Encode(vs[0].vertex);
      var rest :- VertexRecords(vs[1..]);
      assert forall i | 1 <= i < |vs| :: vs[i] == vs[1..][i - 1];
      Ok([first] + rest)
  }

  function UVRecords(vs: seq<SurfaceVertex>): (r: seq<seq<byte>>)
    ensures |r| == |vs| && forall i | 0 <= i < |vs| :: r[i] == vs[i].uv
  {
    seq(|vs|, i requires 0 <= i < |vs| => vs[i].uv)
  }

  /** Writing a surface whose writing starts at file position `startPos`:
      header, triangles, vertex records, uvs, bone references. */
  function Save(s: Surface, startPos: int): (r: Result<seq<byte>, GlmVertex.VertexError>)
    requires Storable(s, startPos)
    ensures r.Ok? <==> Encodable(s)
  {
    var verts :- VertexRecords(s.vertices);
    Ok(I32s(HeaderFields(s, startPos)) + Concat(TriangleRecords(s.triangles)) + Concat(verts)
       + Concat(UVRecords(s.vertices)) + I32s(s.boneReferences))
  }

  // ------------------------------------------------------------- reading

  /** A surface as read back. */
  datatype Loaded = Loaded(
    index: int,
    counts: Counts,
    vertices: seq<GlmVertex.Decoded>,
    uvs: seq<seq<byte>>,
    triangles: seq<GlmTriangle.Triangle>,
    boneReferences: seq<int>)

  function DecodeVertices(recs: seq<seq<byte>>): (r: seq<GlmVertex.Decoded>)
    requires forall i | 0 <= i < |recs| :: |recs[i]| == 32
    ensures |r| == |recs|
  {
    seq(|recs|, i requires 0 <= i < |recs| => GlmVertex.Decode(recs[i]))
  }

  function LoadTriangles(recs: seq<seq<byte>>): (r: seq<GlmTriangle.Triangle>)
    requires forall i | 0 <= i < |recs| :: |recs[i]| == 12
    ensures |r| == |recs|
  {
    seq(|recs|, i requires 0 <= i < |recs| => GlmTriangle.Load(recs[i]))
  }

  /** The vertex records at `pos`, then their uvs right after them. The
      seek may go past the end of the file: with no vertices nothing is
      read there, so nothing fails. */
  function ReadVerticesAt(data: seq<byte>, pos: int, count: int)
    : (r: Result<(seq<GlmVertex.Decoded>, seq<seq<byte>>), LoadError>)
    ensures r.Err? <==> pos < 0 || (count > 0 && pos + 40 * count > |data|)
    ensures r.Err? ==> r.error == (if pos < 0 then NegativeSeek else Truncated)
    ensures r.Ok? ==> |r.value.0| == RangeCount(count) && |r.value.1| == RangeCount(count)
  {
    var vpos :- Seek(pos);
    var nv := RangeCount(count);
    if nv == 0 then Ok(([], []))
    else
      var vrecs :- Need(ReadChunks(data, vpos, nv, 32), Truncated);
      var uvs :- Need(ReadChunks(data, vpos + 32 * nv, nv, 8), Truncated);
      Ok((DecodeVertices(vrecs), uvs))
  }

  /** The triangle records at `pos`; as for the vertices, an empty section
      may sit anywhere at or after the start of the file. */
  function ReadTrianglesAt(data: seq<byte>, pos: int, count: int)
    : (r: Result<seq<GlmTriangle.Triangle>, LoadError>)
    ensures r.Err? <==> pos < 0 || (count > 0 && pos + 12 * count > |data|)
    ensures r.Err? ==> r.error == (if pos < 0 then NegativeSeek else Truncated)
    ensures r.Ok? ==> |r.value| == RangeCount(count)
  {
    var tpos :- Seek(pos);
    if RangeCount(count) == 0 then Ok([])
    else
      var trecs :- Need(ReadChunks(data, tpos, RangeCount(count), 12), Truncated);
      Ok(LoadTriangles(trecs))
  }

  /** `struct.unpack` with a count in its format: a negative count is a
      format error, and a zero count unpacks the empty read wherever the
      file stands. */
  function ReadBoneReferencesAt(data: seq<byte>, pos: int, count: int): (r: Result<seq<int>, LoadError>)
    ensures r.Err? <==> pos < 0 || count < 0 || (count > 0 && pos + 4 * count > |data|)
    ensures r.Err? ==> r.error == (if pos < 0 then NegativeSeek else if count < 0 then BadCount else Truncated)
    ensures r.Ok? ==> |r.value| == count
  {
    var bpos :- Seek(pos);
    if count < 0 then Err(BadCount)
    else if count == 0 then Ok([])
    else Need(ReadI32s(data, bpos, count), Truncated)
  }

  /** Reading the surface that starts at `startPos`: the sections are
      found through the header's offsets, not by position. */
  function Load(data: seq<byte>, startPos: nat): (r: Result<Loaded, LoadError>)
    ensures r.Ok? ==> |r.value.vertices| == RangeCount(r.value.counts.numVerts)
    ensures r.Ok? ==> |r.value.uvs| == |r.value.vertices|
    ensures r.Ok? ==> |r.value.triangles| == RangeCount(r.value.counts.numTriangles)
    ensures r.Ok? ==> |r.value.boneReferences| == r.value.counts.numBoneReferences
  {
    var h :- Need(ReadI32s(data, startPos, 10), Truncated);
    var c := Counts(h[3], h[4], h[5], h[6], h[7], h[8], h[9]);
    if h[2] != -(startPos as int) then Err(HeaderMismatch)
    else
      var vs :- ReadVerticesAt(data, startPos + c.ofsVerts, c.numVerts);
      var ts :- ReadTrianglesAt(data, startPos + c.ofsTriangles, c.numTriangles);
      var refs :- ReadBoneReferencesAt(data, startPos + c.ofsBoneReferences, c.numBoneReferences);
      Ok(Loaded(h[1], c, vs.0, vs.1, ts, refs))
  }

  /** Loading a surface leaves the file at its end, seeking there if the
      sections did not. */
  function LoadAt(data: seq<byte>, startPos: nat): (r: Result<(Loaded, nat), LoadError>)
    ensures r.Ok? ==> Load(data, startPos).Ok? && r.value.0 == Load(data, startPos).value
    ensures r.Ok? ==> r.value.1 == startPos + r.value.0.counts.ofsEnd
  {
    var s :- Load(data, startPos);
    var end :- Seek(startPos + s.counts.ofsEnd);
    Ok((s, end))
  }

  /** A section with nothing in it reads as empty wherever its offset
      points, even past the end of the file: the seek succeeds and the
      reads ask for no bytes. */
  lemma EmptySectionsAnywhere(data: seq<byte>, startPos: nat)
    requires ReadI32s(data, startPos, 10).Some?
    requires var h := ReadI32s(data, startPos, 10).value;
      h[2] == -(startPos as int) && h[3] <= 0 && h[5] <= 0 && h[7] == 0
      && startPos + h[4] >= 0 && startPos + h[6] >= 0 && startPos + h[8] >= 0
    ensures var h := ReadI32s(data, startPos, 10).value;
      Load(data, startPos) == Ok(Loaded(h[1], Counts(h[3], h[4], h[5], h[6], h[7], h[8], h[9]), [], [], [], []))
  {
  }

  /** A surface header with no triangles whose triangle offset points
      60 bytes past the end of its 40-byte file still loads. */
  lemma EmptySurfacePastEnd()
    ensures Load(I32s([0, 0, 0, 0, 40, 0, 100, 0, 40, 40]), 0)
         == Ok(Loaded(0, Counts(0, 40, 0, 100, 0, 40, 40), [], [], [], []))
  {
    var h := [0, 0, 0, 0, 40, 0, 100, 0, 40, 40];
    var data := I32s(h);
    ReadI32sOfI32s(data, 0, h);
    EmptySectionsAnywhere(data, 0);
  }

  // ------------------------------------------------------------- proofs

  /** Each vertex as its written record decodes. */
  function ExpectedVertices(vs: seq<SurfaceVertex>): (r: seq<GlmVertex.Decoded>)
    requires StorableVertices(vs)
    requires forall i | 0 <= i < |vs| :: GlmVertex.Packable(vs[i].vertex)
    ensures |r| == |vs|
  {
    seq(|vs|, i requires 0 <= i < |vs| => GlmVertex.Decode(GlmVertex.Encode(vs[i].vertex).value))
  }

  /** Each triangle after its own save and load. */
  function ExpectedTriangles(ts: seq<GlmTriangle.Triangle>): (r: seq<GlmTriangle.Triangle>)
    requires forall i | 0 <= i < |ts| :: GlmTriangle.Storable(ts[i])
    ensures |r| == |ts|
  {
    seq(|ts|, i requires 0 <= i < |ts| => GlmTriangle.Load(GlmTriangle.Save(ts[i])))
  }

  /** What a written surface reads back as: the same header, the decoded
      vertices with their uvs, the reloaded triangles, the same bone
      references. */
  function Expected(s: Surface): Loaded
    requires StorableVertices(s.vertices)
    requires forall i | 0 <= i < |s.vertices| :: GlmVertex.Packable(s.vertices[i].vertex)
    requires forall i | 0 <= i < |s.triangles| :: GlmTriangle.Storable(s.triangles[i])
  {
    Loaded(s.index, s.counts, ExpectedVertices(s.vertices), UVRecords(s.vertices),
      ExpectedTriangles(s.triangles), s.boneReferences)
  }

  /** The vertex records are 32 bytes each and decode one by one. */
  lemma VertexRecordsDecode(vs: seq<SurfaceVertex>)
    requires StorableVertices(vs) && VertexRecords(vs).Ok?
    ensures forall i | 0 <= i < |vs| :: |VertexRecords(vs).value[i]| == 32
    ensures DecodeVertices(VertexRecords(vs).value) == ExpectedVertices(vs)
  {
    var recs := VertexRecords(vs).value;
    forall i | 0 <= i < |vs| ensures |recs[i]| == 32 {
      assert recs[i] == GlmVertex.Encode(vs[i].vertex).value;
    }
  }

  lemma TriangleRecordsLoad(ts: seq<GlmTriangle.Triangle>)
    requires forall i | 0 <= i < |ts| :: GlmTriangle.Storable(ts[i])
    ensures LoadTriangles(TriangleRecords(ts)) == ExpectedTriangles(ts)
  {
  }

  /** The vertex reader, given its two record reads. */
  lemma VerticesFromReads(data: seq<byte>, pos: nat, upos: int, vrecs: seq<seq<byte>>, uvs: seq<seq<byte>>)
    requires upos == pos + 32 * |vrecs|
    requires ReadChunks(data, pos, |vrecs|, 32) == Some(vrecs)
    requires ReadChunks(data, upos, |vrecs|, 8) == Some(uvs)
    ensures ReadVerticesAt(data, pos, |vrecs|) == Ok((DecodeVertices(vrecs), uvs))
  {
  }

  /** The loader, given the header and what each of its record reads
      returns at the offsets the header names. */
  lemma LoadFromReads(data: seq<byte>, p: nat, tpos: int, vpos: nat, upos: int, bpos: int,
                      h: seq<int>, trecs: seq<seq<byte>>, verts: seq<seq<byte>>,
                      uvs: seq<seq<byte>>, refs: seq<int>)
    requires |h| == 10 && h[2] == -(p as int)
    requires h[3] == |verts| && h[5] == |trecs| && h[7] == |refs|
    requires tpos == p + h[6] && vpos == p + h[4] && upos == vpos + 32 * |verts| && bpos == p + h[8]
    requires ReadI32s(data, p, 10) == Some(h)
    requires ReadChunks(data, tpos, |trecs|, 12) == Some(trecs)
    requires ReadChunks(data, vpos, |verts|, 32) == Some(verts)
    requires ReadChunks(data, upos, |verts|, 8) == Some(uvs)
    requires ReadI32s(data, bpos, |refs|) == Some(refs)
    ensures Load(data, p) == Ok(Loaded(h[1], Counts(h[3], h[4], h[5], h[6], h[7], h[8], h[9]),
      DecodeVertices(verts), uvs, LoadTriangles(trecs), refs))
  {
    VerticesFromReads(data, vpos, upos, verts, uvs);
    assert ReadTrianglesAt(data, tpos, h[5]) == Ok(LoadTriangles(trecs));
    assert ReadBoneReferencesAt(data, bpos, h[7]) == Ok(refs);
  }

  /** Five pieces written one after another, each placed at the running
      offset. */
  lemma PlacedFive(data: seq<byte>, p: int, a: seq<byte>, b: seq<byte>, c: seq<byte>,
                   d: seq<byte>, e: seq<byte>, q1: int, q2: int, q3: int, q4: int)
    requires q1 == p + |a| && q2 == q1 + |b| && q3 == q2 + |c| && q4 == q3 + |d|
    requires Placed(data, p, a + b + c + d + e)
    ensures Placed(data, p, a) && Placed(data, q1, b) && Placed(data, q2, c)
    ensures Placed(data, q3, d) && Placed(data, q4, e)
  {
    PlacedAppend(data, p, a + b + c + d, e, q4);
    PlacedAppend(data, p, a + b + c, d, q3);
    PlacedAppend(data, p, a + b, c, q2);
    PlacedAppend(data, p, a, b, q1);
  }

  /** What each read of the loader returns on the five placed sections. */
  lemma SavedReads(data: seq<byte>, p: int, q1: int, q2: int, q3: int, q4: int,
                   h: seq<int>, trecs: seq<seq<byte>>, verts: seq<seq<byte>>,
                   uvs: seq<seq<byte>>, refs: seq<int>)
    requires forall i | 0 <= i < |h| :: IsI32(h[i])
    requires forall i | 0 <= i < |refs| :: IsI32(refs[i])
    requires forall i | 0 <= i < |trecs| :: |trecs[i]| == 12
    requires forall i | 0 <= i < |verts| :: |verts[i]| == 32
    requires forall i | 0 <= i < |uvs| :: |uvs[i]| == 8
    requires Placed(data, p, I32s(h)) && Placed(data, q1, Concat(trecs))
    requires Placed(data, q2, Concat(verts)) && Placed(data, q3, Concat(uvs))
    requires Placed(data, q4, I32s(refs))
    ensures ReadI32s(data, p, |h|) == Some(h)
    ensures ReadChunks(data, q1, |trecs|, 12) == Some(trecs)
    ensures ReadChunks(data, q2, |verts|, 32) == Some(verts)
    ensures ReadChunks(data, q3, |uvs|, 8) == Some(uvs)
    ensures ReadI32s(data, q4, |refs|) == Some(refs)
  {
    I32sPlaced(data, p, h);
    ChunksPlaced(data, q1, trecs, 12);
    ChunksPlaced(data, q2, verts, 32);
    ChunksPlaced(data, q3, uvs, 8);
    I32sPlaced(data, q4, refs);
  }

  /** The header a storable surface writes: every field fits 32 bits and
      the offsets follow the section sizes. */
  lemma HeaderFacts(s: Surface, startPos: int, h: seq<int>, nt: nat, nv: nat, nb: nat)
    requires Storable(s, startPos) && h == HeaderFields(s, startPos)
    requires nt == |s.triangles| && nv == |s.vertices| && nb == |s.boneReferences|
    ensures |h| == 10 && forall i | 0 <= i < |h| :: IsI32(h[i])
    ensures h[1] == s.index && h[2] == -startPos && h[3] == nv && h[5] == nt && h[7] == nb
    ensures h[4] == 40 + 12 * nt && h[6] == 40 && h[8] == 40 + 12 * nt + 40 * nv
    ensures Counts(h[3], h[4], h[5], h[6], h[7], h[8], h[9]) == s.counts
  {
  }

  /** The loader on five sections placed at the offsets their header
      names. */
  lemma LoadPlaced(data: seq<byte>, p: nat, h: seq<int>, trecs: seq<seq<byte>>,
                   verts: seq<seq<byte>>, uvs: seq<seq<byte>>, refs: seq<int>)
    requires |h| == 10 && forall i | 0 <= i < |h| :: IsI32(h[i])
    requires h[2] == -(p as int) && h[3] == |verts| && h[5] == |trecs| && h[7] == |refs|
    requires h[6] == 40 && h[4] == 40 + 12 * |trecs| && h[8] == 40 + 12 * |trecs| + 40 * |verts|
    requires forall i | 0 <= i < |refs| :: IsI32(refs[i])
    requires forall i | 0 <= i < |trecs| :: |trecs[i]| == 12
    requires forall i | 0 <= i < |verts| :: |verts[i]| == 32
    requires forall i | 0 <= i < |uvs| :: |uvs[i]| == 8
    requires |uvs| == |verts|
    requires Placed(data, p, I32s(h) + Concat(trecs) + Concat(verts) + Concat(uvs) + I32s(refs))
    ensures Load(data, p) == Ok(Loaded(h[1], Counts(h[3], h[4], h[5], h[6], h[7], h[8], h[9]),
      DecodeVertices(verts), uvs, LoadTriangles(trecs), refs))
  {
    ChunksLength(trecs, 12);
    ChunksLength(verts, 32);
    ChunksLength(uvs, 8);
    var q1 := p + 40;
    var q2 := q1 + 12 * |trecs|;
    var q3 := q2 + 32 * |verts|;
    var q4 := q3 + 8 * |uvs|;
    PlacedFive(data, p, I32s(h), Concat(trecs), Concat(verts), Concat(uvs), I32s(refs), q1, q2, q3, q4);
    SavedReads(data, p, q1, q2, q3, q4, h, trecs, verts, uvs, refs);
    LoadFromReads(data, p, q1, q2, q3, q4, h, trecs, verts, uvs, refs);
  }

  /** Reading back a written surface, wherever it sits in the file. */
  lemma LoadSave(s: Surface, startPos: nat, data: seq<byte>)
    requires Storable(s, startPos) && Save(s, startPos).Ok?
    requires Placed(data, startPos, Save(s, startPos).value)
    ensures Load(data, startPos) == Ok(Expected(s))
  {
    var verts := VertexRecords(s.vertices).value;
    VertexRecordsDecode(s.vertices);
    TriangleRecordsLoad(s.triangles);
    var h, trecs, uvs := HeaderFields(s, startPos), TriangleRecords(s.triangles), UVRecords(s.vertices);
    var refs := s.boneReferences;
    HeaderFacts(s, startPos, h, |trecs|, |verts|, |refs|);
    LoadPlaced(data, startPos, h, trecs, verts, uvs, refs);
  }

  /** A written surface is exactly as long as its end offset says. */
  lemma SaveLength(s: Surface, startPos: int)
    requires Storable(s, startPos) && Save(s, startPos).Ok?
    ensures |Save(s, startPos).value| == s.counts.ofsEnd
  {
    var verts := VertexRecords(s.vertices).value;
    VertexRecordsDecode(s.vertices);
    ChunksLength(TriangleRecords(s.triangles), 12);
    ChunksLength(verts, 32);
    ChunksLength(UVRecords(s.vertices), 8);
  }

  /** Reading back a written surface also leaves the file at its end. */
  lemma LoadAtSave(s: Surface, startPos: nat, data: seq<byte>)
    requires Storable(s, startPos) && Save(s, startPos).Ok?
    requires Placed(data, startPos, Save(s, startPos).value)
    ensures LoadAt(data, startPos) == Ok((Expected(s), startPos + s.counts.ofsEnd))
  {
    LoadSave(s, startPos, data);
  }
}

=== FILE: glm_triangle.dfy ===
/** Ghoul2 mesh triangles: three signed 32-bit vertex indices, stored in the
    opposite winding to the editor's, with a fix-up on load that keeps a
    zero index out of the last corner. */
module GlmTriangle {

  import opened Bytes

  const TRIANGLE_SIZE: nat := 12

  datatype Triangle = Triangle(a: int, b: int, c: int)

  predicate Storable(t: Triangle) { IsI32(t.a) && IsI32(t.b) && IsI32(t.c) }

  /** The same triangle with the same winding: one of the three cyclic
      rotations of the corners. */
  predicate SameWinding(t: Triangle, u: Triangle) {
    u == t || u == Triangle(t.b, t.c, t.a) || u == Triangle(t.c, t.a, t.b)
  }

  /** The opposite winding. */
  function Reversed(t: Triangle): Triangle {
    Triangle(t.c, t.b, t.a)
  }

  /** Writing: the corners in reverse order. */
  function Save(t: Triangle): (r: seq<byte>)
    requires Storable(t)
    ensures |r| == TRIANGLE_SIZE
    ensures ReadI32(r[..4]) == t.c && ReadI32(r[4..8]) == t.b && ReadI32(r[8..]) == t.a
  {
    I32RoundTrip(t.a);
    I32RoundTrip(t.b);
    I32RoundTrip(t.c);
    I32(t.c) + I32(t.b) + I32(t.a)
  }

  /** Reading: reverse the stored corners; if the last corner is then 0,
      rotate it to the front. */
  function Load(rec: seq<byte>): (r: Triangle)
    requires |rec| == TRIANGLE_SIZE
    ensures var stored := Triangle(ReadI32(rec[..4]), ReadI32(rec[4..8]), ReadI32(rec[8..]));
      SameWinding(Reversed(stored), r)
      && (stored.a != 0 ==> r == Reversed(stored))
      && (stored.a == 0 ==> r.a == 0)
  {
    var x, y, z := ReadI32(rec[..4]), ReadI32(rec[4..8]), ReadI32(rec[8..]);
    var t := Triangle(z, y, x);
    if t.c == 0 then Triangle(t.c, t.a, t.b) else t
  }

  /** Saving and reloading gives the triangle back when its last corner is
      not 0, and otherwise the rotation that moves the 0 to the front. */
  lemma LoadSave(t: Triangle)
    requires Storable(t)
    ensures t.c != 0 ==> Load(Save(t)) == t
    ensures t.c == 0 ==> Load(Save(t)) == Triangle(0, t.a, t.b)
    ensures SameWinding(t, Load(Save(t)))
  {
  }

  /** Reloading never changes a triangle a load produced whose last corner
      is not 0; either way the winding survives the round trip. */
  lemma SaveLoad(rec: seq<byte>)
    requires |rec| == TRIANGLE_SIZE
    ensures Storable(Load(rec))
    ensures Load(rec).c != 0 ==> Load(Save(Load(rec))) == Load(rec)
    ensures SameWinding(Load(rec), Load(Save(Load(rec))))
  {
    LoadSave(Load(rec));
  }
}

=== FILE: glm_vertex.dfy ===
/** The Ghoul2 mesh vertex record: six stored floats (normal, then
    position), one 32-bit word packing the weight count, the high bits of
    the ten-bit weights and the five-bit bone-reference indices, and four
    bytes holding the low eight bits of each weight. */
module GlmVertex {

  import opened Outcome
  import opened Bytes
  import opened Bits

  /** Bytes of one vertex record; the texture coordinates follow all
      vertices of a surface separately. */
  const VERTEX_SIZE: nat := 32
  const UV_SIZE: nat := 8
  const MAX_WEIGHTS: nat := 4

  /** A vertex about to be written. Floats are carried as their stored
      bytes; `weights` are the ten-bit quantized weights `round(w * 1023)`. */
  datatype Vertex = Vertex(
    normal: seq<byte>,
    co: seq<byte>,
    numWeights: int,
    weights: seq<int>,
    boneIndices: seq<int>)

  predicate HasGeometry(v: Vertex) { |v.normal| == 12 && |v.co| == 12 }

  /** A vertex as read back: weights are exact reals. */
  datatype Decoded = Decoded(
    normal: seq<byte>,
    co: seq<byte>,
    numWeights: nat,
    weights: seq<real>,
    boneIndices: seq<nat>)

  datatype VertexError =
    | WeightCountMismatch   // the assertion len(weights) == numWeights
    | IndexOutOfRange       // a fifth weight slot or a missing bone index
    | WordOutOfRange        // numWeights == 0 makes the word negative

  /** Bits 8 and 9 of a quantized weight. */
  function HiBits(q: int): nat { (q % 1024) / 256 }

  /** Bits 0 to 7 of a quantized weight. */
  function LoBits(q: int): byte { q % 256 }

  /** Bits 0 to 4 of a bone reference index. */
  function BoneField(b: int): nat { b % 32 }

  predicate Packable(v: Vertex) {
    1 <= v.numWeights <= MAX_WEIGHTS && |v.weights| == v.numWeights
    && |v.boneIndices| >= v.numWeights
  }

  /** The fields the loop ORs in for slots `i` up to `numWeights`: the high
      weight bits at `20 + 2i`, the bone index at `5i`. */
  function SlotsFrom(v: Vertex, i: nat): nat
    requires Packable(v) && i <= v.numWeights
    decreases v.numWeights - i
  {
    if i == v.numWeights then 0
    else HiBits(v.weights[i]) * Pow2(20 + 2 * i) + BoneField(v.boneIndices[i]) * Pow2(5 * i)
         + SlotsFrom(v, i + 1)
  }

  /** The packed word: the count minus one in bits 30 and 31, then the slots. */
  function Word(v: Vertex): nat
    requires Packable(v)
  {
    (v.numWeights - 1) * Pow2(30) + SlotsFrom(v, 0)
  }

  /** The four weight bytes; unused slots stay 0. */
  function LowBytes(v: Vertex): (r: seq<byte>)
    requires Packable(v)
    ensures |r| == 4
    ensures forall i | 0 <= i < 4 :: r[i] == (if i < v.numWeights then LoBits(v.weights[i]) else 0)
  {
    seq(4, i requires 0 <= i < 4 => if i < v.numWeights then LoBits(v.weights[i]) else 0)
  }

  /** The layout of the word as ten fields from bit 0 upwards: four bone
      indices, four high-weight pairs, two unused bits, the count. */
  function WordFields(v: Vertex): (r: seq<Field>)
    requires Packable(v)
    ensures |r| == 10 && AllFit(r)
  {
    var n := v.numWeights;
    var bone := (i: nat) requires i < 4 => if i < n then BoneField(v.boneIndices[i]) else 0;
    var hi := (i: nat) requires i < 4 => if i < n then HiBits(v.weights[i]) else 0;
    [Field(bone(0), 5), Field(bone(1), 5), Field(bone(2), 5), Field(bone(3), 5),
     Field(hi(0), 2), Field(hi(1), 2), Field(hi(2), 2), Field(hi(3), 2),
     Field(0, 2), Field(n - 1, 2)]
  }

  /** Writing a vertex record (without its uv). */
  function Encode(v: Vertex): (r: Result<seq<byte>, VertexError>)
    requires HasGeometry(v)
    ensures r.Ok? <==> Packable(v)
    ensures r.Err? && |v.weights| != v.numWeights ==> r.error == WeightCountMismatch
    ensures r.Ok? ==> |r.value| == VERTEX_SIZE && r.value[..24] == v.normal + v.co
  {
    if |v.weights| != v.numWeights then Err(WeightCountMismatch)
    else if v.numWeights > MAX_WEIGHTS || |v.boneIndices| < v.numWeights then Err(IndexOutOfRange)
    else if v.numWeights == 0 then Err(WordOutOfRange)
    else
      WordFits(v);
      Ok(v.normal + v.co + U32(Word(v)) + LowBytes(v))
  }

  /** A vertex of a model without a skeleton: one weight of 1.0 (all ten
      bits set) on local bone 0. */
  function Unweighted(normal: seq<byte>, co: seq<byte>): (v: Vertex)
    ensures Packable(v) && v.numWeights == 1
  {
    Vertex(normal, co, 1, [1023], [0])
  }

  function Sum(s: seq<real>): real {
    if |s| == 0 then 0.0 else s[0] + Sum(s[1..])
  }

  /** A ten-bit weight as a fraction of 1023. */
  function Normalized(q: int): real { q as real / 1023.0 }

  /** The ten bits of weight `i` as the reader puts them back together. */
  function Recomposed(lo: seq<byte>, word: nat, i: nat): int
    requires |lo| == 4 && i < 4
  {
    lo[i] + ((word / Pow2(20 + 2 * i)) % 4) * 256
  }

  /** The weight loop of the reader from slot `i` on, `total` being the sum
      of the weights before `i`: every weight but the last is its recomposed
      ten bits over 1023, the last makes the total exactly 1. */
  function DecodeWeights(lo: seq<byte>, word: nat, n: nat, i: nat, total: real): (r: seq<real>)
    requires |lo| == 4 && 1 <= n <= 4 && i < n
    ensures |r| == n - i
    ensures total + Sum(r) == 1.0
    ensures forall k | 0 <= k < n - i - 1 :: 0.0 <= r[k] <= 1.0
    decreases n - i
  {
    var w := Normalized(Recomposed(lo, word, i));
    if i + 1 < n then [w] + DecodeWeights(lo, word, n, i + 1, total + w)
    else [1.0 - total]
  }

  /** Reading a 32-byte vertex record. */
  function Decode(rec: seq<byte>): (d: Decoded)
    requires |rec| == VERTEX_SIZE
    ensures 1 <= d.numWeights <= MAX_WEIGHTS
    ensures |d.weights| == d.numWeights && |d.boneIndices| == d.numWeights
    ensures Sum(d.weights) == 1.0
    ensures forall i | 0 <= i < d.numWeights - 1 :: 0.0 <= d.weights[i] <= 1.0
    ensures forall i | 0 <= i < d.numWeights :: d.boneIndices[i] < 32
    ensures d.normal + d.co == rec[..24]
  {
    var word := ReadU32(rec[24..28]);
    Pow2Values();
    var n := word / Pow2(30) + 1;
    Decoded(rec[..12], rec[12..24], n,
            DecodeWeights(rec[28..32], word, n, 0, 0.0),
            seq(n, i requires 0 <= i < n => (word / Pow2(5 * i)) % 32))
  }

  // ---------------------------------------------------------------- proofs

  lemma Pow2Values()
    ensures Pow2(2) == 4 && Pow2(5) == 32 && Pow2(10) == 1024 && Pow2(15) == 32768
    ensures Pow2(20) == 0x10_0000 && Pow2(22) == 0x40_0000 && Pow2(24) == 0x100_0000
    ensures Pow2(26) == 0x400_0000 && Pow2(28) == 0x1000_0000 && Pow2(30) == 0x4000_0000
    ensures Pow2(32) == TWO_32
  {
  }

  lemma {:induction false} OffsetStep(fs: seq<Field>, j: nat)
    requires j < |fs|
    ensures Offset(fs, j + 1) == Offset(fs, j) + fs[j].width
    decreases j
  {
    if j > 0 {
      OffsetStep(fs[1..], j - 1);
      assert fs[1..][j - 1] == fs[j];
    }
  }

  lemma PackCons(fs: seq<Field>, k: nat)
    requires k < |fs|
    ensures Pack(fs[k..]) == fs[k].value + Pow2(fs[k].width) * Pack(fs[k + 1..])
    ensures Width(fs[k..]) == fs[k].width + Width(fs[k + 1..])
  {
    assert fs[k..][1..] == fs[k + 1..];
  }

  predicate VertexWidths(fs: seq<Field>) {
    |fs| == 10 && fs[0].width == 5 && fs[1].width == 5 && fs[2].width == 5 && fs[3].width == 5
    && fs[4].width == 2 && fs[5].width == 2 && fs[6].width == 2 && fs[7].width == 2
    && fs[8].width == 2 && fs[9].width == 2
  }

  /** A ten-field vertex layout read as one number, field by field. */
  lemma ClosedForm(fs: seq<Field>)
    requires VertexWidths(fs)
    ensures Pack(fs) == fs[0].value + 32 * fs[1].value + 1024 * fs[2].value + 32768 * fs[3].value
        + 0x10_0000 * fs[4].value + 0x40_0000 * fs[5].value + 0x100_0000 * fs[6].value
        + 0x400_0000 * fs[7].value + 0x1000_0000 * fs[8].value + 0x4000_0000 * fs[9].value
    ensures Width(fs) == 32
  {
    Pow2Values();
    assert fs[10..] == [];
    PackCons(fs, 9);
    assert Pack(fs[9..]) == fs[9].value;
    PackCons(fs, 8);
    assert Pack(fs[8..]) == fs[8].value + 4 * fs[9].value;
    PackCons(fs, 7);
    assert Pack(fs[7..]) == fs[7].value + 4 * fs[8].value + 16 * fs[9].value;
    PackCons(fs, 6);
    assert Pack(fs[6..]) == fs[6].value + 4 * fs[7].value + 16 * fs[8].value + 64 * fs[9].value;
    PackCons(fs, 5);
    assert Pack(fs[5..]) == fs[5].value + 4 * fs[6].value + 16 * fs[7].value + 64 * fs[8].value
      + 256 * fs[9].value;
    PackCons(fs, 4);
    assert Pack(fs[4..]) == fs[4].value + 4 * fs[5].value + 16 * fs[6].value + 64 * fs[7].value
      + 256 * fs[8].value + 1024 * fs[9].value;
    PackCons(fs, 3);
    PackCons(fs, 2);
    PackCons(fs, 1);
    PackCons(fs, 0);
    assert fs[0..] == fs;
  }

  /** The loop's sum of shifted slots is the mixed-radix packing of the
      layout. */
  lemma WordIsLayout(v: Vertex)
    requires Packable(v)
    ensures Word(v) == Pack(WordFields(v))
  {
    Pow2Values();
    ClosedForm(WordFields(v));
    var n := v.numWeights;
    var s3 := if n > 3 then SlotsFrom(v, 3) else 0;
    assert n > 3 ==> SlotsFrom(v, 3) == HiBits(v.weights[3]) * Pow2(26) + BoneField(v.boneIndices[3]) * Pow2(15);
    assert n > 2 ==> SlotsFrom(v, 2) == HiBits(v.weights[2]) * Pow2(24) + BoneField(v.boneIndices[2]) * Pow2(10) + s3;
    var s2 := if n > 2 then SlotsFrom(v, 2) else 0;
    assert n > 1 ==> SlotsFrom(v, 1) == HiBits(v.weights[1]) * Pow2(22) + BoneField(v.boneIndices[1]) * Pow2(5) + s2;
    var s1 := if n > 1 then SlotsFrom(v, 1) else 0;
    assert SlotsFrom(v, 0) == HiBits(v.weights[0]) * Pow2(20) + BoneField(v.boneIndices[0]) * Pow2(0) + s1;
  }

  lemma WordFits(v: Vertex)
    requires Packable(v)
    ensures IsU32(Word(v))
  {
    WordIsLayout(v);
    ClosedForm(WordFields(v));
    PackBound(WordFields(v));
    Pow2Values();
  }

  /** Where each of the ten fields starts. */
  lemma LayoutOffsets(fs: seq<Field>)
    requires VertexWidths(fs)
    ensures Offset(fs, 0) == 0 && Offset(fs, 1) == 5 && Offset(fs, 2) == 10 && Offset(fs, 3) == 15
    ensures Offset(fs, 4) == 20 && Offset(fs, 5) == 22 && Offset(fs, 6) == 24 && Offset(fs, 7) == 26
    ensures Offset(fs, 8) == 28 && Offset(fs, 9) == 30
  {
    assert Offset(fs, 0) == 0;
    OffsetStep(fs, 0); OffsetStep(fs, 1); OffsetStep(fs, 2); OffsetStep(fs, 3); OffsetStep(fs, 4);
    OffsetStep(fs, 5); OffsetStep(fs, 6); OffsetStep(fs, 7); OffsetStep(fs, 8);
  }

  /** The word's fields sit where the layout says: count in bits 30-31,
      bits 28-29 zero, high weight bits at `20 + 2i`, bone index at `5i`. */
  lemma WordLayout(v: Vertex)
    requires Packable(v)
    ensures Word(v) < TWO_32
    ensures Word(v) / Pow2(30) == v.numWeights - 1
    ensures (Word(v) / Pow2(28)) % 4 == 0
    ensures forall i | 0 <= i < v.numWeights ::
      (Word(v) / Pow2(5 * i)) % 32 == BoneField(v.boneIndices[i])
      && (Word(v) / Pow2(20 + 2 * i)) % 4 == HiBits(v.weights[i])
  {
    WordFits(v);
    WordIsLayout(v);
    Pow2Values();
    var fs := WordFields(v);
    LayoutOffsets(fs);
    forall j | 0 <= j < 10 { ExtractField(fs, j); }
    assert Word(v) / Pow2(30) < 4;
    assert (Word(v) / Pow2(30)) % 4 == v.numWeights - 1;
  }

  /** Weight `k` of the reader's loop is the recomposed ten-bit value. */
  lemma {:induction false} DecodeWeightsAt(lo: seq<byte>, word: nat, n: nat, i: nat, total: real, k: nat)
    requires |lo| == 4 && 1 <= n <= 4 && i < n && k < n - i - 1
    ensures DecodeWeights(lo, word, n, i, total)[k] == Normalized(Recomposed(lo, word, i + k))
    decreases k
  {
    var w := Normalized(Recomposed(lo, word, i));
    var rest := DecodeWeights(lo, word, n, i + 1, total + w);
    assert DecodeWeights(lo, word, n, i, total) == [w] + rest;
    if k > 0 {
      DecodeWeightsAt(lo, word, n, i + 1, total + w, k - 1);
      assert ([w] + rest)[k] == rest[k - 1];
    }
  }

  /** The two stored parts of a weight make up its low ten bits. */
  lemma Recompose(q: int)
    ensures LoBits(q) + HiBits(q) * 256 == q % 1024
  {
    var m := q % 1024;
    assert q == 256 * (4 * (q / 1024) + m / 256) + m % 256;
    DivModUnique(q, 256, 4 * (q / 1024) + m / 256, m % 256);
  }

  /** Reading back a written vertex recovers its geometry, its weight count,
      every bone index modulo 32 and the low ten bits of every weight but
      the last. */
  lemma DecodeEncode(v: Vertex)
    requires HasGeometry(v) && Packable(v)
    ensures Encode(v).Ok?
    ensures var d := Decode(Encode(v).value);
      d.normal == v.normal && d.co == v.co && d.numWeights == v.numWeights
      && (forall i | 0 <= i < v.numWeights :: d.boneIndices[i] == BoneField(v.boneIndices[i]))
      && (forall i | 0 <= i < v.numWeights - 1 :: d.weights[i] == Normalized(v.weights[i] % 1024))
  {
    WordLayout(v);
    WordFits(v);
    var rec := Encode(v).value;
    assert rec[24..28] == U32(Word(v));
    U32RoundTrip(Word(v));
    var lo := rec[28..32];
    assert lo == LowBytes(v);
    var d := Decode(rec);
    assert d.numWeights == v.numWeights;
    forall i | 0 <= i < v.numWeights - 1
      ensures d.weights[i] == Normalized(v.weights[i] % 1024)
    {
      DecodeWeightsAt(lo, Word(v), v.numWeights, 0, 0.0, i);
      Recompose(v.weights[i]);
      assert Recomposed(lo, Word(v), i) == v.weights[i] % 1024;
    }
  }

  lemma {:induction false} SumSnoc(s: seq<real>)
    requires |s| > 0
    ensures Sum(s) == Sum(s[..|s| - 1]) + s[|s| - 1]
    decreases |s|
  {
    if |s| > 1 {
      SumSnoc(s[1..]);
      assert s[1..][..|s| - 2] == s[..|s| - 1][1..];
    }
  }

  /** Two weight lists that agree up to the last entry and both sum to 1
      agree everywhere. */
  lemma SameLast(a: seq<real>, b: seq<real>)
    requires |a| == |b| > 0 && a[..|a| - 1] == b[..|b| - 1]
    requires Sum(a) == 1.0 && Sum(b) == 1.0
    ensures a == b
  {
    SumSnoc(a);
    SumSnoc(b);
    assert a == a[..|a| - 1] + [a[|a| - 1]];
    assert b == b[..|b| - 1] + [b[|b| - 1]];
  }

  /** The stored bits of the last weight are never read: two vertices that
      differ only in their last weight read back identically. */
  lemma LastWeightIgnored(v: Vertex, u: Vertex)
    requires HasGeometry(v) && Packable(v) && HasGeometry(u) && Packable(u)
    requires v.normal == u.normal && v.co == u.co && v.numWeights == u.numWeights
    requires v.boneIndices == u.boneIndices
    requires v.weights[..v.numWeights - 1] == u.weights[..u.numWeights - 1]
    ensures Decode(Encode(v).value) == Decode(Encode(u).value)
  {
    DecodeEncode(v);
    DecodeEncode(u);
    var dv := Decode(Encode(v).value);
    var du := Decode(Encode(u).value);
    var n := v.numWeights;
    forall i | 0 <= i < n - 1 ensures dv.weights[i] == du.weights[i] {
      assert v.weights[..n - 1][i] == u.weights[..n - 1][i];
    }
    assert dv.weights[..n - 1] == du.weights[..n - 1];
    SameLast(dv.weights, du.weights);
    assert dv.boneIndices == du.boneIndices;
  }

  /** Without a skeleton a vertex reads back fully weighted on local bone 0. */
  lemma UnweightedDecodes(normal: seq<byte>, co: seq<byte>)
    requires |normal| == 12 && |co| == 12
    ensures Encode(Unweighted(normal, co)).Ok?
    ensures var d := Decode(Encode(Unweighted(normal, co)).value);
      d.normal == normal && d.co == co && d.numWeights == 1 && d.weights == [1.0] && d.boneIndices == [0]
  {
    var v := Unweighted(normal, co);
    DecodeEncode(v);
    var d := Decode(Encode(v).value);
    assert Sum(d.weights) == d.weights[0] + Sum(d.weights[1..]);
  }
}

=== FILE: iohelpers.dfy ===
/** `toQ3String`: decoding a fixed 64-byte NUL-terminated name field of the
    legacy reader. The text `bytes.decode()` returns is represented by its
    UTF-8 bytes: decoding succeeds exactly on well-formed UTF-8, and a
    successful decoding gives back the bytes unchanged. */
module IoHelpers {

  import opened Bytes
  import opened Outcome

  /** "\0odels/" — a model path whose first letter was blanked out. */
  const MODELS_BLANKED: seq<byte> := [0, 111, 100, 101, 108, 115, 47]
  /** "\0omaterial]" — the eleven bytes the reader compares with. */
  const MATERIAL_BLANKED: seq<byte> := [0, 111, 109, 97, 116, 101, 114, 105, 97, 108, 93]
  /** "\0nomaterial]" — twelve bytes: "[nomaterial]" with its bracket blanked
      out, the marker the material manager's copy of this repair tests and
      the name it treats as "no material". */
  const NOMATERIAL_BLANKED: seq<byte> := [0, 110, 111, 109, 97, 116, 101, 114, 105, 97, 108, 93]
  const CHAR_M: byte := 109
  const CHAR_OPEN_BRACKET: byte := 91

  /** Why a name field does not decode: `struct.unpack("64s", …)` refuses
      any other length, and `bytes.decode()` refuses ill-formed UTF-8. */
  datatype NameError = WrongLength | NotUtf8

  /** Python's `bs[:n]`. */
  function Prefix(bs: seq<byte>, n: nat): (r: seq<byte>)
    ensures |r| == if n < |bs| then n else |bs|
    ensures r <= bs
  {
    if n < |bs| then bs[..n] else bs
  }

  /** Python's `bs.find(b"\0")`: the lowest index of a NUL, or -1. */
  function FindNul(bs: seq<byte>): (r: int)
    ensures -1 <= r < |bs|
    ensures r == -1 <==> forall i | 0 <= i < |bs| :: bs[i] != 0
    ensures r >= 0 ==> bs[r] == 0 && forall i | 0 <= i < r :: bs[i] != 0
  {
    if |bs| == 0 then -1
    else if bs[0] == 0 then 0
    else
      var k := FindNul(bs[1..]);
      if k == -1 then -1 else k + 1
  }

  /** Python's `bs[1:]`, empty for an empty `bs`. */
  function Tail(bs: seq<byte>): (r: seq<byte>)
    ensures |bs| > 0 ==> [bs[0]] + r == bs
    ensures |bs| == 0 ==> r == []
  {
    if |bs| == 0 then [] else bs[1..]
  }

  /** The `"\0odels/"` repair: restore the blanked-out "m". */
  function RestoreModels(bs: seq<byte>): (r: seq<byte>)
    requires |bs| == QPATH
    ensures |r| == QPATH
    ensures Prefix(bs, 7) == MODELS_BLANKED ==> r[0] == CHAR_M && r[1..] == bs[1..]
    ensures Prefix(bs, 7) != MODELS_BLANKED ==> r == bs
  {
    if Prefix(bs, 7) == MODELS_BLANKED then [CHAR_M] + bs[1..] else bs
  }

  /** The NUL-free prefix of `bs` up to its first NUL, or all of it. */
  function CutAtNul(bs: seq<byte>): (r: seq<byte>)
    ensures r <= bs
    ensures forall i | 0 <= i < |r| :: r[i] != 0
    ensures |r| == |bs| || bs[|r|] == 0
  {
    var end := FindNul(bs);
    if end == -1 then bs else bs[..end]
  }

  // ------------------------------------------------------------ UTF-8

  predicate InRange(b: byte, lo: byte, hi: byte) {
    lo <= b <= hi
  }

  /** The length of the well-formed UTF-8 sequence `bs` starts with, or 0
      when it starts with none (table 3-7 of the Unicode Standard, which
      Python's strict decoder follows): no overlong forms, no surrogates,
      nothing above U+10FFFF. */
  function Utf8Lead(bs: seq<byte>): (n: nat)
    requires |bs| > 0
    ensures n <= 4 && n <= |bs|
    ensures n == 1 <==> bs[0] < 0x80
    ensures bs[0] < 0xC2 && n != 1 ==> n == 0
  {
    var b := bs[0];
    if b < 0x80 then 1
    else if 0xC2 <= b <= 0xDF then
      if 2 <= |bs| && InRange(bs[1], 0x80, 0xBF) then 2 else 0
    else if 0xE0 <= b <= 0xEF then
      var lo := if b == 0xE0 then 0xA0 else 0x80;
      var hi := if b == 0xED then 0x9F else 0xBF;
      if 3 <= |bs| && InRange(bs[1], lo, hi) && InRange(bs[2], 0x80, 0xBF) then 3 else 0
    else if 0xF0 <= b <= 0xF4 then
      var lo := if b == 0xF0 then 0x90 else 0x80;
      var hi := if b == 0xF4 then 0x8F else 0xBF;
      if 4 <= |bs| && InRange(bs[1], lo, hi) && InRange(bs[2], 0x80, 0xBF) && InRange(bs[3], 0x80, 0xBF) then 4
      else 0
    else 0
  }

  /** `bs` is a run of well-formed UTF-8 sequences. */
  predicate Utf8(bs: seq<byte>)
    decreases |bs|
  {
    |bs| == 0 || (Utf8Lead(bs) > 0 && Utf8(bs[Utf8Lead(bs)..]))
  }

  predicate Ascii(bs: seq<byte>) {
    forall i | 0 <= i < |bs| :: bs[i] < 0x80
  }

  /** ASCII text is well-formed UTF-8. */
  lemma {:induction false} AsciiUtf8(bs: seq<byte>)
    requires Ascii(bs)
    ensures Utf8(bs)
    decreases |bs|
  {
    if |bs| > 0 {
      assert Utf8Lead(bs) == 1;
      AsciiUtf8(bs[1..]);
    }
  }

  /** A byte from 0x80 to 0xC1, or from 0xF5 up, cannot start a sequence. */
  lemma BadLeadNotUtf8(bs: seq<byte>)
    requires |bs| > 0 && (0x80 <= bs[0] < 0xC2 || 0xF5 <= bs[0])
    ensures !Utf8(bs)
  {
  }

  /** `bytes.decode()`: the text, as its UTF-8 bytes, or the decoding error. */
  function Decode(bs: seq<byte>): (r: Result<seq<byte>, NameError>)
    ensures r.Ok? <==> Utf8(bs)
    ensures r.Ok? ==> r.value == bs
    ensures r.Err? ==> r.error == NotUtf8
  {
    if Utf8(bs) then Ok(bs) else Err(NotUtf8)
  }

  // ------------------------------------------------------- toQ3String

  /** `toQ3String` as written. The second repair compares a 12-byte slice
      with an 11-byte literal. */
  function ToQ3String(data: seq<byte>): (r: Result<seq<byte>, NameError>)
    ensures r == Err(WrongLength) <==> |data| != QPATH
    ensures r.Ok? ==> |r.value| <= QPATH && Utf8(r.value)
    ensures r.Ok? ==> forall i | 0 <= i < |r.value| :: r.value[i] != 0
    ensures |data| == QPATH && Ascii(data) ==> r.Ok?
  {
    if |data| != QPATH then Err(WrongLength)
    else
      var bs := RestoreModels(data);
      var bs' := if Prefix(bs, 12) == MATERIAL_BLANKED then [CHAR_OPEN_BRACKET] + Tail(bs) else bs;
      var cut := CutAtNul(bs');
      assert Ascii(data) ==> Ascii(cut) by {
        if Ascii(data) {
          assert Ascii(bs');
          assert forall i | 0 <= i < |cut| :: cut[i] == bs'[i];
        }
      }
      if Ascii(cut) then AsciiUtf8(cut); Decode(cut) else Decode(cut)
  }

  /** A field whose first byte is 0xFF is refused as ill-formed UTF-8,
      as `bytes.decode()` raises on it. */
  lemma NonUtf8Refused()
    ensures ToQ3String([0xFF] + Zeros(QPATH - 1)) == Err(NotUtf8)
    ensures ToQ3StringIntended([0xFF] + Zeros(QPATH - 1)) == Err(NotUtf8)
  {
    var data: seq<byte> := [0xFF] + Zeros(QPATH - 1);
    assert Prefix(data, 7) != MODELS_BLANKED by { assert Prefix(data, 7)[0] != MODELS_BLANKED[0]; }
    MaterialRepairIsDead(data);
    assert Prefix(data, 12) != NOMATERIAL_BLANKED by { assert Prefix(data, 12)[0] != NOMATERIAL_BLANKED[0]; }
    assert FindNul(data) == 1 by { assert data[1] == 0; assert data[0] != 0; }
    BadLeadNotUtf8(data[..1]);
  }

  /** The `"\0omaterial]"` branch of `ToQ3String` never fires: the result is
      the NUL-terminated prefix of the name after the "models/" repair alone. */
  lemma MaterialRepairIsDead(data: seq<byte>)
    requires |data| == QPATH
    ensures ToQ3String(data) == Decode(CutAtNul(RestoreModels(data)))
  {
    var bs := RestoreModels(data);
    assert |Prefix(bs, 12)| == 12 != |MATERIAL_BLANKED|;
  }

  /** A name field starting with the blanked "[nomaterial]" marker decodes
      to the empty string as written, and to "[nomaterial]" with the
      intended comparison. */
  lemma MaterialRepairCounterexample()
    ensures var data := NOMATERIAL_BLANKED + Zeros(QPATH - 12);
      && ToQ3String(data) == Ok([])
      && ToQ3StringIntended(data) == Ok([CHAR_OPEN_BRACKET] + NOMATERIAL_BLANKED[1..])
  {
    BlankedAsWritten();
    BlankedIntended();
  }

  lemma BlankedAsWritten()
    ensures ToQ3String(NOMATERIAL_BLANKED + Zeros(QPATH - 12)) == Ok([])
  {
    var data := NOMATERIAL_BLANKED + Zeros(QPATH - 12);
    assert Prefix(data, 7) != MODELS_BLANKED by { assert Prefix(data, 7)[1] != MODELS_BLANKED[1]; }
    MaterialRepairIsDead(data);
    assert data[0] == 0;
    AsciiUtf8([]);
  }

  lemma BlankedIntended()
    ensures ToQ3StringIntended(NOMATERIAL_BLANKED + Zeros(QPATH - 12))
      == Ok([CHAR_OPEN_BRACKET] + NOMATERIAL_BLANKED[1..])
  {
    var data := NOMATERIAL_BLANKED + Zeros(QPATH - 12);
    assert Prefix(data, 7) != MODELS_BLANKED by { assert Prefix(data, 7)[1] != MODELS_BLANKED[1]; }
    assert Prefix(data, 12) == NOMATERIAL_BLANKED;
    var fixed := [CHAR_OPEN_BRACKET] + data[1..];
    var name := [CHAR_OPEN_BRACKET] + NOMATERIAL_BLANKED[1..];
    assert fixed[..12] == name;
    assert fixed[12] == 0;
    FirstNulAt(fixed, 12);
    AsciiUtf8(name);
  }

  /** The first NUL, found where it is. */
  lemma FirstNulAt(bs: seq<byte>, k: nat)
    requires k < |bs| && bs[k] == 0 && forall i | 0 <= i < k :: bs[i] != 0
    ensures CutAtNul(bs) == bs[..k]
  {
    assert FindNul(bs) == k;
  }

  /** `toQ3String` as evidently intended: the 12-byte slice is compared with
      the 12-byte marker "\0nomaterial]". */
  function ToQ3StringIntended(data: seq<byte>): (r: Result<seq<byte>, NameError>)
    ensures r == Err(WrongLength) <==> |data| != QPATH
    ensures r.Ok? ==> |r.value| <= QPATH && Utf8(r.value)
    ensures r.Ok? ==> forall i | 0 <= i < |r.value| :: r.value[i] != 0
    ensures |data| == QPATH && Ascii(data) ==> r.Ok?
  {
    if |data| != QPATH then Err(WrongLength)
    else
      var bs := RestoreModels(data);
      var bs' := if Prefix(bs, 12) == NOMATERIAL_BLANKED then [CHAR_OPEN_BRACKET] + bs[1..] else bs;
      var cut := CutAtNul(bs');
      assert Ascii(data) ==> Ascii(cut) by {
        if Ascii(data) {
          assert Ascii(bs');
          assert forall i | 0 <= i < |cut| :: cut[i] == bs'[i];
        }
      }
      if Ascii(cut) then AsciiUtf8(cut); Decode(cut) else Decode(cut)
  }

  /** With the intended comparison both repairs take effect: a name blanked
      as "\0nomaterial]" comes back as "[nomaterial]…", one blanked as
      "\0odels/" as "models/…", and any other field is only cut at its
      first NUL. */
  lemma IntendedRepairsApply(data: seq<byte>)
    requires |data| == QPATH
    ensures data[..12] == NOMATERIAL_BLANKED ==> var cut := CutAtNul([CHAR_OPEN_BRACKET] + data[1..]);
      && |cut| >= 12 && cut[..12] == [CHAR_OPEN_BRACKET] + NOMATERIAL_BLANKED[1..]
      && ToQ3StringIntended(data) == Decode(cut)
    ensures data[..7] == MODELS_BLANKED ==> var cut := CutAtNul([CHAR_M] + data[1..]);
      && |cut| >= 7 && cut[..7] == [CHAR_M] + MODELS_BLANKED[1..]
      && ToQ3StringIntended(data) == Decode(cut)
    ensures data[..12] != NOMATERIAL_BLANKED && data[..7] != MODELS_BLANKED ==>
      ToQ3StringIntended(data) == Decode(CutAtNul(data))
  {
    var bs := RestoreModels(data);
    if data[..12] == NOMATERIAL_BLANKED {
      assert Prefix(data, 7) != MODELS_BLANKED by { assert data[1] != MODELS_BLANKED[1]; }
      assert Prefix(bs, 12) == NOMATERIAL_BLANKED;
      var fixed := [CHAR_OPEN_BRACKET] + bs[1..];
      assert fixed[..12] == [CHAR_OPEN_BRACKET] + NOMATERIAL_BLANKED[1..];
      NoNulInPrefix(fixed, 12);
    }
    if data[..7] == MODELS_BLANKED {
      assert Prefix(data, 7) == MODELS_BLANKED;
      assert bs[..7] == [CHAR_M] + MODELS_BLANKED[1..];
      assert Prefix(bs, 12) != NOMATERIAL_BLANKED by { assert bs[0] != 0; }
      NoNulInPrefix(bs, 7);
    }
    if data[..12] != NOMATERIAL_BLANKED && data[..7] != MODELS_BLANKED {
      assert Prefix(data, 7) == data[..7];
      assert bs == data;
      assert Prefix(bs, 12) == data[..12];
    }
  }

  /** A prefix free of NUL survives the cut. */
  lemma NoNulInPrefix(bs: seq<byte>, n: nat)
    requires n <= |bs|
    requires forall i | 0 <= i < n :: bs[i] != 0
    ensures |CutAtNul(bs)| >= n && CutAtNul(bs)[..n] == bs[..n]
  {
  }
}

=== FILE: layout.dfy ===
/** Offset arithmetic shared by the container formats: a table of sizes is
    turned into running offsets, and consecutive records are concatenated so
    that record `i` starts at the sum of the sizes before it. */
module Layout {

  import opened Outcome
  import opened Bytes

  /** The sum of a list of sizes. */
  function Total(sizes: seq<int>): int {
    if |sizes| == 0 then 0 else sizes[0] + Total(sizes[1..])
  }

  lemma {:induction false} TotalSnoc(sizes: seq<int>, x: int)
    ensures Total(sizes + [x]) == Total(sizes) + x
    decreases |sizes|
  {
    if |sizes| == 0 {
      assert (sizes + [x])[1..] == [];
    } else {
      TotalSnoc(sizes[1..], x);
      assert (sizes + [x])[1..] == sizes[1..] + [x];
    }
  }

  lemma TotalPrefixStep(sizes: seq<int>, i: nat)
    requires i < |sizes|
    ensures Total(sizes[..i + 1]) == Total(sizes[..i]) + sizes[i]
  {
    TotalSnoc(sizes[..i], sizes[i]);
    assert sizes[..i + 1] == sizes[..i] + [sizes[i]];
  }

  /** A total splits at any point. */
  lemma {:induction false} TotalSplit(sizes: seq<int>, i: nat)
    requires i <= |sizes|
    ensures Total(sizes) == Total(sizes[..i]) + Total(sizes[i..])
    decreases i
  {
    if i == 0 {
      assert sizes[..0] == [] && sizes[0..] == sizes;
    } else {
      TotalSplit(sizes[1..], i - 1);
      assert sizes[..i][1..] == sizes[1..][..i - 1];
      assert sizes[1..][i - 1..] == sizes[i..];
    }
  }

  /** A prefix total seen from the second size on. */
  lemma TotalPrefixShift(sizes: seq<int>, j: nat)
    requires j < |sizes|
    ensures Total(sizes[..j + 1]) == sizes[0] + Total(sizes[1..][..j])
  {
    assert sizes[..j + 1][1..] == sizes[1..][..j];
  }

  lemma {:induction false} TotalNonNegative(sizes: seq<int>)
    requires forall i | 0 <= i < |sizes| :: sizes[i] >= 0
    ensures Total(sizes) >= 0
    decreases |sizes|
  {
    if |sizes| > 0 {
      TotalNonNegative(sizes[1..]);
    }
  }

  /** The offset loop of the formats: each record's offset is appended, then
      its size added. */
  function Offsets(base: int, sizes: seq<int>): (r: seq<int>)
    ensures |r| == |sizes|
    ensures forall i | 0 <= i < |sizes| :: r[i] == base + Total(sizes[..i])
    decreases |sizes|
  {
    if |sizes| == 0 then []
    else
      var rest := Offsets(base + sizes[0], sizes[1..]);
      forall i | 1 <= i < |sizes|
        ensures rest[i - 1] == base + Total(sizes[..i])
      {
        assert sizes[..i][1..] == sizes[1..][..i - 1];
      }
      [base] + rest
  }

  /** Consecutive offsets differ by the size of the record between them. */
  lemma OffsetsStep(base: int, sizes: seq<int>, i: nat)
    requires i + 1 < |sizes|
    ensures Offsets(base, sizes)[i + 1] == Offsets(base, sizes)[i] + sizes[i]
  {
    TotalPrefixStep(sizes, i);
  }

  /** Each offset is the previous one plus the size between them, and the
      last offset plus the last size is the running total. */
  lemma OffsetsChain(base: int, sizes: seq<int>)
    ensures forall i | 0 <= i < |sizes| - 1 :: Offsets(base, sizes)[i + 1] == Offsets(base, sizes)[i] + sizes[i]
    ensures |sizes| > 0 ==> base + Total(sizes) == Offsets(base, sizes)[|sizes| - 1] + sizes[|sizes| - 1]
  {
    forall i | 0 <= i < |sizes| - 1
      ensures Offsets(base, sizes)[i + 1] == Offsets(base, sizes)[i] + sizes[i]
    {
      OffsetsStep(base, sizes, i);
    }
    if |sizes| > 0 {
      TotalPrefixStep(sizes, |sizes| - 1);
      assert sizes[..|sizes|] == sizes;
    }
  }

  function Lengths(pieces: seq<seq<byte>>): (r: seq<int>)
    ensures |r| == |pieces| && forall i | 0 <= i < |pieces| :: r[i] == |pieces[i]|
  {
    seq(|pieces|, i requires 0 <= i < |pieces| => |pieces[i]|)
  }

  /** Record `i` of a concatenation starts at the sum of the lengths before
      it, and the whole is as long as all records together. */
  lemma {:induction false} ConcatAt(pieces: seq<seq<byte>>, i: nat)
    requires i < |pieces|
    ensures var start := Total(Lengths(pieces)[..i]);
      0 <= start && start + |pieces[i]| <= |Concat(pieces)|
      && Concat(pieces)[start..start + |pieces[i]|] == pieces[i]
    decreases i
  {
    ConcatLength(pieces);
    if i == 0 {
      assert Lengths(pieces)[..0] == [];
    } else {
      var tail := pieces[1..];
      ConcatAt(tail, i - 1);
      assert Lengths(pieces)[..i][1..] == Lengths(tail)[..i - 1];
      var start := Total(Lengths(tail)[..i - 1]);
      assert Concat(pieces) == pieces[0] + Concat(tail);
      assert Concat(pieces)[|pieces[0]| + start..|pieces[0]| + start + |pieces[i]|]
          == Concat(tail)[start..start + |tail[i - 1]|];
    }
  }

  lemma {:induction false} ConcatLength(pieces: seq<seq<byte>>)
    ensures |Concat(pieces)| == Total(Lengths(pieces))
    decreases |pieces|
  {
    if |pieces| > 0 {
      ConcatLength(pieces[1..]);
      assert Lengths(pieces)[1..] == Lengths(pieces[1..]);
    }
  }

  /** `r` occupies the data from position `p` on, byte by byte. */
  predicate Placed(data: seq<byte>, p: int, r: seq<byte>)
    decreases |r|
  {
    0 <= p && p + |r| <= |data| && (|r| == 0 || (data[p] == r[0] && Placed(data, p + 1, r[1..])))
  }

  /** Placement is the slice of the data at `p` being `r`. */
  lemma {:induction false} PlacedSlice(data: seq<byte>, p: int, r: seq<byte>)
    ensures Placed(data, p, r) <==> 0 <= p && p + |r| <= |data| && data[p..p + |r|] == r
    decreases |r|
  {
    if |r| > 0 && 0 <= p && p + |r| <= |data| {
      PlacedSlice(data, p + 1, r[1..]);
      assert data[p..p + |r|] == [data[p]] + data[p + 1..p + |r|];
      assert r == [r[0]] + r[1..];
    }
  }


  /** Two pieces placed one after the other: the second starts where the
      first ends. */
  lemma {:induction false} PlacedAppend(data: seq<byte>, p: int, x: seq<byte>, y: seq<byte>, q: int)
    requires q == p + |x|
    ensures Placed(data, p, x + y) <==> Placed(data, p, x) && Placed(data, q, y)
    decreases |x|
  {
    if |x| > 0 {
      PlacedAppend(data, p + 1, x[1..], y, q);
      assert (x + y)[1..] == x[1..] + y;
    } else {
      assert x + y == y;
    }
  }

  /** Record `i` of a placed concatenation is placed where the records
      before it end. */
  lemma PlacedPiece(data: seq<byte>, p: int, pieces: seq<seq<byte>>, i: nat)
    requires i < |pieces| && Placed(data, p, Concat(pieces))
    ensures 0 <= Total(Lengths(pieces)[..i])
    ensures Placed(data, p + Total(Lengths(pieces)[..i]), pieces[i])
  {
    var start := Total(Lengths(pieces)[..i]);
    ConcatAt(pieces, i);
    PlacedSlice(data, p, Concat(pieces));
    SliceOfSlice(data, p, |Concat(pieces)|, start, start + |pieces[i]|);
    PlacedSlice(data, p + start, pieces[i]);
  }

  /** The four parts of a file that starts `data` each lie where the parts
      before them end. */
  lemma PartsOfPrefix(data: seq<byte>, a: seq<byte>, b: seq<byte>, c: seq<byte>, d: seq<byte>,
                      p1: int, p2: int, p3: int)
    requires a + b + c + d <= data
    requires p1 == |a| && p2 == p1 + |b| && p3 == p2 + |c|
    ensures a <= data && Placed(data, p1, b) && Placed(data, p2, c) && Placed(data, p3, d)
  {
    var w := a + b + c + d;
    PrefixPart(data, w, 0, a);
    PrefixPart(data, w, p1, b);
    PrefixPart(data, w, p2, c);
    PrefixPart(data, w, p3, d);
  }

  /** A part of a prefix of the data is placed where it lies in that prefix. */
  lemma PrefixPart(data: seq<byte>, w: seq<byte>, p: nat, x: seq<byte>)
    requires w <= data && p + |x| <= |w| && w[p..p + |x|] == x
    ensures Placed(data, p, x) && (p == 0 ==> x <= data)
  {
    assert data[p..p + |x|] == w[p..p + |x|];
    PlacedSlice(data, p, x);
  }

  /** Equal-sized records placed together read back one by one. */
  lemma ChunksPlaced(data: seq<byte>, at: int, pieces: seq<seq<byte>>, size: nat)
    requires forall i | 0 <= i < |pieces| :: |pieces[i]| == size
    requires Placed(data, at, Concat(pieces))
    ensures ReadChunks(data, at, |pieces|, size) == Some(pieces)
  {
    PlacedSlice(data, at, Concat(pieces));
    ReadChunksConcat(data, at, pieces, size);
  }

  /** Packed 32-bit integers read back as the same integers. */
  lemma I32sPlaced(data: seq<byte>, at: int, xs: seq<int>)
    requires forall i | 0 <= i < |xs| :: IsI32(xs[i])
    requires Placed(data, at, I32s(xs))
    ensures ReadI32s(data, at, |xs|) == Some(xs)
  {
    PlacedSlice(data, at, I32s(xs));
    ReadI32sOfI32s(data, at, xs);
  }
}

=== FILE: outcome.dfy ===
/** Success/failure values shared by every codec module.

    The original code reports failures as `(False, ErrorMessage)` pairs or by
    raising; here each fallible operation returns a `Result` whose error part
    is a datatype naming the failure. */
module Outcome {

  datatype Option<+T> = None | Some(value: T) {
    predicate IsFailure() { None? }

    function PropagateFailure<U>(): Option<U>
      requires None?
    {
      None
    }

    function Extract(): T
      requires Some?
    {
      value
    }
  }

  datatype Result<+T, +E> = Ok(value: T) | Err(error: E) {
    predicate IsFailure() { Err? }

    function PropagateFailure<U>(): Result<U, E>
      requires Err?
    {
      Err(error)
    }

    function Extract(): T
      requires Ok?
    {
      value
    }
  }
}

=== FILE: reading.dfy ===
/** What can go wrong while reading a container file, and the few steps of
    Python's file handling every reader shares. */
module Reading {

  import opened Outcome

  datatype LoadError =
    | Truncated          // a short read
    | NegativeSeek       // a seek before the start of the file
    | HeaderMismatch     // the stored header offset is not minus the start
    | BadCount           // a negative count in a struct format
    | IndexMismatch      // a surface out of place within its level
    | EndMismatch        // a structure does not end where its size says
    | BadRange           // all frames asked for from a frame other than 0

  /** A read that came up short fails with `e`. */
  function Need<T>(o: Option<T>, e: LoadError): Result<T, LoadError> {
    match o
    case Some(x) => Ok(x)
    case None => Err(e)
  }

  /** `seek` to an absolute position; a negative one raises. */
  function Seek(pos: int): Result<nat, LoadError> {
    if pos < 0 then Err(NegativeSeek) else Ok(pos)
  }

  /** Python's `range(n)` is empty for a negative `n`. */
  function RangeCount(n: int): nat { if n < 0 then 0 else n }
}

=== FILE: stable_sort.dfy ===
/** Python's `list.sort(key=...)` on integer keys: a stable sort, so
    elements with equal keys keep their relative order. */
module StableSort {

  predicate SortedBy<T>(s: seq<T>, key: T -> int) {
    forall i, j | 0 <= i < j < |s| :: key(s[i]) <= key(s[j])
  }

  /** `x` placed after every element whose key is not greater than its own. */
  function Insert<T>(s: seq<T>, x: T, key: T -> int): (r: seq<T>)
    ensures |r| == |s| + 1
  {
    if s == [] then [x]
    else if key(s[|s| - 1]) <= key(x) then s + [x]
    else Insert(s[..|s| - 1], x, key) + [s[|s| - 1]]
  }

  function SortBy<T>(xs: seq<T>, key: T -> int): (r: seq<T>)
    ensures |r| == |xs|
  {
    if xs == [] then [] else Insert(SortBy(xs[..|xs| - 1], key), xs[|xs| - 1], key)
  }

  /** The elements of `s` with key `k`, in order. */
  function WithKey<T>(s: seq<T>, key: T -> int, k: int): seq<T> {
    if s == [] then []
    else WithKey(s[..|s| - 1], key, k) + (if key(s[|s| - 1]) == k then [s[|s| - 1]] else [])
  }

  lemma {:induction false} InsertSorted<T>(s: seq<T>, x: T, key: T -> int)
    requires SortedBy(s, key)
    ensures SortedBy(Insert(s, x, key), key)
  {
    if s != [] && key(s[|s| - 1]) > key(x) {
      var front, last := s[..|s| - 1], s[|s| - 1];
      assert SortedBy(front, key);
      InsertSorted(front, x, key);
      InsertPermutes(front, x, key);
      var r := Insert(front, x, key);
      forall i | 0 <= i < |r| ensures key(r[i]) <= key(last) {
        assert r[i] in multiset(front) + multiset{x};
        if r[i] != x {
          var j :| 0 <= j < |front| && front[j] == r[i];
        }
      }
    }
  }

  lemma {:induction false} InsertPermutes<T>(s: seq<T>, x: T, key: T -> int)
    ensures multiset(Insert(s, x, key)) == multiset(s) + multiset{x}
  {
    if s != [] && key(s[|s| - 1]) > key(x) {
      var front := s[..|s| - 1];
      InsertPermutes(front, x, key);
      assert s == front + [s[|s| - 1]];
    }
  }

  lemma WithKeySnoc<T>(s: seq<T>, y: T, key: T -> int, k: int)
    ensures WithKey(s + [y], key, k) == WithKey(s, key, k) + (if key(y) == k then [y] else [])
  {
    assert (s + [y])[..|s|] == s;
  }

  /** Inserting `x` adds it after the elements of its own key. */
  lemma {:induction false} InsertWithKey<T>(s: seq<T>, x: T, key: T -> int, k: int)
    requires SortedBy(s, key)
    ensures WithKey(Insert(s, x, key), key, k) == WithKey(s, key, k) + (if key(x) == k then [x] else [])
  {
    if s != [] && key(s[|s| - 1]) > key(x) {
      var front, last := s[..|s| - 1], s[|s| - 1];
      assert SortedBy(front, key);
      InsertWithKey(front, x, key, k);
      WithKeySnoc(Insert(front, x, key), last, key, k);
      assert s == front + [last];
      WithKeySnoc(front, last, key, k);
    } else {
      WithKeySnoc(s, x, key, k);
    }
  }

  /** The sort orders by key. */
  lemma {:induction false} SortBySorted<T>(xs: seq<T>, key: T -> int)
    ensures SortedBy(SortBy(xs, key), key)
  {
    if xs != [] {
      SortBySorted(xs[..|xs| - 1], key);
      InsertSorted(SortBy(xs[..|xs| - 1], key), xs[|xs| - 1], key);
    }
  }

  /** The sort neither loses nor adds an element. */
  lemma {:induction false} SortByPermutes<T>(xs: seq<T>, key: T -> int)
    ensures multiset(SortBy(xs, key)) == multiset(xs)
  {
    if xs != [] {
      var front := xs[..|xs| - 1];
      SortByPermutes(front, key);
      InsertPermutes(SortBy(front, key), xs[|xs| - 1], key);
      assert xs == front + [xs[|xs| - 1]];
    }
  }

  /** The sort is stable: the elements of each key come out in input order. */
  lemma {:induction false} SortByStable<T>(xs: seq<T>, key: T -> int, k: int)
    ensures WithKey(SortBy(xs, key), key, k) == WithKey(xs, key, k)
  {
    if xs != [] {
      var front := xs[..|xs| - 1];
      SortByStable(front, key, k);
      SortBySorted(front, key);
      InsertWithKey(SortBy(front, key), xs[|xs| - 1], key, k);
    }
  }

  /** Input already in key order comes out unchanged. */
  lemma {:induction false} SortBySortedInput<T>(xs: seq<T>, key: T -> int)
    requires SortedBy(xs, key)
    ensures SortBy(xs, key) == xs
  {
    if xs != [] {
      var front := xs[..|xs| - 1];
      assert SortedBy(front, key);
      SortBySortedInput(front, key);
      if |front| > 0 {
        assert key(front[|front| - 1]) <= key(xs[|xs| - 1]);
      }
      assert front + [xs[|xs| - 1]] == xs;
    }
  }
}
